=== FILE: README.md ===
# A verified model of MongoDB's query-planner analysis, multi-plan stage and storage helpers

This project models several independent pieces of the MongoDB server (and the
WiredTiger engine bundled with it) as pure Dafny functions over immutable data,
and proves what each piece promises.

- **Access-path analysis** (`planner_analysis.cpp`). The analysis takes a plan
  tree of query-solution nodes and decides how to provide the requested sort.
  The sort may already be provided. It may be provided by reversing the index
  scans. It may be provided by "exploding" point-interval index scans into a
  merge-sort over the Cartesian product of their point prefixes. Otherwise a
  blocking sort is added, or the plan is refused when blocking sorts are
  forbidden. The shard filter, fetch, projection, skip and limit stages are
  then added around the tree.
- **The multi-plan stage** (`multi_plan.cpp`). Candidate plans compete over a
  trial period. Each round works every live candidate once. The stage buffers
  results and counts failures. It picks a winner through a ranker and keeps a
  non-blocking backup for a blocking winner. It decides whether to write the
  plan cache, then serves results with a one-shot fall-back to the backup.
- **KV catalog helpers** (`kv_catalog.cpp`):
  - the database-name escape table;
  - the feature-bit tracker: bit formatting, the compatibility check, marking, and the stored document;
  - ident generation and classification;
  - the namespace-to-ident map with its rollback handlers.
- **WiredTiger checkpoint metadata** (`meta_ckpt.c`):
  - the file-version check;
  - lookup of a named checkpoint, the last checkpoint and the last unnamed checkpoint;
  - loading one checkpoint;
  - building the sorted checkpoint list with a new slot;
  - writing the list back as a configuration string.
- **Transaction oplog application** (`transaction_oplog_application.cpp`):
  - rebuilding a transaction's operations in chronological order from the oplog chain;
  - dispatching prepare, commit and abort by application mode;
  - the error rule for applying the operations.
- **Document storage** (`document_internal.h`):
  - element alignment and positions;
  - the iterator that skips missing values, and `size()`;
  - hash-table sizing;
  - the metadata flags and `copyMetaDataFrom`.
- **Small conversions**:
  - the saturating statistics cast and the return-code fast path (`wiredtiger_util.h`);
  - the diagnostic-data (FTDC) server parameters and the controller settings derived from them (`ftdc_server.cpp`).

External collaborators are passed in as parameters (oracles):
- the plan ranker;
- each candidate's `work()`;
- the yield policy;
- the plan cache's decision to cache;
- the derived node properties of a query solution;
- the storage engine's record insert;
- the per-operation apply function of the oplog applier;
- the clock;
- the random ident suffix.

Integer widths are written out where MongoDB and WiredTiger rely on them: 32-bit `int`, 64-bit `size_t` and `long long`, 32-bit `unsigned` hash masks.

Files:
- `wrappers.dfy`: Option and Result.
- `machine.dfy`: integer widths and wrap-around.
- `decimal.dfy`: decimal rendering.
- `index_bounds.dfy`: intervals, bounds and key patterns.
- `query_solution.dfy`: the plan tree.
- `planner_explode.dfy` and `planner_analysis.dfy`: the planner analysis.
- `multi_plan.dfy`: the multi-plan stage.
- `kv_catalog.dfy` and `kv_feature_tracker.dfy`: the KV catalog helpers.
- `meta_ckpt.dfy`: checkpoint metadata.
- `txn_oplog.dfy`: transaction oplog application.
- `document_storage.dfy`: document storage.
- `wt_util.dfy`: the WiredTiger cast and return-code helpers.
- `ftdc.dfy`: the FTDC server parameters.

## Model

| member | source | states |
|---|---|---|
| Bounds.IsUnionOfPoints | src/mongo/db/query/planner_analysis.cpp:78-92 | An interval list is a union of points exactly when it is non-empty and every interval is a point. |
| Bounds.AllPoints | src/mongo/db/query/planner_analysis.cpp:84-91 | The one-by-one scan from position i succeeds exactly when every interval from i on is a point. |
| Bounds.ReverseOilTwice | src/mongo/db/query/planner_analysis.cpp:541 | Walking an interval list backwards twice gives back the list. |
| Bounds.ReversePreservesUnionOfPoints | src/mongo/db/query/planner_analysis.cpp:541 | Reversing a scan keeps a point field a point field and a range field a range field, so a reversed leaf stays explodable. |
| Bounds.ReverseSortPatternTwice | src/mongo/db/query/planner_analysis.cpp:534 | A numeric sort pattern reversed twice is itself. |
| Bounds.ReversePrefix | src/mongo/db/query/planner_analysis.cpp:529-543 | If one pattern opens another, their reversals stand in the same relation. |
| Bounds.GetSortPattern | src/mongo/db/query/planner_analysis.cpp:430-444 | The sort pattern is the key pattern up to its first string value, each field given direction 1 for a non-negative value and -1 otherwise. |
| Bounds.GetSortPatternIdempotent | src/mongo/db/query/planner_analysis.cpp:430-444 | A sort pattern is its own sort pattern. |
| QuerySolution.ReplaceAt | src/mongo/db/query/planner_analysis.cpp:244-254 | Replacing the node at a path puts the new node there and leaves every sibling along the path unchanged. |
| QuerySolution.ReplaceBySelf | src/mongo/db/query/planner_analysis.cpp:244-254 | Replacing a node by itself leaves the tree unchanged. |
| QuerySolution.ReplaceTwice | src/mongo/db/query/planner_analysis.cpp:244-254 | A second replacement at the same path overrides the first. |
| QuerySolution.ReplaceKeepsWellFormed | src/mongo/db/query/planner_analysis.cpp:244-254 | Replacing a node by a well-formed node keeps the tree well-formed. |
| QuerySolution.GetLeafNodes | src/mongo/db/query/planner_analysis.cpp:65-73 | At least one leaf is collected, and every collected node has no children. |
| QuerySolution.LeavesOfFlatNode | src/mongo/db/query/planner_analysis.cpp:65-73 | For a node whose children are leaves, the leaves collected are exactly its children, in order. |
| QuerySolution.HasNodeIffSomewhere | src/mongo/db/query/planner_analysis.cpp:256-268 | `hasNode` holds exactly when some path in the tree reaches a node of the given stage type. |
| QuerySolution.ReverseScan | src/mongo/db/query/planner_analysis.cpp:612-614 | Reversing a scan negates its direction, reverses its bounds, and changes nothing else. |
| QuerySolution.ReverseScans | src/mongo/db/query/planner_analysis.cpp:612-614 | Reversing a tree keeps every node's stage type and child count, and reverses each child. |
| QuerySolution.ReverseScansWellFormed | src/mongo/db/query/planner_analysis.cpp:612-614 | Reversing the scans of a well-formed tree keeps it well-formed. |
| QuerySolution.ReverseScansTwice | src/mongo/db/query/planner_analysis.cpp:612-614 | A tree with numeric merge-sort patterns reversed twice is itself. |
| PlannerExplode.CartesianProductAt | src/mongo/db/query/planner_analysis.cpp:145-184 | The product has one entry per combination. Entry idx holds, for field i, interval (idx / stride_i) mod count_i of that field. The first field varies fastest. |
| PlannerExplode.CartesianProductSize | src/mongo/db/query/planner_analysis.cpp:145-184 | The product has exactly as many entries as the product of the exploded fields' interval counts. |
| PlannerExplode.CartesianProductOfPoints | src/mongo/db/query/planner_analysis.cpp:145-184 | Over point fields, every entry has one point per exploded field. |
| PlannerExplode.MakeCartesianProduct | src/mongo/db/query/planner_analysis.cpp:145-184 | The loop that appends each point of the next field to every earlier prefix builds exactly the product. |
| PlannerExplode.ExtendByField | src/mongo/db/query/planner_analysis.cpp:164-180 | One pass over a further field gives, point by point, every earlier prefix extended by that point, in the order of the recursive `Extend`. |
| PlannerExplode.ExplodedChild | src/mongo/db/query/planner_analysis.cpp:213-236 | An exploded child keeps the scan's index, direction, key-metadata flag, collator, filter and field count. Each exploded field has the prefix's single interval; the other fields are copied. |
| PlannerExplode.ExplodeScanChild | src/mongo/db/query/planner_analysis.cpp:205-239 | `explodeScan` gives one leaf index scan per product entry. Child c carries the c-th point combination on the exploded fields and inherits the rest of the scan. |
| PlannerExplode.StructureOKForExplode | src/mongo/db/query/planner_analysis.cpp:100-136 | When the shape is accepted, the returned path, after at most one sharding filter, reaches an index scan or an OR of index scans. |
| PlannerExplode.LeavesAreAnchorScans | src/mongo/db/query/planner_analysis.cpp:453-474 | The leaves `explodeForSort` walks are exactly the anchor's index scans, in order. |
| PlannerExplode.AnalyzeLeaf | src/mongo/db/query/planner_analysis.cpp:470-550 | An accepted leaf is neither a simple range nor multikey without paths. It has at least one point field and at least one field left. Its remaining sort fields are not multikey. The desired sort opens the remaining pattern or its reverse, and the reverse flag records which. Its scan count is the product of the point fields' interval counts. |
| PlannerExplode.RefusalReasons | src/mongo/db/query/planner_analysis.cpp:470-550 | A leaf is refused exactly when one of the listed conditions holds: a simple range, multikey without paths, no point prefix, no remaining field, a multikey remaining field, or a sort that fits neither direction. |
| PlannerExplode.FirstRefused | src/mongo/db/query/planner_analysis.cpp:470-550 | The leaves before the first refused one were all accepted. |
| PlannerExplode.ReversedUpTo | src/mongo/db/query/planner_analysis.cpp:539-543 | Each leaf examined before a refusal is left reversed when its verdict asked for reversal; the rest are untouched. |
| PlannerExplode.ExplodeForSort | src/mongo/db/query/planner_analysis.cpp:447-576 | A refused shape leaves the tree unchanged and reports no explosion. |
| PlannerExplode.ExplodeForSortSucceedsIff | src/mongo/db/query/planner_analysis.cpp:447-576 | Explosion happens exactly when the shape is accepted, every leaf is accepted, and the total scan count is within the limit. |
| PlannerExplode.ExplodeForSortSuccess | src/mongo/db/query/planner_analysis.cpp:552-575 | On success the anchor becomes a MergeSort on the desired sort. It has exactly the total scan count of children, at most the limit, all index scans, and the tree stays well-formed. Only the anchor changes: its children are the exploded scans of every leaf, each reversed when its verdict asked for it. |
| PlannerExplode.ExplodeForSortSuccessTree | src/mongo/db/query/planner_analysis.cpp:552-575 | On success every leaf was accepted within its field count, and the tree is the original with the anchor replaced by a MergeSort over the exploded, possibly reversed, scans. |
| PlannerExplode.ExplodeForSortRefusal | src/mongo/db/query/planner_analysis.cpp:527-557 | On refusal only the anchor may differ. Its scans are the originals or their reversals, and a scan is reversed only when its own verdict asked for it. If the first leaf is refused, the tree is unchanged. |
| PlannerExplode.NumScansAsWrittenIsModular | src/mongo/db/query/planner_analysis.cpp:489-500 | `explodeForSort`'s `size_t` scan count is the true product modulo 2^64. |
| PlannerExplode.WrappedScanCountPassesLimit | src/mongo/db/query/planner_analysis.cpp:489-557 | A scan of sixteen 16-point fields wraps the `size_t` total to 0. The as-written limit test then passes for any limit, while the model refuses the explosion. |
| PlannerAnalysis.SortLimit | src/mongo/db/query/planner_analysis.cpp:665-725 | The blocking sort's limit is limit plus skip, else ntoreturn plus skip, else 0. |
| PlannerAnalysis.SortInputSupplies | src/mongo/db/query/planner_analysis.cpp:634-649 | When a fetch stage always has the document, the sort-key generator's input is fetched or supplies every sort field. A fetch is added exactly when the tree is neither fetched nor supplies them all, and it goes directly over the tree. |
| PlannerAnalysis.AddBlockingSort | src/mongo/db/query/planner_analysis.cpp:634-727 | The top is an EnsureSorted over OR{sort, sort with limit 0} exactly when the split-limited-sort conditions hold. Otherwise it is the sort over the sort-key generator. |
| PlannerAnalysis.AddBlockingSortWellFormed | src/mongo/db/query/planner_analysis.cpp:634-727 | Adding a blocking sort keeps the tree well-formed. |
| PlannerAnalysis.AnalyzeSort | src/mongo/db/query/planner_analysis.cpp:579-730 | Each route gives its result. A sort already provided returns the root. A provided reverse sort reverses the scans. Explosion returns the exploded tree. A forbidden blocking sort gives none. Otherwise the blocking sort goes over the (possibly partly reversed) tree, and only then is the plan blocking. |
| PlannerAnalysis.AnalyzeSortWellFormed | src/mongo/db/query/planner_analysis.cpp:579-730 | Every tree `analyzeSort` returns is well-formed. |
| PlannerAnalysis.ExplodeForSortWellFormed | src/mongo/db/query/planner_analysis.cpp:447-576 | `explodeForSort` keeps the tree well-formed, whether or not it explodes. |
| PlannerAnalysis.BlockingSortStages | src/mongo/db/query/planner_analysis.cpp:651-727 | Whatever the route, a blocking sort sorts on exactly the requested pattern, never on a reversed or merged one. Its limit is the true limit plus skip, else ntoreturn plus skip, else none. In the split form the second OR branch sorts the same input without a limit, under an EnsureSorted on the requested pattern. |
| PlannerAnalysis.BlockingSortReadsSortFields | src/mongo/db/query/planner_analysis.cpp:634-649 | When a fetch stage always has the document, the input under a blocking sort's key generator is fetched or supplies every sort field. |
| PlannerAnalysis.CoveredKeyObjThroughUnary | src/mongo/db/query/planner_analysis.cpp:317-332 | A one-child stage over a tree keeps its leaves, so the covered key pattern survives the stages the analysis stacks. |
| PlannerAnalysis.CoveredKeyObjOfScan | src/mongo/db/query/planner_analysis.cpp:317-332 | A lone index scan is covered by its index's key pattern; a collection scan gives the empty pattern. |
| PlannerAnalysis.ProjectionReadsItsFields | src/mongo/db/query/planner_analysis.cpp:338-397 | When a fetch stage always has the document, a projection that needs the document sits over fetched data, and one that does not return the index key sits over data that is fetched or supplies every required field. A fetch is added exactly when needed. A covered projection sits over the unfetched tree itself, whose single leaf is an index or distinct scan with the pattern the projection carries. |
| PlannerAnalysis.ShardFilterReadsShardKey | src/mongo/db/query/planner_analysis.cpp:749-774 | When requested, the shard filter reads data that is fetched or supplies every shard-key field, and a fetch is added exactly when the tree is neither. A sharding filter occurs in the result exactly when one was requested or the tree already had one. |
| PlannerAnalysis.DataAccessSpine | src/mongo/db/query/planner_analysis.cpp:789-838 | The solution is the sorted tree under, from the top, an optional limit, projection, sort-key generator, fetch and skip. The skip is there exactly when the query skips. The projection is there exactly when it projects. The key generator is there exactly when the projection wants a sort key and no blocking sort was added. The fetch is there exactly when the projection or, without one, the non-count query needs it. The limit is there exactly when no blocking sort enforces it. |
| PlannerAnalysis.SpineOver | src/mongo/db/query/planner_analysis.cpp:789-834 | The skip, projection-or-fetch and limit steps build that spine over any sorted tree. |
| PlannerAnalysis.DataAccessRefusal | src/mongo/db/query/planner_analysis.cpp:776-804 | No solution exactly when a blocking sort is needed but forbidden, or when uncovered projections are refused and the projection is fetched. |
| PlannerAnalysis.DataAccessBlocking | src/mongo/db/query/planner_analysis.cpp:784-787 | The solution has a blocking stage exactly when a blocking sort was added or the sorted tree contains an AND_HASH. |
| PlannerAnalysis.DataAccessFetch | src/mongo/db/query/planner_analysis.cpp:799-812 | Without a projection, a fetch is added exactly when the tree is not fetched and the query is not a count. With one, the projection analysis decides. |
| PlannerAnalysis.DataAccessWellFormed | src/mongo/db/query/planner_analysis.cpp:732-838 | The solution's tree is well-formed. |
| PlannerAnalysis.DataAccessLimit | src/mongo/db/query/planner_analysis.cpp:814-834 | The top differs from the projected tree exactly when no blocking sort was added and a limit applies. It is then a Limit of that value over the projected tree. |
| MultiPlan.InitialState | src/mongo/db/exec/multi_plan.cpp:63-81 | A new stage has one fresh candidate per added plan. No plan has been picked, nothing has failed, and the failure bookkeeping holds. |
| MultiPlan.AllFailedIff | src/mongo/db/exec/multi_plan.cpp:379-396 | The failure count equals the number of candidates exactly when every candidate has failed. |
| MultiPlan.TryYield | src/mongo/db/exec/multi_plan.cpp:144-162 | An interrupted yield sets the failure and records the status member. A yield that goes on changes nothing but the yield count. |
| MultiPlan.WorkCandidateEffect | src/mongo/db/exec/multi_plan.cpp:336-396 | One candidate's work keeps the failure bookkeeping and counts one work. ADVANCED appends the result and is done once numResults are buffered. FAILURE marks only that candidate, counts it and records its status member. The round stops exactly when the last live candidate fails, and then every candidate has failed. |
| MultiPlan.WorkAllPlans | src/mongo/db/exec/multi_plan.cpp:333-400 | A round works the candidates in order, starting from the first. |
| MultiPlan.WorkFromInvariant | src/mongo/db/exec/multi_plan.cpp:333-400 | A round keeps the failure bookkeeping. It stops exactly when the stage has failed. |
| MultiPlan.WorkFromWorks | src/mongo/db/exec/multi_plan.cpp:336-348 | A completed round works every live candidate exactly once and leaves failed candidates untouched. |
| MultiPlan.WorkFromResults | src/mongo/db/exec/multi_plan.cpp:350-361 | A round only appends to each candidate's buffer, and a failed candidate stays failed. |
| MultiPlan.WorkFromMore | src/mongo/db/exec/multi_plan.cpp:341-399 | A completed round asks for more exactly when the trial is not already over and no live candidate finished. |
| MultiPlan.TrialPeriodNumToReturn | src/mongo/db/exec/multi_plan.cpp:182-194 | The trial's result count is at most the configured maximum. It is capped by ntoreturn when present, else by limit when present. |
| MultiPlan.TrialPeriodWorks | src/mongo/db/exec/multi_plan.cpp:165-179 | Without a collection the trial works the configured minimum; otherwise the larger of that and the scaled collection size. |
| MultiPlan.TrialPeriod | src/mongo/db/exec/multi_plan.cpp:202-212 | The trial stops after the work budget or when a round asks for no more, and reports how many rounds ran. |
| MultiPlan.TrialPeriodEffect | src/mongo/db/exec/multi_plan.cpp:207-212 | The trial keeps the failure bookkeeping and only appends to buffers. Failed candidates stay failed, and no candidate is worked more than once per round. |
| MultiPlan.FirstNonBlocking | src/mongo/db/exec/multi_plan.cpp:240-246 | The search returns the lowest candidate whose solution has no blocking stage, or none if there is no such candidate. |
| MultiPlan.BackupFor | src/mongo/db/exec/multi_plan.cpp:237-247 | A backup exists only for a blocking winner with an empty buffer. It is the lowest non-blocking candidate. |
| MultiPlan.AllHaveCacheData | src/mongo/db/exec/multi_plan.cpp:293-328 | The cache is written only when every ranked solution has cache data. |
| MultiPlan.PickBestPlanEffect | src/mongo/db/exec/multi_plan.cpp:196-331 | After a picked plan the best index is in range and the backup follows the backup rule. A failed trial returns the recorded status member. Bookkeeping is kept. |
| MultiPlan.CachePolicy | src/mongo/db/exec/multi_plan.cpp:252-328 | Always-cache mode writes whenever the query may be cached and every ranked solution has cache data. Sometimes-cache mode writes under the same conditions when the winner is not tied and buffered results. Never-cache mode never writes. Every write needs `shouldCacheQuery` and cache data for every solution, and lists the solutions in ranking order. |
| MultiPlan.DoWork | src/mongo/db/exec/multi_plan.cpp:99-142 | Buffered results are served first. On winner failure with a backup, the backup becomes the winner, the cache entry is dropped, the backup is cleared and worked once. An ADVANCED winner clears the backup. A failed stage returns FAILURE with its status member. |
| MultiPlan.ServeBufferedInOrder | src/mongo/db/exec/multi_plan.cpp:105-112 | Serving k buffered results returns them in FIFO order and works no plan. |
| MultiPlan.IsEOF | src/mongo/db/exec/multi_plan.cpp:83-97 | A failed stage is at EOF. Without a winner it is not. Otherwise it is at EOF exactly when the winner's buffer is empty and its root is at EOF. |
| MultiPlan.EOFWorksAPlan | src/mongo/db/exec/multi_plan.cpp:83-142 | A live stage at EOF has nothing buffered, so its next `doWork` works the winner once, unless it hands over to the backup. |
| MultiPlan.EOFAfterBuffer | src/mongo/db/exec/multi_plan.cpp:83-112 | A failed stage is at EOF and `doWork` returns FAILURE with its status member. Once the winner's buffer is served, the stage is at EOF exactly when the winner's root is. |
| MultiPlan.PickedAccessors | src/mongo/db/exec/multi_plan.cpp:237-247 | After a pick, `bestSolution` reports the ranker's winner. `hasBackupPlan` holds exactly when the winner blocks, buffered nothing, and some candidate does not block. That backup does not block. |
| MultiPlan.DoWorkKeepsBackup | src/mongo/db/exec/multi_plan.cpp:99-142 | `doWork` never creates a backup: a backup after the call was there before, and a non-blocking backup stays non-blocking. |
| MultiPlan.SwitchReportsBackup | src/mongo/db/exec/multi_plan.cpp:114-131 | After the switch to the backup, `bestSolution` reports the backup's solution, which has no blocking stage, and `hasBackupPlan` no longer holds. |
| KvCatalog.EscapeByte | src/mongo/db/storage/kv/kv_catalog.cpp:82-123 | A safe byte (letters, digits, '.', '_') stays as it is; any other byte becomes '.' and its decimal value, zero-filled to two digits. |
| KvCatalog.EscapeTableLowRuns | src/mongo/db/storage/kv/kv_catalog.cpp:82-100 | Sample entries of the table's lower runs, including the safe '.' and '0'. |
| KvCatalog.EscapeTableHighRuns | src/mongo/db/storage/kv/kv_catalog.cpp:100-123 | Sample entries of the table's upper runs, including the safe '_' and the three-digit values. |
| KvCatalog.EscapeDbName | src/mongo/db/storage/kv/kv_catalog.cpp:125-133 | The escaped name is never shorter than the input. It has the same length exactly when every byte is safe, and it uses only safe characters. |
| KvCatalog.EscapeIdentityIffKept | src/mongo/db/storage/kv/kv_catalog.cpp:125-133 | The escaped name equals the input exactly when every byte is safe. |
| KvCatalog.EscapeAppend | src/mongo/db/storage/kv/kv_catalog.cpp:125-133 | Escaping works byte by byte: the escape of a concatenation is the concatenation of the escapes. |
| KvCatalog.EscapeCollisions | src/mongo/db/storage/kv/kv_catalog.cpp:83-90 | Escaping is not injective: "db.123", "db\x0c3" and "db{" all escape to "db.123". "db;" escapes to "db.59". |
| KvCatalog.NewInternalIdent | src/mongo/db/storage/kv/kv_catalog.cpp:348-353 | An internal ident is "internal-", the counter, '-' and the random suffix; the counter moves on by one. |
| KvCatalog.NewUniqueIdent | src/mongo/db/storage/kv/kv_catalog.cpp:363-373 | A unique ident is the optional escaped database directory, the kind, '/' or '-', the counter, '-' and the random suffix. The counter moves on by one. |
| KvCatalog.CollectionIdentClassified | src/mongo/db/storage/kv/kv_catalog.cpp:648-665 | A new collection ident is classified as a collection ident and as user data, in either directory layout. |
| KvCatalog.InternalIdentClassified | src/mongo/db/storage/kv/kv_catalog.cpp:348-353 | A new internal ident is internal, and is neither a collection ident nor user data. |
| KvCatalog.AddEntry | src/mongo/db/storage/kv/kv_catalog.cpp:418-453 | A namespace already holding a non-empty ident gives NamespaceExists and no change. A failed insert passes its status on, leaving an empty entry. Otherwise the namespace maps to a fresh collection ident and the new record id. The ident counter advances in every case. |
| KvCatalog.LookupAfterAdd | src/mongo/db/storage/kv/kv_catalog.cpp:418-460 | After a successful add, the namespace looks up to the new ident and record. After any add, every other namespace looks up as before. |
| KvCatalog.LookupAfterFailedAdd | src/mongo/db/storage/kv/kv_catalog.cpp:418-460 | A failed add leaves the namespace looking up as it did: an existing entry is kept, and a new namespace still reads as the empty entry. |
| KvCatalog.RollbackAdd | src/mongo/db/storage/kv/kv_catalog.cpp:139-153 | Rolling back an add erases that namespace and keeps every other entry. |
| KvCatalog.AddThenRollback | src/mongo/db/storage/kv/kv_catalog.cpp:139-153 | Adding a new namespace and rolling it back restores the map. |
| KvCatalog.RemoveEntry | src/mongo/db/storage/kv/kv_catalog.cpp:587-602 | Removal succeeds exactly when the namespace is present; otherwise NamespaceNotFound and no change. Only that namespace is removed. |
| KvCatalog.LookupAfterRemove | src/mongo/db/storage/kv/kv_catalog.cpp:455-460 | After a remove, the namespace reads as the empty entry and every other namespace reads as before. |
| KvCatalog.RollbackRemove | src/mongo/db/storage/kv/kv_catalog.cpp:155-169 | Rolling back a removal puts the old entry back under the namespace. |
| KvCatalog.RemoveThenRollback | src/mongo/db/storage/kv/kv_catalog.cpp:155-169 | Removing a present namespace and rolling it back restores the map. |
| KvCatalog.ReplaceEntry | src/mongo/db/storage/kv/kv_catalog.cpp:548-585 | After a replace, the old namespace is gone and the new one holds its entry; other namespaces are unchanged. |
| KvCatalog.RenameCollection | src/mongo/db/storage/kv/kv_catalog.cpp:781-803 | A refused rename passes the status on and changes nothing. An accepted one replaces the entry and keeps the ident. |
| KvCatalog.LookupAfterRename | src/mongo/db/storage/kv/kv_catalog.cpp:548-585 | After a rename, the new name reads as the old name's entry, the old name reads as empty, and every other namespace reads as before. |
| KvCatalog.RenameKeepsIdents | src/mongo/db/storage/kv/kv_catalog.cpp:781-803 | A rename onto a fresh name keeps the set of idents in the catalog. |
| KvFeatureTracker.AppendPositionsOfBitsSet | src/mongo/db/storage/kv/kv_catalog.cpp:65-80 | The loop that repeatedly clears the lowest set bit writes exactly "[ ", the set positions ", "-separated, and " ]". |
| KvFeatureTracker.PositionsAreSetBits | src/mongo/db/storage/kv/kv_catalog.cpp:65-80 | The listed positions are exactly the set bits, in strictly increasing order. |
| KvFeatureTracker.ClearLowest | src/mongo/db/storage/kv/kv_catalog.cpp:72-78 | Clearing the lowest set bit drops exactly the first listed position. |
| KvFeatureTracker.IsCompatibleWithCurrentCode | src/mongo/db/storage/kv/kv_catalog.cpp:179-205 | The files are compatible exactly when every bit in use is known. An unknown non-repairable bit gives MustUpgrade, checked first. Otherwise an unknown repairable bit gives CanRepairToDowngrade. Each message lists the unknown bits. |
| KvFeatureTracker.MarkInUse | src/mongo/db/storage/kv/kv_catalog.cpp:228-260 | Marking sets the feature's bits and leaves every other bit unchanged. |
| KvFeatureTracker.MarkNotInUse | src/mongo/db/storage/kv/kv_catalog.cpp:228-260 | Unmarking clears the feature's bits and leaves every other bit unchanged. |
| KvFeatureTracker.MarkInUseIdempotent | src/mongo/db/storage/kv/kv_catalog.cpp:228-260 | Marking twice is marking once. |
| KvFeatureTracker.MarkThenUnmark | src/mongo/db/storage/kv/kv_catalog.cpp:228-260 | Unmarking a feature whose bits were clear undoes marking it. |
| KvFeatureTracker.PutInfo | src/mongo/db/storage/kv/kv_catalog.cpp:296-319 | The stored document leads with a true feature-document flag and holds both masks as 64-bit `long long` values. |
| KvFeatureTracker.GetInfo | src/mongo/db/storage/kv/kv_catalog.cpp:262-294 | A missing document reads as no features. A stored record that is not a feature document fails the invariant. A missing or mistyped non-repairable field is fatal assertion 40111, checked first; then the same for the repairable field is 40112. The bits are read exactly when none of these applies. |
| KvFeatureTracker.MaskLongRoundTrip | src/mongo/db/storage/kv/kv_catalog.cpp:283-316 | Storing a 64-bit mask as a signed `long long` and reading it back gives the mask. |
| KvFeatureTracker.PutThenGetInfo | src/mongo/db/storage/kv/kv_catalog.cpp:262-319 | Writing the feature document and reading it back gives the same bits. |
| KvFeatureTracker.GetThenPutInfo | src/mongo/db/storage/kv/kv_catalog.cpp:262-319 | Conversely, the bits read from a feature document are written back as that same document. |
| KvFeatureTracker.LongMaskRoundTrip | src/mongo/db/storage/kv/kv_catalog.cpp:288-316 | Reading a signed `long long` as a 64-bit mask and storing the mask again gives the same value. |
| KvFeatureTracker.CollationStepAsWrittenMissesFirstUse | src/mongo/db/storage/kv/kv_catalog.cpp:760-766 | As written, the first collection with a non-simple collation does not mark the collation feature. |
| KvFeatureTracker.CollationStep | src/mongo/db/storage/kv/kv_catalog.cpp:760-766 | With a non-simple collation the collation feature ends up in use; without one the mask is unchanged; other bits are never touched. |
| KvFeatureTracker.CollationStepMarksFirstUse | src/mongo/db/storage/kv/kv_catalog.cpp:760-766 | The first collection with a non-simple collation marks the feature. |
| WtMetaCkpt.SubgetIsFirstMatch | src/third_party/wiredtiger/src/meta/meta_ckpt.c:425-474 | A key lookup in a checkpoint's fields fails exactly when no field has the key. Otherwise it gives the first field with the key. |
| WtMetaCkpt.VersionChk | src/third_party/wiredtiger/src/meta/meta_ckpt.c:734-765 | The check passes exactly when the version, major and minor are present and the `int`-narrowed numbers are in the supported range. |
| WtMetaCkpt.VersionBoundaries | src/third_party/wiredtiger/src/meta/meta_ckpt.c:747-763 | A major strictly inside the range passes. At the minimum major the minor must be at least the minimum minor; at the maximum major it must be at most the maximum minor. A major outside the range fails. |
| WtMetaCkpt.HexRoundTrip | src/third_party/wiredtiger/src/meta/meta_ckpt.c:425-430 | Decoding the hex text of a raw cookie gives the cookie back. |
| WtMetaCkpt.CkptLoad | src/third_party/wiredtiger/src/meta/meta_ckpt.c:411-483 | A loaded checkpoint takes the entry's name and carries no add, update or delete flag. |
| WtMetaCkpt.CkptLoadReads | src/third_party/wiredtiger/src/meta/meta_ckpt.c:411-483 | A load reads the addr (empty means FAKE, otherwise it decodes from hex) and a non-empty order. A missing order value is "corrupted". Absent timestamp and transaction fields take their defaults: none, none, none, max and max. |
| WtMetaCkpt.CkptNamed | src/third_party/wiredtiger/src/meta/meta_ckpt.c:137-156 | The named lookup loads the first entry with that name, and is WT_NOTFOUND when there is none. |
| WtMetaCkpt.NamedFindsUnique | src/third_party/wiredtiger/src/meta/meta_ckpt.c:137-156 | The entry at k, when it is the first with its name, is the one loaded. |
| WtMetaCkpt.CkptLast | src/third_party/wiredtiger/src/meta/meta_ckpt.c:162-184 | With no checkpoint list, or an empty one, the answer is WT_NOTFOUND. |
| WtMetaCkpt.CkptLastIsLastMax | src/third_party/wiredtiger/src/meta/meta_ckpt.c:162-184 | The last checkpoint has a maximal order, and every later entry has a strictly smaller one, so on ties the later entry wins. |
| WtMetaCkpt.ZeroOrdersAreNotFound | src/third_party/wiredtiger/src/meta/meta_ckpt.c:171-183 | Because the order found is also the "found" flag, a list whose orders are all 0 gives WT_NOTFOUND. |
| WtMetaCkpt.CkptLastName | src/third_party/wiredtiger/src/meta/meta_ckpt.c:190-229 | The last unnamed checkpoint's name starts with the WT_CHECKPOINT prefix. |
| WtMetaCkpt.CkptLastNameIsLastMax | src/third_party/wiredtiger/src/meta/meta_ckpt.c:190-229 | Only names with the WT_CHECKPOINT prefix are considered. The answer is the last of those with maximal order, and WT_NOTFOUND when there are none. |
| WtMetaCkpt.LoadAll | src/third_party/wiredtiger/src/meta/meta_ckpt.c:348-358 | The list loads exactly when every entry loads, entry by entry in the listed order. |
| WtMetaCkpt.SortByOrder | src/third_party/wiredtiger/src/meta/meta_ckpt.c:365 | The sorted list is a permutation of the loaded one, in non-decreasing order. |
| WtMetaCkpt.MaxOrder | src/third_party/wiredtiger/src/meta/meta_ckpt.c:384-387 | The maximum order starts from 0: it bounds every order and is 0 or one of them. |
| WtMetaCkpt.CkptListGet | src/third_party/wiredtiger/src/meta/meta_ckpt.c:327-405 | A load failure is passed on. An empty list without update is WT_NOTFOUND. Otherwise the call succeeds, and the list is sorted by order and a permutation of the loaded entries. With update, the last slot is ADD, stamped with the clock, and its order is the largest loaded order plus one. |
| WtMetaCkpt.AddrOut | src/third_party/wiredtiger/src/meta/meta_ckpt.c:565-578 | An added or updated checkpoint with no cookie writes an empty addr; with one it writes its hex text. Others write their loaded addr. |
| WtMetaCkpt.Kept | src/third_party/wiredtiger/src/meta/meta_ckpt.c:561-563 | Every written checkpoint lacks DELETE and comes from the list, and every checkpoint without DELETE is written. |
| WtMetaCkpt.KeptSingle | src/third_party/wiredtiger/src/meta/meta_ckpt.c:561-563 | One checkpoint is written exactly when it lacks DELETE. |
| WtMetaCkpt.KeptAppend | src/third_party/wiredtiger/src/meta/meta_ckpt.c:559-563 | The checkpoints written from a concatenation are those written from each part, in order, so the list order is kept. |
| WtMetaCkpt.ToMetaConfig | src/third_party/wiredtiger/src/meta/meta_ckpt.c:551-618 | One entry is written per kept checkpoint, with its key and fields. |
| WtMetaCkpt.ToMeta | src/third_party/wiredtiger/src/meta/meta_ckpt.c:551-618 | The text is "checkpoint=(" … ")", and "checkpoint=()" when nothing is kept. |
| WtMetaCkpt.KeyOf | src/third_party/wiredtiger/src/meta/meta_ckpt.c:582-587 | The key starts with the checkpoint's name. It is the name alone unless the name is the default WT_CHECKPOINT, which gets '.' and the decimal order appended. |
| WtMetaCkpt.WriteThenLoad | src/third_party/wiredtiger/src/meta/meta_ckpt.c:411-618 | Loading a written checkpoint gives it back, with its written key as name, its written addr, and no flags. |
| WtMetaCkpt.WrittenKeyKeepsUnnamed | src/third_party/wiredtiger/src/meta/meta_ckpt.c:586-588 | Appending ".order" to the default name keeps the entry eligible for the last-unnamed lookup, and other names stay as they were. |
| TxnOplog.ChainEntries | src/mongo/db/repl/transaction_oplog_application.cpp:243-256 | Walking the chain collects only partial transaction entries. |
| TxnOplog.ChainIsNewestFirst | src/mongo/db/repl/transaction_oplog_application.cpp:243-256 | The chain is empty exactly when it starts at the null optime. Otherwise it starts at the given entry, with strictly decreasing optimes. |
| TxnOplog.TransactionOperations | src/mongo/db/repl/transaction_oplog_application.cpp:216-271 | A successful read has a chain start before the commit or prepare optime and only partial cached entries. A commit with no cached entries has a non-null start. |
| TxnOplog.ReadChainOperations | src/mongo/db/repl/transaction_oplog_application.cpp:243-257 | Reversing each entry's operations while walking newest-first, then reversing the whole list, gives the chain's operations oldest entry first with each entry's order kept. |
| TxnOplog.NewestEntryLast | src/mongo/db/repl/transaction_oplog_application.cpp:243-257 | The chain's operations are the earlier entries' operations followed by the newest entry's, in order. |
| TxnOplog.AppendCachedOperations | src/mongo/db/repl/transaction_oplog_application.cpp:261-265 | Cached entries, all partial, append their operations in the given order; a non-partial one fails the invariant. |
| TxnOplog.ReadTransactionOperationsFromOplogChain | src/mongo/db/repl/transaction_oplog_application.cpp:216-271 | The operations are the chain's operations, then the cached ones, then the commit or prepare entry's own operations when it is an applyOps. |
| TxnOplog.ApplyOperationsForTransaction | src/mongo/db/repl/transaction_oplog_application.cpp:61-80 | Application succeeds exactly when every operation succeeds or throws a tolerated NamespaceNotFound. Any other result stops it and is passed on. |
| TxnOplog.StopsAtFirstFailure | src/mongo/db/repl/transaction_oplog_application.cpp:61-80 | A failed application returns the result of the first operation that was not gone past. |
| TxnOplog.FirstFailureDecides | src/mongo/db/repl/transaction_oplog_application.cpp:61-80 | Conversely, when every operation before some operation was gone past and that one cannot be, application returns that operation's result. |
| TxnOplog.MissingNamespaceRule | src/mongo/db/repl/transaction_oplog_application.cpp:73-77 | NamespaceNotFound is skipped in initial sync and recovery, and passed on in every other mode. |
| TxnOplog.PrepareOnSecondary | src/mongo/db/repl/transaction_oplog_application.cpp:278-341 | A chain that cannot be read crashes as the read does, and a missing session fails the invariant. With a readable chain and a session: when every operation returns OK the transaction is prepared with exactly those operations at the prepare entry's optime; an error status is fatal assertion 31137; an exception is passed on. A completed prepare always applied every operation successfully. |
| TxnOplog.PrepareFatalOnFailedStatus | src/mongo/db/repl/transaction_oplog_application.cpp:328-329 | On a secondary, an operation returning an error status after every earlier one succeeded stops the server with fatal assertion 31137 instead of preparing. |
| TxnOplog.ApplyPrepareTransaction | src/mongo/db/repl/transaction_oplog_application.cpp:363-392 | Prepare is a no-op OK in initial sync and in recovery with majority read concern. Recovery without it is fatal assertion 51146. The applyOps command is refused with 51145. A secondary's result is exactly the steady-state prepare's, and only a secondary prepares anything. |
| TxnOplog.ReplayFromOplogChain | src/mongo/db/repl/transaction_oplog_application.cpp:89-137 | A null prepare optime fails the invariant and a prepare entry missing from the oplog crashes; an unreadable chain crashes as the read does. Otherwise an exception from application is passed on, and a returned status is the result: OK replays the chain's operations, prepared and committed at the commit timestamp with the commit entry's optime as durable timestamp; any other status changes nothing. |
| TxnOplog.ApplyCommitTransaction | src/mongo/db/repl/transaction_oplog_application.cpp:140-181 | The applyOps command is refused with 50987, and a missing commit timestamp fails the invariant. Initial sync and recovery give exactly the chain replay's result at the entry's commit timestamp. A secondary commits the prepared transaction at the commit timestamp and the entry's optime when the entry has a session, and fails the invariant otherwise. Only a secondary commits a prepared transaction. |
| TxnOplog.ApplyAbortTransaction | src/mongo/db/repl/transaction_oplog_application.cpp:183-214 | The applyOps command is refused with 50972. Initial sync and recovery do nothing and return OK. A secondary aborts the active transaction when the entry has a session and fails the invariant otherwise. Only a secondary aborts anything. |
| TxnOplog.SecondaryEndsPreparedTransaction | src/mongo/db/repl/transaction_oplog_application.cpp:140-214 | An abort takes effect exactly on a secondary with a session. On a secondary, a commit with its timestamp completes exactly when an abort of an entry with the same session flag does. |
| TxnOplog.CommitReplaysPreparedOperations | src/mongo/db/repl/transaction_oplog_application.cpp:89-137 | A replayed commit applies the same operations the prepare would have applied on a secondary. |
| TxnOplog.MissingCollectionOnlyToleratedInReplay | src/mongo/db/repl/transaction_oplog_application.cpp:64-79 | When an operation hits a missing collection, replay during recovery still completes the commit. |
| DocumentStorage.Align | src/mongo/db/pipeline/document_internal.h:116-121 | The aligned size is a multiple of 8, at least the size and less than size + 8, and equals the size when it is already aligned. |
| DocumentStorage.AlignIdempotent | src/mongo/db/pipeline/document_internal.h:116-121 | Aligning twice is aligning once. |
| DocumentStorage.MakePosition | src/mongo/db/pipeline/document_internal.h:49-68 | A position holds a 32-bit `unsigned` offset, unchanged when it fits. |
| DocumentStorage.ElementSpan | src/mongo/db/pipeline/document_internal.h:88-94 | The distance to the next element is aligned and covers the fixed header and the name. |
| DocumentStorage.ElementPositionsDistinct | src/mongo/db/pipeline/document_internal.h:49-94 | In a buffer below the sentinel, element positions are found and pairwise distinct. |
| DocumentStorage.SkipMissing | src/mongo/db/pipeline/document_internal.h:171-174 | Skipping stops at the first present element at or after the start, passing only missing ones. |
| DocumentStorage.Begin | src/mongo/db/pipeline/document_internal.h:135-139 | The iterator starts valid: at the first element when missing values are included, else at the first present one. |
| DocumentStorage.Advance | src/mongo/db/pipeline/document_internal.h:153-157 | Advancing moves strictly forward and keeps the iterator valid. |
| DocumentStorage.IteratorVisitsKeptElements | src/mongo/db/pipeline/document_internal.h:135-175 | The iterator visits exactly the kept elements in order: the present ones, or all of them when missing values are included. |
| DocumentStorage.IteratorAllVisitsEveryElement | src/mongo/db/pipeline/document_internal.h:135-175 | The all-values iterator visits every element in order. |
| DocumentStorage.Size | src/mongo/db/pipeline/document_internal.h:217-223 | `size()` counts exactly the non-missing fields, which are the elements the iterator visits. |
| DocumentStorage.BucketInRange | src/mongo/db/pipeline/document_internal.h:406-432 | With a mask 2^k - 1 there are 2^k buckets, and every hash lands in one of them. |
| DocumentStorage.InitialTableBuckets | src/mongo/db/pipeline/document_internal.h:442-443 | The initial mask is a low mask and gives the initial bucket count. |
| DocumentStorage.NeedRehashIsLoadFactor | src/mongo/db/pipeline/document_internal.h:414-416 | With a mask 2^k - 1, a rehash is needed exactly when there are more than 2^(k-1) fields. |
| DocumentStorage.FullMaskWrapsToZeroBuckets | src/mongo/db/pipeline/document_internal.h:406-416 | In `unsigned` arithmetic an all-ones mask gives 0 buckets, and any field then asks for a rehash. |
| DocumentStorage.Set | src/mongo/db/pipeline/document_internal.h:316-390 | A setter sets its flag and stores its value; every other flag and value is unchanged. |
| DocumentStorage.CopyIfSet | src/mongo/db/pipeline/document_internal.h:292-314 | One copy step takes the other document's flag and value for one type when that document has it. |
| DocumentStorage.CopyMetaDataFrom | src/mongo/db/pipeline/document_internal.h:292-314 | Every flag set in the other document is set with its value; flags it lacks keep the target's. |
| DocumentStorage.CopyMetaDataIdempotent | src/mongo/db/pipeline/document_internal.h:292-314 | Copying the same source twice is copying once. |
| DocumentStorage.CopyFromEmptyIsIdentity | src/mongo/db/pipeline/document_internal.h:292-314 | Copying from empty metadata leaves the target unchanged. |
| WiredTigerUtil.CastWithMaximum | src/mongo/db/storage/wiredtiger/wiredtiger_util.h:313-319 | The cast returns the value when it is within the maximum, and the maximum otherwise. |
| WiredTigerUtil.CastStatisticsValue | src/mongo/db/storage/wiredtiger/wiredtiger_util.h:306-310 | The cast never exceeds the result type's maximum, and returns the value unchanged exactly when it fits. |
| WiredTigerUtil.CastMonotone | src/mongo/db/storage/wiredtiger/wiredtiger_util.h:313-319 | The cast is monotone in its input. |
| WiredTigerUtil.CastToUInt64IsIdentity | src/mongo/db/storage/wiredtiger/wiredtiger_util.h:306-310 | Every 64-bit statistic casts to `uint64_t` unchanged. |
| WiredTigerUtil.WtRCToStatus | src/mongo/db/storage/wiredtiger/wiredtiger_util.h:58-63 | Return code 0 is OK; any other code goes to the slow path. |
| WiredTigerUtil.WtRCToStatusOkIffZero | src/mongo/db/storage/wiredtiger/wiredtiger_util.h:53-63 | When the slow path reports every non-zero code as an error, the status is OK exactly when the code is zero. |
| WiredTigerUtil.InvariantWTOK | src/mongo/db/storage/wiredtiger/wiredtiger_util.h:65-72 | The invariant fails exactly on a non-zero code, with that code's translated status. |
| WiredTigerUtil.InvariantWTOKPassesIffOk | src/mongo/db/storage/wiredtiger/wiredtiger_util.h:65-72 | When the slow path reports every non-zero code as an error, the invariant passes exactly when the translated status is OK, and otherwise reports an error. |
| FtdcServer.MegabytesToBytesAsWritten | src/mongo/db/ftdc/ftdc_server.cpp:131 | The `int` product `mb * 1024 * 1024`, widened to the 64-bit byte count, always lies in the 64-bit range. |
| FtdcServer.AsWrittenOverflowsAt2048 | src/mongo/db/ftdc/ftdc_server.cpp:131 | As written, 2048 MB overflows `int` to a negative product that reads as a huge byte count. |
| FtdcServer.AsWrittenWrapsToZeroAt4096 | src/mongo/db/ftdc/ftdc_server.cpp:131 | As written, 4096 MB wraps the `int` product to 0 bytes. |
| FtdcServer.AsWrittenBreaksSizeOrder | src/mongo/db/ftdc/ftdc_server.cpp:119-153 | As written, the accepted pair of 2048 MB per file and 4096 MB per directory gives a file limit above the directory limit in bytes. |
| FtdcServer.MegabytesToBytes | src/mongo/db/ftdc/ftdc_server.cpp:131 | The byte count is exactly mb × 1024 × 1024, and converts back to mb. |
| FtdcServer.AsWrittenAgreesBelow2048 | src/mongo/db/ftdc/ftdc_server.cpp:131 | Below 2048 MB the as-written product and the exact one agree. |
| FtdcServer.OnUpdateDirectorySize | src/mongo/db/ftdc/ftdc_server.cpp:119-135 | A directory limit below the file limit is refused with BadValue and changes nothing. An accepted one is forwarded in bytes to the controller, when there is one. |
| FtdcServer.OnUpdateFileSize | src/mongo/db/ftdc/ftdc_server.cpp:137-153 | A file limit above the directory limit is refused with BadValue and changes nothing. An accepted one is forwarded in bytes to the controller, when there is one. |
| FtdcServer.AcceptedDirectorySizeStaysConsistent | src/mongo/db/ftdc/ftdc_server.cpp:119-135 | From consistent limits mirrored by the controller, an accepted directory limit, once stored, leaves the limits consistent and mirrored again. A non-negative file limit then stays within the directory limit in bytes. |
| FtdcServer.AcceptedFileSizeStaysConsistent | src/mongo/db/ftdc/ftdc_server.cpp:137-153 | The same for an accepted file limit: once stored, the limits stay consistent and mirrored, and a non-negative file limit stays within the directory limit in bytes. |
| FtdcServer.OnUpdateEnabled | src/mongo/db/ftdc/ftdc_server.cpp:101-108 | Without a controller the update is OK; otherwise the controller's answer. |
| FtdcServer.OnUpdatePeriod | src/mongo/db/ftdc/ftdc_server.cpp:110-117 | The update is OK and reaches only the controller's period, when there is a controller. |
| FtdcServer.OnUpdateSamplesPerChunk | src/mongo/db/ftdc/ftdc_server.cpp:155-162 | The update is OK and reaches only the controller's samples-per-chunk setting, when there is a controller. |
| FtdcServer.OnUpdatePerInterimUpdate | src/mongo/db/ftdc/ftdc_server.cpp:164-171 | The update is OK and reaches only the controller's interim setting, when there is a controller. |
| FtdcServer.TuningHooksIndependent | src/mongo/db/ftdc/ftdc_server.cpp:110-171 | The period, samples-per-chunk and interim hooks keep the stored parameters and the mirrored size limits. They do not change the verdict of the size hooks or the enabled hook, and any two of them commute. |
| FtdcServer.StartFTDC | src/mongo/db/ftdc/ftdc_server.cpp:195-261 | Collection is enabled exactly when the start mode is kStart and it was enabled. The stored flag follows it. The byte limits are the megabyte limits × 1024 × 1024, and the other settings are copied. |
| FtdcServer.StartMirrors | src/mongo/db/ftdc/ftdc_server.cpp:195-261 | The controller a start creates mirrors the stored size limits in bytes. |
| FtdcServer.StartFTDCEnabledIdempotent | src/mongo/db/ftdc/ftdc_server.cpp:201-204 | Starting again in the same mode leaves the stored parameters as the first start left them. |
| FtdcServer.StartFTDCKeepsSizeOrder | src/mongo/db/ftdc/ftdc_server.cpp:195-261 | Consistent megabyte limits give a file byte limit no larger than the directory byte limit. |

## Left out

- The plan ranker, the plan cache, each candidate's `PlanStage::work`, the yield policy and the "should cache" decision are oracles passed in `MultiPlan.Env` and as parameters. Their internals are not modelled.
- The derived node properties (`fetched`, `hasField`, `getSort`, multikey fields) come from `query_solution.cpp`, which is not part of this model. They are the `Props` oracle.
- `reverseScans` and `reverseSortObj` live in `query_planner_common.h`, which is not part of this model. They are modelled as:
  - negating the scan direction;
  - reversing each interval list and each interval;
  - negating the merge-sort pattern, with string values reading as 0.
- Bounds.ReverseBounds: the start and end keys of a simple range and their inclusivity are not modelled, so a simple range comes back unchanged, where `reverseScans` swaps the keys and their inclusivity.
- `analyzeGeo` and the geo-near annotation are left out: they need the match-expression tree, which this model does not have.
- The projection-node choice is kept only as the boolean flags of the projection.
- `__wt_config_subgets` and the config parser are not part of this model. A checkpoint's configuration is a list of (key, value) fields, and the first match wins.
- `__wt_nhex_to_raw` and `__wt_raw_to_hex` are not part of this model. They are modelled as the usual two-digit hex encoding.
- `__wt_meta_block_metadata`, `__wt_meta_sysinfo_set`, `__ckptlist_review_write_gen` and the metadata search and update calls are left out: they are I/O, encryption and an atomic loop.
- `__wt_qsort` is modelled as a stable insertion sort. WiredTiger does not fix the order of equal orders; the contract states only sortedness and permutation.
- Number parsing in the checkpoint configuration (`sscanf` and `strtoull`) is modelled as leading-digit scanning into unsigned 64-bit values. Signs and white space are not modelled.
- I/O, locking, write units of work, recovery-unit change registration, logging, timers, `getStats` and explain output are not modelled.
- The `forceYield` path is not modelled, nor the invariant that NEED_YIELD carries no working-set id.
- MultiPlan.TrialPeriodWorks: the scaled collection size (`internalQueryPlanEvaluationCollFraction * numRecords`, a `double`) is a natural-number parameter.
- MultiPlan.TrialPeriodNumToReturn: ntoreturn and limit are naturals. MongoDB's `size_t` cast of a negative value is not modelled.
- MultiPlan.DoWork: when the stage switches to the backup plan, it returns the backup's fresh work result even if the backup had buffered trial results. That is what `MultiPlanStage::doWork` does, and it is modelled as written. It cannot happen: a backup exists only when the winner buffered nothing, and a backup with buffered results would itself have ranked.
- `explodeForSort` may reverse earlier leaves before a later leaf, or the scan limit, refuses the explosion. So refusal does not always leave the tree untouched. The model does the same (`PlannerExplode.ExplodeForSortRefusal`).
- `makeCartesianProduct` makes the first exploded field vary fastest, since each new field's loop is the outer one. The model follows the code.
- The comment in `escapeDbName` gives "db\073" as a third name escaping to "db.123". Octal 073 is 59, which escapes to "db.59", so the model states the table's actual behaviour. The real third collider is "db{".
- In `__ckpt_last` the order found doubles as the "found" flag, so entries whose orders are all 0 give WT_NOTFOUND. The model keeps this (`WtMetaCkpt.ZeroOrdersAreNotFound`).
- FTDC collector registration, the controller's own threads and files, and the `enabled` update's call into the controller are left out. The controller's answer is a parameter.
- The hash function behind `bucketForKey` (MurmurHash3) is not modelled: the hash is any 32-bit value.
- The plan stage's memory layout, the document's value types and the metadata values' contents are abstracted. Only which flags are set and which values are stored matter here.
- KvCatalog.RenameCollection: the record's stored copy of the ident (`old["ident"]`, read at kv_catalog.cpp:582) is not modelled, so the invariant at lines 799-800 that the ident is unchanged holds by construction rather than being checked against the stored record.
- KvCatalog.ReplaceEntry: the same stored ident is not modelled. `requires from in c.idents` stands for the `invariant(fromIt != _idents.end())` at line 575.
- FtdcServer.OnUpdateDirectorySize, FtdcServer.OnUpdateFileSize and FtdcServer.StartFTDC forward the corrected 64-bit `MegabytesToBytes`, not the 32-bit `int` product the code computes (lines 131, 149 and 205-206). The as-written product is `MegabytesToBytesAsWritten`, and the Findings table covers the difference.
- FtdcServer.AcceptedDirectorySizeStaysConsistent and FtdcServer.AcceptedFileSizeStaysConsistent: the parameter machinery that stores a value after its hook accepts it is outside `ftdc_server.cpp`. `StoreDirectorySize` and `StoreFileSize` stand for that step.
- PlannerExplode.ExplodeForSort tests the exact scan-count product against the limit, not the wrapped `size_t` total. The wrapped total is `TotalNumScansAsWritten`, and the Findings table covers the difference.
- WtMetaCkpt.CkptListGet: the new slot's order is the largest loaded order plus one as an unbounded integer. The `int64_t` overflow of `maxorder + 1` is not modelled.
- The planner lemmas about what a stage can read (`SortInputSupplies`, `ProjectionReadsItsFields`, `ShardFilterReadsShardKey`, `BlockingSortReadsSortFields`) take as a hypothesis that a fetch stage reports fetched data (`FetchFetches`), because the node classes that say so are not part of this model.
- TxnOplog.ReplayFromOplogChain: the `writeConflictRetry` loop around application (transaction_oplog_application.cpp:114) is not modelled. Application is a pure function of the operations, so a retry would see the same outcome again; a write conflict surfaces as `Raised` instead of being retried.
- TxnOplog.WellFormedOplog: the model assumes that every entry is stored under its own optime and that its previous-write optime comes strictly before it. This is what makes walking a chain terminate; a chain that loops back on itself is not modelled.
- `wtRCToStatus_slow` is not part of this model. The lemmas that need it to turn every non-zero code into an error take that as a hypothesis (`SlowPathReportsErrors`).

## Findings

| source | as written | input that shows it | evidently intended | confidence | as-written member | corrected member |
|---|---|---|---|---|---|---|
| src/mongo/db/ftdc/ftdc_server.cpp:131 | `potentialNewValue * 1024 * 1024` is computed in 32-bit `int` before it is widened to the byte count. The same holds at lines 149 and 205-206. | 2048 MB: the product overflows `int`. The accepted pair of 2048 MB per file and 4096 MB per directory then gives a file limit larger than the directory limit. | The byte limit is mb × 1024 × 1024 computed in 64 bits. | not executed | FtdcServer.AsWrittenOverflowsAt2048 | FtdcServer.MegabytesToBytes |
| src/mongo/db/storage/kv/kv_catalog.cpp:760-766 | The collation feature is marked in use only when it is already in use. | A first collection with a non-simple collation and the feature not yet in use: the bit stays clear. | Mark the feature in use when it is not yet in use. | not executed | KvFeatureTracker.CollationStepAsWrittenMissesFirstUse | KvFeatureTracker.CollationStepMarksFirstUse |
| src/mongo/db/query/planner_analysis.cpp:489-500 | The per-leaf scan count and the total (lines 546, 553) are `size_t` products, checked against the limit only after they have wrapped. | A scan over 17 fields whose first 16 are 16-point lists: 16^16 = 2^64 wraps to 0, so the limit test passes. | Refuse when the true product exceeds the limit. | not executed | PlannerExplode.WrappedScanCountPassesLimit | PlannerExplode.ExplodeForSortSuccess |

=== FILE: decimal.dfy ===
/** Decimal rendering and parsing of integers, as MongoDB's stream and printf formatting does. */
module Decimal {

  predicate IsDigit(c: char) {
    '0' <= c <= '9'
  }

  function DigitChar(d: nat): (c: char)
    requires d < 10
    ensures IsDigit(c)
  {
    ['0', '1', '2', '3', '4', '5', '6', '7', '8', '9'][d]
  }

  function DigitValue(c: char): (d: nat)
    requires IsDigit(c)
    ensures d < 10
  {
    (c as int) - ('0' as int)
  }

  /** The shortest decimal rendering of `n` (no leading zeros, "0" for zero). */
  function NatToString(n: nat): (s: string)
    ensures |s| >= 1
    ensures forall i :: 0 <= i < |s| ==> IsDigit(s[i])
    decreases n
  {
    if n < 10 then [DigitChar(n)] else NatToString(n / 10) + [DigitChar(n % 10)]
  }

  /** Signed decimal rendering, a leading '-' for negative values (`%lld`, `PRId64`). */
  function IntToString(i: int): (s: string)
    ensures |s| >= 1
  {
    if i < 0 then "-" + NatToString(-i) else NatToString(i)
  }

  /** The value of a string of decimal digits. */
  function DigitsValue(s: string): (n: nat)
    requires forall i :: 0 <= i < |s| ==> IsDigit(s[i])
    decreases |s|
  {
    if |s| == 0 then 0 else DigitsValue(s[..|s| - 1]) * 10 + DigitValue(s[|s| - 1])
  }

  lemma DigitRoundTrip(d: nat)
    requires d < 10
    ensures DigitValue(DigitChar(d)) == d
  {
  }

  /** Parsing what `NatToString` renders gives the number back. */
  lemma {:induction false} NatToStringRoundTrip(n: nat)
    ensures DigitsValue(NatToString(n)) == n
    decreases n
  {
    var s := NatToString(n);
    if n < 10 {
      DigitRoundTrip(n);
    } else {
      NatToStringRoundTrip(n / 10);
      DigitRoundTrip(n % 10);
      assert s[..|s| - 1] == NatToString(n / 10);
    }
  }

  /** Numbers below 10^k render in at most k digits. */
  lemma {:induction false} NatToStringLength(n: nat, k: nat, bound: nat)
    requires bound == Pow10(k)
    requires n < bound
    ensures |NatToString(n)| <= k + 1
    ensures k >= 1 ==> |NatToString(n)| <= k
    decreases k
  {
    if k == 0 {
    } else if n < 10 {
    } else {
      assert n / 10 < Pow10(k - 1);
      NatToStringLength(n / 10, k - 1, Pow10(k - 1));
    }
  }

  function Pow10(k: nat): (r: nat)
    ensures r >= 1
  {
    if k == 0 then 1 else 10 * Pow10(k - 1)
  }
}

=== FILE: document_storage.dfy ===
/**
 * The storage layout of a pipeline Document: fields laid out one after the
 * other at 8-byte aligned offsets, an iterator that may skip missing values,
 * the open-hashing parameters of the field lookup table, and the seven
 * metadata slots with their presence bits.
 */
module DocumentStorage {
  import opened MachineInt

  const UINT_MAX: nat := 0xFFFF_FFFF

  /** `sizeof(Value)`; value.h is not part of this model. */
  const VALUE_SIZE: nat := 16
  /** `sizeof(ValueElement)`: a Value, a Position, the `int` name length and one name byte. */
  const VALUE_ELEMENT_SIZE: nat := VALUE_SIZE + 4 + 4 + 1
  const ALIGNMENT: nat := 8
  const HASH_TAB_INIT_SIZE: nat := 8
  const HASH_TAB_MIN: nat := 4

  /**
   * `ValueElement::align`: rounds up to the next multiple of 8. Adding 7 and
   * clearing the three low bits of a non-negative number subtracts its
   * remainder modulo 8, which is how the model computes it.
   */
  function Align(size: nat): (r: nat)
    ensures r % ALIGNMENT == 0
    ensures size <= r < size + ALIGNMENT
    ensures size % ALIGNMENT == 0 ==> r == size
  {
    (size + (ALIGNMENT - 1)) - (size + (ALIGNMENT - 1)) % ALIGNMENT
  }

  /** Aligning twice is aligning once. */
  lemma AlignIdempotent(size: nat)
    ensures Align(Align(size)) == Align(size)
  {
  }

  /** `Position`: an unsigned 32-bit byte offset, all ones meaning "not found". */
  datatype Position = Position(index: nat)

  /** The default-constructed Position. */
  const NOT_FOUND: Position := Position(UINT_MAX)

  /** `Position(size_t)`: the offset is truncated to `unsigned`. */
  function MakePosition(offset: nat): (p: Position)
    ensures p.index < TWO_POW_32
    ensures offset < TWO_POW_32 ==> p.index == offset
  {
    Position(offset % TWO_POW_32)
  }

  predicate Found(p: Position) {
    p.index != NOT_FOUND.index
  }

  /** The value stored in an element; only whether it is missing matters here. */
  datatype Value = Missing | Present(payload: int)

  datatype ValueElement = ValueElement(name: string, val: Value)

  /** `ValueElement::next()`: the aligned distance from one element to the next. */
  function ElementSpan(e: ValueElement): (n: nat)
    ensures n % ALIGNMENT == 0
    ensures VALUE_ELEMENT_SIZE + |e.name| <= n < VALUE_ELEMENT_SIZE + |e.name| + ALIGNMENT
  {
    Align(VALUE_ELEMENT_SIZE + |e.name|)
  }

  /** The byte offset of element `k` from the first element. */
  function Offset(elems: seq<ValueElement>, k: nat): (off: nat)
    requires k <= |elems|
    ensures off % ALIGNMENT == 0
    ensures k > 0 ==> off >= VALUE_ELEMENT_SIZE
    decreases k
  {
    if k == 0 then 0 else Offset(elems, k - 1) + ElementSpan(elems[k - 1])
  }

  /** Later elements lie strictly further into the buffer. */
  lemma {:induction false} OffsetStrictlyIncreasing(elems: seq<ValueElement>, i: nat, j: nat)
    requires i < j <= |elems|
    ensures Offset(elems, i) < Offset(elems, j)
    decreases j
  {
    if j == i + 1 {
    } else {
      OffsetStrictlyIncreasing(elems, i, j - 1);
    }
  }

  /** Within a buffer below 4 GiB every element's position is found and distinct. */
  lemma ElementPositionsDistinct(elems: seq<ValueElement>, i: nat, j: nat)
    requires i < j < |elems|
    requires Offset(elems, |elems|) < UINT_MAX
    ensures Found(MakePosition(Offset(elems, i))) && Found(MakePosition(Offset(elems, j)))
    ensures MakePosition(Offset(elems, i)) != MakePosition(Offset(elems, j))
  {
    OffsetStrictlyIncreasing(elems, i, j);
    OffsetStrictlyIncreasing(elems, j, |elems|);
  }

  // ---------------------------------------------------------------------
  // DocumentStorageIterator
  // ---------------------------------------------------------------------

  /** `skipMissing`: the first element at or after `i` that is not missing, or the end. */
  function SkipMissing(elems: seq<ValueElement>, i: nat): (j: nat)
    requires i <= |elems|
    ensures i <= j <= |elems|
    ensures j < |elems| ==> elems[j].val.Present?
    ensures forall k :: i <= k < j ==> elems[k].val.Missing?
    decreases |elems| - i
  {
    if i == |elems| || elems[i].val.Present? then i else SkipMissing(elems, i + 1)
  }

  /** An iterator over a document's elements, as an element index. */
  datatype Iterator = Iterator(it: nat, includeMissing: bool)

  predicate ValidIterator(elems: seq<ValueElement>, iter: Iterator) {
    iter.it <= |elems| && (!iter.includeMissing && iter.it < |elems| ==> elems[iter.it].val.Present?)
  }

  /** The constructor: starts at the first element, skipping missing ones unless told not to. */
  function Begin(elems: seq<ValueElement>, includeMissing: bool): (iter: Iterator)
    ensures ValidIterator(elems, iter)
    ensures iter.includeMissing == includeMissing
    ensures includeMissing ==> iter.it == 0
  {
    Iterator(if includeMissing then 0 else SkipMissing(elems, 0), includeMissing)
  }

  function AtEnd(elems: seq<ValueElement>, iter: Iterator): bool {
    iter.it == |elems|
  }

  /** `advance`: one element on, then past missing ones unless they are included. */
  function Advance(elems: seq<ValueElement>, iter: Iterator): (next: Iterator)
    requires ValidIterator(elems, iter) && !AtEnd(elems, iter)
    ensures ValidIterator(elems, next)
    ensures next.includeMissing == iter.includeMissing
    ensures iter.it < next.it
  {
    Iterator(if iter.includeMissing then iter.it + 1 else SkipMissing(elems, iter.it + 1),
             iter.includeMissing)
  }

  /** `position()`: the byte offset of the current element. */
  function IteratorPosition(elems: seq<ValueElement>, iter: Iterator): Position
    requires ValidIterator(elems, iter) && !AtEnd(elems, iter)
  {
    MakePosition(Offset(elems, iter.it))
  }

  /** The element indices an iterator visits from where it stands to the end. */
  function Visits(elems: seq<ValueElement>, iter: Iterator): (ks: seq<nat>)
    requires ValidIterator(elems, iter)
    decreases |elems| - iter.it
  {
    if AtEnd(elems, iter) then [] else [iter.it] + Visits(elems, Advance(elems, iter))
  }

  /** The indices in `[from, |elems|)` of elements kept by the iterator. */
  function Kept(elems: seq<ValueElement>, from: nat, includeMissing: bool): (ks: seq<nat>)
    requires from <= |elems|
    ensures forall i :: 0 <= i < |ks| ==> from <= ks[i] < |elems|
    ensures forall i :: 0 <= i < |ks| ==> includeMissing || elems[ks[i]].val.Present?
    decreases |elems| - from
  {
    if from == |elems| then []
    else if includeMissing || elems[from].val.Present? then [from] + Kept(elems, from + 1, includeMissing)
    else Kept(elems, from + 1, includeMissing)
  }

  lemma {:induction false} KeptSkipsMissing(elems: seq<ValueElement>, from: nat)
    requires from <= |elems|
    ensures Kept(elems, from, false) == Kept(elems, SkipMissing(elems, from), false)
    decreases |elems| - from
  {
    if from < |elems| && elems[from].val.Missing? {
      KeptSkipsMissing(elems, from + 1);
    }
  }

  lemma {:induction false} VisitsFrom(elems: seq<ValueElement>, iter: Iterator)
    requires ValidIterator(elems, iter)
    ensures Visits(elems, iter) == Kept(elems, iter.it, iter.includeMissing)
    decreases |elems| - iter.it
  {
    if !AtEnd(elems, iter) {
      var next := Advance(elems, iter);
      VisitsFrom(elems, next);
      if !iter.includeMissing {
        KeptSkipsMissing(elems, iter.it + 1);
      }
    }
  }

  /**
   * `iterator()` visits exactly the non-missing elements and `iteratorAll()`
   * every element, both in storage order.
   */
  lemma IteratorVisitsKeptElements(elems: seq<ValueElement>, includeMissing: bool)
    ensures Visits(elems, Begin(elems, includeMissing)) == Kept(elems, 0, includeMissing)
  {
    VisitsFrom(elems, Begin(elems, includeMissing));
    if !includeMissing {
      KeptSkipsMissing(elems, 0);
    }
  }

  lemma {:induction false} KeptAllIsRange(elems: seq<ValueElement>, from: nat)
    requires from <= |elems|
    ensures |Kept(elems, from, true)| == |elems| - from
    ensures forall i :: 0 <= i < |elems| - from ==> Kept(elems, from, true)[i] == from + i
    decreases |elems| - from
  {
    if from < |elems| {
      KeptAllIsRange(elems, from + 1);
    }
  }

  /** `iteratorAll()`, which `rehash` uses, visits element 0, 1, 2, … with none left out. */
  lemma IteratorAllVisitsEveryElement(elems: seq<ValueElement>)
    ensures |Visits(elems, Begin(elems, true))| == |elems|
    ensures forall i :: 0 <= i < |elems| ==> Visits(elems, Begin(elems, true))[i] == i
  {
    IteratorVisitsKeptElements(elems, true);
    KeptAllIsRange(elems, 0);
  }

  /** The number of non-missing elements in `[lo, hi)`. */
  function CountPresent(elems: seq<ValueElement>, lo: nat, hi: nat): (n: nat)
    requires lo <= hi <= |elems|
    ensures n <= hi - lo
    decreases hi - lo
  {
    if lo == hi then 0 else CountPresent(elems, lo, hi - 1) + (if elems[hi - 1].val.Present? then 1 else 0)
  }

  lemma {:induction false} KeptCountsPresent(elems: seq<ValueElement>, from: nat)
    requires from <= |elems|
    ensures |Kept(elems, from, false)| == CountPresent(elems, from, |elems|)
    decreases |elems| - from
  {
    if from < |elems| {
      KeptCountsPresent(elems, from + 1);
      CountPresentSplit(elems, from, from + 1, |elems|);
    }
  }

  lemma {:induction false} CountPresentSplit(elems: seq<ValueElement>, a: nat, b: nat, c: nat)
    requires a <= b <= c <= |elems|
    ensures CountPresent(elems, a, c) == CountPresent(elems, a, b) + CountPresent(elems, b, c)
    decreases c - b
  {
    if b < c {
      CountPresentSplit(elems, a, b, c - 1);
    }
  }

  lemma {:induction false} CountPresentNone(elems: seq<ValueElement>, lo: nat, hi: nat)
    requires lo <= hi <= |elems|
    requires forall k :: lo <= k < hi ==> elems[k].val.Missing?
    ensures CountPresent(elems, lo, hi) == 0
    decreases hi - lo
  {
    if lo < hi {
      CountPresentNone(elems, lo, hi - 1);
    }
  }

  /**
   * `DocumentStorage::size()`: counts the fields by walking `iterator()`, so
   * removed (missing) fields are not counted.
   */
  method Size(elems: seq<ValueElement>) returns (count: nat)
    ensures count == CountPresent(elems, 0, |elems|)
    ensures count == |Kept(elems, 0, false)|
  {
    count := 0;
    var iter := Begin(elems, false);
    CountPresentNone(elems, 0, iter.it);
    while !AtEnd(elems, iter)
      invariant ValidIterator(elems, iter) && !iter.includeMissing
      invariant count == CountPresent(elems, 0, iter.it)
      decreases |elems| - iter.it
    {
      count := count + 1;
      var next := Advance(elems, iter);
      CountPresentSplit(elems, 0, iter.it + 1, next.it);
      CountPresentNone(elems, iter.it + 1, next.it);
      iter := next;
    }
    KeptCountsPresent(elems, 0);
  }

  // ---------------------------------------------------------------------
  // Hash table parameters (unsigned 32-bit arithmetic)
  // ---------------------------------------------------------------------

  /** `hashTabBuckets()`: the mask plus one, in `unsigned` arithmetic. */
  function HashTabBuckets(mask: bv32): bv32 {
    mask + 1
  }

  /** `needRehash()`: more than half a bucket per field, in `unsigned` arithmetic. */
  function NeedRehash(numFields: bv32, mask: bv32): bool {
    numFields * 2 > HashTabBuckets(mask)
  }

  /** `bucketForKey`: the hash masked to the table. */
  function BucketForKey(hash: bv32, mask: bv32): bv32 {
    hash & mask
  }

  /** A mask of the form 2^k - 1, as the table assumes. */
  predicate IsLowMask(mask: bv32, k: nat) {
    k < 32 && mask == ((1 as bv32) << k) - 1
  }

  /** With a mask 2^k - 1 every hash lands in one of the 2^k buckets. */
  lemma BucketInRange(hash: bv32, mask: bv32, k: nat)
    requires IsLowMask(mask, k)
    ensures HashTabBuckets(mask) == (1 as bv32) << k
    ensures BucketForKey(hash, mask) < HashTabBuckets(mask)
  {
  }

  /** The initial table has 8 buckets. */
  lemma InitialTableBuckets()
    ensures IsLowMask((HASH_TAB_INIT_SIZE - 1) as bv32, 3)
    ensures HashTabBuckets((HASH_TAB_INIT_SIZE - 1) as bv32) == HASH_TAB_INIT_SIZE as bv32
  {
  }

  /**
   * Below 2^31 fields and with a mask 2^k - 1 (k >= 1), `needRehash` holds
   * exactly when there are more fields than half the buckets.
   */
  lemma NeedRehashIsLoadFactor(numFields: bv32, mask: bv32, k: nat)
    requires IsLowMask(mask, k) && k >= 1
    requires numFields < 0x8000_0000
    ensures NeedRehash(numFields, mask) <==> numFields > (1 as bv32) << (k - 1)
  {
    var half := (1 as bv32) << (k - 1);
    ShiftSucc(k);
    DoublingCompare(numFields, half);
  }

  /** One more bit of shift doubles a power of two below 2^32. */
  lemma ShiftSucc(k: nat)
    requires 1 <= k < 32
    ensures ((1 as bv32) << (k - 1)) << 1 == (1 as bv32) << k
    ensures ((1 as bv32) << (k - 1)) < 0x8000_0000
  {
  }

  /** Doubling keeps the order of values below 2^31. */
  lemma DoublingCompare(x: bv32, h: bv32)
    requires x < 0x8000_0000 && h < 0x8000_0000
    ensures x * 2 > h << 1 <==> x > h
  {
  }

  /** A mask of all ones, which is not of the assumed form, wraps to zero buckets. */
  lemma FullMaskWrapsToZeroBuckets()
    ensures HashTabBuckets(0xFFFF_FFFF) == 0
    ensures NeedRehash(1, 0xFFFF_FFFF)
  {
  }

  // ---------------------------------------------------------------------
  // Metadata
  // ---------------------------------------------------------------------

  datatype MetaType = TextScore | RandVal | SortKey | GeoNearDist | GeoNearPoint | SearchScore | SearchHighlights

  /** A BSON object, carried as its bytes. */
  datatype BsonObj = BsonObj(bytes: seq<int>)

  /**
   * Doubles are carried as opaque values: the storage stores and returns
   * them and never computes with them.
   */
  datatype Double = Double(bits: int)

  datatype MetaValue = DoubleValue(d: Double) | ObjValue(o: BsonObj) | AnyValue(v: Value)

  /** The metadata part of a DocumentStorage: presence bits and one slot per kind. */
  datatype Metadata = Metadata(
    fields: set<MetaType>,
    textScore: Double,
    randVal: Double,
    sortKey: BsonObj,
    geoNearDistance: Double,
    geoNearPoint: Value,
    searchScore: Double,
    searchHighlights: Value)

  /** The metadata of a freshly constructed DocumentStorage. */
  const EMPTY_METADATA: Metadata :=
    Metadata({}, Double(0), Double(0), BsonObj([]), Double(0), Missing, Double(0), Missing)

  predicate Has(m: Metadata, t: MetaType) {
    t in m.fields
  }

  /** The getter for slot `t`; it returns the slot whether or not its bit is set. */
  function Get(m: Metadata, t: MetaType): MetaValue {
    match t
    case TextScore => DoubleValue(m.textScore)
    case RandVal => DoubleValue(m.randVal)
    case SortKey => ObjValue(m.sortKey)
    case GeoNearDist => DoubleValue(m.geoNearDistance)
    case GeoNearPoint => AnyValue(m.geoNearPoint)
    case SearchScore => DoubleValue(m.searchScore)
    case SearchHighlights => AnyValue(m.searchHighlights)
  }

  /** Whether `v` is of the kind slot `t` holds. */
  predicate Fits(t: MetaType, v: MetaValue) {
    match t
    case TextScore => v.DoubleValue?
    case RandVal => v.DoubleValue?
    case SortKey => v.ObjValue?
    case GeoNearDist => v.DoubleValue?
    case GeoNearPoint => v.AnyValue?
    case SearchScore => v.DoubleValue?
    case SearchHighlights => v.AnyValue?
  }

  /** The setters `setTextScore`, `setRandMetaField`, …: set the bit and store the value. */
  function Set(m: Metadata, t: MetaType, v: MetaValue): (r: Metadata)
    requires Fits(t, v)
    ensures Has(r, t) && Get(r, t) == v
    ensures forall u :: u != t ==> (Has(r, u) <==> Has(m, u)) && Get(r, u) == Get(m, u)
  {
    var m' := m.(fields := m.fields + {t});
    match t
    case TextScore => m'.(textScore := v.d)
    case RandVal => m'.(randVal := v.d)
    case SortKey => m'.(sortKey := v.o)
    case GeoNearDist => m'.(geoNearDistance := v.d)
    case GeoNearPoint => m'.(geoNearPoint := v.v)
    case SearchScore => m'.(searchScore := v.d)
    case SearchHighlights => m'.(searchHighlights := v.v)
  }

  lemma GetFits(m: Metadata, t: MetaType)
    ensures Fits(t, Get(m, t))
  {
  }

  function CopyIfSet(target: Metadata, source: Metadata, t: MetaType): (r: Metadata)
    ensures forall u :: Has(r, u) <==> Has(target, u) || (u == t && Has(source, t))
    ensures forall u :: Get(r, u) == (if u == t && Has(source, t) then Get(source, t) else Get(target, u))
  {
    GetFits(source, t);
    if Has(source, t) then Set(target, t, Get(source, t)) else target
  }

  /**
   * `copyMetaDataFrom`: every slot set in the other document is copied over, the
   * others keep the target's bit and value; nothing is cleared.
   */
  function CopyMetaDataFrom(target: Metadata, source: Metadata): (r: Metadata)
    ensures forall t :: Has(r, t) <==> Has(target, t) || Has(source, t)
    ensures forall t :: Get(r, t) == (if Has(source, t) then Get(source, t) else Get(target, t))
  {
    var m1 := CopyIfSet(target, source, TextScore);
    var m2 := CopyIfSet(m1, source, RandVal);
    var m3 := CopyIfSet(m2, source, SortKey);
    var m4 := CopyIfSet(m3, source, GeoNearDist);
    var m5 := CopyIfSet(m4, source, GeoNearPoint);
    var m6 := CopyIfSet(m5, source, SearchScore);
    CopyIfSet(m6, source, SearchHighlights)
  }

  /** Copying the same source twice changes nothing more. */
  lemma CopyMetaDataIdempotent(target: Metadata, source: Metadata)
    ensures CopyMetaDataFrom(CopyMetaDataFrom(target, source), source) == CopyMetaDataFrom(target, source)
  {
    var once := CopyMetaDataFrom(target, source);
    var twice := CopyMetaDataFrom(once, source);
    MetadataExtensional(twice, once);
  }

  /** Copying from a document without metadata leaves the target as it was. */
  lemma CopyFromEmptyIsIdentity(target: Metadata)
    ensures CopyMetaDataFrom(target, EMPTY_METADATA) == target
  {
    MetadataExtensional(CopyMetaDataFrom(target, EMPTY_METADATA), target);
  }

  /** Two metadata records with the same bits and slots are equal. */
  lemma MetadataExtensional(a: Metadata, b: Metadata)
    requires forall t :: (Has(a, t) <==> Has(b, t)) && Get(a, t) == Get(b, t)
    ensures a == b
  {
    assert Get(a, TextScore) == Get(b, TextScore);
    assert Get(a, RandVal) == Get(b, RandVal);
    assert Get(a, SortKey) == Get(b, SortKey);
    assert Get(a, GeoNearDist) == Get(b, GeoNearDist);
    assert Get(a, GeoNearPoint) == Get(b, GeoNearPoint);
    assert Get(a, SearchScore) == Get(b, SearchScore);
    assert Get(a, SearchHighlights) == Get(b, SearchHighlights);
    assert a.fields == b.fields by {
      forall t ensures t in a.fields <==> t in b.fields {
        assert Has(a, t) <==> Has(b, t);
      }
    }
  }
}

=== FILE: ftdc.dfy ===
/**
 * The server-parameter hooks of full-time diagnostic data capture (FTDC):
 * validation of the directory and file size limits, forwarding of accepted
 * values to the running controller, and the configuration derived at start-up.
 */
module FtdcServer {
  import opened Wrappers
  import Decimal
  import opened MachineInt

  const BYTES_PER_MB: nat := 1024 * 1024

  /**
   * The byte count the hooks compute, AS WRITTEN: `mb * 1024 * 1024` is
   * evaluated in 32-bit `int` arithmetic before it widens to the 64-bit
   * byte limit.
   */
  function MegabytesToBytesAsWritten(mb: int): (r: nat)
    requires IsInt32(mb)
    ensures r < TWO_POW_64
  {
    ToUint64(WrapInt32(WrapInt32(mb * 1024) * 1024))
  }

  /** The intended conversion: the multiplication in 64-bit arithmetic. */
  function MegabytesToBytes(mb: int): (r: nat)
    requires IsInt32(mb)
    ensures mb >= 0 ==> r == mb * BYTES_PER_MB
    ensures mb >= 0 ==> r % BYTES_PER_MB == 0 && r / BYTES_PER_MB == mb
  {
    ToUint64(mb * BYTES_PER_MB)
  }

  /** Below 2048 MB the 32-bit product does not overflow and both agree. */
  lemma AsWrittenAgreesBelow2048(mb: int)
    requires 0 <= mb < 2048
    ensures MegabytesToBytesAsWritten(mb) == MegabytesToBytes(mb)
  {
  }

  /** 2048 MB, a value the parameters accept, wraps to a limit near 2^64 bytes. */
  lemma AsWrittenOverflowsAt2048()
    ensures MegabytesToBytesAsWritten(2048) == TWO_POW_64 - 0x8000_0000
    ensures MegabytesToBytes(2048) == 0x8000_0000
  {
    assert WrapInt32(2048 * 1024) == 2048 * 1024;
    assert WrapInt32(2048 * 1024 * 1024) == INT32_MIN;
  }

  /** 4096 MB wraps to a byte limit of zero. */
  lemma AsWrittenWrapsToZeroAt4096()
    ensures MegabytesToBytesAsWritten(4096) == 0
    ensures MegabytesToBytes(4096) == 0x1_0000_0000
  {
    assert WrapInt32(4096 * 1024) == 4096 * 1024;
    assert WrapInt32(4096 * 1024 * 1024) == 0;
  }

  /**
   * With the conversion as written, a consistent pair of size parameters
   * (2048 MB per file, 4096 MB in all) gives a directory limit below the
   * file limit.
   */
  lemma AsWrittenBreaksSizeOrder()
    ensures SizesConsistent(2048, 4096)
    ensures MegabytesToBytesAsWritten(4096) < MegabytesToBytesAsWritten(2048)
  {
    AsWrittenOverflowsAt2048();
    AsWrittenWrapsToZeroAt4096();
  }

  /** The stored values of the `diagnosticDataCollection*` parameters. */
  datatype StartupParams = StartupParams(
    enabled: bool,
    periodMillis: int,
    maxDirectorySizeMB: int,
    maxFileSizeMB: int,
    maxSamplesPerArchiveMetricChunk: int,
    maxSamplesPerInterimMetricChunk: int)

  predicate ValidParams(p: StartupParams) {
    IsInt32(p.periodMillis) && IsInt32(p.maxDirectorySizeMB) && IsInt32(p.maxFileSizeMB)
    && IsInt32(p.maxSamplesPerArchiveMetricChunk) && IsInt32(p.maxSamplesPerInterimMetricChunk)
  }

  /** The settings a running controller holds. */
  datatype Config = Config(
    enabled: bool,
    periodMillis: int,
    maxDirectorySizeBytes: nat,
    maxFileSizeBytes: nat,
    maxSamplesPerArchiveMetricChunk: int,
    maxSamplesPerInterimMetricChunk: int)

  /** The process-wide state: the stored parameters and, once started, the controller. */
  datatype Server = Server(params: StartupParams, controller: Option<Config>)

  datatype Status = OK | BadValue(reason: string) | ControllerStatus(code: int)

  /** The two size limits are consistent when no file may exceed the directory. */
  predicate SizesConsistent(fileMB: int, directoryMB: int) {
    fileMB <= directoryMB
  }

  /** The reasons the size hooks give when they refuse a value. */
  function DirectoryTooSmall(fileMB: int): string {
    "diagnosticDataCollectionDirectorySizeMB must be greater than or equal to '"
    + Decimal.IntToString(fileMB)
    + "' which is the current value of diagnosticDataCollectionFileSizeMB."
  }

  function FileTooLarge(directoryMB: int): string {
    "diagnosticDataCollectionFileSizeMB must be less than or equal to '"
    + Decimal.IntToString(directoryMB)
    + "' which is the current value of diagnosticDataCollectionDirectorySizeMB."
  }

  /**
   * `onUpdateFTDCDirectorySize`: a directory limit below the current file
   * limit is refused with BadValue and changes nothing; an accepted one is
   * forwarded in bytes to the controller, if there is one.
   */
  function OnUpdateDirectorySize(s: Server, mb: int): (out: (Status, Server))
    requires ValidParams(s.params) && IsInt32(mb)
    ensures out.0 == OK <==> SizesConsistent(s.params.maxFileSizeMB, mb)
    ensures out.0 != OK ==> out.0.BadValue? && out.1 == s
    ensures out.1.params == s.params
    ensures out.1.controller.Some? <==> s.controller.Some?
    ensures out.0 == OK && s.controller.Some? ==>
      out.1.controller.value == s.controller.value.(maxDirectorySizeBytes := MegabytesToBytes(mb))
  {
    if mb < s.params.maxFileSizeMB then
      (BadValue(DirectoryTooSmall(s.params.maxFileSizeMB)), s)
    else
      match s.controller
      case None => (OK, s)
      case Some(c) => (OK, s.(controller := Some(c.(maxDirectorySizeBytes := MegabytesToBytes(mb)))))
  }

  /**
   * `onUpdateFTDCFileSize`: a file limit above the current directory limit
   * is refused with BadValue; an accepted one is forwarded in bytes.
   */
  function OnUpdateFileSize(s: Server, mb: int): (out: (Status, Server))
    requires ValidParams(s.params) && IsInt32(mb)
    ensures out.0 == OK <==> SizesConsistent(mb, s.params.maxDirectorySizeMB)
    ensures out.0 != OK ==> out.0.BadValue? && out.1 == s
    ensures out.1.params == s.params
    ensures out.1.controller.Some? <==> s.controller.Some?
    ensures out.0 == OK && s.controller.Some? ==>
      out.1.controller.value == s.controller.value.(maxFileSizeBytes := MegabytesToBytes(mb))
  {
    if mb > s.params.maxDirectorySizeMB then
      (BadValue(FileTooLarge(s.params.maxDirectorySizeMB)), s)
    else
      match s.controller
      case None => (OK, s)
      case Some(c) => (OK, s.(controller := Some(c.(maxFileSizeBytes := MegabytesToBytes(mb)))))
  }

  /** The controller's byte limits are the stored megabyte limits, converted. */
  predicate ControllerMirrors(s: Server) {
    ValidParams(s.params)
    && (s.controller.Some? ==>
          s.controller.value.maxDirectorySizeBytes == MegabytesToBytes(s.params.maxDirectorySizeMB)
          && s.controller.value.maxFileSizeBytes == MegabytesToBytes(s.params.maxFileSizeMB))
  }

  /** The server once the parameter machinery has stored an accepted directory limit. */
  function StoreDirectorySize(s: Server, mb: int): Server {
    s.(params := s.params.(maxDirectorySizeMB := mb))
  }

  /** The server once the parameter machinery has stored an accepted file limit. */
  function StoreFileSize(s: Server, mb: int): Server {
    s.(params := s.params.(maxFileSizeMB := mb))
  }

  lemma BytesMonotone(a: int, b: int)
    requires IsInt32(a) && IsInt32(b) && 0 <= a <= b
    ensures MegabytesToBytes(a) <= MegabytesToBytes(b)
  {
  }

  /**
   * From consistent limits mirrored by the controller, an accepted
   * directory limit, once stored, leaves the limits consistent and mirrored
   * again, so a non-negative file limit stays no larger than the directory
   * limit in the controller's bytes too.
   */
  lemma AcceptedDirectorySizeStaysConsistent(s: Server, mb: int)
    requires ControllerMirrors(s) && IsInt32(mb)
    requires SizesConsistent(s.params.maxFileSizeMB, s.params.maxDirectorySizeMB)
    ensures var out := OnUpdateDirectorySize(s, mb);
      var t := StoreDirectorySize(out.1, mb);
      out.0 == OK ==>
        SizesConsistent(t.params.maxFileSizeMB, t.params.maxDirectorySizeMB) && ControllerMirrors(t)
        && (t.controller.Some? && 0 <= t.params.maxFileSizeMB ==>
              t.controller.value.maxFileSizeBytes <= t.controller.value.maxDirectorySizeBytes)
  {
    if OnUpdateDirectorySize(s, mb).0 == OK && 0 <= s.params.maxFileSizeMB {
      BytesMonotone(s.params.maxFileSizeMB, mb);
    }
  }

  /** The same for an accepted file limit, when it is non-negative. */
  lemma AcceptedFileSizeStaysConsistent(s: Server, mb: int)
    requires ControllerMirrors(s) && IsInt32(mb)
    requires SizesConsistent(s.params.maxFileSizeMB, s.params.maxDirectorySizeMB)
    ensures var out := OnUpdateFileSize(s, mb);
      var t := StoreFileSize(out.1, mb);
      out.0 == OK ==>
        SizesConsistent(t.params.maxFileSizeMB, t.params.maxDirectorySizeMB) && ControllerMirrors(t)
        && (t.controller.Some? && 0 <= mb ==>
              t.controller.value.maxFileSizeBytes <= t.controller.value.maxDirectorySizeBytes)
  {
    if OnUpdateFileSize(s, mb).0 == OK && 0 <= mb {
      BytesMonotone(mb, s.params.maxDirectorySizeMB);
    }
  }

  /**
   * `onUpdateFTDCEnabled`: without a controller the update is OK; with one
   * the status is the controller's answer to `setEnabled`.
   */
  function OnUpdateEnabled(s: Server, value: bool, controllerAnswer: Status): (r: Status)
    ensures s.controller.None? ==> r == OK
    ensures s.controller.Some? ==> r == controllerAnswer
  {
    if s.controller.Some? then controllerAnswer else OK
  }

  /** `onUpdateFTDCPeriod`: always OK; the period is forwarded to a controller. */
  function OnUpdatePeriod(s: Server, millis: int): (out: (Status, Server))
    requires IsInt32(millis)
    ensures out.0 == OK && out.1.params == s.params
    ensures out.1.controller == (if s.controller.Some? then Some(s.controller.value.(periodMillis := millis)) else None)
  {
    match s.controller
    case None => (OK, s)
    case Some(c) => (OK, s.(controller := Some(c.(periodMillis := millis))))
  }

  /** `onUpdateFTDCSamplesPerChunk`: always OK; forwarded to a controller. */
  function OnUpdateSamplesPerChunk(s: Server, n: int): (out: (Status, Server))
    requires IsInt32(n)
    ensures out.0 == OK && out.1.params == s.params
    ensures out.1.controller ==
      (if s.controller.Some? then Some(s.controller.value.(maxSamplesPerArchiveMetricChunk := n)) else None)
  {
    match s.controller
    case None => (OK, s)
    case Some(c) => (OK, s.(controller := Some(c.(maxSamplesPerArchiveMetricChunk := n))))
  }

  /** `onUpdateFTDCPerInterimUpdate`: always OK; forwarded to a controller. */
  function OnUpdatePerInterimUpdate(s: Server, n: int): (out: (Status, Server))
    requires IsInt32(n)
    ensures out.0 == OK && out.1.params == s.params
    ensures out.1.controller ==
      (if s.controller.Some? then Some(s.controller.value.(maxSamplesPerInterimMetricChunk := n)) else None)
  {
    match s.controller
    case None => (OK, s)
    case Some(c) => (OK, s.(controller := Some(c.(maxSamplesPerInterimMetricChunk := n))))
  }

  /**
   * The tuning hooks touch one controller setting each: they keep the
   * stored parameters and the mirrored size limits, do not change the
   * verdict of the size hooks or of the enabled hook, and commute with one
   * another.
   */
  lemma TuningHooksIndependent(s: Server, millis: int, n: int, m: int, mb: int, v: bool, answer: Status)
    requires ControllerMirrors(s) && IsInt32(millis) && IsInt32(n) && IsInt32(m) && IsInt32(mb)
    ensures ControllerMirrors(OnUpdatePeriod(s, millis).1)
    ensures ControllerMirrors(OnUpdateSamplesPerChunk(s, n).1)
    ensures ControllerMirrors(OnUpdatePerInterimUpdate(s, m).1)
    ensures OnUpdateDirectorySize(OnUpdatePeriod(s, millis).1, mb).0 == OnUpdateDirectorySize(s, mb).0
    ensures OnUpdateFileSize(OnUpdateSamplesPerChunk(s, n).1, mb).0 == OnUpdateFileSize(s, mb).0
    ensures OnUpdateEnabled(OnUpdatePerInterimUpdate(s, m).1, v, answer) == OnUpdateEnabled(s, v, answer)
    ensures OnUpdatePeriod(OnUpdateSamplesPerChunk(s, n).1, millis).1
      == OnUpdateSamplesPerChunk(OnUpdatePeriod(s, millis).1, n).1
    ensures OnUpdateSamplesPerChunk(OnUpdatePerInterimUpdate(s, m).1, n).1
      == OnUpdatePerInterimUpdate(OnUpdateSamplesPerChunk(s, n).1, m).1
    ensures OnUpdatePeriod(OnUpdatePerInterimUpdate(s, m).1, millis).1
      == OnUpdatePerInterimUpdate(OnUpdatePeriod(s, millis).1, m).1
  {
  }

  datatype StartMode = Start | SkipStart

  /**
   * `startFTDC`: the enabled parameter is lowered unless the caller asked to
   * start, and the new controller's configuration mirrors the parameters
   * with the size limits in bytes.
   */
  function StartFTDC(p: StartupParams, mode: StartMode): (out: (StartupParams, Config))
    requires ValidParams(p)
    ensures out.0 == p.(enabled := out.1.enabled)
    ensures out.1.enabled <==> mode == Start && p.enabled
    ensures out.1.periodMillis == p.periodMillis
    ensures p.maxFileSizeMB >= 0 ==> out.1.maxFileSizeBytes == p.maxFileSizeMB * BYTES_PER_MB
    ensures p.maxDirectorySizeMB >= 0 ==> out.1.maxDirectorySizeBytes == p.maxDirectorySizeMB * BYTES_PER_MB
    ensures out.1.maxSamplesPerArchiveMetricChunk == p.maxSamplesPerArchiveMetricChunk
    ensures out.1.maxSamplesPerInterimMetricChunk == p.maxSamplesPerInterimMetricChunk
  {
    var enabled := mode == Start && p.enabled;
    var p' := p.(enabled := enabled);
    (p', Config(enabled, p'.periodMillis, MegabytesToBytes(p'.maxDirectorySizeMB),
                MegabytesToBytes(p'.maxFileSizeMB), p'.maxSamplesPerArchiveMetricChunk,
                p'.maxSamplesPerInterimMetricChunk))
  }

  /** Starting twice never re-enables capture: the lowered flag is idempotent. */
  lemma StartFTDCEnabledIdempotent(p: StartupParams, mode: StartMode)
    requires ValidParams(p)
    ensures StartFTDC(StartFTDC(p, mode).0, mode).0 == StartFTDC(p, mode).0
  {
  }

  /** The controller a start creates mirrors the stored size limits. */
  lemma StartMirrors(p: StartupParams, mode: StartMode)
    requires ValidParams(p)
    ensures ControllerMirrors(Server(StartFTDC(p, mode).0, Some(StartFTDC(p, mode).1)))
  {
  }

  /** Consistent size parameters give consistent byte limits at start-up. */
  lemma StartFTDCKeepsSizeOrder(p: StartupParams, mode: StartMode)
    requires ValidParams(p)
    requires 0 <= p.maxFileSizeMB && SizesConsistent(p.maxFileSizeMB, p.maxDirectorySizeMB)
    ensures StartFTDC(p, mode).1.maxFileSizeBytes <= StartFTDC(p, mode).1.maxDirectorySizeBytes
  {
  }
}

=== FILE: index_bounds.dfy ===
/**
 * Index bounds and key patterns as the query planner's analysis sees them:
 * intervals, ordered interval lists, per-field bounds, and key and sort
 * patterns as ordered lists of (field, value) elements.
 *
 * Index key values are modelled as integers; an interval keeps its two
 * ends and their inclusivity.
 */
module Bounds {

  datatype Interval = Interval(start: int, startInclusive: bool, end: int, endInclusive: bool)

  /** A point: both ends included and equal. */
  predicate IsPoint(iv: Interval) {
    iv.startInclusive && iv.endInclusive && iv.start == iv.end
  }

  /** The same interval walked the other way: ends and their inclusivity swapped. */
  function ReverseInterval(iv: Interval): (r: Interval)
    ensures r.start == iv.end && r.end == iv.start
    ensures r.startInclusive == iv.endInclusive && r.endInclusive == iv.startInclusive
  {
    Interval(iv.end, iv.endInclusive, iv.start, iv.startInclusive)
  }

  /** The ordered interval list of one indexed field. */
  datatype Oil = Oil(name: string, intervals: seq<Interval>)

  /**
   * The bounds of an index scan, one interval list per key-pattern field;
   * `isSimpleRange` marks bounds given as a single key range instead.
   */
  datatype IndexBounds = IndexBounds(fields: seq<Oil>, isSimpleRange: bool)

  /**
   * `isUnionOfPoints`: an interval list with no intervals is not a union of
   * points (there is nothing to explode); otherwise it is one when every
   * interval is a point.
   */
  function IsUnionOfPoints(oil: Oil): (r: bool)
    ensures r <==> |oil.intervals| > 0 && forall i :: 0 <= i < |oil.intervals| ==> IsPoint(oil.intervals[i])
  {
    |oil.intervals| > 0 && AllPoints(oil.intervals, 0)
  }

  /** Whether the intervals from `i` on are all points, checked one by one as MongoDB's loop does. */
  function AllPoints(ivs: seq<Interval>, i: nat): (r: bool)
    requires i <= |ivs|
    ensures r <==> forall j :: i <= j < |ivs| ==> IsPoint(ivs[j])
    decreases |ivs| - i
  {
    if i == |ivs| then true
    else if !IsPoint(ivs[i]) then false
    else AllPoints(ivs, i + 1)
  }

  /** A scan's interval list walked backwards: the list reversed and every interval reversed. */
  function ReverseOil(oil: Oil): (r: Oil)
    ensures r.name == oil.name && |r.intervals| == |oil.intervals|
    ensures forall i :: 0 <= i < |oil.intervals| ==>
      r.intervals[i] == ReverseInterval(oil.intervals[|oil.intervals| - 1 - i])
  {
    Oil(oil.name, seq(|oil.intervals|, i requires 0 <= i < |oil.intervals| =>
      ReverseInterval(oil.intervals[|oil.intervals| - 1 - i])))
  }

  /** Reversing an interval list twice gives it back. */
  lemma ReverseOilTwice(oil: Oil)
    ensures ReverseOil(ReverseOil(oil)) == oil
  {
    var r := ReverseOil(ReverseOil(oil));
    assert r.intervals == oil.intervals;
  }

  /** Reversal keeps an interval list a union of points, and keeps it from being one. */
  lemma ReversePreservesUnionOfPoints(oil: Oil)
    ensures IsUnionOfPoints(ReverseOil(oil)) == IsUnionOfPoints(oil)
  {
    var r := ReverseOil(oil);
    var n := |oil.intervals|;
    if IsUnionOfPoints(oil) {
      forall i | 0 <= i < n
        ensures IsPoint(r.intervals[i])
      {
        assert IsPoint(oil.intervals[n - 1 - i]);
      }
    }
    if IsUnionOfPoints(r) {
      forall i | 0 <= i < n
        ensures IsPoint(oil.intervals[i])
      {
        assert IsPoint(r.intervals[n - 1 - i]);
      }
    }
  }

  function ReverseBounds(b: IndexBounds): (r: IndexBounds)
    ensures r.isSimpleRange == b.isSimpleRange && |r.fields| == |b.fields|
    ensures !b.isSimpleRange ==> forall i :: 0 <= i < |b.fields| ==> r.fields[i] == ReverseOil(b.fields[i])
    ensures b.isSimpleRange ==> r == b
  {
    if b.isSimpleRange then b
    else IndexBounds(seq(|b.fields|, i requires 0 <= i < |b.fields| => ReverseOil(b.fields[i])), false)
  }

  // ---------------------------------------------------------------------
  // Key patterns and sort patterns
  // ---------------------------------------------------------------------

  /** The value of a key or sort pattern element: a number, or a string such as "2dsphere". */
  datatype PatternValue = Num(n: int) | Str(s: string)

  datatype PatternElem = PatternElem(field: string, value: PatternValue)

  /** A key pattern or a sort pattern: its elements in order. */
  type Pattern = seq<PatternElem>

  /** `BSONObj::isPrefixOf` with the simple comparator: `a`'s elements open `b`. */
  predicate IsPrefixOf(a: Pattern, b: Pattern) {
    |a| <= |b| && a == b[..|a|]
  }

  /**
   * `reverseSortObj`: every element's value negated as an integer; a
   * string value, whose integer value is 0, becomes 0.
   */
  function ReverseSortPattern(p: Pattern): (r: Pattern)
    ensures |r| == |p|
    ensures forall i :: 0 <= i < |p| ==> r[i].field == p[i].field
    ensures forall i :: 0 <= i < |p| ==> r[i].value == Num(if p[i].value.Num? then -p[i].value.n else 0)
  {
    seq(|p|, i requires 0 <= i < |p| =>
      PatternElem(p[i].field, Num(if p[i].value.Num? then -p[i].value.n else 0)))
  }

  /** A sort on numbers only, reversed twice, is itself again. */
  lemma ReverseSortPatternTwice(p: Pattern)
    requires forall i :: 0 <= i < |p| ==> p[i].value.Num?
    ensures ReverseSortPattern(ReverseSortPattern(p)) == p
  {
    var r := ReverseSortPattern(ReverseSortPattern(p));
    assert forall i :: 0 <= i < |p| ==> r[i] == p[i];
  }

  /** Reversal distributes over prefixes: a prefix of `p` reverses to a prefix of its reversal. */
  lemma ReversePrefix(a: Pattern, b: Pattern)
    requires IsPrefixOf(a, b)
    ensures IsPrefixOf(ReverseSortPattern(a), ReverseSortPattern(b))
  {
    var ra, rb := ReverseSortPattern(a), ReverseSortPattern(b);
    assert forall i :: 0 <= i < |a| ==> ra[i] == rb[i] by {
      forall i | 0 <= i < |a|
        ensures ra[i] == rb[i]
      {
        assert a[i] == b[i];
      }
    }
  }

  /**
   * `getSortPattern`: the key pattern's elements up to its first string
   * (a special index type ends the sortable part), each turned into 1 when
   * its number is non-negative and -1 otherwise.
   */
  function GetSortPattern(keyPattern: Pattern): (r: Pattern)
    ensures |r| <= |keyPattern|
    ensures |r| < |keyPattern| ==> keyPattern[|r|].value.Str?
    ensures forall i :: 0 <= i < |r| ==>
      keyPattern[i].value.Num?
      && r[i] == PatternElem(keyPattern[i].field, Num(if keyPattern[i].value.n >= 0 then 1 else -1))
    decreases |keyPattern|
  {
    if |keyPattern| == 0 || keyPattern[0].value.Str? then []
    else
      [PatternElem(keyPattern[0].field, Num(if keyPattern[0].value.n >= 0 then 1 else -1))]
        + GetSortPattern(keyPattern[1..])
  }

  /** A sort pattern is its own sort pattern. */
  lemma {:induction false} GetSortPatternIdempotent(keyPattern: Pattern)
    ensures GetSortPattern(GetSortPattern(keyPattern)) == GetSortPattern(keyPattern)
    decreases |keyPattern|
  {
    if |keyPattern| > 0 && keyPattern[0].value.Num? {
      var s := GetSortPattern(keyPattern);
      GetSortPatternIdempotent(keyPattern[1..]);
      assert s[1..] == GetSortPattern(keyPattern[1..]);
    }
  }
}

=== FILE: kv_catalog.dfy ===
/**
 * The storage-engine catalog's naming and bookkeeping: escaping database
 * names for directory-per-database layouts, generating unique idents,
 * classifying idents, and the in-memory map from namespace to entry with
 * its add, remove, replace and rename operations.
 */
module KvCatalog {
  import opened Wrappers
  import Decimal
  import opened MachineInt

  /** Bytes `escapeDbName` keeps as they are: letters, digits, '.' and '_'. */
  predicate IsKept(c: byte) {
    (65 <= c <= 90) || (97 <= c <= 122) || (48 <= c <= 57) || c == 46 || c == 95
  }

  /** The characters an escaped name is made of. */
  predicate IsEscapedChar(ch: char) {
    ('A' <= ch <= 'Z') || ('a' <= ch <= 'z') || ('0' <= ch <= '9') || ch == '.' || ch == '_'
  }

  /** The decimal digits of an escaped byte, zero-filled to at least two. */
  function EscapeDigits(c: byte): (d: string)
    ensures |d| == (if c < 100 then 2 else 3)
    ensures forall i :: 0 <= i < |d| ==> Decimal.IsDigit(d[i])
    ensures Decimal.DigitsValue(d) == c as int
  {
    var n := c as nat;
    DigitsValueOfDigits(n);
    if n < 100 then [Decimal.DigitChar(n / 10), Decimal.DigitChar(n % 10)]
    else [Decimal.DigitChar(n / 100), Decimal.DigitChar(n / 10 % 10), Decimal.DigitChar(n % 10)]
  }

  lemma DigitsValueOfDigits(n: nat)
    requires n < 256
    ensures n < 100 ==> Decimal.DigitsValue([Decimal.DigitChar(n / 10), Decimal.DigitChar(n % 10)]) == n
    ensures n >= 100 ==> Decimal.DigitsValue([Decimal.DigitChar(n / 100), Decimal.DigitChar(n / 10 % 10), Decimal.DigitChar(n % 10)]) == n
  {
    if n < 100 {
      TwoDigitsValue(n);
    } else {
      ThreeDigitsValue(n);
    }
  }

  lemma TwoDigitsValue(n: nat)
    requires n < 100
    ensures Decimal.DigitsValue([Decimal.DigitChar(n / 10), Decimal.DigitChar(n % 10)]) == n
  {
    var a, b := Decimal.DigitChar(n / 10), Decimal.DigitChar(n % 10);
    Decimal.DigitRoundTrip(n % 10);
    Decimal.DigitRoundTrip(n / 10);
    SingleDigitValue(a);
    assert [a, b][..1] == [a];
    assert Decimal.DigitsValue([a, b]) == Decimal.DigitsValue([a]) * 10 + Decimal.DigitValue(b);
  }

  lemma ThreeDigitsValue(n: nat)
    requires 100 <= n < 256
    ensures Decimal.DigitsValue([Decimal.DigitChar(n / 100), Decimal.DigitChar(n / 10 % 10), Decimal.DigitChar(n % 10)]) == n
  {
    var a, b, d := Decimal.DigitChar(n / 100), Decimal.DigitChar(n / 10 % 10), Decimal.DigitChar(n % 10);
    Decimal.DigitRoundTrip(n % 10);
    Decimal.DigitRoundTrip(n / 10 % 10);
    Decimal.DigitRoundTrip(n / 100);
    SingleDigitValue(a);
    assert [a, b][..1] == [a];
    assert Decimal.DigitsValue([a, b]) == Decimal.DigitsValue([a]) * 10 + Decimal.DigitValue(b);
    assert [a, b, d][..2] == [a, b];
    assert Decimal.DigitsValue([a, b, d]) == Decimal.DigitsValue([a, b]) * 10 + Decimal.DigitValue(d);
  }

  lemma SingleDigitValue(a: char)
    requires Decimal.IsDigit(a)
    ensures Decimal.DigitsValue([a]) == Decimal.DigitValue(a)
  {
    assert [a][..0] == [];
  }

  /**
   * One entry of `escapeTable`: a kept byte stands for itself; any other is
   * '.' followed by its decimal value, zero-filled to at least two digits.
   */
  function EscapeByte(c: byte): (e: string)
    ensures IsKept(c) ==> e == [c as int as char]
    ensures !IsKept(c) ==> |e| >= 3 && e[0] == '.' && e[1..] == EscapeDigits(c)
    ensures forall i :: 0 <= i < |e| ==> IsEscapedChar(e[i])
  {
    if IsKept(c) then [c as int as char] else "." + EscapeDigits(c)
  }

  /** The table's entries at the boundaries of its runs: control bytes, punctuation, digits. */
  lemma EscapeTableLowRuns()
    ensures EscapeByte(0) == ".00" && EscapeByte(9) == ".09" && EscapeByte(45) == ".45"
    ensures EscapeByte(46) == "." && EscapeByte(47) == ".47" && EscapeByte(48) == "0"
  {
  }

  /** The table's entries at the boundaries of its runs: letters and what lies between them. */
  lemma EscapeTableHighRuns()
    ensures EscapeByte(58) == ".58" && EscapeByte(64) == ".64" && EscapeByte(91) == ".91"
    ensures EscapeByte(95) == "_" && EscapeByte(96) == ".96" && EscapeByte(123) == ".123"
    ensures EscapeByte(255) == ".255"
  {
    EscapePunctuationRuns();
    EscapeUnderscoreRun();
    EscapeTopRun();
  }

  lemma EscapePunctuationRuns()
    ensures EscapeByte(58) == ".58" && EscapeByte(64) == ".64" && EscapeByte(91) == ".91"
  {
  }

  lemma EscapeUnderscoreRun()
    ensures EscapeByte(95) == "_" && EscapeByte(96) == ".96"
  {
  }

  lemma EscapeTopRun()
    ensures EscapeByte(123) == ".123" && EscapeByte(255) == ".255"
  {
  }

  /** `escapeDbName`: each byte replaced by its table entry. */
  function EscapeDbName(db: seq<byte>): (e: string)
    ensures |e| >= |db|
    ensures |e| == |db| <==> forall i :: 0 <= i < |db| ==> IsKept(db[i])
    ensures forall i :: 0 <= i < |e| ==> IsEscapedChar(e[i])
    decreases |db|
  {
    if |db| == 0 then "" else EscapeDbName(db[..|db| - 1]) + EscapeByte(db[|db| - 1])
  }

  /** The bytes of a name, read as characters. */
  function AsChars(db: seq<byte>): (s: string)
    ensures |s| == |db|
  {
    if |db| == 0 then "" else AsChars(db[..|db| - 1]) + [db[|db| - 1] as int as char]
  }

  /** A name made only of kept bytes escapes to itself, and only such a name does. */
  lemma {:induction false} EscapeIdentityIffKept(db: seq<byte>)
    ensures EscapeDbName(db) == AsChars(db) <==> forall i :: 0 <= i < |db| ==> IsKept(db[i])
    decreases |db|
  {
    if |db| > 0 {
      EscapeIdentityIffKept(db[..|db| - 1]);
      if (forall i :: 0 <= i < |db| ==> IsKept(db[i])) {
        var init := db[..|db| - 1];
        assert forall i :: 0 <= i < |init| ==> IsKept(init[i]);
      }
    }
  }

  /** Escaping is a homomorphism of concatenation. */
  lemma {:induction false} EscapeAppend(a: seq<byte>, b: seq<byte>)
    ensures EscapeDbName(a + b) == EscapeDbName(a) + EscapeDbName(b)
    decreases |b|
  {
    if |b| == 0 {
      assert a + b == a;
    } else {
      var init, last := b[..|b| - 1], b[|b| - 1];
      assert b == init + [last];
      assert a + b == (a + init) + [last];
      EscapeAppend(a, init);
      EscapeSnoc(a + init, last);
      EscapeSnoc(init, last);
      AppendAssoc(EscapeDbName(a), EscapeDbName(init), EscapeByte(last));
    }
  }

  lemma EscapeSnoc(init: seq<byte>, last: byte)
    ensures EscapeDbName(init + [last]) == EscapeDbName(init) + EscapeByte(last)
  {
    assert (init + [last])[..|init|] == init;
  }

  lemma AppendAssoc(x: string, y: string, z: string)
    ensures (x + y) + z == x + (y + z)
  {
  }

  /**
   * Escaping is not one-to-one: "db.123", "db\x0c3" and "db{" all escape to
   * "db.123". (The comment above the table names "db\073" as the third,
   * but octal 073 is ';', which escapes to "db.59".)
   */
  lemma EscapeCollisions()
    ensures EscapeDbName([100, 98, 46, 49, 50, 51]) == "db.123"
    ensures EscapeDbName([100, 98, 12, 51]) == "db.123"
    ensures EscapeDbName([100, 98, 123]) == "db.123"
    ensures EscapeDbName([100, 98, 59]) == "db.59"
  {
    EscapeDb();
    CollisionDotted();
    CollisionFormFeed();
    CollisionBrace();
    EscapeSemicolon();
  }

  lemma CollisionDotted()
    ensures EscapeDbName([100, 98, 46, 49, 50, 51]) == "db.123"
  {
    EscapeDb();
    EscapeDotted();
    EscapeAppend([100, 98], [46, 49, 50, 51]);
    assert [100 as byte, 98] + [46, 49, 50, 51] == [100, 98, 46, 49, 50, 51];
  }

  lemma CollisionFormFeed()
    ensures EscapeDbName([100, 98, 12, 51]) == "db.123"
  {
    EscapeDb();
    EscapeFormFeedThree();
    EscapeAppend([100, 98], [12, 51]);
    assert [100 as byte, 98] + [12, 51] == [100, 98, 12, 51];
  }

  lemma CollisionBrace()
    ensures EscapeDbName([100, 98, 123]) == "db.123"
  {
    var db: seq<byte>, brace: byte := [100, 98], 123;
    EscapeDb();
    EscapeTopRun();
    EscapeSnoc(db, brace);
    assert db + [brace] == [100, 98, 123];
  }

  lemma EscapeSemicolon()
    ensures EscapeDbName([100, 98, 59]) == "db.59"
  {
    EscapeDb();
    EscapeSingle(59);
    EscapeAppend([100, 98], [59]);
    assert [100 as byte, 98] + [59] == [100, 98, 59];
  }

  lemma EscapeDb()
    ensures EscapeDbName([100, 98]) == "db"
  {
    EscapeSingle(100);
    EscapeSingle(98);
    EscapeAppend([100], [98]);
    assert [100 as byte] + [98 as byte] == [100, 98];
  }

  lemma EscapeDotted()
    ensures EscapeDbName([46, 49, 50, 51]) == ".123"
  {
    EscapeSingle(46);
    EscapeSingle(49);
    EscapeSingle(50);
    EscapeSingle(51);
    EscapeAppend([46], [49]);
    assert [46 as byte] + [49 as byte] == [46, 49];
    EscapeAppend([46, 49], [50]);
    assert [46, 49] + [50 as byte] == [46, 49, 50];
    EscapeAppend([46, 49, 50], [51]);
    assert [46, 49, 50] + [51 as byte] == [46, 49, 50, 51];
  }

  lemma EscapeFormFeedThree()
    ensures EscapeDbName([12, 51]) == ".123"
  {
    EscapeSingle(12);
    EscapeSingle(51);
    EscapeAppend([12], [51]);
    assert [12 as byte] + [51 as byte] == [12, 51];
  }

  lemma EscapeSingle(c: byte)
    ensures EscapeDbName([c]) == EscapeByte(c)
  {
    assert [c][..0] == [];
  }

  // ---------------------------------------------------------------------
  // Idents
  // ---------------------------------------------------------------------

  /** The catalog's layout options, its ident counter `_next` and the random suffix `_rand`. */
  datatype IdentState = IdentState(directoryPerDb: bool, directoryForIndexes: bool, next: nat, rand: string)

  const INTERNAL_IDENT_PREFIX: string := "internal-"

  /** `_newRand`: the decimal rendering of a random signed 64-bit number. */
  function RandSuffix(r: int): string {
    Decimal.IntToString(r)
  }

  /**
   * `newInternalIdent`: "internal-", the counter, '-', the random suffix; the
   * counter moves on by one.
   */
  function NewInternalIdent(st: IdentState): (out: (string, IdentState))
    ensures out.1 == st.(next := st.next + 1)
    ensures IsPrefix(INTERNAL_IDENT_PREFIX, out.0)
    ensures out.0 == INTERNAL_IDENT_PREFIX + Decimal.NatToString(st.next) + "-" + st.rand
  {
    var ident := INTERNAL_IDENT_PREFIX + Decimal.NatToString(st.next) + "-" + st.rand;
    assert ident[..|INTERNAL_IDENT_PREFIX|] == INTERNAL_IDENT_PREFIX;
    (ident, st.(next := st.next + 1))
  }

  /** The part of a unique ident before the counter. */
  function IdentStem(st: IdentState, db: seq<byte>, kind: string): string {
    (if st.directoryPerDb then EscapeDbName(db) + "/" else "") + kind + (if st.directoryForIndexes then "/" else "-")
  }

  /**
   * `_newUniqueIdent`: with a directory per database, the escaped database
   * name and '/'; then the kind, '/' or '-' by the index-directory option,
   * the counter, '-' and the random suffix. The counter moves on by one.
   */
  function NewUniqueIdent(st: IdentState, db: seq<byte>, kind: string): (out: (string, IdentState))
    ensures out.1 == st.(next := st.next + 1)
    ensures out.0 == IdentStem(st, db, kind) + Decimal.NatToString(st.next) + "-" + st.rand
  {
    (IdentStem(st, db, kind) + Decimal.NatToString(st.next) + "-" + st.rand, st.(next := st.next + 1))
  }

  predicate IsPrefix(p: string, s: string) {
    |p| <= |s| && s[..|p|] == p
  }

  predicate OccursAt(s: string, sub: string, i: int) {
    0 <= i <= |s| - |sub| && s[i..i + |sub|] == sub
  }

  /** `ident.find(sub) != npos`. */
  predicate Contains(s: string, sub: string) {
    exists i | 0 <= i <= |s| :: OccursAt(s, sub, i)
  }

  /** `isUserDataIdent`: a collection or index ident in either layout. */
  predicate IsUserDataIdent(ident: string) {
    Contains(ident, "index-") || Contains(ident, "index/")
    || Contains(ident, "collection-") || Contains(ident, "collection/")
  }

  /** `isInternalIdent`. */
  predicate IsInternalIdent(ident: string) {
    Contains(ident, INTERNAL_IDENT_PREFIX)
  }

  /** `isCollectionIdent`. */
  predicate IsCollectionIdent(ident: string) {
    Contains(ident, "collection-") || Contains(ident, "collection/")
  }

  lemma ContainsAt(s: string, sub: string, i: nat)
    requires i + |sub| <= |s| && s[i..i + |sub|] == sub
    ensures Contains(s, sub)
  {
    assert OccursAt(s, sub, i);
  }

  /** A string lacking one of `sub`'s characters cannot contain `sub`. */
  lemma MissingCharNotContained(s: string, sub: string, k: nat)
    requires k < |sub|
    requires forall i :: 0 <= i < |s| ==> s[i] != sub[k]
    ensures !Contains(s, sub)
  {
    forall i | 0 <= i <= |s| - |sub|
      ensures !OccursAt(s, sub, i)
    {
      assert s[i..i + |sub|][k] == s[i + k];
    }
  }

  /** A generated collection ident is classified as a collection and as user data. */
  lemma CollectionIdentClassified(st: IdentState, db: seq<byte>)
    ensures IsCollectionIdent(NewUniqueIdent(st, db, "collection").0)
    ensures IsUserDataIdent(NewUniqueIdent(st, db, "collection").0)
  {
    var prefix := if st.directoryPerDb then EscapeDbName(db) + "/" else "";
    var sep := if st.directoryForIndexes then "/" else "-";
    var rest := Decimal.NatToString(st.next) + "-" + st.rand;
    var ident := NewUniqueIdent(st, db, "collection").0;
    assert ident == prefix + ("collection" + sep) + rest;
    var i := |prefix|;
    assert ident[i..i + 11] == "collection" + sep;
    if st.directoryForIndexes {
      ContainsAt(ident, "collection/", i);
    } else {
      ContainsAt(ident, "collection-", i);
    }
  }

  /** Only decimal digits, '-' and the letters of "internal" make up an internal ident. */
  predicate InternalIdentChar(ch: char) {
    ('0' <= ch <= '9') || ch == '-' || ch in "internal"
  }

  /**
   * A generated internal ident is internal and, since it has no 'c' and no
   * 'x', neither a collection ident nor user data: internal idents are not
   * candidates for orphan recovery.
   */
  lemma InternalIdentClassified(st: IdentState, r: int)
    requires st.rand == RandSuffix(r)
    ensures IsInternalIdent(NewInternalIdent(st).0)
    ensures !IsCollectionIdent(NewInternalIdent(st).0)
    ensures !IsUserDataIdent(NewInternalIdent(st).0)
  {
    var ident := NewInternalIdent(st).0;
    ContainsAt(ident, INTERNAL_IDENT_PREFIX, 0);
    InternalIdentChars(st, r);
    MissingCharNotContained(ident, "collection-", 0);
    MissingCharNotContained(ident, "collection/", 0);
    MissingCharNotContained(ident, "index-", 4);
    MissingCharNotContained(ident, "index/", 4);
  }

  /** Every character of a generated internal ident is an `InternalIdentChar`. */
  lemma InternalIdentChars(st: IdentState, r: int)
    requires st.rand == RandSuffix(r)
    ensures forall i :: 0 <= i < |NewInternalIdent(st).0| ==> InternalIdentChar(NewInternalIdent(st).0[i])
  {
    var ident := NewInternalIdent(st).0;
    var digits := Decimal.NatToString(st.next);
    var rand := Decimal.IntToString(r);
    RandSuffixChars(r);
    assert ident == INTERNAL_IDENT_PREFIX + digits + "-" + rand;
    forall i | 0 <= i < |ident|
      ensures InternalIdentChar(ident[i])
    {
      if i < 9 {
        assert ident[i] == INTERNAL_IDENT_PREFIX[i];
      } else if i < 9 + |digits| {
        assert ident[i] == digits[i - 9];
      } else if i == 9 + |digits| {
      } else {
        assert ident[i] == rand[i - 10 - |digits|];
      }
    }
  }

  lemma RandSuffixChars(r: int)
    ensures forall i :: 0 <= i < |Decimal.IntToString(r)| ==> InternalIdentChar(Decimal.IntToString(r)[i])
  {
    if r < 0 {
      assert Decimal.IntToString(r) == "-" + Decimal.NatToString(-r);
    }
  }

  // ---------------------------------------------------------------------
  // The namespace-to-entry map
  // ---------------------------------------------------------------------

  /** A record id; 0 is the null id. */
  type RecordId = nat

  /** `Entry`: the ident and the catalog record it is stored in. The default entry is empty. */
  datatype Entry = Entry(ident: string, storedLoc: RecordId)

  const EMPTY_ENTRY: Entry := Entry("", 0)

  datatype Status = OK | NamespaceExists | NamespaceNotFound | StorageError(code: int)

  datatype Catalog = Catalog(idents: map<string, Entry>, identState: IdentState)

  /** `_idents[ns]`: the entry, or a default (empty) entry when there is none. */
  function Lookup(m: map<string, Entry>, ns: string): (e: Entry)
    ensures ns !in m ==> e == EMPTY_ENTRY
    ensures ns in m ==> e == m[ns]
  {
    if ns in m then m[ns] else EMPTY_ENTRY
  }

  /** A namespace: its database and the full "db.collection" name used as the key. */
  datatype Namespace = Namespace(db: seq<byte>, ns: string)

  /**
   * `_addEntry`: a fresh collection ident is drawn first (so the counter
   * moves on even when the add fails); looking the namespace up inserts an
   * empty entry; a non-empty one means NamespaceExists; a failed record
   * insert returns its error with the empty entry left for rollback to
   * erase; otherwise the entry records the ident and the new record.
   */
  function AddEntry(c: Catalog, nss: Namespace, insert: Result<RecordId, Status>): (out: (Status, Catalog))
    requires insert.Err? ==> insert.error != OK
    ensures out.1.identState == c.identState.(next := c.identState.next + 1)
    ensures Lookup(c.idents, nss.ns).ident != "" ==> out.0 == NamespaceExists && out.1.idents == c.idents
    ensures Lookup(c.idents, nss.ns).ident == "" && insert.Err? ==>
      out.0 == insert.error && out.1.idents == c.idents[nss.ns := Lookup(c.idents, nss.ns)]
      && out.1.idents[nss.ns].ident == ""
    ensures Lookup(c.idents, nss.ns).ident == "" && insert.Ok? ==>
      out.0 == OK && out.1.idents == c.idents[nss.ns := Entry(NewUniqueIdent(c.identState, nss.db, "collection").0, insert.value)]
  {
    var (ident, st) := NewUniqueIdent(c.identState, nss.db, "collection");
    var idents := c.idents[nss.ns := Lookup(c.idents, nss.ns)];
    if idents[nss.ns].ident != "" then
      (NamespaceExists, Catalog(idents, st))
    else
      match insert
      case Err(e) => (e, Catalog(idents, st))
      case Ok(rid) => (OK, Catalog(idents[nss.ns := Entry(ident, rid)], st))
  }

  /** `AddIdentChange::rollback`: the namespace is erased. */
  function RollbackAdd(c: Catalog, ns: string): (r: Catalog)
    ensures ns !in r.idents
    ensures forall k :: k in c.idents && k != ns ==> k in r.idents && r.idents[k] == c.idents[k]
    ensures forall k :: k in r.idents ==> k in c.idents
  {
    c.(idents := c.idents - {ns})
  }

  /** A successful add of a new namespace followed by its rollback leaves the map as it was. */
  lemma AddThenRollback(c: Catalog, nss: Namespace, rid: RecordId)
    requires nss.ns !in c.idents
    ensures RollbackAdd(AddEntry(c, nss, Ok(rid)).1, nss.ns).idents == c.idents
  {
  }

  /** `_removeEntry`: an absent namespace is NamespaceNotFound; a present one is erased. */
  function RemoveEntry(c: Catalog, ns: string): (out: (Status, Catalog))
    ensures out.0 == OK <==> ns in c.idents
    ensures out.0 != OK ==> out.0 == NamespaceNotFound && out.1 == c
    ensures out.1.identState == c.identState
    ensures ns !in out.1.idents
    ensures forall k :: k != ns ==> (k in out.1.idents <==> k in c.idents)
    ensures forall k :: k != ns && k in c.idents ==> out.1.idents[k] == c.idents[k]
  {
    if ns !in c.idents then (NamespaceNotFound, c) else (OK, c.(idents := c.idents - {ns}))
  }

  /** `RemoveIdentChange::rollback`: the removed entry is put back. */
  function RollbackRemove(c: Catalog, ns: string, e: Entry): (r: Catalog)
    ensures ns in r.idents && r.idents[ns] == e
  {
    c.(idents := c.idents[ns := e])
  }

  lemma RemoveThenRollback(c: Catalog, ns: string)
    requires ns in c.idents
    ensures RollbackRemove(RemoveEntry(c, ns).1, ns, c.idents[ns]).idents == c.idents
  {
  }

  /**
   * `_replaceEntry`: the entry under `from` moves to `to` with the same ident
   * and record. The ident is the in-memory entry's; the catalog record's
   * own copy of it is not modelled.
   */
  function ReplaceEntry(c: Catalog, from: string, dest: string): (r: Catalog)
    requires from in c.idents
    ensures dest in r.idents && r.idents[dest] == c.idents[from]
    ensures from != dest ==> from !in r.idents
    ensures forall k :: k != from && k != dest ==> (k in r.idents <==> k in c.idents)
    ensures forall k :: k != from && k != dest && k in c.idents ==> r.idents[k] == c.idents[k]
    ensures r.identState == c.identState
  {
    var e := c.idents[from];
    c.(idents := (c.idents - {from})[dest := Entry(e.ident, e.storedLoc)])
  }

  /**
   * `renameCollection`: the engine's refusal is returned unchanged;
   * otherwise the entry moves and the ident under the new name is the ident
   * the old name had.
   */
  function RenameCollection(c: Catalog, from: string, dest: string, okToRename: Status): (out: (Status, Catalog))
    requires from in c.idents
    ensures okToRename != OK ==> out == (okToRename, c)
    ensures okToRename == OK ==> out.0 == OK && out.1 == ReplaceEntry(c, from, dest)
    ensures out.0 == OK ==> dest in out.1.idents && out.1.idents[dest].ident == c.idents[from].ident
  {
    var identFrom := c.idents[from].ident;
    if okToRename != OK then (okToRename, c)
    else
      var c' := ReplaceEntry(c, from, dest);
      assert c'.idents[dest].ident == identFrom;
      (OK, c')
  }

  /** The idents the map holds. */
  function IdentsOf(m: map<string, Entry>): set<string> {
    set k | k in m :: m[k].ident
  }

  /** Renaming onto a fresh name keeps the set of idents. */
  lemma RenameKeepsIdents(c: Catalog, from: string, dest: string)
    requires from in c.idents && dest !in c.idents
    ensures IdentsOf(RenameCollection(c, from, dest, OK).1.idents) == IdentsOf(c.idents)
  {
    var r := RenameCollection(c, from, dest, OK).1;
    forall x | x in IdentsOf(c.idents)
      ensures x in IdentsOf(r.idents)
    {
      var k :| k in c.idents && c.idents[k].ident == x;
      if k == from {
        assert r.idents[dest].ident == x;
      } else {
        assert r.idents[k].ident == x;
      }
    }
    forall x | x in IdentsOf(r.idents)
      ensures x in IdentsOf(c.idents)
    {
      var k :| k in r.idents && r.idents[k].ident == x;
      if k == dest {
        assert c.idents[from].ident == x;
      } else {
        assert c.idents[k].ident == x;
      }
    }
  }
  // ---------------------------------------------------------------------
  // Lookups across the map's updates
  // ---------------------------------------------------------------------

  /**
   * After a successful add the namespace looks up to the new ident and
   * record; after any add, every other namespace looks up as before.
   */
  lemma LookupAfterAdd(c: Catalog, nss: Namespace, insert: Result<RecordId, Status>, other: string)
    requires insert.Err? ==> insert.error != OK
    requires other != nss.ns
    ensures var out := AddEntry(c, nss, insert);
      (out.0 == OK ==>
         insert.Ok?
         && Lookup(out.1.idents, nss.ns) == Entry(NewUniqueIdent(c.identState, nss.db, "collection").0, insert.value))
      && Lookup(out.1.idents, other) == Lookup(c.idents, other)
  {
  }

  /**
   * A failed add leaves the namespace looking up as it did: an existing
   * entry is kept, and a new namespace still reads as the empty entry.
   */
  lemma LookupAfterFailedAdd(c: Catalog, nss: Namespace, insert: Result<RecordId, Status>)
    requires insert.Err? ==> insert.error != OK
    requires AddEntry(c, nss, insert).0 != OK
    ensures Lookup(AddEntry(c, nss, insert).1.idents, nss.ns) == Lookup(c.idents, nss.ns)
  {
  }

  /** After a remove the namespace reads as the empty entry and every other one as before. */
  lemma LookupAfterRemove(c: Catalog, ns: string, other: string)
    requires other != ns
    ensures Lookup(RemoveEntry(c, ns).1.idents, ns) == EMPTY_ENTRY
    ensures Lookup(RemoveEntry(c, ns).1.idents, other) == Lookup(c.idents, other)
  {
  }

  /**
   * After a rename the new name reads as the old name's entry, the old
   * name reads as empty, and every other namespace as before.
   */
  lemma LookupAfterRename(c: Catalog, from: string, dest: string, other: string)
    requires from in c.idents && from != dest && other != from && other != dest
    ensures var r := RenameCollection(c, from, dest, OK).1;
      Lookup(r.idents, dest) == Lookup(c.idents, from)
      && Lookup(r.idents, from) == EMPTY_ENTRY
      && Lookup(r.idents, other) == Lookup(c.idents, other)
  {
  }
}

=== FILE: kv_feature_tracker.dfy ===
/**
 * The feature tracker of the storage-engine catalog: two 64-bit masks of
 * features the data files use, the operations that set and clear them, the
 * compatibility check against the features this binary knows, and the
 * rendering of unknown bit positions into the error message.
 *
 * A `uint64_t` mask is modelled as its 64 bits, least significant first, so
 * `&`, `|` and `~` act bit by bit.
 */
module KvFeatureTracker {
  import opened Wrappers
  import Decimal
  import opened MachineInt

  const WIDTH: nat := 64

  /** `n` clear bits. */
  function Zeros(n: nat): (r: seq<bool>)
    ensures |r| == n
    ensures forall i :: 0 <= i < n ==> !r[i]
  {
    if n == 0 then [] else [false] + Zeros(n - 1)
  }

  type Mask = m: seq<bool> | |m| == 64 witness Zeros(64)

  const ZERO: Mask := Zeros(64)

  function And(a: Mask, b: Mask): (r: Mask)
    ensures forall i :: 0 <= i < WIDTH ==> r[i] == (a[i] && b[i])
  {
    seq(WIDTH, i requires 0 <= i < WIDTH => a[i] && b[i])
  }

  function Or(a: Mask, b: Mask): (r: Mask)
    ensures forall i :: 0 <= i < WIDTH ==> r[i] == (a[i] || b[i])
  {
    seq(WIDTH, i requires 0 <= i < WIDTH => a[i] || b[i])
  }

  function Not(a: Mask): (r: Mask)
    ensures forall i :: 0 <= i < WIDTH ==> r[i] == !a[i]
  {
    seq(WIDTH, i requires 0 <= i < WIDTH => !a[i])
  }

  /** A mask tests true in C when some bit is set. */
  predicate NonZero(m: Mask) {
    exists i :: 0 <= i < WIDTH && m[i]
  }

  // ---------------------------------------------------------------------
  // Bit positions and `appendPositionsOfBitsSet`
  // ---------------------------------------------------------------------

  /** The positions of the set bits of `m` at or above `from`, ascending. */
  function PositionsFrom(m: Mask, from: nat): (ps: seq<nat>)
    requires from <= WIDTH
    decreases WIDTH - from
  {
    if from == WIDTH then [] else (if m[from] then [from] else []) + PositionsFrom(m, from + 1)
  }

  /** The set bit positions of `m`, lowest first. */
  function Positions(m: Mask): seq<nat> {
    PositionsFrom(m, 0)
  }

  /**
   * The text after `"[ "` and the positions `ps`, `", "`-separated, have been
   * streamed into the builder.
   */
  function Streamed(ps: seq<nat>): string
    decreases |ps|
  {
    if |ps| == 0 then "[ "
    else Streamed(ps[..|ps| - 1]) + (if |ps| > 1 then ", " else "") + Decimal.NatToString(ps[|ps| - 1])
  }

  /** The text `appendPositionsOfBitsSet` appends: `[ ` positions `, `-separated ` ]`. */
  function PositionsText(m: Mask): string {
    Streamed(Positions(m)) + " ]"
  }

  /** One round of the loop extends the text by one position. */
  lemma StreamedSnoc(ps: seq<nat>, p: nat)
    ensures Streamed(ps + [p]) == Streamed(ps) + (if |ps| > 0 then ", " else "") + Decimal.NatToString(p)
  {
    assert (ps + [p])[..|ps|] == ps;
  }

  lemma {:induction false} PositionsFromInRange(m: Mask, from: nat)
    requires from <= WIDTH
    ensures forall k :: 0 <= k < |PositionsFrom(m, from)| ==>
      from <= PositionsFrom(m, from)[k] < WIDTH && m[PositionsFrom(m, from)[k]]
    decreases WIDTH - from
  {
    if from < WIDTH {
      PositionsFromInRange(m, from + 1);
    }
  }

  lemma {:induction false} PositionsFromIncreasing(m: Mask, from: nat)
    requires from <= WIDTH
    ensures forall k, l :: 0 <= k < l < |PositionsFrom(m, from)| ==>
      PositionsFrom(m, from)[k] < PositionsFrom(m, from)[l]
    decreases WIDTH - from
  {
    if from < WIDTH {
      PositionsFromIncreasing(m, from + 1);
      PositionsFromInRange(m, from + 1);
      var rest := PositionsFrom(m, from + 1);
      if m[from] {
        var ps := PositionsFrom(m, from);
        assert ps == [from] + rest;
        forall k, l | 0 <= k < l < |ps|
          ensures ps[k] < ps[l]
        {
          if k == 0 {
            assert ps[l] == rest[l - 1];
          } else {
            assert ps[k] == rest[k - 1] && ps[l] == rest[l - 1];
          }
        }
      }
    }
  }

  lemma {:induction false} PositionsFromComplete(m: Mask, from: nat)
    requires from <= WIDTH
    ensures forall i :: from <= i < WIDTH && m[i] ==> i in PositionsFrom(m, from)
    decreases WIDTH - from
  {
    if from < WIDTH {
      PositionsFromComplete(m, from + 1);
    }
  }

  /** `Positions(m)` lists every set bit of `m` once, lowest first. */
  lemma PositionsAreSetBits(m: Mask)
    ensures forall k :: 0 <= k < |Positions(m)| ==> Positions(m)[k] < WIDTH && m[Positions(m)[k]]
    ensures forall k, l :: 0 <= k < l < |Positions(m)| ==> Positions(m)[k] < Positions(m)[l]
    ensures forall i :: 0 <= i < WIDTH && m[i] ==> i in Positions(m)
  {
    PositionsFromInRange(m, 0);
    PositionsFromIncreasing(m, 0);
    PositionsFromComplete(m, 0);
  }

  lemma {:induction false} PositionsFromClearBelow(m: Mask, from: nat, p: nat)
    requires from <= WIDTH && p < from
    ensures PositionsFrom(m[p := false], from) == PositionsFrom(m, from)
    decreases WIDTH - from
  {
    if from < WIDTH {
      PositionsFromClearBelow(m, from + 1, p);
    }
  }

  lemma {:induction false} PositionsFromSkipClear(m: Mask, from: nat, upTo: nat)
    requires from <= upTo <= WIDTH
    requires forall i :: from <= i < upTo ==> !m[i]
    ensures PositionsFrom(m, from) == PositionsFrom(m, upTo)
    decreases upTo - from
  {
    if from < upTo {
      PositionsFromSkipClear(m, from + 1, upTo);
    }
  }

  /** `countTrailingZeros64`: the lowest set bit of a non-zero mask. */
  function LowestSetBit(m: Mask): (p: nat)
    requires NonZero(m)
    ensures p < WIDTH && m[p]
    ensures forall i :: 0 <= i < p ==> !m[i]
    ensures |Positions(m)| > 0 && Positions(m)[0] == p
  {
    var p := LowestFrom(m, 0);
    PositionsFromSkipClear(m, 0, p);
    p
  }

  function LowestFrom(m: Mask, from: nat): (p: nat)
    requires from <= WIDTH
    requires exists i :: from <= i < WIDTH && m[i]
    requires forall i :: 0 <= i < from ==> !m[i]
    ensures from <= p < WIDTH && m[p]
    ensures forall i :: 0 <= i < p ==> !m[i]
    decreases WIDTH - from
  {
    if m[from] then from else LowestFrom(m, from + 1)
  }

  /** Clearing the lowest set bit (`value ^= 1ULL << p`) drops the first position. */
  lemma ClearLowest(m: Mask, p: nat)
    requires NonZero(m) && p == LowestSetBit(m)
    ensures Positions(m[p := false]) == Positions(m)[1..]
  {
    ClearLowestFrom(m, 0, p);
  }

  /** From any start below the lowest set bit `p`, that bit comes first, and clearing it drops just it. */
  lemma {:induction false} ClearLowestFrom(m: Mask, from: nat, p: nat)
    requires from <= p < WIDTH && m[p]
    requires forall i :: from <= i < p ==> !m[i]
    ensures PositionsFrom(m, from) == [p] + PositionsFrom(m, p + 1)
    ensures PositionsFrom(m[p := false], from) == PositionsFrom(m, p + 1)
    decreases p - from
  {
    if from < p {
      ClearLowestFrom(m, from + 1, p);
    } else {
      PositionsFromClearBelow(m, p + 1, p);
    }
  }

  lemma NoPositionsIsZero(m: Mask)
    ensures |Positions(m)| == 0 <==> !NonZero(m)
  {
    if NonZero(m) {
      var p := LowestSetBit(m);
    } else {
      PositionsFromSkipClear(m, 0, WIDTH);
    }
  }

  /**
   * `appendPositionsOfBitsSet`, loop for loop: repeatedly take the lowest set
   * bit, print its position, clear it. The text is the reference rendering:
   * every set bit once, in increasing order.
   */
  method AppendPositionsOfBitsSet(value: Mask) returns (sb: string)
    ensures sb == PositionsText(value)
  {
    sb := "[ ";
    var firstIteration := true;
    var v := value;
    ghost var emitted: seq<nat> := [];
    NoPositionsIsZero(v);
    while NonZero(v)
      invariant LoopInvariant(value, v, emitted, sb, firstIteration)
      decreases |Positions(v)|
    {
      var lowest := LowestSetBit(v);
      var digits := Decimal.NatToString(lowest);
      LoopStep(value, v, emitted, sb, firstIteration);
      ghost var before := sb;
      if !firstIteration {
        sb := sb + ", ";
      }
      sb := sb + digits;
      assert sb == before + (if firstIteration then "" else ", ") + digits;
      emitted := emitted + [lowest];
      v := v[lowest := false];
      firstIteration := false;
    }
    NoPositionsIsZero(v);
    assert Positions(value) == emitted + [] == emitted;
    sb := sb + " ]";
  }

  /** What holds before each round of `appendPositionsOfBitsSet`'s loop. */
  predicate LoopInvariant(value: Mask, v: Mask, emitted: seq<nat>, sb: string, first: bool) {
    Positions(value) == emitted + Positions(v)
    && sb == Streamed(emitted)
    && (first <==> |emitted| == 0)
  }

  lemma LoopStep(value: Mask, v: Mask, emitted: seq<nat>, sb: string, first: bool)
    requires NonZero(v) && LoopInvariant(value, v, emitted, sb, first)
    ensures LowestSetBit(v) < WIDTH
    ensures LoopInvariant(value, v[LowestSetBit(v) := false], emitted + [LowestSetBit(v)],
      sb + (if first then "" else ", ") + Decimal.NatToString(LowestSetBit(v)), false)
    ensures |Positions(v[LowestSetBit(v) := false])| < |Positions(v)|
  {
    var p := LowestSetBit(v);
    StreamedSnoc(emitted, p);
    ClearLowest(v, p);
    NextPositions(Positions(value), emitted, Positions(v), p);
  }

  lemma NextPositions(all: seq<nat>, emitted: seq<nat>, rest: seq<nat>, p: nat)
    requires all == emitted + rest && |rest| > 0 && rest[0] == p
    ensures all == (emitted + [p]) + rest[1..]
  {
    assert rest == [p] + rest[1..];
  }

  // ---------------------------------------------------------------------
  // Feature bits and the feature document
  // ---------------------------------------------------------------------

  datatype FeatureBits = FeatureBits(nonRepairable: Mask, repairable: Mask)

  const NO_FEATURES: FeatureBits := FeatureBits(ZERO, ZERO)

  datatype Status =
    | OK
    | MustUpgrade(reason: string)
    | CanRepairToDowngrade(reason: string)

  function UnrecognizedMessage(kind: string, unrecognized: Mask): string {
    "The data files use features not recognized by this version of mongod; the " + kind
    + " feature bits in positions " + PositionsText(unrecognized)
    + " aren't recognized by this version of mongod"
  }

  /**
   * `isCompatibleWithCurrentCode`: an unknown non-repairable bit demands an
   * upgrade; otherwise an unknown repairable bit allows repair to downgrade;
   * otherwise the files are compatible. The message lists the unknown bits.
   */
  function IsCompatibleWithCurrentCode(info: FeatureBits, usedNonRepairable: Mask, usedRepairable: Mask): (s: Status)
    ensures s == OK <==>
      (forall i :: 0 <= i < WIDTH && info.nonRepairable[i] ==> usedNonRepairable[i])
      && (forall i :: 0 <= i < WIDTH && info.repairable[i] ==> usedRepairable[i])
    ensures s.MustUpgrade? <==> exists i :: 0 <= i < WIDTH && info.nonRepairable[i] && !usedNonRepairable[i]
    ensures s.MustUpgrade? ==>
      s.reason == UnrecognizedMessage("NR", And(info.nonRepairable, Not(usedNonRepairable)))
    ensures s.CanRepairToDowngrade? ==>
      s.reason == UnrecognizedMessage("R", And(info.repairable, Not(usedRepairable)))
  {
    var unrecognizedNonRepairable := And(info.nonRepairable, Not(usedNonRepairable));
    var unrecognizedRepairable := And(info.repairable, Not(usedRepairable));
    UnrecognizedBits(info.nonRepairable, usedNonRepairable);
    UnrecognizedBits(info.repairable, usedRepairable);
    if NonZero(unrecognizedNonRepairable) then
      MustUpgrade(UnrecognizedMessage("NR", unrecognizedNonRepairable))
    else if NonZero(unrecognizedRepairable) then
      CanRepairToDowngrade(UnrecognizedMessage("R", unrecognizedRepairable))
    else
      OK
  }

  lemma UnrecognizedBits(a: Mask, b: Mask)
    ensures NonZero(And(a, Not(b))) <==> exists i :: 0 <= i < WIDTH && a[i] && !b[i]
  {
    if exists i :: 0 <= i < WIDTH && a[i] && !b[i] {
      var i :| 0 <= i < WIDTH && a[i] && !b[i];
      assert And(a, Not(b))[i];
    }
  }

  /** `is…FeatureInUse`: whether the bits of `feature` meet the stored mask. */
  predicate InUse(m: Mask, feature: Mask) {
    NonZero(And(m, feature))
  }

  /** A mask that holds every bit of a non-zero feature has the feature in use. */
  lemma CoveredFeatureInUse(m: Mask, feature: Mask)
    requires NonZero(feature)
    requires forall i :: 0 <= i < WIDTH && feature[i] ==> m[i]
    ensures InUse(m, feature)
  {
    var j :| 0 <= j < WIDTH && feature[j];
    assert And(m, feature)[j];
  }

  /** `mark…FeatureAsInUse`: `|=` the feature. */
  function MarkInUse(m: Mask, feature: Mask): (r: Mask)
    ensures NonZero(feature) ==> InUse(r, feature)
    ensures forall i :: 0 <= i < WIDTH && !feature[i] ==> r[i] == m[i]
    ensures forall i :: 0 <= i < WIDTH && feature[i] ==> r[i]
  {
    var r := Or(m, feature);
    if NonZero(feature) then CoveredFeatureInUse(r, feature); r else r
  }

  /** `mark…FeatureAsNotInUse`: `&= ~` the feature. */
  function MarkNotInUse(m: Mask, feature: Mask): (r: Mask)
    ensures !InUse(r, feature)
    ensures forall i :: 0 <= i < WIDTH && !feature[i] ==> r[i] == m[i]
  {
    And(m, Not(feature))
  }

  lemma MarkInUseIdempotent(m: Mask, feature: Mask)
    ensures MarkInUse(MarkInUse(m, feature), feature) == MarkInUse(m, feature)
  {
  }

  /** Marking a feature as not in use undoes marking it, for a feature that was unset. */
  lemma MarkThenUnmark(m: Mask, feature: Mask)
    requires !InUse(m, feature)
    ensures MarkNotInUse(MarkInUse(m, feature), feature) == m
  {
    var r := MarkNotInUse(MarkInUse(m, feature), feature);
    forall i | 0 <= i < WIDTH
      ensures r[i] == m[i]
    {
      assert And(m, feature)[i] == (m[i] && feature[i]);
    }
  }

  /** The unsigned value of bits listed least significant first. */
  function ValueOf(bits: seq<bool>): (v: nat)
    ensures v < Pow2(|bits|)
  {
    if |bits| == 0 then 0 else (if bits[0] then 1 else 0) + 2 * ValueOf(bits[1..])
  }

  /** The low `n` bits of `v`, least significant first. */
  function BitsOf(v: nat, n: nat): (bits: seq<bool>)
    ensures |bits| == n
  {
    if n == 0 then [] else [v % 2 == 1] + BitsOf(v / 2, n - 1)
  }

  function Pow2(n: nat): (r: nat)
    ensures r >= 1
  {
    if n == 0 then 1 else 2 * Pow2(n - 1)
  }

  lemma {:induction false} BitsOfValueOf(bits: seq<bool>)
    ensures BitsOf(ValueOf(bits), |bits|) == bits
    decreases |bits|
  {
    if |bits| > 0 {
      var v := ValueOf(bits);
      assert v % 2 == 1 <==> bits[0];
      assert v / 2 == ValueOf(bits[1..]);
      BitsOfValueOf(bits[1..]);
    }
  }

  /**
   * The stored feature document: whether its first field is a true
   * `isFeatureDoc` flag, and its two mask fields, each `None` when the field
   * is missing or is not a NumberLong.
   */
  datatype FeatureDocument = FeatureDocument(isFeatureDoc: bool, nonRepairable: Option<int>, repairable: Option<int>)

  /** A NumberLong holds a signed 64-bit value. */
  predicate ValidDocument(d: FeatureDocument) {
    (d.nonRepairable.Some? ==> IsInt64(d.nonRepairable.value))
    && (d.repairable.Some? ==> IsInt64(d.repairable.value))
  }

  const NON_REPAIRABLE_FIELD_FASSERT: nat := 40111
  const REPAIRABLE_FIELD_FASSERT: nat := 40112

  /** How `getInfo` brings the server down. */
  datatype InfoCrash = NotFeatureDocument | Fassert(id: nat)

  /** What `getInfo` returns: the feature bits, or a crash. */
  datatype InfoResult = Read(bits: FeatureBits) | Fatal(crash: InfoCrash)

  function MaskOfLong(l: int): Mask
    requires IsInt64(l)
  {
    BitsOf(ToUint64(l), WIDTH)
  }

  function LongOfMask(m: Mask): (l: int)
    ensures IsInt64(l)
  {
    assert Pow2(|m|) == TWO_POW_64 by { Pow2Width(); }
    WrapInt64(ValueOf(m))
  }

  lemma Pow2Width()
    ensures Pow2(WIDTH) == TWO_POW_64
  {
    assert Pow2(1) == 2;
    assert Pow2(2) == 4 by { Pow2Add(1, 1); }
    assert Pow2(4) == 16 by { Pow2Add(2, 2); }
    assert Pow2(8) == 256 by { Pow2Add(4, 4); }
    assert Pow2(16) == 0x1_0000 by { Pow2Add(8, 8); }
    assert Pow2(32) == 0x1_0000_0000 by { Pow2Add(16, 16); }
    Pow2Add(32, 32);
  }

  lemma {:induction false} Pow2Add(a: nat, b: nat)
    ensures Pow2(a + b) == Pow2(a) * Pow2(b)
    decreases a
  {
    if a > 0 {
      Pow2Add(a - 1, b);
    }
  }

  /** `putInfo`: the flag first, then the masks stored as `long long`. */
  function PutInfo(bits: FeatureBits): (d: FeatureDocument)
    ensures ValidDocument(d) && d.isFeatureDoc
    ensures d.nonRepairable.Some? && d.repairable.Some?
  {
    FeatureDocument(true, Some(LongOfMask(bits.nonRepairable)), Some(LongOfMask(bits.repairable)))
  }

  /**
   * `getInfo`: no feature document (a null record id) reads as no features.
   * A stored record that is not a feature document fails the invariant, a
   * missing or mistyped mask field is a fatal assertion (40111 for the
   * non-repairable field, checked first, then 40112), and otherwise the
   * stored longs are cast back to masks.
   */
  function GetInfo(doc: Option<FeatureDocument>): (r: InfoResult)
    requires doc.Some? ==> ValidDocument(doc.value)
    ensures doc.None? ==> r == Read(NO_FEATURES)
    ensures doc.Some? && !doc.value.isFeatureDoc ==> r == Fatal(NotFeatureDocument)
    ensures doc.Some? && doc.value.isFeatureDoc && doc.value.nonRepairable.None?
      ==> r == Fatal(Fassert(NON_REPAIRABLE_FIELD_FASSERT))
    ensures doc.Some? && doc.value.isFeatureDoc && doc.value.nonRepairable.Some? && doc.value.repairable.None?
      ==> r == Fatal(Fassert(REPAIRABLE_FIELD_FASSERT))
    ensures r.Read? <==> doc.None? || (doc.value.isFeatureDoc && doc.value.nonRepairable.Some? && doc.value.repairable.Some?)
  {
    match doc
    case None => Read(NO_FEATURES)
    case Some(d) =>
      if !d.isFeatureDoc then Fatal(NotFeatureDocument)
      else if d.nonRepairable.None? then Fatal(Fassert(NON_REPAIRABLE_FIELD_FASSERT))
      else if d.repairable.None? then Fatal(Fassert(REPAIRABLE_FIELD_FASSERT))
      else Read(FeatureBits(MaskOfLong(d.nonRepairable.value), MaskOfLong(d.repairable.value)))
  }

  lemma MaskLongRoundTrip(m: Mask)
    ensures MaskOfLong(LongOfMask(m)) == m
  {
    Pow2Width();
    BitsOfValueOf(m);
  }

  lemma {:induction false} ValueOfBitsOf(v: nat, n: nat)
    requires v < Pow2(n)
    ensures ValueOf(BitsOf(v, n)) == v
    decreases n
  {
    if n > 0 {
      var bits := BitsOf(v, n);
      assert bits[1..] == BitsOf(v / 2, n - 1);
      ValueOfBitsOf(v / 2, n - 1);
    }
  }

  lemma LongMaskRoundTrip(l: int)
    requires IsInt64(l)
    ensures LongOfMask(MaskOfLong(l)) == l
  {
    Pow2Width();
    ValueOfBitsOf(ToUint64(l), WIDTH);
  }

  /** What `putInfo` stores, `getInfo` reads back. */
  lemma PutThenGetInfo(bits: FeatureBits)
    ensures GetInfo(Some(PutInfo(bits))) == Read(bits)
  {
    MaskLongRoundTrip(bits.nonRepairable);
    MaskLongRoundTrip(bits.repairable);
  }

  /** Conversely, bits read from a feature document are stored as that same document. */
  lemma GetThenPutInfo(d: FeatureDocument)
    requires ValidDocument(d) && GetInfo(Some(d)).Read?
    ensures PutInfo(GetInfo(Some(d)).bits) == d
  {
    LongMaskRoundTrip(d.nonRepairable.value);
    LongMaskRoundTrip(d.repairable.value);
  }

  // ---------------------------------------------------------------------
  // The collation feature on collection creation
  // ---------------------------------------------------------------------

  /**
   * `createCollection`'s collation step AS WRITTEN: the collation feature is
   * marked only when the collection has a non-simple collation AND the
   * feature is already in use.
   */
  function CollationStepAsWritten(nonRepairable: Mask, collation: Mask, hasNonSimpleCollation: bool): Mask {
    if hasNonSimpleCollation && InUse(nonRepairable, collation) then MarkInUse(nonRepairable, collation)
    else nonRepairable
  }

  /** As written, a feature not yet in use stays out of use. */
  lemma CollationStepAsWrittenNeedsPriorUse(nonRepairable: Mask, collation: Mask, hasNonSimpleCollation: bool)
    requires !InUse(nonRepairable, collation)
    ensures CollationStepAsWritten(nonRepairable, collation, hasNonSimpleCollation) == nonRepairable
  {
  }

  /** Creating the first collection with a collation leaves the feature bit unset. */
  lemma CollationStepAsWrittenMissesFirstUse(collation: Mask)
    requires NonZero(collation)
    ensures !InUse(CollationStepAsWritten(ZERO, collation, true), collation)
  {
    assert !InUse(ZERO, collation) by {
      assert forall i :: 0 <= i < WIDTH ==> !And(ZERO, collation)[i];
    }
  }

  /**
   * The intended step: a collection with a non-simple collation leaves the
   * collation feature in use; one without changes nothing.
   */
  function CollationStep(nonRepairable: Mask, collation: Mask, hasNonSimpleCollation: bool): (r: Mask)
    ensures hasNonSimpleCollation && NonZero(collation) ==> InUse(r, collation)
    ensures !hasNonSimpleCollation ==> r == nonRepairable
    ensures forall i :: 0 <= i < WIDTH && !collation[i] ==> r[i] == nonRepairable[i]
  {
    if hasNonSimpleCollation && !InUse(nonRepairable, collation) then MarkInUse(nonRepairable, collation)
    else nonRepairable
  }

  /** With the intended step, the first collection with a collation sets the feature. */
  lemma CollationStepMarksFirstUse(collation: Mask)
    requires NonZero(collation)
    ensures InUse(CollationStep(ZERO, collation, true), collation)
  {
  }
}

=== FILE: machine.dfy ===
/**
 * Fixed-width machine integers: the ranges of the C and C++ integer types
 * the system uses, and the two's-complement conversions between them.
 */
module MachineInt {

  newtype byte = x: int | 0 <= x < 256

  const TWO_POW_32: nat := 0x1_0000_0000
  const TWO_POW_63: nat := 0x8000_0000_0000_0000
  const TWO_POW_64: nat := 0x1_0000_0000_0000_0000
  const INT32_MIN: int := -0x8000_0000
  const INT32_MAX: int := 0x7FFF_FFFF
  const INT64_MIN: int := -0x8000_0000_0000_0000
  const INT64_MAX: int := 0x7FFF_FFFF_FFFF_FFFF
  const UINT64_MAX: nat := 0xFFFF_FFFF_FFFF_FFFF

  predicate IsInt32(x: int) {
    INT32_MIN <= x <= INT32_MAX
  }

  predicate IsInt64(x: int) {
    INT64_MIN <= x <= INT64_MAX
  }

  predicate IsUint64(x: int) {
    0 <= x <= UINT64_MAX
  }

  /** Two's-complement wrap-around to a 32-bit signed `int`. */
  function WrapInt32(x: int): (r: int)
    ensures IsInt32(r)
    ensures IsInt32(x) ==> r == x
    ensures (r - x) % TWO_POW_32 == 0
  {
    var m := x % TWO_POW_32;
    if m > INT32_MAX then m - TWO_POW_32 else m
  }

  /** Two's-complement conversion to a 64-bit signed integer (`int64_t`). */
  function WrapInt64(x: int): (r: int)
    ensures IsInt64(r)
    ensures IsInt64(x) ==> r == x
    ensures IsUint64(x) && x > INT64_MAX ==> r == x - TWO_POW_64
    ensures (r - x) % TWO_POW_64 == 0
  {
    var m := x % TWO_POW_64;
    if m > INT64_MAX then m - TWO_POW_64 else m
  }

  /** Conversion to an unsigned 64-bit integer (`uint64_t`): reduction modulo 2^64. */
  function ToUint64(x: int): (r: nat)
    ensures IsUint64(r)
    ensures IsUint64(x) ==> r == x
    ensures IsInt64(x) && x < 0 ==> r == x + TWO_POW_64
    ensures (r - x) % TWO_POW_64 == 0
  {
    x % TWO_POW_64
  }

  /** A 64-bit pattern read as signed and back as unsigned is unchanged, and conversely. */
  lemma CastRoundTrips(u: int, s: int)
    ensures IsUint64(u) ==> ToUint64(WrapInt64(u)) == u
    ensures IsInt64(s) ==> WrapInt64(ToUint64(s)) == s
  {
  }
}

=== FILE: meta_ckpt.dfy ===
/**
 * WiredTiger's per-file checkpoint metadata: reading checkpoint records out
 * of a file's configuration (the version check, the last, the last unnamed
 * and a named checkpoint, the whole list in creation order) and writing the
 * list back as a configuration string.
 *
 * The configuration parser is not modelled: a file's configuration arrives
 * already split into its "version" and "checkpoint" values, each checkpoint
 * as its key and its fields in written order. A field carries the text the
 * parser saw and the integer the parser read from it.
 */
module WtMetaCkpt {
  import opened Wrappers
  import opened MachineInt
  import Decimal

  // ---------------------------------------------------------------------
  // Parsed configuration
  // ---------------------------------------------------------------------

  /** A configuration value: its text (`str`, `len`) and its integer reading (`val`). */
  datatype ConfigItem = ConfigItem(str: string, val: int)

  datatype Field = Field(key: string, item: ConfigItem)

  /** One entry of a file's "checkpoint=(...)" list. */
  datatype CkptConfig = CkptConfig(name: string, fields: seq<Field>)

  /** A file's metadata configuration, reduced to the two keys read here. */
  datatype FileConfig = FileConfig(version: Option<seq<Field>>, checkpoint: Option<seq<CkptConfig>>)

  datatype WtError =
    | NotFound                        // WT_NOTFOUND
    | Corrupted                       // WT_ERROR, "corrupted checkpoint list"
    | InvalidHex                      // EINVAL from the hex decoder
    | UnsupportedVersion(msg: string) // EACCES

  /** `__wt_config_subgets`: the first field with the key, else WT_NOTFOUND. */
  function Subget(fields: seq<Field>, key: string): (r: Result<ConfigItem, WtError>)
    ensures r.Err? ==> r.error == NotFound
    decreases |fields|
  {
    if |fields| == 0 then Err(NotFound)
    else if fields[0].key == key then Ok(fields[0].item)
    else Subget(fields[1..], key)
  }

  /** The value found is that of the first field with the key, and nothing is found only when no field has it. */
  lemma {:induction false} SubgetIsFirstMatch(fields: seq<Field>, key: string) returns (i: nat)
    ensures Subget(fields, key).Err? <==> forall j :: 0 <= j < |fields| ==> fields[j].key != key
    ensures Subget(fields, key).Ok? ==>
      (i < |fields| && fields[i].key == key && fields[i].item == Subget(fields, key).value
       && forall j :: 0 <= j < i ==> fields[j].key != key)
    decreases |fields|
  {
    if |fields| == 0 {
      i := 0;
    } else if fields[0].key == key {
      i := 0;
    } else {
      var k := SubgetIsFirstMatch(fields[1..], key);
      i := k + 1;
      assert forall j :: 1 <= j < |fields| ==> fields[j] == fields[1..][j - 1];
    }
  }

  /** A field preceded only by fields with other keys is the one found. */
  lemma {:induction false} SubgetAt(fields: seq<Field>, key: string, i: nat)
    requires i < |fields| && fields[i].key == key
    requires forall j :: 0 <= j < i ==> fields[j].key != key
    ensures Subget(fields, key) == Ok(fields[i].item)
    decreases i
  {
    if i > 0 {
      SubgetAt(fields[1..], key, i - 1);
    }
  }

  // ---------------------------------------------------------------------
  // Version check
  // ---------------------------------------------------------------------

  /** The btree file format versions this build reads (`WT_BTREE_{MAJOR,MINOR}_VERSION_{MIN,MAX}`). */
  datatype VersionRange = VersionRange(majorMin: int, minorMin: int, majorMax: int, minorMax: int)

  predicate VersionSupported(r: VersionRange, major: int, minor: int) {
    !(major < r.majorMin || major > r.majorMax
      || (major == r.majorMin && minor < r.minorMin)
      || (major == r.majorMax && minor > r.minorMax))
  }

  function VersionMessage(fname: string, major: int, minor: int, r: VersionRange): string {
    fname + " is an unsupported WiredTiger source file version " + Decimal.IntToString(major) + "."
    + Decimal.IntToString(minor) + "; this WiredTiger build only supports versions from "
    + Decimal.IntToString(r.majorMin) + "." + Decimal.IntToString(r.minorMin) + " to "
    + Decimal.IntToString(r.majorMax) + "." + Decimal.IntToString(r.minorMax)
  }

  /**
   * `__ckpt_version_chk`: a missing "version", "major" or "minor" is
   * WT_NOTFOUND; both numbers are narrowed to `int`; a version outside the
   * supported range is EACCES.
   */
  function VersionChk(fname: string, config: FileConfig, range: VersionRange): (r: Result<(), WtError>)
    ensures r.Ok? <==>
      (config.version.Some?
       && Subget(config.version.value, "major").Ok? && Subget(config.version.value, "minor").Ok?
       && VersionSupported(range, WrapInt32(Subget(config.version.value, "major").value.val),
                           WrapInt32(Subget(config.version.value, "minor").value.val)))
    ensures r.Err? && r.error.UnsupportedVersion? ==> config.version.Some?
  {
    match config.version
    case None => Err(NotFound)
    case Some(v) =>
      match Subget(v, "major")
      case Err(e) => Err(e)
      case Ok(a) =>
        var major := WrapInt32(a.val);
        match Subget(v, "minor")
        case Err(e) => Err(e)
        case Ok(b) =>
          var minor := WrapInt32(b.val);
          if !VersionSupported(range, major, minor) then
            Err(UnsupportedVersion(VersionMessage(fname, major, minor, range)))
          else Ok(())
  }

  /** Within a range the check accepts exactly the versions strictly between the bounds, and the bounds' own minors. */
  lemma VersionBoundaries(range: VersionRange, major: int, minor: int)
    requires range.majorMin < range.majorMax
    ensures range.majorMin < major < range.majorMax ==> VersionSupported(range, major, minor)
    ensures major == range.majorMin ==> (VersionSupported(range, major, minor) <==> minor >= range.minorMin)
    ensures major == range.majorMax ==> (VersionSupported(range, major, minor) <==> minor <= range.minorMax)
    ensures major < range.majorMin || major > range.majorMax ==> !VersionSupported(range, major, minor)
  {
  }

  // ---------------------------------------------------------------------
  // Hex cookies
  // ---------------------------------------------------------------------

  predicate IsHexChar(c: char) {
    ('0' <= c <= '9') || ('a' <= c <= 'f') || ('A' <= c <= 'F')
  }

  function HexValue(c: char): (v: nat)
    requires IsHexChar(c)
    ensures v < 16
  {
    if '0' <= c <= '9' then c as int - '0' as int
    else if 'a' <= c <= 'f' then c as int - 'a' as int + 10
    else c as int - 'A' as int + 10
  }

  /** The lower-case digit `__wt_raw_to_hex` writes. */
  function HexChar(v: nat): (c: char)
    requires v < 16
    ensures IsHexChar(c) && HexValue(c) == v
  {
    "0123456789abcdef"[v]
  }

  /** `__wt_nhex_to_raw`: pairs of hex digits; an odd length or a non-hex character is EINVAL. */
  function HexToRaw(s: string): (r: Result<seq<byte>, WtError>)
    ensures r.Ok? ==> |r.value| * 2 == |s|
    ensures r.Err? ==> r.error == InvalidHex
    decreases |s|
  {
    if |s| == 0 then Ok([])
    else if |s| == 1 || !IsHexChar(s[0]) || !IsHexChar(s[1]) then Err(InvalidHex)
    else
      match HexToRaw(s[2..])
      case Err(e) => Err(e)
      case Ok(rest) => Ok([(HexValue(s[0]) * 16 + HexValue(s[1])) as byte] + rest)
  }

  /** `__wt_raw_to_hex`: two lower-case hex digits per byte. */
  function RawToHex(raw: seq<byte>): (s: string)
    ensures |s| == 2 * |raw|
    ensures forall i :: 0 <= i < |s| ==> IsHexChar(s[i])
  {
    if |raw| == 0 then ""
    else [HexChar(raw[0] as nat / 16), HexChar(raw[0] as nat % 16)] + RawToHex(raw[1..])
  }

  /** Decoding what the encoder wrote gives the cookie back. */
  lemma {:induction false} HexRoundTrip(raw: seq<byte>)
    ensures HexToRaw(RawToHex(raw)) == Ok(raw)
    decreases |raw|
  {
    if |raw| > 0 {
      var s := RawToHex(raw);
      assert s[2..] == RawToHex(raw[1..]);
      HexRoundTrip(raw[1..]);
      assert [raw[0]] + raw[1..] == raw;
    }
  }

  // ---------------------------------------------------------------------
  // Checkpoint records
  // ---------------------------------------------------------------------

  const WT_CHECKPOINT: string := "WiredTigerCheckpoint"
  /** Timestamp and transaction sentinels; txn.h, which defines them, is not part of this model. */
  const WT_TS_NONE: nat := 0
  const WT_TS_MAX: nat := UINT64_MAX
  const WT_TXN_NONE: nat := 0
  const WT_TXN_MAX: nat := UINT64_MAX - 10

  /** `WT_CKPT`, with the flags `WT_CKPT_FAKE`, `_ADD`, `_UPDATE` and `_DELETE`. */
  datatype Ckpt = Ckpt(
    name: string, addr: string, raw: seq<byte>,
    order: int, sec: nat, size: nat,
    newestDurableTs: nat, oldestStartTs: nat, oldestStartTxn: nat,
    newestStopTs: nat, newestStopTxn: nat, writeGen: nat,
    fake: bool, add: bool, update: bool, delete: bool)

  /** The maximal run of decimal digits at the start of a string. */
  function LeadingDigits(s: string): (d: string)
    ensures |d| <= |s| && d == s[..|d|]
    ensures forall i :: 0 <= i < |d| ==> Decimal.IsDigit(d[i])
    ensures |d| < |s| ==> !Decimal.IsDigit(s[|d|])
    decreases |s|
  {
    if |s| == 0 || !Decimal.IsDigit(s[0]) then ""
    else [s[0]] + LeadingDigits(s[1..])
  }

  /**
   * `sscanf(timebuf, "%" SCNu64, ...)`: the leading decimal digits, which
   * must not be empty; a value beyond 2^64 - 1 saturates.
   */
  function ScanU64(s: string): (r: Option<nat>)
    ensures r.Some? <==> |s| > 0 && Decimal.IsDigit(s[0])
    ensures r.Some? ==> IsUint64(r.value)
  {
    var d := LeadingDigits(s);
    if |d| == 0 then None
    else
      var v := Decimal.DigitsValue(d);
      Some(if v > UINT64_MAX then UINT64_MAX else v)
  }

  /** An optional timestamp or transaction field: absent or empty takes the default. */
  function OptionalU64(fields: seq<Field>, key: string, default: nat): (r: nat)
    ensures Subget(fields, key).Err? || |Subget(fields, key).value.str| == 0 ==> r == default
    ensures Subget(fields, key).Ok? && |Subget(fields, key).value.str| > 0 ==>
      r == ToUint64(Subget(fields, key).value.val)
  {
    match Subget(fields, key)
    case Err(_) => default
    case Ok(a) => if |a.str| == 0 then default else ToUint64(a.val)
  }

  /**
   * `__ckpt_load`: a missing field is WT_NOTFOUND; an empty "addr" marks a
   * fake checkpoint, any other is decoded from hex; an empty "order", an
   * empty, over-long (64 or more characters) or unreadable "time" and an
   * empty "write_gen" are a corrupted list; the timestamp and transaction
   * fields are optional with their defaults.
   */
  function CkptLoad(c: CkptConfig): (r: Result<Ckpt, WtError>)
    ensures r.Ok? ==> r.value.name == c.name && !r.value.add && !r.value.update && !r.value.delete
  {
    var v := c.fields;
    match Subget(v, "addr")
    case Err(e) => Err(e)
    case Ok(addr) =>
      var raw := if |addr.str| == 0 then Ok([]) else HexToRaw(addr.str);
      if raw.Err? then Err(raw.error)
      else
        match Subget(v, "order")
        case Err(e) => Err(e)
        case Ok(order) =>
          if |order.str| == 0 then Err(Corrupted)
          else
            match Subget(v, "time")
            case Err(e) => Err(e)
            case Ok(time) =>
              if |time.str| == 0 || |time.str| > 63 || ScanU64(time.str).None? then Err(Corrupted)
              else
                match Subget(v, "size")
                case Err(e) => Err(e)
                case Ok(size) =>
                  match Subget(v, "write_gen")
                  case Err(e) => Err(e)
                  case Ok(wg) =>
                    if |wg.str| == 0 then Err(Corrupted)
                    else Ok(Ckpt(
                      c.name, addr.str, raw.value, order.val, ScanU64(time.str).value, ToUint64(size.val),
                      OptionalU64(v, "newest_durable_ts", WT_TS_NONE),
                      OptionalU64(v, "oldest_start_ts", WT_TS_NONE),
                      OptionalU64(v, "oldest_start_txn", WT_TXN_NONE),
                      OptionalU64(v, "newest_stop_ts", WT_TS_MAX),
                      OptionalU64(v, "newest_stop_txn", WT_TXN_MAX),
                      ToUint64(wg.val),
                      |addr.str| == 0, false, false, false))
  }

  /**
   * What `__ckpt_load` reads: the address and, unless fake, its decoded
   * cookie; the order; the optional fields or their defaults. An empty order
   * after a readable address is a corrupted list.
   */
  lemma CkptLoadReads(c: CkptConfig)
    ensures var r := CkptLoad(c); r.Ok? ==>
      Subget(c.fields, "addr").Ok? && r.value.addr == Subget(c.fields, "addr").value.str
      && (r.value.fake <==> |r.value.addr| == 0)
      && (!r.value.fake ==> HexToRaw(r.value.addr) == Ok(r.value.raw))
    ensures var r := CkptLoad(c); r.Ok? ==>
      Subget(c.fields, "order").Ok? && |Subget(c.fields, "order").value.str| > 0
      && r.value.order == Subget(c.fields, "order").value.val
      && Subget(c.fields, "write_gen").Ok? && |Subget(c.fields, "write_gen").value.str| > 0
    ensures Subget(c.fields, "addr").Ok? && Subget(c.fields, "order").Ok?
      && |Subget(c.fields, "order").value.str| == 0
      && (|Subget(c.fields, "addr").value.str| == 0 || HexToRaw(Subget(c.fields, "addr").value.str).Ok?)
      ==> CkptLoad(c) == Err(Corrupted)
    ensures var r := CkptLoad(c); r.Ok? ==>
      r.value.newestDurableTs == OptionalU64(c.fields, "newest_durable_ts", WT_TS_NONE)
      && r.value.oldestStartTs == OptionalU64(c.fields, "oldest_start_ts", WT_TS_NONE)
      && r.value.oldestStartTxn == OptionalU64(c.fields, "oldest_start_txn", WT_TXN_NONE)
      && r.value.newestStopTs == OptionalU64(c.fields, "newest_stop_ts", WT_TS_MAX)
      && r.value.newestStopTxn == OptionalU64(c.fields, "newest_stop_txn", WT_TXN_MAX)
  {
  }

  // ---------------------------------------------------------------------
  // Named, last and last unnamed checkpoint
  // ---------------------------------------------------------------------

  /** The index of the first entry with the name, if any. */
  function FirstNamed(es: seq<CkptConfig>, name: string): (r: Option<nat>)
    ensures r.Some? ==>
      (r.value < |es| && es[r.value].name == name && forall j :: 0 <= j < r.value ==> es[j].name != name)
    ensures r.None? ==> forall j :: 0 <= j < |es| ==> es[j].name != name
    decreases |es|
  {
    if |es| == 0 then None
    else if es[0].name == name then Some(0)
    else match FirstNamed(es[1..], name)
      case None => None
      case Some(i) => Some(i + 1)
  }

  /**
   * `__ckpt_named`: no checkpoint list is WT_NOTFOUND; otherwise the first
   * entry with exactly the name is loaded, and there being none is WT_NOTFOUND.
   */
  function CkptNamed(checkpoint: string, config: FileConfig): (r: Result<Ckpt, WtError>)
    ensures config.checkpoint.None? ==> r == Err(NotFound)
    ensures config.checkpoint.Some? ==>
      (var es := config.checkpoint.value;
       (forall j :: 0 <= j < |es| ==> es[j].name != checkpoint) ==> r == Err(NotFound))
    ensures config.checkpoint.Some? ==>
      (var es := config.checkpoint.value;
       forall k ::
         (0 <= k < |es| && es[k].name == checkpoint && forall j :: 0 <= j < k ==> es[j].name != checkpoint)
         ==> r == CkptLoad(es[k]))
  {
    match config.checkpoint
    case None => Err(NotFound)
    case Some(es) =>
      match FirstNamed(es, checkpoint)
      case None => Err(NotFound)
      case Some(i) => CkptLoad(es[i])
  }

  /** With unique names, the checkpoint found is the one with the name. */
  lemma NamedFindsUnique(checkpoint: string, es: seq<CkptConfig>, k: nat)
    requires k < |es| && es[k].name == checkpoint
    requires forall i, j :: 0 <= i < j < |es| ==> es[i].name != es[j].name
    ensures CkptNamed(checkpoint, FileConfig(None, Some(es))) == CkptLoad(es[k])
  {
    assert forall j :: 0 <= j < k ==> es[j].name != checkpoint;
  }

  predicate HasOrder(c: CkptConfig) {
    Subget(c.fields, "order").Ok?
  }

  function OrderOf(c: CkptConfig): int
    requires HasOrder(c)
  {
    Subget(c.fields, "order").value.val
  }

  /** The empty record a `WT_CKPT` starts as. */
  const EMPTY_CKPT: Ckpt := Ckpt("", "", [], 0, 0, 0, 0, 0, 0, 0, 0, 0, false, false, false, false)

  /**
   * The loop of `__ckpt_last` from entry `i`: `found` is the order of the
   * checkpoint held (zero for none), an earlier order is skipped, anything
   * else is loaded and held. A missing order or a failed load ends the loop.
   */
  function LastLoop(es: seq<CkptConfig>, i: nat, found: int, best: Ckpt): (r: Result<(int, Ckpt), WtError>)
    requires i <= |es|
    decreases |es| - i
  {
    if i == |es| then Ok((found, best))
    else
      match Subget(es[i].fields, "order")
      case Err(e) => Err(e)
      case Ok(a) =>
        if found != 0 && a.val < found then LastLoop(es, i + 1, found, best)
        else
          match CkptLoad(es[i])
          case Err(e) => Err(e)
          case Ok(c) => LastLoop(es, i + 1, a.val, c)
  }

  /** `__ckpt_last`: the loop's checkpoint, or WT_NOTFOUND when the held order is zero. */
  function CkptLast(config: FileConfig): (r: Result<Ckpt, WtError>)
    ensures config.checkpoint.None? ==> r == Err(NotFound)
    ensures config.checkpoint == Some([]) ==> r == Err(NotFound)
  {
    match config.checkpoint
    case None => Err(NotFound)
    case Some(es) =>
      match LastLoop(es, 0, 0, EMPTY_CKPT)
      case Err(e) => Err(e)
      case Ok((found, c)) => if found != 0 then Ok(c) else Err(NotFound)
  }

  /** Entries `unnamedOnly` restricts a search to: those whose name starts with "WiredTigerCheckpoint". */
  predicate Eligible(c: CkptConfig, unnamedOnly: bool) {
    !unnamedOnly || (|WT_CHECKPOINT| <= |c.name| && c.name[..|WT_CHECKPOINT|] == WT_CHECKPOINT)
  }

  /** Every eligible entry has an order of at least one, as `__wt_meta_ckptlist_get` numbers them. */
  predicate OrdersPositive(es: seq<CkptConfig>, unnamedOnly: bool) {
    forall j :: 0 <= j < |es| && Eligible(es[j], unnamedOnly) ==> HasOrder(es[j]) && OrderOf(es[j]) >= 1
  }

  /**
   * Among the eligible entries below `n`, entry `k` has the greatest order
   * and every later eligible entry a strictly smaller one: it is the last
   * of the maximal ones.
   */
  predicate IsLastMax(es: seq<CkptConfig>, k: nat, n: nat, unnamedOnly: bool)
    requires OrdersPositive(es, unnamedOnly)
  {
    k < n <= |es| && Eligible(es[k], unnamedOnly)
    && (forall j :: 0 <= j < n && Eligible(es[j], unnamedOnly) ==> OrderOf(es[j]) <= OrderOf(es[k]))
    && (forall j :: k < j < n && Eligible(es[j], unnamedOnly) ==> OrderOf(es[j]) < OrderOf(es[k]))
  }

  /** Every entry loads and has an order of at least one. */
  predicate Loadable(es: seq<CkptConfig>) {
    forall j :: 0 <= j < |es| ==> CkptLoad(es[j]).Ok? && HasOrder(es[j]) && OrderOf(es[j]) >= 1
  }

  lemma {:induction false} LastLoopSelectsLastMax(es: seq<CkptConfig>, i: nat, found: int, best: Ckpt, k: nat)
    returns (m: nat)
    requires Loadable(es) && i <= |es|
    requires i == 0 ==> found == 0
    requires i > 0 ==> IsLastMax(es, k, i, false) && found == OrderOf(es[k]) && best == CkptLoad(es[k]).value
    ensures |es| > 0 ==>
      (IsLastMax(es, m, |es|, false) && LastLoop(es, i, found, best) == Ok((OrderOf(es[m]), CkptLoad(es[m]).value)))
    ensures |es| == 0 ==> LastLoop(es, i, found, best) == Ok((found, best))
    decreases |es| - i
  {
    assert OrdersPositive(es, false);
    if i == |es| {
      m := k;
    } else {
      var a := Subget(es[i].fields, "order").value;
      if found != 0 && a.val < found {
        assert IsLastMax(es, k, i + 1, false);
        m := LastLoopSelectsLastMax(es, i + 1, found, best, k);
      } else {
        assert IsLastMax(es, i, i + 1, false);
        m := LastLoopSelectsLastMax(es, i + 1, a.val, CkptLoad(es[i]).value, i);
      }
    }
  }

  /**
   * On a list whose entries all load with positive orders, `__ckpt_last`
   * returns the last checkpoint of maximal order; with no entries it
   * returns WT_NOTFOUND.
   */
  lemma CkptLastIsLastMax(es: seq<CkptConfig>) returns (m: nat)
    requires Loadable(es)
    ensures |es| == 0 ==> CkptLast(FileConfig(None, Some(es))) == Err(NotFound)
    ensures |es| > 0 ==>
      (OrdersPositive(es, false) && IsLastMax(es, m, |es|, false)
       && CkptLast(FileConfig(None, Some(es))) == Ok(CkptLoad(es[m]).value))
  {
    m := LastLoopSelectsLastMax(es, 0, 0, EMPTY_CKPT, 0);
  }

  /**
   * The held order doubles as the "found" flag, so entries whose orders are
   * all zero are loaded and then reported as WT_NOTFOUND.
   */
  lemma {:induction false} LastLoopZeroOrders(es: seq<CkptConfig>, i: nat, best: Ckpt)
    requires i <= |es|
    requires forall j :: 0 <= j < |es| ==> CkptLoad(es[j]).Ok? && HasOrder(es[j]) && OrderOf(es[j]) == 0
    ensures LastLoop(es, i, 0, best).Ok? && LastLoop(es, i, 0, best).value.0 == 0
    decreases |es| - i
  {
    if i < |es| {
      var e := es[i];
      assert CkptLoad(e).Ok? && HasOrder(e) && OrderOf(e) == 0;
      LastLoopZeroStep(es, i, best);
      LastLoopZeroOrders(es, i + 1, CkptLoad(e).value);
    }
  }

  /** An entry of order zero is loaded and its zero order held. */
  lemma LastLoopZeroStep(es: seq<CkptConfig>, i: nat, best: Ckpt)
    requires i < |es| && CkptLoad(es[i]).Ok? && HasOrder(es[i]) && OrderOf(es[i]) == 0
    ensures LastLoop(es, i, 0, best) == LastLoop(es, i + 1, 0, CkptLoad(es[i]).value)
  {
  }

  lemma ZeroOrdersAreNotFound(es: seq<CkptConfig>)
    requires forall j :: 0 <= j < |es| ==> CkptLoad(es[j]).Ok? && HasOrder(es[j]) && OrderOf(es[j]) == 0
    ensures CkptLast(FileConfig(None, Some(es))) == Err(NotFound)
  {
    LastLoopZeroOrders(es, 0, EMPTY_CKPT);
  }

  /**
   * The loop of `__ckpt_last_name` from entry `i`: names without the
   * "WiredTigerCheckpoint" prefix are passed over; otherwise as in
   * `__ckpt_last`, holding the name instead of the loaded checkpoint.
   */
  function LastNameLoop(es: seq<CkptConfig>, i: nat, found: int, name: string): (r: Result<(int, string), WtError>)
    requires i <= |es|
    decreases |es| - i
  {
    if i == |es| then Ok((found, name))
    else if !Eligible(es[i], true) then LastNameLoop(es, i + 1, found, name)
    else
      match Subget(es[i].fields, "order")
      case Err(e) => Err(e)
      case Ok(a) =>
        if found != 0 && a.val < found then LastNameLoop(es, i + 1, found, name)
        else LastNameLoop(es, i + 1, a.val, es[i].name)
  }

  /** `__ckpt_last_name`: the held name, or WT_NOTFOUND when the held order is zero. */
  function CkptLastName(config: FileConfig): (r: Result<string, WtError>)
    ensures config.checkpoint.None? ==> r == Err(NotFound)
    ensures r.Ok? ==> |WT_CHECKPOINT| <= |r.value| && r.value[..|WT_CHECKPOINT|] == WT_CHECKPOINT
  {
    match config.checkpoint
    case None => Err(NotFound)
    case Some(es) =>
      var r := LastNameLoop(es, 0, 0, "");
      LastNameLoopEligible(es, 0, 0, "");
      match r
      case Err(e) => Err(e)
      case Ok((found, n)) => if found != 0 then Ok(n) else Err(NotFound)
  }

  lemma {:induction false} LastNameLoopEligible(es: seq<CkptConfig>, i: nat, found: int, name: string)
    requires i <= |es|
    requires found != 0 ==> Eligible(CkptConfig(name, []), true)
    ensures LastNameLoop(es, i, found, name).Ok? && LastNameLoop(es, i, found, name).value.0 != 0 ==>
      Eligible(CkptConfig(LastNameLoop(es, i, found, name).value.1, []), true)
    decreases |es| - i
  {
    if i < |es| {
      if !Eligible(es[i], true) {
        LastNameLoopEligible(es, i + 1, found, name);
      } else if HasOrder(es[i]) {
        var a := Subget(es[i].fields, "order").value;
        if found != 0 && a.val < found {
          LastNameLoopEligible(es, i + 1, found, name);
        } else {
          LastNameLoopEligible(es, i + 1, a.val, es[i].name);
        }
      }
    }
  }

  lemma {:induction false} LastNameLoopNoneEligible(es: seq<CkptConfig>, i: nat, name: string)
    requires i <= |es|
    requires forall j :: i <= j < |es| ==> !Eligible(es[j], true)
    ensures LastNameLoop(es, i, 0, name) == Ok((0, name))
    decreases |es| - i
  {
    if i < |es| {
      LastNameLoopNoneEligible(es, i + 1, name);
    }
  }

  /** One step of the search for a last maximum: entry `i` is passed over or becomes the one held. */
  lemma LastMaxStep(es: seq<CkptConfig>, i: nat, k: nat, unnamedOnly: bool)
    requires OrdersPositive(es, unnamedOnly) && i < |es|
    requires IsLastMax(es, k, i, unnamedOnly)
    ensures !Eligible(es[i], unnamedOnly) || OrderOf(es[i]) < OrderOf(es[k]) ==> IsLastMax(es, k, i + 1, unnamedOnly)
    ensures Eligible(es[i], unnamedOnly) && OrderOf(es[i]) >= OrderOf(es[k]) ==> IsLastMax(es, i, i + 1, unnamedOnly)
  {
  }

  lemma LastNameLoopStep(es: seq<CkptConfig>, i: nat, k: nat)
    requires OrdersPositive(es, true) && i < |es| && k < |es| && Eligible(es[k], true)
    ensures LastNameLoop(es, i, OrderOf(es[k]), es[k].name) ==
      if !Eligible(es[i], true) || OrderOf(es[i]) < OrderOf(es[k])
      then LastNameLoop(es, i + 1, OrderOf(es[k]), es[k].name)
      else LastNameLoop(es, i + 1, OrderOf(es[i]), es[i].name)
  {
  }

  /** The loop while it holds entry `k`, the last of maximal order so far. */
  lemma {:induction false} LastNameLoopHolding(es: seq<CkptConfig>, i: nat, k: nat)
    returns (m: nat)
    requires OrdersPositive(es, true) && i <= |es|
    requires IsLastMax(es, k, i, true)
    ensures IsLastMax(es, m, |es|, true)
    ensures LastNameLoop(es, i, OrderOf(es[k]), es[k].name) == Ok((OrderOf(es[m]), es[m].name))
    decreases |es| - i
  {
    if i == |es| {
      m := k;
    } else {
      LastMaxStep(es, i, k, true);
      LastNameLoopStep(es, i, k);
      if !Eligible(es[i], true) || OrderOf(es[i]) < OrderOf(es[k]) {
        m := LastNameLoopHolding(es, i + 1, k);
      } else {
        m := LastNameLoopHolding(es, i + 1, i);
      }
    }
  }

  /** The loop before it holds anything, with `w` an eligible entry ahead. */
  lemma {:induction false} LastNameLoopSearching(es: seq<CkptConfig>, i: nat, name: string, w: nat)
    returns (m: nat)
    requires OrdersPositive(es, true)
    requires i <= w < |es| && Eligible(es[w], true)
    requires forall j :: 0 <= j < i ==> !Eligible(es[j], true)
    ensures IsLastMax(es, m, |es|, true)
    ensures LastNameLoop(es, i, 0, name) == Ok((OrderOf(es[m]), es[m].name))
    decreases |es| - i
  {
    if !Eligible(es[i], true) {
      m := LastNameLoopSearching(es, i + 1, name, w);
    } else {
      assert IsLastMax(es, i, i + 1, true);
      m := LastNameLoopHolding(es, i + 1, i);
    }
  }

  /**
   * `__ckpt_last_name` returns the name of the last unnamed checkpoint of
   * maximal order, and WT_NOTFOUND when there is no unnamed checkpoint.
   */
  lemma CkptLastNameIsLastMax(es: seq<CkptConfig>) returns (m: nat)
    requires OrdersPositive(es, true)
    ensures (forall j :: 0 <= j < |es| ==> !Eligible(es[j], true)) ==>
      CkptLastName(FileConfig(None, Some(es))) == Err(NotFound)
    ensures (exists j :: 0 <= j < |es| && Eligible(es[j], true)) ==>
      (IsLastMax(es, m, |es|, true) && CkptLastName(FileConfig(None, Some(es))) == Ok(es[m].name))
  {
    if exists j :: 0 <= j < |es| && Eligible(es[j], true) {
      var w :| 0 <= w < |es| && Eligible(es[w], true);
      m := LastNameLoopSearching(es, 0, "", w);
    } else {
      LastNameLoopNoneEligible(es, 0, "");
      m := 0;
    }
  }

  // ---------------------------------------------------------------------
  // The checkpoint list
  // ---------------------------------------------------------------------

  /** Every entry loaded in order; the first entry that fails to load ends the list with its error. */
  function LoadAll(es: seq<CkptConfig>): (r: Result<seq<Ckpt>, WtError>)
    ensures r.Ok? <==> forall i :: 0 <= i < |es| ==> CkptLoad(es[i]).Ok?
    ensures r.Ok? ==> |r.value| == |es| && forall i :: 0 <= i < |es| ==> r.value[i] == CkptLoad(es[i]).value
    decreases |es|
  {
    if |es| == 0 then Ok([])
    else
      match CkptLoad(es[0])
      case Err(e) => Err(e)
      case Ok(c) =>
        match LoadAll(es[1..])
        case Err(e) =>
          assert exists i :: 0 <= i < |es[1..]| && CkptLoad(es[1..][i]).Err?;
          Err(e)
        case Ok(rest) =>
          assert forall i :: 1 <= i < |es| ==> es[i] == es[1..][i - 1];
          Ok([c] + rest)
  }

  predicate SortedByOrder(s: seq<Ckpt>) {
    forall i, j :: 0 <= i < j < |s| ==> s[i].order <= s[j].order
  }

  function InsertByOrder(c: Ckpt, s: seq<Ckpt>): (r: seq<Ckpt>)
    requires SortedByOrder(s)
    ensures SortedByOrder(r)
    ensures multiset(r) == multiset(s) + multiset{c}
    ensures |r| == |s| + 1
    decreases |s|
  {
    if |s| == 0 then [c]
    else if c.order <= s[0].order then [c] + s
    else
      var rest := InsertByOrder(c, s[1..]);
      InsertKeepsLowerBound(c, s, rest);
      assert s == [s[0]] + s[1..];
      [s[0]] + rest
  }

  lemma InsertKeepsLowerBound(c: Ckpt, s: seq<Ckpt>, rest: seq<Ckpt>)
    requires |s| > 0 && SortedByOrder(s) && c.order > s[0].order
    requires multiset(rest) == multiset(s[1..]) + multiset{c}
    ensures forall i :: 0 <= i < |rest| ==> s[0].order <= rest[i].order
  {
    forall i | 0 <= i < |rest|
      ensures s[0].order <= rest[i].order
    {
      assert rest[i] in multiset(rest);
      if rest[i] != c {
        assert rest[i] in multiset(s[1..]);
        var j :| 0 <= j < |s[1..]| && s[1..][j] == rest[i];
        assert s[j + 1] == rest[i];
      }
    }
  }

  /**
   * `__wt_qsort` with `__ckpt_compare_order`: ascending creation order. The
   * comparison never reports equality, so the arrangement of equal orders
   * is the sort's own; this one keeps them in list order.
   */
  function SortByOrder(s: seq<Ckpt>): (r: seq<Ckpt>)
    ensures SortedByOrder(r)
    ensures multiset(r) == multiset(s)
    ensures |r| == |s|
    decreases |s|
  {
    if |s| == 0 then []
    else
      assert s == [s[0]] + s[1..];
      InsertByOrder(s[0], SortByOrder(s[1..]))
  }

  /** The `maxorder` scan: the largest order, and 0 when none is larger. */
  function MaxOrder(s: seq<Ckpt>): (m: int)
    ensures m >= 0
    ensures forall i :: 0 <= i < |s| ==> s[i].order <= m
    ensures m == 0 || exists i :: 0 <= i < |s| && s[i].order == m
    decreases |s|
  {
    if |s| == 0 then 0
    else
      var m := MaxOrder(s[..|s| - 1]);
      if s[|s| - 1].order > m then s[|s| - 1].order else m
  }

  /** The checkpoints a file's configuration lists; no list at all is an empty one. */
  function LoadListed(config: FileConfig): Result<seq<Ckpt>, WtError> {
    match config.checkpoint
    case None => Ok([])
    case Some(es) => LoadAll(es)
  }

  /**
   * The slot `__wt_meta_ckptlist_get` adds for a checkpoint about to be
   * taken: zeroed, numbered one past the largest order, stamped with the
   * current time and flagged ADD.
   */
  function NewSlot(order: int, now: nat): Ckpt {
    EMPTY_CKPT.(order := order, sec := now, add := true)
  }

  /**
   * `__wt_meta_ckptlist_get`: the listed checkpoints sorted by order, and
   * with `update` a new slot after them. A load failure is returned; with
   * no checkpoints and no update the answer is WT_NOTFOUND. `now` is the
   * clock reading `__wt_seconds` gives.
   */
  function CkptListGet(config: FileConfig, update: bool, now: nat): (r: Result<seq<Ckpt>, WtError>)
    ensures LoadListed(config).Err? ==> r == Err(LoadListed(config).error)
    ensures LoadListed(config) == Ok([]) && !update ==> r == Err(NotFound)
    ensures LoadListed(config).Ok? && (update || |LoadListed(config).value| > 0) ==> r.Ok?
    ensures r.Ok? ==>
      LoadListed(config).Ok? &&
      (var loaded := LoadListed(config).value;
       var n := |loaded|;
       |r.value| == n + (if update then 1 else 0)
       && SortedByOrder(r.value[..n]) && multiset(r.value[..n]) == multiset(loaded))
    ensures r.Ok? && update ==>
      (var n := |r.value| - 1;
       r.value[n].add && r.value[n].sec == now && r.value[n].order >= 1
       && (forall j :: 0 <= j < n ==> r.value[j].order < r.value[n].order))
    ensures r.Ok? && update ==> r.value[|r.value| - 1].order == MaxOrder(r.value[..|r.value| - 1]) + 1
    ensures r.Ok? && update ==> SortedByOrder(r.value)
  {
    match LoadListed(config)
    case Err(e) => Err(e)
    case Ok(loaded) =>
      if !update && |loaded| == 0 then Err(NotFound)
      else
        var sorted := SortByOrder(loaded);
        if !update then
          assert sorted[..|loaded|] == sorted;
          Ok(sorted)
        else
          var r := sorted + [NewSlot(MaxOrder(sorted) + 1, now)];
          assert r[..|loaded|] == sorted;
          Ok(r)
  }

  // ---------------------------------------------------------------------
  // Writing the list back
  // ---------------------------------------------------------------------

  /**
   * The address written for a checkpoint: a new or updated one gets its raw
   * cookie in hex, or nothing when the cookie is empty (a fake checkpoint);
   * any other keeps the address it was read with.
   */
  function AddrOut(c: Ckpt): (a: string)
    ensures (c.add || c.update) && |c.raw| == 0 ==> a == ""
    ensures (c.add || c.update) && |c.raw| > 0 ==> HexToRaw(a) == Ok(c.raw) && |a| > 0
    ensures !(c.add || c.update) ==> a == c.addr
  {
    if c.add || c.update then
      if |c.raw| == 0 then "" else HexRoundTrip(c.raw); RawToHex(c.raw)
    else c.addr
  }

  /** The key written for a checkpoint: the default name gets its order appended. */
  function KeyOf(c: Ckpt): (k: string)
    ensures |c.name| <= |k| && k[..|c.name|] == c.name
    ensures k == c.name <==> c.name != WT_CHECKPOINT
    ensures c.name == WT_CHECKPOINT ==> k[|c.name|] == '.' && k[|c.name| + 1..] == Decimal.IntToString(c.order)
  {
    if c.name == WT_CHECKPOINT then c.name + "." + Decimal.IntToString(c.order) else c.name
  }

  /** A signed 64-bit field as `%PRId64` writes it and the parser reads it back. */
  function Int64Item(x: int): ConfigItem {
    ConfigItem(Decimal.IntToString(WrapInt64(x)), WrapInt64(x))
  }

  /** The fields of one written checkpoint, in the order they are written. */
  function EntryConfig(c: Ckpt): CkptConfig {
    CkptConfig(KeyOf(c), [
      Field("addr", ConfigItem(AddrOut(c), 0)),
      Field("order", ConfigItem(Decimal.IntToString(c.order), c.order)),
      Field("time", ConfigItem(Decimal.NatToString(ToUint64(c.sec)), ToUint64(c.sec))),
      Field("size", Int64Item(c.size)),
      Field("newest_durable_ts", Int64Item(c.newestDurableTs)),
      Field("oldest_start_ts", Int64Item(c.oldestStartTs)),
      Field("oldest_start_txn", Int64Item(c.oldestStartTxn)),
      Field("newest_stop_ts", Int64Item(c.newestStopTs)),
      Field("newest_stop_txn", Int64Item(c.newestStopTxn)),
      Field("write_gen", Int64Item(c.writeGen))])
  }

  /** The checkpoints that are written: all but those flagged DELETE, in list order. */
  function Kept(s: seq<Ckpt>): (r: seq<Ckpt>)
    ensures |r| <= |s|
    ensures forall i :: 0 <= i < |r| ==> !r[i].delete && r[i] in s
    ensures forall c :: c in s && !c.delete ==> c in r
    decreases |s|
  {
    if |s| == 0 then []
    else if s[0].delete then Kept(s[1..])
    else [s[0]] + Kept(s[1..])
  }

  /** One checkpoint is kept exactly when it is not flagged DELETE. */
  lemma KeptSingle(c: Ckpt)
    ensures Kept([c]) == if c.delete then [] else [c]
  {
    assert [c][1..] == [];
  }

  /** Filtering a concatenation filters each part, so the kept checkpoints stay in list order. */
  lemma {:induction false} KeptAppend(a: seq<Ckpt>, b: seq<Ckpt>)
    ensures Kept(a + b) == Kept(a) + Kept(b)
    decreases |a|
  {
    if |a| == 0 {
      assert a + b == b;
    } else {
      assert (a + b)[0] == a[0];
      assert (a + b)[1..] == a[1..] + b;
      KeptAppend(a[1..], b);
    }
  }

  /** The configuration `__wt_meta_ckptlist_to_meta` writes, before rendering. */
  function ToMetaConfig(s: seq<Ckpt>): (r: seq<CkptConfig>)
    ensures |r| == |Kept(s)|
    ensures forall i :: 0 <= i < |r| ==> r[i] == EntryConfig(Kept(s)[i])
  {
    var kept := Kept(s);
    seq(|kept|, i requires 0 <= i < |kept| => EntryConfig(kept[i]))
  }

  function RenderFields(fs: seq<Field>): string
    decreases |fs|
  {
    if |fs| == 0 then ""
    else
      var f := fs[0];
      var value := if f.key == "addr" then "\"" + f.item.str + "\"" else f.item.str;
      f.key + "=" + value + (if |fs| > 1 then "," else "") + RenderFields(fs[1..])
  }

  function RenderEntries(es: seq<CkptConfig>): string
    decreases |es|
  {
    if |es| == 0 then ""
    else es[0].name + "=(" + RenderFields(es[0].fields) + ")" + (if |es| > 1 then "," else "") + RenderEntries(es[1..])
  }

  /** `__wt_meta_ckptlist_to_meta`: "checkpoint=(" and the written entries, comma separated, then ")". */
  function ToMeta(s: seq<Ckpt>): (text: string)
    ensures |text| >= 13 && text[..12] == "checkpoint=(" && text[|text| - 1] == ')'
    ensures |Kept(s)| == 0 ==> text == "checkpoint=()"
  {
    "checkpoint=(" + RenderEntries(ToMetaConfig(s)) + ")"
  }

  /** A checkpoint whose fields fit their 64-bit types and whose address agrees with its cookie. */
  predicate WellFormedCkpt(c: Ckpt) {
    IsUint64(c.sec) && IsUint64(c.size) && IsUint64(c.newestDurableTs) && IsUint64(c.oldestStartTs)
    && IsUint64(c.oldestStartTxn) && IsUint64(c.newestStopTs) && IsUint64(c.newestStopTxn)
    && IsUint64(c.writeGen)
    && (!(c.add || c.update) ==>
          (|c.addr| == 0 ==> c.raw == []) && (|c.addr| > 0 ==> HexToRaw(c.addr) == Ok(c.raw)))
  }

  /** What reading a written checkpoint back yields: its key as name, its written address, no flags. */
  function Reloaded(c: Ckpt): Ckpt {
    c.(name := KeyOf(c), addr := AddrOut(c), fake := |AddrOut(c)| == 0, add := false, update := false, delete := false)
  }

  lemma {:induction false} LeadingDigitsOfDigits(s: string)
    requires forall i :: 0 <= i < |s| ==> Decimal.IsDigit(s[i])
    ensures LeadingDigits(s) == s
    decreases |s|
  {
    if |s| > 0 {
      LeadingDigitsOfDigits(s[1..]);
      assert [s[0]] + s[1..] == s;
    }
  }

  lemma ScanRendered(n: nat)
    requires IsUint64(n)
    ensures |Decimal.NatToString(n)| <= 20
    ensures ScanU64(Decimal.NatToString(n)) == Some(n)
  {
    assert Decimal.Pow10(20) == 100_000_000_000_000_000_000 by {
      assert Decimal.Pow10(5) == 100_000;
      assert Decimal.Pow10(10) == 10_000_000_000 by { Pow10Add(5, 5); }
      Pow10Add(10, 10);
    }
    Decimal.NatToStringLength(n, 20, Decimal.Pow10(20));
    LeadingDigitsOfDigits(Decimal.NatToString(n));
    Decimal.NatToStringRoundTrip(n);
  }

  lemma {:induction false} Pow10Add(a: nat, b: nat)
    ensures Decimal.Pow10(a + b) == Decimal.Pow10(a) * Decimal.Pow10(b)
    decreases a
  {
    if a > 0 {
      Pow10Add(a - 1, b);
    }
  }

  /**
   * Reading back what `__wt_meta_ckptlist_to_meta` writes for a checkpoint
   * gives the checkpoint again, under its written key and address and
   * without the list-management flags.
   */
  lemma WriteThenLoad(c: Ckpt)
    requires WellFormedCkpt(c)
    ensures CkptLoad(EntryConfig(c)) == Ok(Reloaded(c))
  {
    var f := EntryConfig(c).fields;
    WrittenRequiredFields(c);
    WrittenOptionalFields(c);
    ScanRendered(ToUint64(c.sec));
    CastRoundTrips(c.size, 0);
    CastRoundTrips(c.writeGen, 0);
    var addr := AddrOut(c);
    var raw := if |addr| == 0 then Ok([]) else HexToRaw(addr);
    assert raw == Ok(c.raw);
  }

  /** The fields `__ckpt_load` requires, as written. */
  lemma WrittenRequiredFields(c: Ckpt)
    ensures var f := EntryConfig(c).fields;
      Subget(f, "addr") == Ok(ConfigItem(AddrOut(c), 0))
      && Subget(f, "order") == Ok(ConfigItem(Decimal.IntToString(c.order), c.order))
      && Subget(f, "time") == Ok(ConfigItem(Decimal.NatToString(ToUint64(c.sec)), ToUint64(c.sec)))
      && Subget(f, "size") == Ok(Int64Item(c.size))
      && Subget(f, "write_gen") == Ok(Int64Item(c.writeGen))
  {
    var f := EntryConfig(c).fields;
    EntryKeys(c);
    EntryKeyAt(f, "addr", 0);
    EntryKeyAt(f, "order", 1);
    EntryKeyAt(f, "time", 2);
    EntryKeyAt(f, "size", 3);
    EntryKeyAt(f, "write_gen", 9);
  }

  /** The keys `__wt_meta_ckptlist_to_meta` writes for each checkpoint, in order. */
  const ENTRY_KEYS: seq<string> := ["addr", "order", "time", "size", "newest_durable_ts",
    "oldest_start_ts", "oldest_start_txn", "newest_stop_ts", "newest_stop_txn", "write_gen"]

  lemma EntryKeys(c: Ckpt)
    ensures |EntryConfig(c).fields| == |ENTRY_KEYS|
    ensures forall j :: 0 <= j < |ENTRY_KEYS| ==> EntryConfig(c).fields[j].key == ENTRY_KEYS[j]
  {
  }

  /** In a list keyed as written, each key finds its own field. */
  lemma EntryKeyAt(f: seq<Field>, key: string, i: nat)
    requires |f| == |ENTRY_KEYS| && forall j :: 0 <= j < |ENTRY_KEYS| ==> f[j].key == ENTRY_KEYS[j]
    requires i < |ENTRY_KEYS| && key == ENTRY_KEYS[i]
    ensures Subget(f, key) == Ok(f[i].item)
  {
    SubgetAt(f, key, i);
  }

  /** The optional timestamp and transaction fields read back as written. */
  lemma WrittenOptionalFields(c: Ckpt)
    requires WellFormedCkpt(c)
    ensures var f := EntryConfig(c).fields;
      OptionalU64(f, "newest_durable_ts", WT_TS_NONE) == c.newestDurableTs
      && OptionalU64(f, "oldest_start_ts", WT_TS_NONE) == c.oldestStartTs
      && OptionalU64(f, "oldest_start_txn", WT_TXN_NONE) == c.oldestStartTxn
      && OptionalU64(f, "newest_stop_ts", WT_TS_MAX) == c.newestStopTs
      && OptionalU64(f, "newest_stop_txn", WT_TXN_MAX) == c.newestStopTxn
  {
    WrittenStartFields(c);
    WrittenStopFields(c);
  }

  lemma WrittenStartFields(c: Ckpt)
    requires WellFormedCkpt(c)
    ensures var f := EntryConfig(c).fields;
      OptionalU64(f, "newest_durable_ts", WT_TS_NONE) == c.newestDurableTs
      && OptionalU64(f, "oldest_start_ts", WT_TS_NONE) == c.oldestStartTs
      && OptionalU64(f, "oldest_start_txn", WT_TXN_NONE) == c.oldestStartTxn
  {
    var f := EntryConfig(c).fields;
    EntryKeys(c);
    EntryKeyAt(f, "newest_durable_ts", 4);
    OptionalReadsBack(f, "newest_durable_ts", WT_TS_NONE, c.newestDurableTs);
    EntryKeyAt(f, "oldest_start_ts", 5);
    OptionalReadsBack(f, "oldest_start_ts", WT_TS_NONE, c.oldestStartTs);
    EntryKeyAt(f, "oldest_start_txn", 6);
    OptionalReadsBack(f, "oldest_start_txn", WT_TXN_NONE, c.oldestStartTxn);
  }

  lemma WrittenStopFields(c: Ckpt)
    requires WellFormedCkpt(c)
    ensures var f := EntryConfig(c).fields;
      OptionalU64(f, "newest_stop_ts", WT_TS_MAX) == c.newestStopTs
      && OptionalU64(f, "newest_stop_txn", WT_TXN_MAX) == c.newestStopTxn
  {
    var f := EntryConfig(c).fields;
    EntryKeys(c);
    EntryKeyAt(f, "newest_stop_ts", 7);
    OptionalReadsBack(f, "newest_stop_ts", WT_TS_MAX, c.newestStopTs);
    EntryKeyAt(f, "newest_stop_txn", 8);
    OptionalReadsBack(f, "newest_stop_txn", WT_TXN_MAX, c.newestStopTxn);
  }

  /** An unsigned value written as a signed field is read back unchanged, whatever the default. */
  lemma OptionalReadsBack(f: seq<Field>, key: string, default: nat, x: nat)
    requires IsUint64(x) && Subget(f, key) == Ok(Int64Item(x))
    ensures OptionalU64(f, key, default) == x
  {
    CastRoundTrips(x, 0);
  }

  /**
   * The written key keeps the "WiredTigerCheckpoint" prefix exactly when the
   * name has it, so the unnamed checkpoints read back are the unnamed ones
   * written.
   */
  lemma WrittenKeyKeepsUnnamed(c: Ckpt)
    ensures Eligible(EntryConfig(c), true) <==> Eligible(CkptConfig(c.name, []), true)
  {
    var n := |WT_CHECKPOINT|;
    if c.name == WT_CHECKPOINT {
      assert KeyOf(c)[..n] == WT_CHECKPOINT;
    } else {
      assert KeyOf(c) == c.name;
    }
  }
}

=== FILE: multi_plan.dfy ===
/**
 * The multi-plan stage: candidate plans compete during a trial period in
 * rounds that work every live candidate once, buffering what each
 * produces; then the ranker's winner is kept, a non-blocking backup is
 * chosen for a blocking winner, and the choice may be written to the plan
 * cache. Afterwards the stage serves the winner's buffered results, then
 * the winner's own, falling back once to the backup if the winner fails.
 *
 * The plans' `work`, the yield policy, the ranker and the root's
 * end-of-stream test are oracles, passed in `Env` and as `rank`. Each
 * candidate counts the work calls it has received, so the oracle for the
 * next call is indexed by that count; the yield checks are counted the
 * same way.
 */
module MultiPlan {
  import opened Wrappers

  /** A working-set member id: a buffered result or a status member. */
  type WsId = nat

  /**
   * What one call to a plan's `work` returns. A failure carries its status
   * member, or `None` for the invalid id.
   */
  datatype StageState = Advanced(id: WsId) | IsEOF | NeedTime | NeedYield | Failure(status: Option<WsId>)

  /** What a yield check does: nothing or a successful yield, or an interruption with its status member. */
  datatype YieldCheck = KeepGoing | Interrupted(statusMemberId: WsId)

  datatype Env = Env(
    work: (nat, nat) -> StageState,
    yieldCheck: nat -> YieldCheck,
    canAutoYield: bool,
    rootIsEOF: (nat, nat) -> bool)

  /** A candidate plan: its solution's flags, its result FIFO, whether it failed, and how often it was worked. */
  datatype Candidate = Candidate(
    hasBlockingStage: bool,
    hasCacheData: bool,
    results: seq<WsId>,
    failed: bool,
    works: nat)

  datatype MultiPlanState = MultiPlanState(
    candidates: seq<Candidate>,
    bestPlan: Option<nat>,
    backupPlan: Option<nat>,
    failure: bool,
    failureCount: nat,
    statusMemberId: Option<WsId>,
    yieldChecks: nat)

  /** A solution added with `addPlan`: whether it has a blocking stage and whether it has cache data. */
  datatype SolutionInfo = SolutionInfo(hasBlockingStage: bool, hasCacheData: bool)

  /** The stage after the constructor and the `addPlan` calls. */
  function InitialState(solutions: seq<SolutionInfo>): (s: MultiPlanState)
    ensures |s.candidates| == |solutions| && s.bestPlan.None? && s.backupPlan.None? && !s.failure
    ensures forall i :: 0 <= i < |solutions| ==>
      s.candidates[i] == Candidate(solutions[i].hasBlockingStage, solutions[i].hasCacheData, [], false, 0)
    ensures Invariant(s)
  {
    var cs := seq(|solutions|, i requires 0 <= i < |solutions| =>
      Candidate(solutions[i].hasBlockingStage, solutions[i].hasCacheData, [], false, 0));
    NoneFailed(cs);
    MultiPlanState(cs, None, None, false, 0, None, 0)
  }

  // ---------------------------------------------------------------------
  // Failure bookkeeping
  // ---------------------------------------------------------------------

  /** The number of failed candidates. */
  function CountFailed(cs: seq<Candidate>): (n: nat)
    ensures n <= |cs|
  {
    if |cs| == 0 then 0 else CountFailed(cs[..|cs| - 1]) + (if cs[|cs| - 1].failed then 1 else 0)
  }

  lemma {:induction false} NoneFailed(cs: seq<Candidate>)
    requires forall i :: 0 <= i < |cs| ==> !cs[i].failed
    ensures CountFailed(cs) == 0
  {
    if |cs| > 0 {
      NoneFailed(cs[..|cs| - 1]);
    }
  }

  /** Replacing one candidate changes the count by the change in that candidate's flag. */
  lemma {:induction false} CountFailedUpdate(cs: seq<Candidate>, ix: nat, c: Candidate)
    requires ix < |cs|
    ensures CountFailed(cs[ix := c]) + (if cs[ix].failed then 1 else 0)
         == CountFailed(cs) + (if c.failed then 1 else 0)
  {
    var n := |cs|;
    if ix < n - 1 {
      assert cs[ix := c][..n - 1] == cs[..n - 1][ix := c];
      CountFailedUpdate(cs[..n - 1], ix, c);
    } else {
      assert cs[ix := c][..n - 1] == cs[..n - 1];
    }
  }

  /** When every candidate has failed, the count is the number of candidates, and conversely. */
  lemma {:induction false} AllFailedIff(cs: seq<Candidate>)
    ensures CountFailed(cs) == |cs| <==> forall i :: 0 <= i < |cs| ==> cs[i].failed
  {
    if |cs| > 0 {
      var pre := cs[..|cs| - 1];
      AllFailedIff(pre);
      assert forall i :: 0 <= i < |pre| ==> pre[i] == cs[i];
    }
  }

  /**
   * What the stage keeps true: the failure count is the number of failed
   * candidates, and a stage that has not failed has a live candidate.
   */
  predicate Invariant(s: MultiPlanState) {
    s.failureCount == CountFailed(s.candidates)
    && (!s.failure && |s.candidates| > 0 ==> s.failureCount < |s.candidates|)
  }

  // ---------------------------------------------------------------------
  // One round of the trial period
  // ---------------------------------------------------------------------

  datatype YieldResult = YieldResult(state: MultiPlanState, ok: bool)

  /** `tryYield`: a failed yield records the failure and its status member. */
  function TryYield(s: MultiPlanState, env: Env): (r: YieldResult)
    ensures r.state.candidates == s.candidates && r.state.yieldChecks == s.yieldChecks + 1
    ensures r.ok <==> env.yieldCheck(s.yieldChecks).KeepGoing?
    ensures r.ok ==> r.state == s.(yieldChecks := s.yieldChecks + 1)
    ensures !r.ok ==>
      r.state == s.(yieldChecks := s.yieldChecks + 1, failure := true,
                    statusMemberId := Some(env.yieldCheck(s.yieldChecks).statusMemberId))
  {
    var s1 := s.(yieldChecks := s.yieldChecks + 1);
    match env.yieldCheck(s.yieldChecks)
    case KeepGoing => YieldResult(s1, true)
    case Interrupted(id) => YieldResult(s1.(failure := true, statusMemberId := Some(id)), false)
  }

  /** How working one candidate ends: go on (and whether enough was seen), stop the trial, or throw a write conflict. */
  datatype StepOutcome = Next(state: MultiPlanState, done: bool) | Stop(state: MultiPlanState) | Threw(state: MultiPlanState)

  /** The body of `workAllPlans`'s loop for candidate `ix`. */
  function WorkCandidate(s: MultiPlanState, ix: nat, numResults: nat, env: Env): (r: StepOutcome)
    requires ix < |s.candidates|
    ensures |r.state.candidates| == |s.candidates|
    ensures forall j :: 0 <= j < |s.candidates| && j != ix ==> r.state.candidates[j] == s.candidates[j]
    ensures r.state.bestPlan == s.bestPlan && r.state.backupPlan == s.backupPlan
  {
    var cand := s.candidates[ix];
    if cand.failed then Next(s, false)
    else
      var y := TryYield(s, env);
      if !y.ok then Stop(y.state)
      else
        var s1 := y.state;
        var worked := cand.(works := cand.works + 1);
        match env.work(ix, cand.works)
        case Advanced(id) =>
          var c := worked.(results := worked.results + [id]);
          Next(s1.(candidates := s1.candidates[ix := c]), |c.results| >= numResults)
        case IsEOF => Next(s1.(candidates := s1.candidates[ix := worked]), true)
        case NeedTime => Next(s1.(candidates := s1.candidates[ix := worked]), false)
        case NeedYield =>
          var s2 := s1.(candidates := s1.candidates[ix := worked]);
          if !env.canAutoYield then Threw(s2)
          else
            var y2 := TryYield(s2, env);
            if !y2.ok then Stop(y2.state) else Next(y2.state, false)
        case Failure(id) =>
          var s2 := s1.(candidates := s1.candidates[ix := worked.(failed := true)],
                        failureCount := s1.failureCount + 1, statusMemberId := id);
          if s2.failureCount == |s2.candidates| then Stop(s2.(failure := true)) else Next(s2, false)
  }

  /**
   * One candidate's step: a failed candidate is skipped; a live one is
   * worked once, an advance appends the result to its FIFO and reports
   * done when the FIFO holds `numResults`, end of stream reports done,
   * and a failure marks that candidate alone failed and records its
   * status member. The trial stops only with the stage failed; when a
   * failure stops it, every candidate has failed.
   */
  lemma WorkCandidateEffect(s: MultiPlanState, ix: nat, numResults: nat, env: Env)
    requires ix < |s.candidates| && Invariant(s) && !s.failure
    ensures var r := WorkCandidate(s, ix, numResults, env);
      var c := s.candidates[ix];
      var c2 := r.state.candidates[ix];
      Invariant(r.state)
      && (r.Stop? ==> r.state.failure)
      && (!r.Stop? ==> !r.state.failure)
      && (c.failed ==> r == Next(s, false))
      && (!c.failed && !r.Stop? ==> c2.works == c.works + 1)
      && c.works <= c2.works <= c.works + 1
      && (!c.failed && r.Next? ==> (r.done <==> StepDone(env.work(ix, c.works), |c2.results|, numResults)))
      && (!c.failed && r.Next? && env.work(ix, c.works).Advanced? ==>
            c2.results == c.results + [env.work(ix, c.works).id]
            && (r.done <==> |c2.results| >= numResults))
      && (!c.failed && !env.work(ix, c.works).Advanced? ==> c2.results == c.results)
      && (!c.failed && r.Next? && env.work(ix, c.works).IsEOF? ==> r.done)
      && (!c.failed && !env.work(ix, c.works).Failure? ==> c2.failed == c.failed)
      && (!c.failed && env.work(ix, c.works).Failure? && env.yieldCheck(s.yieldChecks).KeepGoing? ==>
            c2.failed && r.state.failureCount == s.failureCount + 1
            && r.state.statusMemberId == env.work(ix, c.works).status
            && (r.Stop? <==> r.state.failureCount == |s.candidates|)
            && (r.Stop? ==> forall j :: 0 <= j < |s.candidates| ==> r.state.candidates[j].failed))
  {
    WorkCandidateKeepsInvariant(s, ix, numResults, env);
    WorkCandidateFields(s, ix, numResults, env);
  }

  /** A work call keeps the invariant, and a failure is counted and ends the trial only once all have failed. */
  lemma WorkCandidateKeepsInvariant(s: MultiPlanState, ix: nat, numResults: nat, env: Env)
    requires ix < |s.candidates| && Invariant(s) && !s.failure
    ensures var r := WorkCandidate(s, ix, numResults, env);
      var c := s.candidates[ix];
      var c2 := r.state.candidates[ix];
      Invariant(r.state)
      && (r.Stop? ==> r.state.failure)
      && (!r.Stop? ==> !r.state.failure)
      && (!c.failed && env.work(ix, c.works).Failure? && env.yieldCheck(s.yieldChecks).KeepGoing? ==>
            c2.failed && r.state.failureCount == s.failureCount + 1
            && r.state.statusMemberId == env.work(ix, c.works).status
            && (r.Stop? <==> r.state.failureCount == |s.candidates|)
            && (r.Stop? ==> forall j :: 0 <= j < |s.candidates| ==> r.state.candidates[j].failed))
  {
    var c := s.candidates[ix];
    if !c.failed && env.yieldCheck(s.yieldChecks).KeepGoing? {
      var worked := c.(works := c.works + 1);
      match env.work(ix, c.works)
      case Advanced(id) =>
        CountFailedUpdate(s.candidates, ix, worked.(results := worked.results + [id]));
      case Failure(id) =>
        CountFailedUpdate(s.candidates, ix, worked.(failed := true));
        AllFailedIff(WorkCandidate(s, ix, numResults, env).state.candidates);
      case _ =>
        CountFailedUpdate(s.candidates, ix, worked);
    }
  }

  /** What a work call does to the candidate it works. */
  lemma WorkCandidateFields(s: MultiPlanState, ix: nat, numResults: nat, env: Env)
    requires ix < |s.candidates| && Invariant(s) && !s.failure
    ensures var r := WorkCandidate(s, ix, numResults, env);
      var c := s.candidates[ix];
      var c2 := r.state.candidates[ix];
      (c.failed ==> r == Next(s, false))
      && (!c.failed && !r.Stop? ==> c2.works == c.works + 1)
      && c.works <= c2.works <= c.works + 1
      && (!c.failed && r.Next? ==> (r.done <==> StepDone(env.work(ix, c.works), |c2.results|, numResults)))
      && (!c.failed && r.Next? && env.work(ix, c.works).Advanced? ==>
            c2.results == c.results + [env.work(ix, c.works).id]
            && (r.done <==> |c2.results| >= numResults))
      && (!c.failed && !env.work(ix, c.works).Advanced? ==> c2.results == c.results)
      && (!c.failed && r.Next? && env.work(ix, c.works).IsEOF? ==> r.done)
      && (!c.failed && !env.work(ix, c.works).Failure? ==> c2.failed == c.failed)
  {
  }

  /** Whether a work call ends the trial: end of stream, or an advance that fills the FIFO to `numResults`. */
  predicate StepDone(st: StageState, buffered: nat, numResults: nat) {
    st.IsEOF? || (st.Advanced? && buffered >= numResults)
  }

  /** How a round of `workAllPlans` ends: finished (with whether to go on), stopped, or thrown. */
  datatype RoundOutcome = RoundDone(state: MultiPlanState, moreToDo: bool) | RoundStopped(state: MultiPlanState) | RoundThrew(state: MultiPlanState)

  /** `workAllPlans` from candidate `ix` on, with `done` the flag so far. */
  function WorkFrom(s: MultiPlanState, ix: nat, numResults: nat, env: Env, done: bool): (r: RoundOutcome)
    requires ix <= |s.candidates|
    ensures |r.state.candidates| == |s.candidates|
    ensures r.state.bestPlan == s.bestPlan && r.state.backupPlan == s.backupPlan
    ensures forall j :: 0 <= j < ix ==> r.state.candidates[j] == s.candidates[j]
    decreases |s.candidates| - ix
  {
    if ix == |s.candidates| then RoundDone(s, !done)
    else
      match WorkCandidate(s, ix, numResults, env)
      case Next(s1, d) => WorkFrom(s1, ix + 1, numResults, env, done || d)
      case Stop(s1) => RoundStopped(s1)
      case Threw(s1) => RoundThrew(s1)
  }

  function WorkAllPlans(s: MultiPlanState, numResults: nat, env: Env): (r: RoundOutcome)
    ensures |r.state.candidates| == |s.candidates|
    ensures r.state.bestPlan == s.bestPlan && r.state.backupPlan == s.backupPlan
  {
    WorkFrom(s, 0, numResults, env, false)
  }

  /** A round keeps the invariant, and it stops early exactly when the stage has failed. */
  lemma {:induction false} WorkFromInvariant(s: MultiPlanState, ix: nat, numResults: nat, env: Env, done: bool)
    requires ix <= |s.candidates| && Invariant(s) && !s.failure
    ensures var r := WorkFrom(s, ix, numResults, env, done);
      Invariant(r.state) && (r.RoundStopped? <==> r.state.failure)
    decreases |s.candidates| - ix
  {
    if ix < |s.candidates| {
      WorkCandidateEffect(s, ix, numResults, env);
      match WorkCandidate(s, ix, numResults, env)
      case Next(s1, d) => WorkFromInvariant(s1, ix + 1, numResults, env, done || d);
      case Stop(s1) =>
      case Threw(s1) =>
    }
  }

  /**
   * Every candidate is worked at most once per round; a finished round has
   * worked every candidate that was live when the round began exactly once
   * and has left failed ones untouched.
   */
  lemma WorkFromWorks(s: MultiPlanState, ix: nat, numResults: nat, env: Env, done: bool)
    requires ix <= |s.candidates| && Invariant(s) && !s.failure
    ensures var r := WorkFrom(s, ix, numResults, env, done);
      (forall j :: 0 <= j < |s.candidates| ==>
         s.candidates[j].works <= r.state.candidates[j].works <= s.candidates[j].works + 1)
      && (forall j :: ix <= j < |s.candidates| && s.candidates[j].failed ==> r.state.candidates[j] == s.candidates[j])
      && (r.RoundDone? ==>
            forall j :: ix <= j < |s.candidates| ==>
              r.state.candidates[j].works == s.candidates[j].works + (if s.candidates[j].failed then 0 else 1))
  {
    WorkFromWorksAtMostOnce(s, ix, numResults, env, done);
    WorkFromWorksEachLive(s, ix, numResults, env, done);
  }

  /** A round works each candidate at most once and leaves the failed ones from `ix` on untouched. */
  lemma {:induction false} WorkFromWorksAtMostOnce(s: MultiPlanState, ix: nat, numResults: nat, env: Env, done: bool)
    requires ix <= |s.candidates| && Invariant(s) && !s.failure
    ensures var r := WorkFrom(s, ix, numResults, env, done);
      (forall j :: 0 <= j < |s.candidates| ==>
         s.candidates[j].works <= r.state.candidates[j].works <= s.candidates[j].works + 1)
      && (forall j :: ix <= j < |s.candidates| && s.candidates[j].failed ==> r.state.candidates[j] == s.candidates[j])
    decreases |s.candidates| - ix
  {
    if ix < |s.candidates| {
      WorkCandidateEffect(s, ix, numResults, env);
      match WorkCandidate(s, ix, numResults, env)
      case Next(s1, d) =>
        WorkFromWorksAtMostOnce(s1, ix + 1, numResults, env, done || d);
      case Stop(s1) =>
      case Threw(s1) =>
    }
  }

  /** A completed round works every live candidate from `ix` on exactly once. */
  lemma {:induction false} WorkFromWorksEachLive(s: MultiPlanState, ix: nat, numResults: nat, env: Env, done: bool)
    requires ix <= |s.candidates| && Invariant(s) && !s.failure
    ensures var r := WorkFrom(s, ix, numResults, env, done);
      r.RoundDone? ==>
        forall j :: ix <= j < |s.candidates| ==>
          r.state.candidates[j].works == s.candidates[j].works + (if s.candidates[j].failed then 0 else 1)
    decreases |s.candidates| - ix
  {
    if ix < |s.candidates| {
      WorkCandidateEffect(s, ix, numResults, env);
      match WorkCandidate(s, ix, numResults, env)
      case Next(s1, d) =>
        WorkFromWorksEachLive(s1, ix + 1, numResults, env, done || d);
        WorkFromWorksAtMostOnce(s1, ix + 1, numResults, env, done || d);
      case Stop(s1) =>
      case Threw(s1) =>
    }
  }

  /** A round only appends to the result FIFOs, and a failed candidate stays failed. */
  lemma {:induction false} WorkFromResults(s: MultiPlanState, ix: nat, numResults: nat, env: Env, done: bool)
    requires ix <= |s.candidates| && Invariant(s) && !s.failure
    ensures var r := WorkFrom(s, ix, numResults, env, done);
      (forall j :: 0 <= j < |s.candidates| ==> IsPrefix(s.candidates[j].results, r.state.candidates[j].results))
      && (forall j :: 0 <= j < |s.candidates| && s.candidates[j].failed ==> r.state.candidates[j].failed)
    decreases |s.candidates| - ix
  {
    if ix < |s.candidates| {
      WorkCandidateEffect(s, ix, numResults, env);
      match WorkCandidate(s, ix, numResults, env)
      case Next(s1, d) =>
        WorkFromResults(s1, ix + 1, numResults, env, done || d);
        var r := WorkFrom(s1, ix + 1, numResults, env, done || d);
        forall j | 0 <= j < |s.candidates|
          ensures IsPrefix(s.candidates[j].results, r.state.candidates[j].results)
        {
          PrefixOfStep(s.candidates[j].results, s1.candidates[j].results, env.work(ix, s.candidates[ix].works), j == ix);
          PrefixTrans(s.candidates[j].results, s1.candidates[j].results, r.state.candidates[j].results);
        }
      case Stop(s1) =>
        forall j | 0 <= j < |s.candidates|
          ensures IsPrefix(s.candidates[j].results, s1.candidates[j].results)
        {
          PrefixOfStep(s.candidates[j].results, s1.candidates[j].results, env.work(ix, s.candidates[ix].works), j == ix);
        }
      case Threw(s1) =>
    } else {
      forall j | 0 <= j < |s.candidates|
        ensures IsPrefix(s.candidates[j].results, s.candidates[j].results)
      {
        assert s.candidates[j].results[..|s.candidates[j].results|] == s.candidates[j].results;
      }
    }
  }

  /** One step leaves a FIFO as it was or appends the advanced result. */
  lemma PrefixOfStep(a: seq<WsId>, b: seq<WsId>, st: StageState, worked: bool)
    requires b == a || (worked && st.Advanced? && b == a + [st.id])
    ensures IsPrefix(a, b)
  {
    assert b[..|a|] == a;
  }

  /**
   * A finished round asks for another exactly when no candidate live at
   * its turn hit end of stream or filled its FIFO to `numResults`.
   */
  lemma {:induction false} WorkFromMore(s: MultiPlanState, ix: nat, numResults: nat, env: Env, done: bool)
    requires ix <= |s.candidates| && Invariant(s) && !s.failure
    ensures var r := WorkFrom(s, ix, numResults, env, done);
      r.RoundDone? ==>
        (r.moreToDo <==> !done && forall j :: ix <= j < |s.candidates| && !s.candidates[j].failed ==>
           !StepDone(env.work(j, s.candidates[j].works), |r.state.candidates[j].results|, numResults))
    decreases |s.candidates| - ix
  {
    if ix < |s.candidates| {
      WorkCandidateEffect(s, ix, numResults, env);
      match WorkCandidate(s, ix, numResults, env)
      case Next(s1, d) =>
        WorkFromMore(s1, ix + 1, numResults, env, done || d);
        var r := WorkFrom(s1, ix + 1, numResults, env, done || d);
        assert r.state.candidates[ix] == s1.candidates[ix];
        assert forall j :: ix < j < |s.candidates| ==> s1.candidates[j] == s.candidates[j];
      case Stop(s1) =>
      case Threw(s1) =>
    }
  }

  predicate IsPrefix(a: seq<WsId>, b: seq<WsId>) {
    |a| <= |b| && b[..|a|] == a
  }

  lemma PrefixTrans(a: seq<WsId>, b: seq<WsId>, c: seq<WsId>)
    requires IsPrefix(a, b) && IsPrefix(b, c)
    ensures IsPrefix(a, c)
  {
    assert c[..|a|] == c[..|b|][..|a|];
  }

  // ---------------------------------------------------------------------
  // The trial period
  // ---------------------------------------------------------------------

  /** `getTrialPeriodNumToReturn`: the evaluation cap, lowered by `ntoreturn` if given, else by the limit if given. */
  function TrialPeriodNumToReturn(ntoreturn: Option<nat>, limit: Option<nat>, maxResults: nat): (r: nat)
    ensures r <= maxResults
    ensures ntoreturn.Some? ==> r <= ntoreturn.value && (r == maxResults || r == ntoreturn.value)
    ensures ntoreturn.None? && limit.Some? ==> r <= limit.value && (r == maxResults || r == limit.value)
    ensures ntoreturn.None? && limit.None? ==> r == maxResults
  {
    if ntoreturn.Some? then Min(ntoreturn.value, maxResults)
    else if limit.Some? then Min(limit.value, maxResults)
    else maxResults
  }

  function Min(a: nat, b: nat): (m: nat) {
    if a < b then a else b
  }

  /** When `ntoreturn` is given, the limit plays no part. */
  lemma NToReturnTakesPrecedence(n: nat, limit1: Option<nat>, limit2: Option<nat>, maxResults: nat)
    ensures TrialPeriodNumToReturn(Some(n), limit1, maxResults) == TrialPeriodNumToReturn(Some(n), limit2, maxResults)
  {
  }

  /**
   * `getTrialPeriodWorks`: the configured number of works, raised for a
   * collection to its scaled size (`scaledWorks`, the fraction of the
   * record count, given already truncated).
   */
  function TrialPeriodWorks(hasCollection: bool, evaluationWorks: nat, scaledWorks: nat): (r: nat)
    ensures r >= evaluationWorks
    ensures hasCollection ==> r >= scaledWorks && (r == evaluationWorks || r == scaledWorks)
    ensures !hasCollection ==> r == evaluationWorks
  {
    if hasCollection && scaledWorks > evaluationWorks then scaledWorks else evaluationWorks
  }

  /** How the trial ends: normally (possibly with the stage failed), or with a write conflict thrown. */
  datatype TrialOutcome = TrialDone(state: MultiPlanState, rounds: nat) | TrialThrew(state: MultiPlanState)

  /** The trial loop of `pickBestPlan`, from round `round` on: rounds until one says stop or `numWorks` have run. */
  function TrialPeriod(s: MultiPlanState, round: nat, numWorks: nat, numResults: nat, env: Env): (r: TrialOutcome)
    ensures |r.state.candidates| == |s.candidates|
    ensures r.state.bestPlan == s.bestPlan && r.state.backupPlan == s.backupPlan
    ensures r.TrialDone? ==> round <= r.rounds && (round <= numWorks ==> r.rounds <= numWorks)
    decreases numWorks - round
  {
    if round >= numWorks then TrialDone(s, round)
    else
      match WorkAllPlans(s, numResults, env)
      case RoundThrew(s1) => TrialThrew(s1)
      case RoundStopped(s1) => TrialDone(s1, round + 1)
      case RoundDone(s1, more) => if more then TrialPeriod(s1, round + 1, numWorks, numResults, env) else TrialDone(s1, round + 1)
  }

  /**
   * The trial keeps the invariant, only appends to result FIFOs, never
   * revives a failed candidate, and works each candidate at most once per
   * round.
   */
  lemma {:induction false} TrialPeriodEffect(s: MultiPlanState, round: nat, numWorks: nat, numResults: nat, env: Env)
    requires Invariant(s) && !s.failure && round <= numWorks
    ensures var r := TrialPeriod(s, round, numWorks, numResults, env);
      Invariant(r.state)
      && (forall j :: 0 <= j < |s.candidates| ==> IsPrefix(s.candidates[j].results, r.state.candidates[j].results))
      && (forall j :: 0 <= j < |s.candidates| && s.candidates[j].failed ==> r.state.candidates[j].failed)
      && (forall j :: 0 <= j < |s.candidates| ==>
            s.candidates[j].works <= r.state.candidates[j].works <= s.candidates[j].works + (numWorks - round))
    decreases numWorks - round
  {
    if round < numWorks {
      WorkFromInvariant(s, 0, numResults, env, false);
      WorkFromResults(s, 0, numResults, env, false);
      WorkFromWorks(s, 0, numResults, env, false);
      match WorkAllPlans(s, numResults, env)
      case RoundThrew(s1) =>
      case RoundStopped(s1) =>
      case RoundDone(s1, more) =>
        if more {
          TrialPeriodEffect(s1, round + 1, numWorks, numResults, env);
          var r := TrialPeriod(s1, round + 1, numWorks, numResults, env);
          forall j | 0 <= j < |s.candidates|
            ensures IsPrefix(s.candidates[j].results, r.state.candidates[j].results)
          {
            PrefixTrans(s.candidates[j].results, s1.candidates[j].results, r.state.candidates[j].results);
          }
        }
    } else {
      forall j | 0 <= j < |s.candidates|
        ensures IsPrefix(s.candidates[j].results, s.candidates[j].results)
      {
        assert s.candidates[j].results[..|s.candidates[j].results|] == s.candidates[j].results;
      }
    }
  }

  // ---------------------------------------------------------------------
  // Picking the winner
  // ---------------------------------------------------------------------

  /**
   * The ranker's decision: the winner's index, the candidates best first,
   * how many scores it kept, and whether the winner tied the runner-up.
   */
  datatype PlanRankingDecision = PlanRankingDecision(bestIdx: int, candidateOrder: seq<nat>, scoresCount: nat, tieForBest: bool)

  datatype CachingMode = AlwaysCache | SometimesCache | NeverCache

  /** What the ranker is relied on for: its order names candidates only. */
  predicate OrderInRange(d: PlanRankingDecision, n: nat) {
    forall k :: 0 <= k < |d.candidateOrder| ==> d.candidateOrder[k] < n
  }

  /**
   * How `pickBestPlan` ends: a winner picked, with the candidate order
   * written to the plan cache if it was written; the trial's failure
   * status; a write conflict thrown; or a failed `verify`/`invariant`.
   */
  datatype PickOutcome =
    | Picked(state: MultiPlanState, cacheWrite: Option<seq<nat>>)
    | TrialFailed(state: MultiPlanState, statusMemberId: WsId)
    | WriteConflictThrown(state: MultiPlanState)
    | Crashed

  /** The first candidate without a blocking stage, from `ix` on. */
  function FirstNonBlocking(cs: seq<Candidate>, ix: nat): (r: Option<nat>)
    requires ix <= |cs|
    ensures r.Some? ==>
      ix <= r.value < |cs| && !cs[r.value].hasBlockingStage
      && forall j :: ix <= j < r.value ==> cs[j].hasBlockingStage
    ensures r.None? ==> forall j :: ix <= j < |cs| ==> cs[j].hasBlockingStage
    decreases |cs| - ix
  {
    if ix == |cs| then None
    else if !cs[ix].hasBlockingStage then Some(ix)
    else FirstNonBlocking(cs, ix + 1)
  }

  /** The backup: only for a blocking winner with nothing buffered, the first non-blocking candidate. */
  function BackupFor(cs: seq<Candidate>, best: nat): (r: Option<nat>)
    requires best < |cs|
    ensures r.Some? ==>
      cs[best].hasBlockingStage && |cs[best].results| == 0
      && r.value < |cs| && !cs[r.value].hasBlockingStage
      && forall j :: 0 <= j < r.value ==> cs[j].hasBlockingStage
    ensures r.None? <==>
      !cs[best].hasBlockingStage || |cs[best].results| > 0
      || forall j :: 0 <= j < |cs| ==> cs[j].hasBlockingStage
  {
    if cs[best].hasBlockingStage && |cs[best].results| == 0 then FirstNonBlocking(cs, 0) else None
  }

  /** Whether the caching mode lets the choice be cached. */
  predicate CanCache(mode: CachingMode, tieForBest: bool, winnerBuffered: nat) {
    match mode
    case AlwaysCache => true
    case NeverCache => false
    case SometimesCache => !tieForBest && winnerBuffered > 0
  }

  /** Whether every candidate named in `order` has cache data, checked in order. */
  function AllHaveCacheData(cs: seq<Candidate>, order: seq<nat>): (r: bool)
    requires forall k :: 0 <= k < |order| ==> order[k] < |cs|
    ensures r <==> forall k :: 0 <= k < |order| ==> cs[order[k]].hasCacheData
  {
    if |order| == 0 then true
    else cs[order[0]].hasCacheData && AllHaveCacheData(cs, order[1..])
  }

  /**
   * `pickBestPlan` on a stage fresh from `addPlan`: the trial, then the
   * winner, the backup and the plan cache write. `rank` is the plan
   * ranker and `shouldCacheQuery` the cache's verdict on the query's shape.
   */
  function PickBestPlan(s: MultiPlanState, numWorks: nat, numResults: nat, env: Env,
                        rank: seq<Candidate> -> PlanRankingDecision,
                        mode: CachingMode, shouldCacheQuery: bool): (r: PickOutcome)
    requires Invariant(s) && !s.failure
    requires forall cs: seq<Candidate> :: OrderInRange(rank(cs), |cs|)
  {
    match TrialPeriod(s, 0, numWorks, numResults, env)
    case TrialThrew(t) => WriteConflictThrown(t)
    case TrialDone(t, _) =>
      if t.failure then
        if t.statusMemberId.Some? then TrialFailed(t, t.statusMemberId.value) else Crashed
      else
        var d := rank(t.candidates);
        assert OrderInRange(d, |t.candidates|);
        if !(0 <= d.bestIdx < |t.candidates|) then Crashed
        else
          var best := d.bestIdx as nat;
          var buffered := |t.candidates[best].results|;
          if mode.SometimesCache? && d.tieForBest && (d.scoresCount <= 1 || |d.candidateOrder| <= 1) then Crashed
          else
            var picked := t.(bestPlan := Some(best), backupPlan := BackupFor(t.candidates, best));
            var write :=
              if shouldCacheQuery && CanCache(mode, d.tieForBest, buffered)
                 && AllHaveCacheData(t.candidates, d.candidateOrder)
              then Some(d.candidateOrder) else None;
            Picked(picked, write)
  }

  /** A stage whose choice is made: failed, or with a winner (and any backup) among the candidates. */
  predicate Chosen(s: MultiPlanState) {
    s.failure
    || (s.bestPlan.Some? && s.bestPlan.value < |s.candidates|
        && (s.backupPlan.Some? ==> s.backupPlan.value < |s.candidates|))
  }

  /**
   * What `pickBestPlan` promises. A pick has a winner among the
   * candidates and the trial's FIFOs; the backup exists only for a
   * blocking winner with nothing buffered and is then the first
   * non-blocking candidate; the cache is written, with the candidates in
   * the ranker's order, exactly when the query may be cached, the mode
   * allows it and every candidate has cache data. A failed trial hands
   * back its status member; a trial that did not fail does not end so.
   */
  lemma PickBestPlanEffect(s: MultiPlanState, numWorks: nat, numResults: nat, env: Env,
                           rank: seq<Candidate> -> PlanRankingDecision,
                           mode: CachingMode, shouldCacheQuery: bool)
    requires Invariant(s) && !s.failure
    requires forall cs: seq<Candidate> :: OrderInRange(rank(cs), |cs|)
    ensures var r := PickBestPlan(s, numWorks, numResults, env, rank, mode, shouldCacheQuery);
      var t := TrialPeriod(s, 0, numWorks, numResults, env).state;
      var d := rank(t.candidates);
      (r.Picked? ==>
         Chosen(r.state) && !r.state.failure && Invariant(r.state)
         && r.state.candidates == t.candidates
         && r.state.bestPlan == Some(d.bestIdx as nat)
         && r.state.backupPlan == BackupFor(t.candidates, d.bestIdx as nat)
         && (r.cacheWrite.Some? <==>
               shouldCacheQuery && CanCache(mode, d.tieForBest, |t.candidates[d.bestIdx].results|)
               && forall k :: 0 <= k < |d.candidateOrder| ==> t.candidates[d.candidateOrder[k]].hasCacheData)
         && (r.cacheWrite.Some? ==> r.cacheWrite.value == d.candidateOrder))
      && (r.TrialFailed? ==> t.failure && t.statusMemberId == Some(r.statusMemberId))
      && (TrialPeriod(s, 0, numWorks, numResults, env).TrialDone? && !t.failure && 0 <= d.bestIdx < |t.candidates| && !(mode.SometimesCache? && d.tieForBest) ==> r.Picked?)
  {
    TrialPeriodEffect(s, 0, numWorks, numResults, env);
  }

  /**
   * The plan cache policy, mode by mode. Always-cache mode writes whenever
   * the query may be cached and every ranked candidate has cache data;
   * sometimes-cache mode also needs a winner that is not tied and has
   * buffered results; never-cache mode never writes. A write lists the
   * candidates in the ranker's order.
   */
  lemma CachePolicy(s: MultiPlanState, numWorks: nat, numResults: nat, env: Env,
                    rank: seq<Candidate> -> PlanRankingDecision,
                    mode: CachingMode, shouldCacheQuery: bool)
    requires Invariant(s) && !s.failure
    requires forall cs: seq<Candidate> :: OrderInRange(rank(cs), |cs|)
    ensures var r := PickBestPlan(s, numWorks, numResults, env, rank, mode, shouldCacheQuery);
      var t := TrialPeriod(s, 0, numWorks, numResults, env).state;
      var d := rank(t.candidates);
      r.Picked? ==>
        var allData := forall k :: 0 <= k < |d.candidateOrder| ==> t.candidates[d.candidateOrder[k]].hasCacheData;
        var winnerBuffered := |t.candidates[d.bestIdx].results|;
        (mode.AlwaysCache? && shouldCacheQuery && allData ==> r.cacheWrite == Some(d.candidateOrder))
        && (mode.SometimesCache? && shouldCacheQuery && allData && !d.tieForBest && winnerBuffered > 0 ==>
              r.cacheWrite == Some(d.candidateOrder))
        && (r.cacheWrite.Some? ==>
              shouldCacheQuery && allData && !mode.NeverCache? && r.cacheWrite.value == d.candidateOrder
              && (mode.SometimesCache? ==> !d.tieForBest && winnerBuffered > 0))
  {
    PickBestPlanEffect(s, numWorks, numResults, env, rank, mode, shouldCacheQuery);
  }

  // ---------------------------------------------------------------------
  // After the choice
  // ---------------------------------------------------------------------

  /** One call of `doWork`: the new state, what it returns, and whether the cache entry was removed. */
  datatype WorkResult = WorkResult(state: MultiPlanState, result: StageState, uncached: bool)

  /** Works candidate `ix` once more through the oracle. */
  function WorkWinner(s: MultiPlanState, ix: nat, env: Env): (r: WorkResult)
    requires ix < |s.candidates|
    ensures r.result == env.work(ix, s.candidates[ix].works) && !r.uncached
    ensures r.state == s.(candidates := s.candidates[ix := s.candidates[ix].(works := s.candidates[ix].works + 1)])
  {
    var c := s.candidates[ix];
    WorkResult(s.(candidates := s.candidates[ix := c.(works := c.works + 1)]), env.work(ix, c.works), false)
  }

  /**
   * `doWork`: a failed stage returns its status; otherwise the winner's
   * buffered results go out first, in order and without working anything,
   * and then the winner is worked. A winner that fails while a backup
   * exists hands over to the backup exactly once, the cache entry is
   * removed, and the backup is worked once; a winner that advances while
   * a backup exists clears the backup; otherwise the winner's answer is
   * passed through.
   */
  function DoWork(s: MultiPlanState, env: Env): (r: WorkResult)
    requires Chosen(s)
    ensures Chosen(r.state) && r.state.failure == s.failure && |r.state.candidates| == |s.candidates|
    ensures !s.failure ==>
      var b := s.bestPlan.value;
      var best := s.candidates[b];
      var st := env.work(b, best.works);
      (|best.results| > 0 ==>
         r.result == Advanced(best.results[0]) && !r.uncached
         && r.state.candidates[b].results == best.results[1..]
         && r.state.candidates[b].works == best.works
         && r.state.bestPlan == s.bestPlan && r.state.backupPlan == s.backupPlan)
      && (|best.results| == 0 && st.Failure? && s.backupPlan.Some? ==>
         var k := s.backupPlan.value;
         r.uncached && r.state.bestPlan == Some(k) && r.state.backupPlan.None?
         && r.result == env.work(k, s.candidates[k].works + (if k == b then 1 else 0)))
      && (|best.results| == 0 && !(st.Failure? && s.backupPlan.Some?) ==>
         !r.uncached && r.result == st && r.state.bestPlan == s.bestPlan
         && r.state.candidates[b].works == best.works + 1
         && (r.state.backupPlan.None? <==> s.backupPlan.None? || st.Advanced?))
    ensures s.failure ==> r == WorkResult(s, Failure(s.statusMemberId), false)
    ensures r.uncached ==> s.backupPlan.Some? && r.state.backupPlan.None?
  {
    if s.failure then WorkResult(s, Failure(s.statusMemberId), false)
    else
      var b := s.bestPlan.value;
      var best := s.candidates[b];
      if |best.results| > 0 then
        WorkResult(s.(candidates := s.candidates[b := best.(results := best.results[1..])]), Advanced(best.results[0]), false)
      else
        var w := WorkWinner(s, b, env);
        if w.result.Failure? && s.backupPlan.Some? then
          var switched := w.state.(bestPlan := s.backupPlan, backupPlan := None);
          var w2 := WorkWinner(switched, s.backupPlan.value, env);
          w2.(uncached := true)
        else if s.backupPlan.Some? && w.result.Advanced? then
          w.(state := w.state.(backupPlan := None))
        else w
  }

  /** The buffered results that `k` calls of `doWork` return, and the state after them. */
  datatype Served = Served(state: MultiPlanState, results: seq<StageState>)

  function Serve(s: MultiPlanState, env: Env, k: nat): (r: Served)
    requires Chosen(s)
    ensures Chosen(r.state) && |r.results| == k
    decreases k
  {
    if k == 0 then Served(s, [])
    else
      var w := DoWork(s, env);
      var rest := Serve(w.state, env, k - 1);
      Served(rest.state, [w.result] + rest.results)
  }

  /**
   * The winner's FIFO is served first and in order: `k` calls on a live
   * stage whose winner buffered at least `k` results return those results,
   * oldest first, and leave the rest buffered, with nothing worked.
   */
  lemma {:induction false} ServeBufferedInOrder(s: MultiPlanState, env: Env, k: nat)
    requires Chosen(s) && !s.failure && k <= |s.candidates[s.bestPlan.value].results|
    ensures var r := Serve(s, env, k);
      var b := s.bestPlan.value;
      r.state.bestPlan == s.bestPlan && r.state.backupPlan == s.backupPlan && !r.state.failure
      && |r.state.candidates| == |s.candidates|
      && r.state.candidates[b].results == s.candidates[b].results[k..]
      && r.state.candidates[b].works == s.candidates[b].works
      && forall i :: 0 <= i < k ==> r.results[i] == Advanced(s.candidates[b].results[i])
    decreases k
  {
    if k > 0 {
      var b := s.bestPlan.value;
      var w := DoWork(s, env);
      ServeBufferedInOrder(w.state, env, k - 1);
      var rest := Serve(w.state, env, k - 1);
      assert s.candidates[b].results[1..][k - 1..] == s.candidates[b].results[k..];
      forall i | 0 <= i < k
        ensures Serve(s, env, k).results[i] == Advanced(s.candidates[b].results[i])
      {
        if i > 0 {
          assert Serve(s, env, k).results[i] == rest.results[i - 1];
        }
      }
    }
  }

  /** `isEOF`: a failed stage is at its end; one without a winner is not; otherwise the winner must have nothing buffered and be at its end. */
  function IsEOF(s: MultiPlanState, env: Env): (r: bool)
    requires s.bestPlan.Some? ==> s.bestPlan.value < |s.candidates|
    ensures s.failure ==> r
    ensures !s.failure && s.bestPlan.None? ==> !r
    ensures !s.failure && s.bestPlan.Some? ==>
      (r <==> |s.candidates[s.bestPlan.value].results| == 0
              && env.rootIsEOF(s.bestPlan.value, s.candidates[s.bestPlan.value].works))
  {
    if s.failure then true
    else if s.bestPlan.None? then false
    else
      var best := s.candidates[s.bestPlan.value];
      |best.results| == 0 && env.rootIsEOF(s.bestPlan.value, best.works)
  }

  /** A stage with buffered results is not at its end, and its next `doWork` advances. */
  lemma BufferedIsNotEOF(s: MultiPlanState, env: Env)
    requires Chosen(s) && !s.failure && |s.candidates[s.bestPlan.value].results| > 0
    ensures !IsEOF(s, env) && DoWork(s, env).result.Advanced?
  {
  }

  function HasBackupPlan(s: MultiPlanState): (r: bool)
    ensures r <==> s.backupPlan.Some?
  {
    s.backupPlan.Some?
  }

  /** `bestSolution`: the winner's solution flags, or nothing before a winner is picked. */
  function BestSolution(s: MultiPlanState): (r: Option<SolutionInfo>)
    requires s.bestPlan.Some? ==> s.bestPlan.value < |s.candidates|
    ensures r.None? <==> s.bestPlan.None?
    ensures r.Some? ==>
      r.value.hasBlockingStage == s.candidates[s.bestPlan.value].hasBlockingStage
      && r.value.hasCacheData == s.candidates[s.bestPlan.value].hasCacheData
  {
    if s.bestPlan.None? then None
    else
      var c := s.candidates[s.bestPlan.value];
      Some(SolutionInfo(c.hasBlockingStage, c.hasCacheData))
  }
  // ---------------------------------------------------------------------
  // What the accessors report across the stage's life
  // ---------------------------------------------------------------------

  /** A backup, when there is one, is a candidate without a blocking stage. */
  predicate BackupNonBlocking(s: MultiPlanState) {
    s.backupPlan.Some? && s.backupPlan.value < |s.candidates| ==> !s.candidates[s.backupPlan.value].hasBlockingStage
  }

  /**
   * After a pick, `bestSolution` reports the ranker's winner and
   * `hasBackupPlan` holds exactly when the winner blocks, buffered
   * nothing, and some candidate does not block; that backup does not block.
   */
  lemma PickedAccessors(s: MultiPlanState, numWorks: nat, numResults: nat, env: Env,
                        rank: seq<Candidate> -> PlanRankingDecision,
                        mode: CachingMode, shouldCacheQuery: bool)
    requires Invariant(s) && !s.failure
    requires forall cs: seq<Candidate> :: OrderInRange(rank(cs), |cs|)
    ensures var r := PickBestPlan(s, numWorks, numResults, env, rank, mode, shouldCacheQuery);
      var t := TrialPeriod(s, 0, numWorks, numResults, env).state;
      var d := rank(t.candidates);
      r.Picked? ==>
        0 <= d.bestIdx < |t.candidates|
        && BestSolution(r.state)
           == Some(SolutionInfo(t.candidates[d.bestIdx].hasBlockingStage, t.candidates[d.bestIdx].hasCacheData))
        && (HasBackupPlan(r.state) <==>
              t.candidates[d.bestIdx].hasBlockingStage && |t.candidates[d.bestIdx].results| == 0
              && exists j :: 0 <= j < |t.candidates| && !t.candidates[j].hasBlockingStage)
        && BackupNonBlocking(r.state)
  {
    PickBestPlanEffect(s, numWorks, numResults, env, rank, mode, shouldCacheQuery);
  }

  /**
   * `doWork` never creates a backup: one after the call was there before,
   * and a backup that does not block stays so.
   */
  lemma DoWorkKeepsBackup(s: MultiPlanState, env: Env)
    requires Chosen(s)
    ensures HasBackupPlan(DoWork(s, env).state) ==>
      HasBackupPlan(s) && DoWork(s, env).state.backupPlan == s.backupPlan
    ensures BackupNonBlocking(s) ==> BackupNonBlocking(DoWork(s, env).state)
  {
  }

  /**
   * After a switch to the backup, `bestSolution` reports the backup's
   * solution, which has no blocking stage, and no backup remains.
   */
  lemma SwitchReportsBackup(s: MultiPlanState, env: Env)
    requires Chosen(s) && !s.failure && BackupNonBlocking(s)
    requires DoWork(s, env).uncached
    ensures s.backupPlan.Some?
    ensures BestSolution(DoWork(s, env).state)
      == Some(SolutionInfo(false, s.candidates[s.backupPlan.value].hasCacheData))
    ensures !HasBackupPlan(DoWork(s, env).state)
  {
  }

  /**
   * A live stage at its end has nothing buffered, so its next `doWork`
   * works a plan: the winner, or the backup it hands over to.
   */
  lemma EOFWorksAPlan(s: MultiPlanState, env: Env)
    requires Chosen(s) && !s.failure && IsEOF(s, env)
    ensures var b := s.bestPlan.value;
      var r := DoWork(s, env);
      !r.uncached ==>
        r.result == env.work(b, s.candidates[b].works) && r.state.candidates[b].works == s.candidates[b].works + 1
  {
  }

  /**
   * Once the winner's buffer has been served, the stage is at its end
   * exactly when the winner's plan is; a failed stage is always at its
   * end and `doWork` reports the failure.
   */
  lemma EOFAfterBuffer(s: MultiPlanState, env: Env)
    requires Chosen(s) && (s.bestPlan.Some? ==> s.bestPlan.value < |s.candidates|)
    ensures s.failure ==> IsEOF(s, env) && DoWork(s, env).result == Failure(s.statusMemberId)
    ensures !s.failure ==>
      var b := s.bestPlan.value;
      var k := |s.candidates[b].results|;
      var served := Serve(s, env, k).state;
      served.bestPlan == s.bestPlan && |served.candidates| == |s.candidates|
      && (IsEOF(served, env) <==> env.rootIsEOF(b, s.candidates[b].works))
  {
    if !s.failure {
      var b := s.bestPlan.value;
      ServeBufferedInOrder(s, env, |s.candidates[b].results|);
    }
  }

}

=== FILE: planner_analysis.dfy ===
/**
 * The last phase of query planning: turning a plan tree that finds the
 * matching documents into a complete solution, by adding the shard filter,
 * obtaining the requested sort (already provided, by reversing the scans,
 * by exploding point bounds, or by a blocking sort), and adding skip,
 * projection, fetch and limit stages.
 *
 * The properties each node derives (its sorts, whether it is fetched,
 * which fields it supplies) come from the oracle in `Props`; the match
 * expression's text and geo predicates are given as flags of the query.
 */
module PlannerAnalysis {
  import opened Wrappers
  import opened Bounds
  import opened QuerySolution
  import opened PlannerExplode

  /** What the query's projection needs. */
  datatype ProjectionSpec = ProjectionSpec(
    requiresDocument: bool,
    wantIndexKey: bool,
    wantSortKey: bool,
    hasDottedFieldPath: bool,
    requiredFields: seq<string>)

  /** The parts of the canonical query the analysis reads. */
  datatype Query = Query(
    sort: Pattern,
    limit: Option<nat>,
    skip: Option<nat>,
    ntoreturn: Option<nat>,
    wantMore: bool,
    hasText: bool,
    hasGeo: bool,
    hasGeoNear: bool,
    proj: Option<ProjectionSpec>)

  /** The planner options the analysis reads. */
  datatype PlannerParams = PlannerParams(
    noBlockingSort: bool,
    splitLimitedSort: bool,
    includeShardFilter: bool,
    isCount: bool,
    noUncoveredProjections: bool,
    shardKey: seq<string>,
    maxScansToExplode: nat,
    indexFiltersApplied: bool)

  datatype Solution = Solution(root: Node, hasBlockingStage: bool, indexFilterApplied: bool)

  /** The tree after sort analysis (none when a needed blocking sort is forbidden), and whether a blocking sort was added. */
  datatype SortAnalysis = SortAnalysis(root: Option<Node>, blockingSort: bool)

  // ---------------------------------------------------------------------
  // Sort
  // ---------------------------------------------------------------------

  /** A sort naming the top-level field `$natural`. */
  predicate IsNaturalSort(sort: Pattern) {
    exists i | 0 <= i < |sort| :: sort[i].field == "$natural"
  }

  function SortFields(sort: Pattern): (r: seq<string>)
    ensures |r| == |sort| && forall i :: 0 <= i < |sort| ==> r[i] == sort[i].field
  {
    seq(|sort|, i requires 0 <= i < |sort| => sort[i].field)
  }

  function SkipOrZero(q: Query): nat {
    if q.skip.Some? then q.skip.value else 0
  }

  /**
   * The limit of a blocking sort: a true limit plus the skip, else a
   * legacy `ntoreturn` plus the skip, else none (0).
   */
  function SortLimit(q: Query): (r: nat)
    ensures q.limit.Some? ==> r == q.limit.value + SkipOrZero(q)
    ensures q.limit.None? && q.ntoreturn.Some? ==> r == q.ntoreturn.value + SkipOrZero(q)
    ensures q.limit.None? && q.ntoreturn.None? ==> r == 0
  {
    match q.limit
    case Some(limit) => limit + SkipOrZero(q)
    case None => if q.ntoreturn.Some? then q.ntoreturn.value + SkipOrZero(q) else 0
  }

  /**
   * Whether a limited sort is split into a top-k sort and an unlimited one:
   * only for a legacy `ntoreturn` that may mean a batch size, when the
   * option is on and the query has no text or geo predicate.
   */
  predicate SplitLimitedSort(q: Query, params: PlannerParams) {
    q.limit.None? && q.ntoreturn.Some? && q.wantMore && params.splitLimitedSort
    && !q.hasText && !q.hasGeo && !q.hasGeoNear
  }

  /** A fetch is needed below the sort unless the input is fetched or supplies every sort field. */
  function SortInput(q: Query, t: Node, props: Props): (r: Node)
    ensures props.fetched(t) || HasAllFields(props, t, SortFields(q.sort)) ==> r == t
    ensures !(props.fetched(t) || HasAllFields(props, t, SortFields(q.sort))) ==> r == Unary(Fetch, t)
  {
    if props.fetched(t) || HasAllFields(props, t, SortFields(q.sort)) then t else Unary(Fetch, t)
  }

  /**
   * The blocking sort over `t`: a sort on the query's sort pattern over a
   * sort-key generator over the (possibly fetched) input, or, when the
   * limited sort is split, an ensure-sorted stage over an OR of that sort
   * and the same sort without a limit.
   */
  function AddBlockingSort(q: Query, params: PlannerParams, t: Node, props: Props): (r: Node)
    ensures r.stage.EnsureSorted? <==> SplitLimitedSort(q, params)
    ensures var sort := Unary(Sort(q.sort, SortLimit(q)), Unary(SortKeyGenerator(q.sort), SortInput(q, t, props)));
      if SplitLimitedSort(q, params)
      then r == Unary(EnsureSorted(q.sort), Node(Or, [sort, sort.(stage := Sort(q.sort, 0))]))
      else r == sort
  {
    var keyGen := Unary(SortKeyGenerator(q.sort), SortInput(q, t, props));
    var sort := Unary(Sort(q.sort, SortLimit(q)), keyGen);
    if SplitLimitedSort(q, params) then
      Unary(EnsureSorted(q.sort), Node(Or, [sort, Unary(Sort(q.sort, 0), keyGen)]))
    else sort
  }

  lemma AddBlockingSortWellFormed(q: Query, params: PlannerParams, t: Node, props: Props)
    requires WellFormed(t)
    ensures WellFormed(AddBlockingSort(q, params, t, props))
  {
    var keyGen := Unary(SortKeyGenerator(q.sort), SortInput(q, t, props));
    assert WellFormed(keyGen);
    var r := AddBlockingSort(q, params, t, props);
    if SplitLimitedSort(q, params) {
      assert WellFormed(r.children[0].children[0]);
      assert WellFormed(r.children[0].children[1]);
      assert WellFormed(r.children[0]);
    }
  }

  /** The sort analysis decides, in order, which way the requested sort is obtained. */
  datatype SortRoute = NoSortNeeded | ReverseScansRoute | ExplodeRoute | BlockingSortRoute | BlockingSortForbidden

  function SortRouteOf(q: Query, params: PlannerParams, root: Node, props: Props): SortRoute
    requires WellFormed(root)
  {
    if |q.sort| == 0 || IsNaturalSort(q.sort) || q.sort in props.sorts(root) then NoSortNeeded
    else if ReverseSortPattern(q.sort) in props.sorts(root) then ReverseScansRoute
    else if ExplodeForSort(root, q.sort, params.maxScansToExplode).exploded then ExplodeRoute
    else if params.noBlockingSort then BlockingSortForbidden
    else BlockingSortRoute
  }

  /**
   * `analyzeSort`. No sort, a `$natural` sort or a sort the tree already
   * provides leaves the tree as it is; a reverse sort it provides reverses
   * the scans; otherwise bounds explosion is tried, then a blocking sort
   * over the tree as explosion left it, unless blocking sorts are
   * forbidden. Only the last route reports a blocking sort.
   */
  function AnalyzeSort(q: Query, params: PlannerParams, root: Node, props: Props): (r: SortAnalysis)
    requires WellFormed(root)
    ensures r.blockingSort <==> SortRouteOf(q, params, root, props) == BlockingSortRoute
    ensures r.root.None? <==> SortRouteOf(q, params, root, props) == BlockingSortForbidden
    ensures SortRouteOf(q, params, root, props) == NoSortNeeded ==> r.root == Some(root)
    ensures SortRouteOf(q, params, root, props) == ReverseScansRoute ==> r.root == Some(ReverseScans(root))
    ensures SortRouteOf(q, params, root, props) == ExplodeRoute ==>
      r.root == Some(ExplodeForSort(root, q.sort, params.maxScansToExplode).root)
    ensures r.blockingSort ==>
      r.root == Some(AddBlockingSort(q, params, ExplodeForSort(root, q.sort, params.maxScansToExplode).root, props))
  {
    if |q.sort| == 0 then SortAnalysis(Some(root), false)
    else if IsNaturalSort(q.sort) then SortAnalysis(Some(root), false)
    else if q.sort in props.sorts(root) then SortAnalysis(Some(root), false)
    else if ReverseSortPattern(q.sort) in props.sorts(root) then SortAnalysis(Some(ReverseScans(root)), false)
    else
      var exploded := ExplodeForSort(root, q.sort, params.maxScansToExplode);
      if exploded.exploded then SortAnalysis(Some(exploded.root), false)
      else if params.noBlockingSort then SortAnalysis(None, false)
      else SortAnalysis(Some(AddBlockingSort(q, params, exploded.root, props)), true)
  }

  /** Sort analysis turns a well-formed tree into a well-formed tree. */
  lemma AnalyzeSortWellFormed(q: Query, params: PlannerParams, root: Node, props: Props)
    requires WellFormed(root)
    ensures var r := AnalyzeSort(q, params, root, props); r.root.Some? ==> WellFormed(r.root.value)
  {
    var route := SortRouteOf(q, params, root, props);
    if route == ReverseScansRoute {
      ReverseScansWellFormed(root);
    } else if route == ExplodeRoute {
      ExplodeForSortSuccess(root, q.sort, params.maxScansToExplode);
    } else if route == BlockingSortRoute {
      ExplodeForSortWellFormed(root, q.sort, params.maxScansToExplode);
      AddBlockingSortWellFormed(q, params, ExplodeForSort(root, q.sort, params.maxScansToExplode).root, props);
    }
  }

  /** Explosion, refused or not, leaves a well-formed tree. */
  lemma ExplodeForSortWellFormed(root: Node, desiredSort: Pattern, maxScansToExplode: nat)
    requires WellFormed(root)
    ensures WellFormed(ExplodeForSort(root, desiredSort, maxScansToExplode).root)
  {
    var r := ExplodeForSort(root, desiredSort, maxScansToExplode);
    if r.exploded {
      ExplodeForSortSuccess(root, desiredSort, maxScansToExplode);
    } else if StructureOKForExplode(root).Some? {
      var path := StructureOKForExplode(root).value;
      ExplodeForSortRefusal(root, desiredSort, maxScansToExplode);
      ReplaceKeepsWellFormed(root, path, At(r.root, path));
    }
  }

  /**
   * A blocking sort sorts on exactly the requested pattern, with the
   * limit the query asks for (true limit plus skip, else legacy
   * `ntoreturn` plus skip, else none); its split form's second sort is
   * unlimited.
   */
  lemma BlockingSortStages(q: Query, params: PlannerParams, root: Node, props: Props)
    requires WellFormed(root) && AnalyzeSort(q, params, root, props).blockingSort
    ensures var top := AnalyzeSort(q, params, root, props).root.value;
      var sort := if SplitLimitedSort(q, params) then top.children[0].children[0] else top;
      (SplitLimitedSort(q, params) ==>
         top.stage == EnsureSorted(q.sort) && top.children[0].stage == Or && |top.children[0].children| == 2
         && top.children[0].children[1].stage == Sort(q.sort, 0)
         && top.children[0].children[1].children == sort.children)
      && sort.stage.Sort? && sort.stage.pattern == q.sort
      && (q.limit.Some? ==> sort.stage.limit == q.limit.value + SkipOrZero(q))
      && (q.limit.None? && q.ntoreturn.Some? ==> sort.stage.limit == q.ntoreturn.value + SkipOrZero(q))
      && (q.limit.None? && q.ntoreturn.None? ==> sort.stage.limit == 0)
      && sort.children[0].stage == SortKeyGenerator(q.sort)
  {
  }

  // ---------------------------------------------------------------------
  // Projection
  // ---------------------------------------------------------------------

  /**
   * `produceCoveredKeyObj`: the key pattern of the single index scan or
   * distinct scan under the tree, or nothing (the empty pattern).
   */
  function ProduceCoveredKeyObj(root: Node): (r: Pattern)
    ensures var leaves := GetLeafNodes(root);
      r == (if |leaves| == 1 && leaves[0].stage.IxScan? then leaves[0].stage.scan.index.keyPattern
            else if |leaves| == 1 && leaves[0].stage.DistinctScan? then leaves[0].stage.index.keyPattern
            else [])
  {
    var leaves := GetLeafNodes(root);
    if |leaves| == 1 then
      match leaves[0].stage
      case IxScan(scan) => scan.index.keyPattern
      case DistinctScan(index, _, _) => index.keyPattern
      case _ => []
    else []
  }

  /** A projection free of index keys, sort keys, dotted paths and whole-document needs. */
  predicate IsSimpleProjection(proj: ProjectionSpec) {
    !proj.wantIndexKey && !proj.wantSortKey && !proj.hasDottedFieldPath && !proj.requiresDocument
  }

  /** A fetch goes under the projection when it needs the document, or is not covered and does not return the key. */
  predicate ProjectionNeedsFetch(proj: ProjectionSpec, root: Node, props: Props) {
    (proj.requiresDocument && !props.fetched(root))
    || (!HasAllFields(props, root, proj.requiredFields) && !proj.wantIndexKey)
  }

  function WithSortKeyGenerator(q: Query, proj: ProjectionSpec, hasSortStage: bool, root: Node): (r: Node)
    ensures !hasSortStage && proj.wantSortKey ==> r == Unary(SortKeyGenerator(q.sort), root)
    ensures !(!hasSortStage && proj.wantSortKey) ==> r == root
  {
    if !hasSortStage && proj.wantSortKey then Unary(SortKeyGenerator(q.sort), root) else root
  }

  /**
   * `analyzeProjection`: a projection stage over the input, fetched if
   * the projection needs it, with a sort-key generator below when the
   * projection wants a sort key and there is no blocking sort. The fast
   * simple projection is chosen for a simple projection over fetched
   * data, the covered one for a simple projection over a single index,
   * the default one otherwise.
   */
  function AnalyzeProjection(q: Query, proj: ProjectionSpec, root: Node, hasSortStage: bool, props: Props): (r: Node)
    ensures r.stage.Projection? && |r.children| == 1
    ensures var input := if ProjectionNeedsFetch(proj, root, props) then Unary(Fetch, root) else root;
      r.children[0] == WithSortKeyGenerator(q, proj, hasSortStage, input)
      && (r.stage.kind.ProjectionSimple? <==> IsSimpleProjection(proj) && props.fetched(input))
      && (r.stage.kind.ProjectionCovered? <==>
            IsSimpleProjection(proj) && !props.fetched(input) && |ProduceCoveredKeyObj(input)| > 0)
      && (r.stage.kind.ProjectionCovered? ==> r.stage.kind.coveredKeyObj == ProduceCoveredKeyObj(input))
  {
    var input := if ProjectionNeedsFetch(proj, root, props) then Unary(Fetch, root) else root;
    var below := WithSortKeyGenerator(q, proj, hasSortStage, input);
    if IsSimpleProjection(proj) && props.fetched(input) then
      Unary(Projection(ProjectionSimple), below)
    else if IsSimpleProjection(proj) && |ProduceCoveredKeyObj(input)| > 0 then
      Unary(Projection(ProjectionCovered(ProduceCoveredKeyObj(input))), below)
    else Unary(Projection(ProjectionDefault), below)
  }

  // ---------------------------------------------------------------------
  // Data access
  // ---------------------------------------------------------------------

  /** Some shard-key field the tree does not supply. */
  predicate MissesShardKeyField(params: PlannerParams, root: Node, props: Props) {
    exists i | 0 <= i < |params.shardKey| :: !props.hasField(root, params.shardKey[i])
  }

  /**
   * The shard filter, when requested, over the tree, fetched first if the
   * tree is not fetched and lacks a shard-key field.
   */
  function AddShardFilter(params: PlannerParams, root: Node, props: Props): (r: Node)
    ensures WellFormed(root) ==> WellFormed(r)
    ensures !params.includeShardFilter ==> r == root
    ensures params.includeShardFilter ==>
      r.stage == ShardingFilter && |r.children| == 1
      && r.children[0] == (if !props.fetched(root) && MissesShardKeyField(params, root, props)
                          then Unary(Fetch, root) else root)
  {
    if !params.includeShardFilter then root
    else if !props.fetched(root) && MissesShardKeyField(params, root, props) then
      Unary(ShardingFilter, Unary(Fetch, root))
    else Unary(ShardingFilter, root)
  }

  function AddSkip(q: Query, root: Node): (r: Node)
    ensures WellFormed(root) ==> WellFormed(r)
    ensures q.skip.Some? ==> r == Unary(Skip(q.skip.value), root)
    ensures q.skip.None? ==> r == root
  {
    if q.skip.Some? then Unary(Skip(q.skip.value), root) else root
  }

  /**
   * Without a blocking sort, a true limit or a legacy limit (an
   * `ntoreturn` that is not a batch size) is enforced by a limit stage;
   * with one, the sort enforces it and nothing is added.
   */
  function AddLimit(q: Query, hasSortStage: bool, root: Node): (r: Node)
    ensures WellFormed(root) ==> WellFormed(r)
    ensures hasSortStage ==> r == root
    ensures !hasSortStage && q.limit.Some? ==> r == Unary(Limit(q.limit.value), root)
    ensures !hasSortStage && q.limit.None? && q.ntoreturn.Some? && !q.wantMore ==>
      r == Unary(Limit(q.ntoreturn.value), root)
    ensures !hasSortStage && q.limit.None? && !(q.ntoreturn.Some? && !q.wantMore) ==> r == root
  {
    if hasSortStage then root
    else if q.limit.Some? then Unary(Limit(q.limit.value), root)
    else if q.ntoreturn.Some? && !q.wantMore then Unary(Limit(q.ntoreturn.value), root)
    else root
  }

  /** The tree after each step of `analyzeDataAccess`. */
  datatype DataAccessSteps = DataAccessSteps(
    shardFiltered: Node,
    sorted: Node,
    blockingSort: bool,
    skipped: Node,
    projected: Node,
    limited: Node)

  /** The projection analysis when the query projects, else a fetch unless the data is fetched or only counted. */
  function ProjectOrFetch(q: Query, params: PlannerParams, skipped: Node, blockingSort: bool, props: Props): Node {
    if q.proj.Some? then AnalyzeProjection(q, q.proj.value, skipped, blockingSort, props)
    else if !props.fetched(skipped) && !params.isCount then Unary(Fetch, skipped)
    else skipped
  }

  /** The steps of `analyzeDataAccess`; none when a step refuses the plan. */
  function DataAccess(q: Query, params: PlannerParams, root: Node, props: Props): (r: Option<DataAccessSteps>)
    requires WellFormed(root)
    ensures r.Some? ==>
      r.value.shardFiltered == AddShardFilter(params, root, props)
      && AnalyzeSort(q, params, r.value.shardFiltered, props) == SortAnalysis(Some(r.value.sorted), r.value.blockingSort)
      && r.value.skipped == AddSkip(q, r.value.sorted)
      && r.value.projected == ProjectOrFetch(q, params, r.value.skipped, r.value.blockingSort, props)
      && r.value.limited == AddLimit(q, r.value.blockingSort, r.value.projected)
  {
    var shardFiltered := AddShardFilter(params, root, props);
    var sorted := AnalyzeSort(q, params, shardFiltered, props);
    if sorted.root.None? then None
    else
      var skipped := AddSkip(q, sorted.root.value);
      var projected := ProjectOrFetch(q, params, skipped, sorted.blockingSort, props);
      if q.proj.Some? && props.fetched(projected) && params.noUncoveredProjections then None
      else
        Some(DataAccessSteps(shardFiltered, sorted.root.value, sorted.blockingSort, skipped, projected,
                             AddLimit(q, sorted.blockingSort, projected)))
  }

  /**
   * `analyzeDataAccess`: the solution's root is the last step's tree; it is
   * blocking when a blocking sort was added or the sorted tree holds a
   * hashed AND; it records whether index filters applied.
   */
  function AnalyzeDataAccess(q: Query, params: PlannerParams, root: Node, props: Props): (r: Option<Solution>)
    requires WellFormed(root)
    ensures r.Some? <==> DataAccess(q, params, root, props).Some?
    ensures r.Some? ==>
      var steps := DataAccess(q, params, root, props).value;
      r.value.root == steps.limited && r.value.indexFilterApplied == params.indexFiltersApplied
  {
    match DataAccess(q, params, root, props)
    case None => None
    case Some(steps) =>
      Some(Solution(steps.limited, steps.blockingSort || HasNode(steps.sorted, StageAndHash),
                         params.indexFiltersApplied))
  }

  /**
   * No solution comes out exactly when a blocking sort is needed but
   * forbidden, or when the projection ends up over fetched data while
   * uncovered projections are forbidden.
   */
  lemma DataAccessRefusal(q: Query, params: PlannerParams, root: Node, props: Props)
    requires WellFormed(root)
    ensures var shardFiltered := AddShardFilter(params, root, props);
      AnalyzeDataAccess(q, params, root, props).None? <==>
        (SortRouteOf(q, params, shardFiltered, props) == BlockingSortForbidden
         || (var sorted := AnalyzeSort(q, params, shardFiltered, props);
             sorted.root.Some? && q.proj.Some? && params.noUncoveredProjections
             && props.fetched(AnalyzeProjection(q, q.proj.value, AddSkip(q, sorted.root.value), sorted.blockingSort, props))))
  {
  }

  /**
   * A solution is blocking exactly when a blocking sort was added or some
   * position of the sorted tree holds a hashed AND.
   */
  lemma DataAccessBlocking(q: Query, params: PlannerParams, root: Node, props: Props)
    requires WellFormed(root) && AnalyzeDataAccess(q, params, root, props).Some?
    ensures var steps := DataAccess(q, params, root, props).value;
      AnalyzeDataAccess(q, params, root, props).value.hasBlockingStage <==>
        (steps.blockingSort
         || exists p :: ValidPath(steps.sorted, p) && TypeOf(At(steps.sorted, p).stage) == StageAndHash)
  {
    var steps := DataAccess(q, params, root, props).value;
    var _ := HasNodeIffSomewhere(steps.sorted, StageAndHash);
  }

  /**
   * Without a projection, a fetch is added exactly when the data is not
   * fetched and the query is not a count; with one, the projection stage
   * is placed over the skipped tree.
   */
  lemma DataAccessFetch(q: Query, params: PlannerParams, root: Node, props: Props)
    requires WellFormed(root) && DataAccess(q, params, root, props).Some?
    ensures var steps := DataAccess(q, params, root, props).value;
      (q.proj.None? ==>
         steps.projected == (if !props.fetched(steps.skipped) && !params.isCount
                             then Unary(Fetch, steps.skipped) else steps.skipped))
      && (q.proj.Some? ==>
            steps.projected.stage.Projection?
            && steps.projected == AnalyzeProjection(q, q.proj.value, steps.skipped, steps.blockingSort, props))
  {
  }

  /** A stage over a tree is never that tree. */
  lemma UnaryDiffers(s: Stage, child: Node)
    ensures Unary(s, child) != child
  {
    assert Unary(s, child).children[0] == child;
  }

  /** The solution's plan is well-formed. */
  lemma DataAccessWellFormed(q: Query, params: PlannerParams, root: Node, props: Props)
    requires WellFormed(root) && AnalyzeDataAccess(q, params, root, props).Some?
    ensures WellFormed(AnalyzeDataAccess(q, params, root, props).value.root)
  {
    var steps := DataAccess(q, params, root, props).value;
    AnalyzeSortWellFormed(q, params, steps.shardFiltered, props);
    ProjectOrFetchWellFormed(q, params, steps.skipped, steps.blockingSort, props);
  }

  lemma ProjectOrFetchWellFormed(q: Query, params: PlannerParams, skipped: Node, blockingSort: bool, props: Props)
    requires WellFormed(skipped)
    ensures WellFormed(ProjectOrFetch(q, params, skipped, blockingSort, props))
  {
    if q.proj.Some? {
      var r := AnalyzeProjection(q, q.proj.value, skipped, blockingSort, props);
      assert WellFormed(r.children[0]);
    }
  }

  /**
   * A limit stage tops the solution only when there is no blocking sort,
   * and then exactly when the query has a true limit or a legacy one.
   */
  lemma DataAccessLimit(q: Query, params: PlannerParams, root: Node, props: Props)
    requires WellFormed(root) && AnalyzeDataAccess(q, params, root, props).Some?
    ensures var steps := DataAccess(q, params, root, props).value;
      var top := AnalyzeDataAccess(q, params, root, props).value.root;
      (top != steps.projected <==> !steps.blockingSort && (q.limit.Some? || (q.ntoreturn.Some? && !q.wantMore)))
      && (top != steps.projected ==>
            top.children == [steps.projected]
            && top.stage == Limit(if q.limit.Some? then q.limit.value else q.ntoreturn.value))
  {
    var steps := DataAccess(q, params, root, props).value;
    var top := AnalyzeDataAccess(q, params, root, props).value.root;
    if !steps.blockingSort && q.limit.Some? {
      UnaryDiffers(Limit(q.limit.value), steps.projected);
    } else if !steps.blockingSort && q.ntoreturn.Some? && !q.wantMore {
      UnaryDiffers(Limit(q.ntoreturn.value), steps.projected);
    }
  }

  // ---------------------------------------------------------------------
  // What the added stages can read, and the shape of the solution
  // ---------------------------------------------------------------------

  /**
   * A fetch stage always has the whole document. The planner's node
   * classes are not part of this model, so the lemmas below take this
   * fact about the derived properties as a hypothesis.
   */
  ghost predicate FetchFetches(props: Props) {
    forall n: Node :: props.fetched(Unary(Fetch, n))
  }

  /**
   * The input of the sort-key generator can read every sort field: it is
   * fetched or supplies them all. A fetch is added only when neither holds
   * of the tree.
   */
  lemma SortInputSupplies(q: Query, t: Node, props: Props)
    requires FetchFetches(props)
    ensures var r := SortInput(q, t, props);
      (props.fetched(r) || HasAllFields(props, r, SortFields(q.sort)))
      && (r != t <==> !props.fetched(t) && !HasAllFields(props, t, SortFields(q.sort)))
      && (r != t ==> r.stage == Fetch && r.children == [t])
  {
    if SortInput(q, t, props) != t {
      assert props.fetched(Unary(Fetch, t));
    } else if !props.fetched(t) && !HasAllFields(props, t, SortFields(q.sort)) {
      UnaryDiffers(Fetch, t);
    }
  }

  /**
   * The sort-key generator of a blocking sort reads an input that is
   * fetched or supplies every sort field.
   */
  lemma BlockingSortReadsSortFields(q: Query, params: PlannerParams, root: Node, props: Props)
    requires WellFormed(root) && AnalyzeSort(q, params, root, props).blockingSort && FetchFetches(props)
    ensures var top := AnalyzeSort(q, params, root, props).root.value;
      var sort := if SplitLimitedSort(q, params) then top.children[0].children[0] else top;
      |sort.children| == 1 && |sort.children[0].children| == 1
      && var input := sort.children[0].children[0];
         props.fetched(input) || HasAllFields(props, input, SortFields(q.sort))
  {
    SortInputSupplies(q, ExplodeForSort(root, q.sort, params.maxScansToExplode).root, props);
  }

  /** Stacking one-child stages over a tree keeps its leaves, so the covered key pattern too. */
  lemma CoveredKeyObjThroughUnary(s: Stage, child: Node)
    ensures GetLeafNodes(Unary(s, child)) == GetLeafNodes(child)
    ensures ProduceCoveredKeyObj(Unary(s, child)) == ProduceCoveredKeyObj(child)
  {
    var n := Unary(s, child);
    assert ChildrenLeaves(n, 1) == [];
    assert GetLeafNodes(n) == GetLeafNodes(child) + ChildrenLeaves(n, 1);
  }

  /** A lone index scan is covered by its own index's key pattern; a collection scan by nothing. */
  lemma CoveredKeyObjOfScan(scan: IndexScan)
    ensures ProduceCoveredKeyObj(Leaf(IxScan(scan))) == scan.index.keyPattern
    ensures ProduceCoveredKeyObj(Leaf(CollScan)) == []
  {
  }

  /**
   * The projection can read what it needs: a projection that needs the
   * document sits over fetched data, and one that does not return the
   * index key sits over data that is fetched or supplies every required
   * field. A fetch is added only when needed. A covered projection sits
   * over the unfetched tree itself, whose single leaf is an index or
   * distinct scan with the pattern the projection carries.
   */
  lemma ProjectionReadsItsFields(q: Query, proj: ProjectionSpec, root: Node, hasSortStage: bool, props: Props)
    requires FetchFetches(props)
    ensures var r := AnalyzeProjection(q, proj, root, hasSortStage, props);
      var keyGen := !hasSortStage && proj.wantSortKey;
      |r.children| == 1 && (keyGen ==> |r.children[0].children| == 1)
      && var input := if keyGen then r.children[0].children[0] else r.children[0];
         (proj.requiresDocument ==> props.fetched(input))
         && (!proj.wantIndexKey ==> props.fetched(input) || HasAllFields(props, input, proj.requiredFields))
         && (input != root <==> ProjectionNeedsFetch(proj, root, props))
         && (r.stage.kind.ProjectionCovered? ==>
               input == root && !props.fetched(root)
               && var leaves := GetLeafNodes(root);
                  |leaves| == 1 && (leaves[0].stage.IxScan? || leaves[0].stage.DistinctScan?)
                  && r.stage.kind.coveredKeyObj == ProduceCoveredKeyObj(root) != [])
  {
    var needs := ProjectionNeedsFetch(proj, root, props);
    if needs {
      assert props.fetched(Unary(Fetch, root));
      UnaryDiffers(Fetch, root);
    }
  }

  /**
   * When requested, exactly the shard filter is put on top, over data
   * that is fetched or supplies every shard-key field; a fetch is added
   * only when neither holds of the tree. Without the request the tree is
   * unchanged, so a sharding filter occurs in the result exactly when one
   * was requested or the tree already had one.
   */
  lemma ShardFilterReadsShardKey(params: PlannerParams, root: Node, props: Props)
    requires FetchFetches(props)
    ensures var r := AddShardFilter(params, root, props);
      (params.includeShardFilter ==>
         var input := r.children[0];
         (props.fetched(input) || HasAllFields(props, input, params.shardKey))
         && (input != root <==> !props.fetched(root) && !HasAllFields(props, root, params.shardKey)))
      && (HasNode(r, StageShardingFilter) <==> params.includeShardFilter || HasNode(root, StageShardingFilter))
  {
    var r := AddShardFilter(params, root, props);
    if params.includeShardFilter {
      if !props.fetched(root) && MissesShardKeyField(params, root, props) {
        assert props.fetched(Unary(Fetch, root));
        UnaryDiffers(Fetch, root);
      }
      assert r.children[0] == root || r.children[0] == Unary(Fetch, root);
      assert ChildrenHaveNode(r, StageShardingFilter, 1) == false;
      if r.children[0] != root {
        assert ChildrenHaveNode(r.children[0], StageShardingFilter, 1) == false;
      }
    }
  }

  /**
   * The stages `analyzeDataAccess` may put over the sorted tree, in their
   * fixed order from the top: a limit, a projection, a sort-key generator,
   * a fetch and a skip, each present or not.
   */
  datatype Spine = Spine(limit: Option<nat>, projection: Option<ProjectionKind>, keyGen: bool, fetch: bool, skip: Option<nat>)

  function SpineNode(sp: Spine, sorted: Node, sortPattern: Pattern): Node {
    var skipped := if sp.skip.Some? then Unary(Skip(sp.skip.value), sorted) else sorted;
    var fetched := if sp.fetch then Unary(Fetch, skipped) else skipped;
    var keyed := if sp.keyGen then Unary(SortKeyGenerator(sortPattern), fetched) else fetched;
    var projected := if sp.projection.Some? then Unary(Projection(sp.projection.value), keyed) else keyed;
    if sp.limit.Some? then Unary(Limit(sp.limit.value), projected) else projected
  }

  /**
   * The solution is the sorted tree under the spine of added stages. The
   * skip is there exactly when the query skips, the projection exactly
   * when it projects, the sort-key generator exactly when the projection
   * wants a sort key and no blocking sort was added, the fetch exactly
   * when the projection or, without one, the non-count query needs it, and
   * the limit exactly when no blocking sort enforces one.
   */
  lemma DataAccessSpine(q: Query, params: PlannerParams, root: Node, props: Props) returns (sp: Spine)
    requires WellFormed(root) && AnalyzeDataAccess(q, params, root, props).Some?
    ensures var steps := DataAccess(q, params, root, props).value;
      AnalyzeDataAccess(q, params, root, props).value.root == SpineNode(sp, steps.sorted, q.sort)
      && SpineMatchesQuery(q, params, sp, steps.skipped, steps.blockingSort, props)
  {
    var steps := DataAccess(q, params, root, props).value;
    sp := SpineOver(q, params, steps.sorted, steps.blockingSort, props);
  }

  predicate SpineMatchesQuery(q: Query, params: PlannerParams, sp: Spine, skipped: Node, blockingSort: bool, props: Props) {
    sp.skip == q.skip
    && (sp.projection.Some? <==> q.proj.Some?)
    && (sp.keyGen <==> q.proj.Some? && q.proj.value.wantSortKey && !blockingSort)
    && (sp.fetch <==>
          if q.proj.Some? then ProjectionNeedsFetch(q.proj.value, skipped, props)
          else !props.fetched(skipped) && !params.isCount)
    && sp.limit == (if blockingSort then None
                    else if q.limit.Some? then q.limit
                    else if q.ntoreturn.Some? && !q.wantMore then q.ntoreturn
                    else None)
  }

  /** The skip, projection-or-fetch and limit steps build the spine over the sorted tree. */
  lemma SpineOver(q: Query, params: PlannerParams, sorted: Node, blockingSort: bool, props: Props) returns (sp: Spine)
    ensures var skipped := AddSkip(q, sorted);
      AddLimit(q, blockingSort, ProjectOrFetch(q, params, skipped, blockingSort, props)) == SpineNode(sp, sorted, q.sort)
      && SpineMatchesQuery(q, params, sp, skipped, blockingSort, props)
  {
    var skipped := AddSkip(q, sorted);
    var limit := if blockingSort then None
                 else if q.limit.Some? then q.limit
                 else if q.ntoreturn.Some? && !q.wantMore then q.ntoreturn
                 else None;
    if q.proj.Some? {
      var proj := q.proj.value;
      var top := AnalyzeProjection(q, proj, skipped, blockingSort, props);
      sp := Spine(limit, Some(top.stage.kind), !blockingSort && proj.wantSortKey,
                  ProjectionNeedsFetch(proj, skipped, props), q.skip);
    } else {
      sp := Spine(limit, None, false, !props.fetched(skipped) && !params.isCount, q.skip);
    }
  }
}

=== FILE: planner_explode.dfy ===
/**
 * Bounds explosion: rewriting index scans whose leading fields are unions
 * of point intervals into one scan per combination of points, merged on
 * the remaining fields so that the merge provides the requested sort.
 */
module PlannerExplode {
  import opened Wrappers
  import opened Bounds
  import opened QuerySolution
  import opened MachineInt

  /** The point prefix of one exploded scan: one interval per exploded field. */
  type PointPrefix = seq<Interval>

  // ---------------------------------------------------------------------
  // Cartesian product of point intervals
  // ---------------------------------------------------------------------

  /** Every prefix with `iv` appended, in order. */
  function AppendToAll(prefixes: seq<PointPrefix>, iv: Interval): (r: seq<PointPrefix>)
    ensures |r| == |prefixes|
    ensures forall k :: 0 <= k < |prefixes| ==> r[k] == prefixes[k] + [iv]
  {
    seq(|prefixes|, k requires 0 <= k < |prefixes| => prefixes[k] + [iv])
  }

  /**
   * One field's step of the product: for each of the field's intervals in
   * turn, every existing prefix extended by it.
   */
  function Extend(prefixes: seq<PointPrefix>, ivs: seq<Interval>): (r: seq<PointPrefix>)
    ensures |r| == |ivs| * |prefixes|
    decreases |ivs|
  {
    if |ivs| == 0 then [] else Extend(prefixes, ivs[..|ivs| - 1]) + AppendToAll(prefixes, ivs[|ivs| - 1])
  }

  /** Entry `j * |prefixes| + k` of a step is prefix `k` extended by interval `j`. */
  lemma {:induction false} ExtendAt(prefixes: seq<PointPrefix>, ivs: seq<Interval>, j: nat, k: nat)
    requires j < |ivs| && k < |prefixes|
    ensures j * |prefixes| + k < |Extend(prefixes, ivs)|
    ensures Extend(prefixes, ivs)[j * |prefixes| + k] == prefixes[k] + [ivs[j]]
    decreases |ivs|
  {
    var n := |ivs|;
    var front := Extend(prefixes, ivs[..n - 1]);
    assert |front| == (n - 1) * |prefixes|;
    if j < n - 1 {
      ExtendAt(prefixes, ivs[..n - 1], j, k);
      assert j * |prefixes| + k < (n - 1) * |prefixes| by {
        assert (j + 1) * |prefixes| <= (n - 1) * |prefixes|;
      }
    } else {
      assert j * |prefixes| == |front|;
    }
  }

  /** The product of the first `n` fields' point intervals, built as `makeCartesianProduct` does, field by field. */
  function CartesianProduct(fields: seq<Oil>, n: nat): seq<PointPrefix>
    requires n <= |fields|
  {
    if n == 0 then [[]] else Extend(CartesianProduct(fields, n - 1), fields[n - 1].intervals)
  }

  /** The number of combinations of the first `i` fields' intervals. */
  function Stride(fields: seq<Oil>, i: nat): nat
    requires i <= |fields|
  {
    if i == 0 then 1 else Stride(fields, i - 1) * |fields[i - 1].intervals|
  }

  predicate NonEmptyPrefix(fields: seq<Oil>, n: nat)
    requires n <= |fields|
  {
    forall i :: 0 <= i < n ==> |fields[i].intervals| >= 1
  }

  lemma {:induction false} StridePositive(fields: seq<Oil>, i: nat)
    requires i <= |fields| && NonEmptyPrefix(fields, i)
    ensures Stride(fields, i) >= 1
  {
    if i > 0 {
      StridePositive(fields, i - 1);
    }
  }

  /** The stride of an earlier field, times its size, divides a later stride. */
  lemma {:induction false} StrideFactor(fields: seq<Oil>, i: nat, m: nat) returns (rest: nat)
    requires i < m <= |fields| && NonEmptyPrefix(fields, m)
    ensures rest >= 1 && Stride(fields, m) == Stride(fields, i) * |fields[i].intervals| * rest
    decreases m
  {
    if m == i + 1 {
      rest := 1;
    } else {
      var r := StrideFactor(fields, i, m - 1);
      rest := r * |fields[m - 1].intervals|;
      calc {
        Stride(fields, m);
        Stride(fields, m - 1) * |fields[m - 1].intervals|;
        (Stride(fields, i) * |fields[i].intervals| * r) * |fields[m - 1].intervals|;
        Stride(fields, i) * |fields[i].intervals| * rest;
      }
    }
  }

  lemma MulAtLeast(a: int, d: int)
    requires a >= 1 && d > 0
    ensures a * d >= d
  {
  }

  lemma MulMonotone(a: nat, b: nat, d: nat)
    requires a <= b
    ensures a * d <= b * d
  {
  }

  /** Euclidean division is determined by any quotient and remainder in range. */
  lemma DivUnique(x: int, d: int, q: int, r: int)
    requires d > 0 && 0 <= r < d && x == q * d + r
    ensures x / d == q
  {
    var q0, r0 := x / d, x % d;
    assert x == q0 * d + r0;
    if q0 < q {
      assert (q - q0) * d == r0 - r;
      MulAtLeast(q - q0, d);
    } else if q < q0 {
      assert (q0 - q) * d == r - r0;
      MulAtLeast(q0 - q, d);
    }
  }

  lemma DivAddMultiple(a: nat, b: nat, d: nat)
    requires d > 0
    ensures (a * d + b) / d == a + b / d
  {
    var q, r := b / d, b % d;
    assert b == q * d + r;
    assert a * d + b == (a + q) * d + r;
    DivUnique(a * d + b, d, a + q, r);
  }

  lemma ModAddMultiple(a: nat, b: nat, d: nat)
    requires d > 0
    ensures (a * d + b) % d == b % d
  {
    DivAddMultiple(a, b, d);
    var x := a * d + b;
    assert x == (x / d) * d + x % d;
    assert b == (b / d) * d + b % d;
    assert x % d == x - (a + b / d) * d;
  }

  /**
   * The product's entries in mixed radix with the first field as the
   * fastest-varying digit: entry `idx` takes, for field `i`, the interval
   * numbered `(idx / Stride(i)) % |field i|`.
   */
  lemma CartesianProductAt(fields: seq<Oil>, n: nat, idx: nat)
    requires n <= |fields| && NonEmptyPrefix(fields, n)
    requires idx < Stride(fields, n)
    ensures |CartesianProduct(fields, n)| == Stride(fields, n)
    ensures |CartesianProduct(fields, n)[idx]| == n
    ensures forall i :: 0 <= i < n ==>
      Stride(fields, i) >= 1
      && CartesianProduct(fields, n)[idx][i]
         == fields[i].intervals[(idx / Stride(fields, i)) % |fields[i].intervals|]
  {
    CartesianProductSize(fields, n);
    EntryLength(fields, n, idx);
    forall i | 0 <= i < n
      ensures Stride(fields, i) >= 1
      ensures CartesianProduct(fields, n)[idx][i]
         == fields[i].intervals[(idx / Stride(fields, i)) % |fields[i].intervals|]
    {
      StridePositive(fields, i);
      CartesianProductDigit(fields, n, idx, i);
    }
  }

  /** Every entry of the product has one interval per field. */
  lemma {:induction false} EntryLength(fields: seq<Oil>, n: nat, idx: nat)
    requires n <= |fields| && NonEmptyPrefix(fields, n)
    requires idx < Stride(fields, n)
    ensures |CartesianProduct(fields, n)| == Stride(fields, n)
    ensures |CartesianProduct(fields, n)[idx]| == n
    decreases n
  {
    CartesianProductSize(fields, n);
    if n > 0 {
      var prev := CartesianProduct(fields, n - 1);
      var ivs := fields[n - 1].intervals;
      StridePositive(fields, n - 1);
      CartesianProductSize(fields, n - 1);
      var j, k := SplitIndex(idx, Stride(fields, n - 1), |ivs|);
      EntryLength(fields, n - 1, k);
      ExtendAt(prev, ivs, j, k);
    }
  }

  /** Field `i` of entry `idx` is the interval that digit `i` of `idx` selects. */
  lemma {:induction false} CartesianProductDigit(fields: seq<Oil>, n: nat, idx: nat, i: nat)
    requires n <= |fields| && NonEmptyPrefix(fields, n)
    requires idx < Stride(fields, n) && i < n
    ensures |CartesianProduct(fields, n)| == Stride(fields, n)
    ensures |CartesianProduct(fields, n)[idx]| == n
    ensures Stride(fields, i) >= 1
    ensures CartesianProduct(fields, n)[idx][i]
         == fields[i].intervals[(idx / Stride(fields, i)) % |fields[i].intervals|]
    decreases n
  {
    EntryLength(fields, n, idx);
    StridePositive(fields, i);
    var prev := CartesianProduct(fields, n - 1);
    var ivs := fields[n - 1].intervals;
    var s := Stride(fields, n - 1);
    StridePositive(fields, n - 1);
    CartesianProductSize(fields, n - 1);
    var j, k := SplitIndex(idx, s, |ivs|);
    ExtendAt(prev, ivs, j, k);
    assert CartesianProduct(fields, n)[idx] == prev[k] + [ivs[j]];
    if i == n - 1 {
      SmallMod(j, |ivs|);
    } else {
      EntryLength(fields, n - 1, k);
      CartesianProductDigit(fields, n - 1, k, i);
      var rest := StrideFactor(fields, i, n - 1);
      DigitOfStep(idx, j, k, Stride(fields, i), |fields[i].intervals|, rest);
    }
  }

  /** An index below `s * m` splits into a digit below `m` and a remainder below `s`. */
  lemma SplitIndex(idx: nat, s: nat, m: nat) returns (j: nat, k: nat)
    requires s >= 1 && idx < s * m
    ensures j == idx / s && k == idx % s && j < m && k < s && idx == j * s + k
  {
    j, k := idx / s, idx % s;
    DivUnique(idx, s, j, k);
    if m <= j {
      MulMonotone(m, j, s);
      assert false;
    }
  }

  lemma SmallMod(j: nat, m: nat)
    requires j < m
    ensures j % m == j
  {
  }

  /**
   * Entries that differ by a multiple of a later stride agree on every
   * earlier field's digit.
   */
  lemma DigitOfStep(idx: nat, j: nat, k: nat, st: nat, size: nat, rest: nat)
    requires st >= 1 && size >= 1
    requires idx == j * (st * size * rest) + k
    ensures (idx / st) % size == (k / st) % size
  {
    assert idx == (j * size * rest) * st + k;
    DivAddMultiple(j * size * rest, k, st);
    assert idx / st == (j * rest) * size + k / st;
    ModAddMultiple(j * rest, k / st, size);
  }

  lemma {:induction false} CartesianProductSize(fields: seq<Oil>, n: nat)
    requires n <= |fields|
    ensures |CartesianProduct(fields, n)| == Stride(fields, n)
  {
    if n > 0 {
      CartesianProductSize(fields, n - 1);
      var p, m := |CartesianProduct(fields, n - 1)|, |fields[n - 1].intervals|;
      assert |CartesianProduct(fields, n)| == m * p;
      MulComm(m, p);
    }
  }

  lemma MulComm(a: nat, b: nat)
    ensures a * b == b * a
  {
  }

  /** Every entry of the product is made of points when the fields are unions of points. */
  lemma CartesianProductOfPoints(fields: seq<Oil>, n: nat, idx: nat, i: nat)
    requires n <= |fields| && forall f :: 0 <= f < n ==> IsUnionOfPoints(fields[f])
    requires idx < Stride(fields, n) && i < n
    ensures |CartesianProduct(fields, n)| == Stride(fields, n)
    ensures |CartesianProduct(fields, n)[idx]| == n && IsPoint(CartesianProduct(fields, n)[idx][i])
  {
    CartesianProductAt(fields, n, idx);
  }

  /**
   * `makeCartesianProduct` as MongoDB writes it: the first field's points
   * as one-interval prefixes, then for each further field and each of its
   * points, every prefix so far extended by that point.
   */
  method MakeCartesianProduct(bounds: IndexBounds, fieldsToExplode: nat) returns (prefixOut: seq<PointPrefix>)
    requires 1 <= fieldsToExplode <= |bounds.fields|
    requires forall i :: 0 <= i < fieldsToExplode ==> IsUnionOfPoints(bounds.fields[i])
    ensures prefixOut == CartesianProduct(bounds.fields, fieldsToExplode)
  {
    var fields := bounds.fields;
    var firstOil := fields[0];
    var prefixForScans: seq<PointPrefix> := [];
    var i := 0;
    while i < |firstOil.intervals|
      invariant 0 <= i <= |firstOil.intervals|
      invariant prefixForScans == Extend([[]], firstOil.intervals[..i])
    {
      assert firstOil.intervals[..i + 1][..i] == firstOil.intervals[..i];
      assert [] + [firstOil.intervals[i]] == [firstOil.intervals[i]];
      assert AppendToAll([[]], firstOil.intervals[i]) == [[firstOil.intervals[i]]];
      prefixForScans := prefixForScans + [[firstOil.intervals[i]]];
      i := i + 1;
    }
    assert firstOil.intervals[..i] == firstOil.intervals;
    var f := 1;
    while f < fieldsToExplode
      invariant 1 <= f <= fieldsToExplode
      invariant prefixForScans == CartesianProduct(fields, f)
    {
      prefixForScans := ExtendByField(prefixForScans, fields[f].intervals);
      f := f + 1;
    }
    prefixOut := prefixForScans;
  }

  /** One field's step of `makeCartesianProduct`: for each point, every prefix so far extended by it. */
  method ExtendByField(prefixForScans: seq<PointPrefix>, ivs: seq<Interval>) returns (newPrefixForScans: seq<PointPrefix>)
    ensures newPrefixForScans == Extend(prefixForScans, ivs)
  {
    newPrefixForScans := [];
    var j := 0;
    while j < |ivs|
      invariant 0 <= j <= |ivs|
      invariant newPrefixForScans == Extend(prefixForScans, ivs[..j])
    {
      var k := 0;
      while k < |prefixForScans|
        invariant 0 <= k <= |prefixForScans|
        invariant newPrefixForScans == Extend(prefixForScans, ivs[..j]) + AppendToAll(prefixForScans[..k], ivs[j])
      {
        assert AppendToAll(prefixForScans[..k + 1], ivs[j]) == AppendToAll(prefixForScans[..k], ivs[j]) + [prefixForScans[k] + [ivs[j]]];
        newPrefixForScans := newPrefixForScans + [prefixForScans[k] + [ivs[j]]];
        k := k + 1;
      }
      assert prefixForScans[..k] == prefixForScans;
      assert ivs[..j + 1][..j] == ivs[..j];
      j := j + 1;
    }
    assert ivs[..j] == ivs;
  }

  // ---------------------------------------------------------------------
  // Exploding one scan
  // ---------------------------------------------------------------------

  /**
   * One scan of the explosion: the original scan's index, direction, key
   * metadata flag, collator and filter; one point on each exploded field
   * and the other fields' intervals as they were.
   */
  function ExplodedChild(isn: IndexScan, prefix: PointPrefix): (r: IndexScan)
    requires |prefix| <= |isn.bounds.fields|
    ensures r.index == isn.index && r.direction == isn.direction && r.addKeyMetadata == isn.addKeyMetadata
    ensures r.queryCollator == isn.queryCollator && r.filter == isn.filter
    ensures |r.bounds.fields| == |isn.bounds.fields| && !r.bounds.isSimpleRange
    ensures forall j :: 0 <= j < |prefix| ==> r.bounds.fields[j] == Oil(isn.bounds.fields[j].name, [prefix[j]])
    ensures forall j :: |prefix| <= j < |isn.bounds.fields| ==> r.bounds.fields[j] == isn.bounds.fields[j]
  {
    var fields := isn.bounds.fields;
    var childFields := seq(|fields|, j requires 0 <= j < |fields| =>
      if j < |prefix| then Oil(fields[j].name, [prefix[j]]) else fields[j]);
    isn.(bounds := IndexBounds(childFields, false))
  }

  /** `explodeScan`: one child index scan per entry of the product of the exploded fields. */
  function ExplodeScan(isn: IndexScan, fieldsToExplode: nat): (r: seq<Node>)
    requires fieldsToExplode <= |isn.bounds.fields|
  {
    var prefixes := CartesianProduct(isn.bounds.fields, fieldsToExplode);
    seq(|prefixes|, i requires 0 <= i < |prefixes| =>
      Leaf(IxScan(ExplodedChild(isn, ExplodedPrefix(isn.bounds.fields, fieldsToExplode, prefixes[i])))))
  }

  /** A product entry has one interval per exploded field. */
  function ExplodedPrefix(fields: seq<Oil>, n: nat, prefix: PointPrefix): (p: PointPrefix)
    requires n <= |fields|
    ensures |p| <= n
    ensures |prefix| == n ==> p == prefix
  {
    if |prefix| <= n then prefix else prefix[..n]
  }

  /**
   * The children of an explosion: as many as the product of the exploded
   * fields' interval counts, each an index-scan leaf inheriting the scan's
   * settings, with exactly one point on each exploded field (the one the
   * child's position selects) and the other fields copied.
   */
  lemma ExplodeScanChild(isn: IndexScan, n: nat, c: nat)
    requires n <= |isn.bounds.fields|
    requires forall f :: 0 <= f < n ==> IsUnionOfPoints(isn.bounds.fields[f])
    requires c < Stride(isn.bounds.fields, n)
    ensures |ExplodeScan(isn, n)| == Stride(isn.bounds.fields, n)
    ensures var child := ExplodeScan(isn, n)[c];
      var fields := isn.bounds.fields;
      child.children == [] && child.stage.IxScan?
      && child.stage.scan.index == isn.index && child.stage.scan.direction == isn.direction
      && child.stage.scan.addKeyMetadata == isn.addKeyMetadata
      && child.stage.scan.queryCollator == isn.queryCollator && child.stage.scan.filter == isn.filter
      && |child.stage.scan.bounds.fields| == |fields|
      && (forall j :: n <= j < |fields| ==> child.stage.scan.bounds.fields[j] == fields[j])
      && (forall j :: 0 <= j < n ==>
            Stride(fields, j) >= 1 && |fields[j].intervals| >= 1
            && child.stage.scan.bounds.fields[j]
               == Oil(fields[j].name, [fields[j].intervals[(c / Stride(fields, j)) % |fields[j].intervals|]])
            && IsPoint(child.stage.scan.bounds.fields[j].intervals[0]))
  {
    var fields := isn.bounds.fields;
    CartesianProductAt(fields, n, c);
    var prefix := CartesianProduct(fields, n)[c];
    assert ExplodedPrefix(fields, n, prefix) == prefix;
    var scan := ExplodedChild(isn, prefix);
    assert ExplodeScan(isn, n)[c] == Leaf(IxScan(scan));
    forall j | 0 <= j < n
      ensures |fields[j].intervals| >= 1 && IsPoint(scan.bounds.fields[j].intervals[0])
    {
      assert IsUnionOfPoints(fields[j]);
      CartesianProductOfPoints(fields, n, c, j);
    }
  }

  // ---------------------------------------------------------------------
  // Which trees can be exploded
  // ---------------------------------------------------------------------

  predicate IsIxScan(n: Node) {
    n.stage.IxScan?
  }

  /**
   * `structureOKForExplode`: after skipping one sharding filter at the
   * root, an index scan, a fetch over an index scan, or an OR of index
   * scans. The result is the position of the node the merge will replace:
   * the scan itself, or the OR.
   */
  function StructureOKForExplode(root: Node): (r: Option<Path>)
    requires WellFormed(root)
    ensures r.Some? ==> ValidPath(root, r.value) && AnchorShape(At(root, r.value))
  {
    var base: Path := if root.stage.ShardingFilter? then [0] else [];
    var n := if root.stage.ShardingFilter? then root.children[0] else root;
    assert At(root, base) == n by {
      if root.stage.ShardingFilter? {
        assert At(root, base) == At(root.children[0], []);
      }
    }
    assert WellFormed(n);
    if IsIxScan(n) then Some(base)
    else if n.stage.Fetch? && IsIxScan(n.children[0]) then
      assert At(n, [0]) == n.children[0];
      AtAppend(root, base, [0]);
      assert WellFormed(n.children[0]);
      Some(base + [0])
    else if n.stage.Or? then
      if AllIxScans(n.children) then Some(base) else None
    else None
  }

  /** The node a merge can replace: a well-formed index scan, or a well-formed OR of index scans. */
  predicate AnchorShape(anchor: Node) {
    WellFormed(anchor) && (IsIxScan(anchor) || (anchor.stage.Or? && AllIxScans(anchor.children)))
  }

  predicate AllIxScans(ns: seq<Node>) {
    forall i :: 0 <= i < |ns| ==> IsIxScan(ns[i])
  }

  lemma {:induction false} AtAppend(root: Node, p: Path, q: Path)
    requires ValidPath(root, p) && ValidPath(At(root, p), q)
    ensures ValidPath(root, p + q) && At(root, p + q) == At(At(root, p), q)
    decreases |p|
  {
    if |p| > 0 {
      assert (p + q)[0] == p[0];
      assert (p + q)[1..] == p[1..] + q;
      AtAppend(root.children[p[0]], p[1..], q);
    } else {
      assert p + q == q;
    }
  }

  /** The scans under the anchor, left to right. */
  function AnchorScans(anchor: Node): (r: seq<IndexScan>)
    requires AnchorShape(anchor)
    ensures |r| >= 1
    ensures anchor.stage.Or? ==> |r| == |anchor.children|
    ensures forall i :: 0 <= i < |r| ==> BoundsMatchPattern(r[i])
  {
    if IsIxScan(anchor) then [anchor.stage.scan]
    else
      OrChildrenMatch(anchor);
      seq(|anchor.children|, i requires 0 <= i < |anchor.children| => anchor.children[i].stage.scan)
  }

  lemma OrChildrenMatch(anchor: Node)
    requires AnchorShape(anchor) && anchor.stage.Or?
    ensures forall i :: 0 <= i < |anchor.children| ==> BoundsMatchPattern(anchor.children[i].stage.scan)
  {
    forall i | 0 <= i < |anchor.children|
      ensures BoundsMatchPattern(anchor.children[i].stage.scan)
    {
      assert WellFormed(anchor.children[i]);
    }
  }

  /** The anchor rebuilt around (possibly reversed) scans. */
  function RebuildAnchor(anchor: Node, scans: seq<IndexScan>): Node
    requires AnchorShape(anchor)
    requires |scans| == |AnchorScans(anchor)|
  {
    if IsIxScan(anchor) then Leaf(IxScan(scans[0])) else Node(Or, ScanLeaves(scans))
  }

  /** Index-scan leaves over the given scans, in order. */
  function ScanLeaves(scans: seq<IndexScan>): (r: seq<Node>)
    ensures |r| == |scans|
    ensures forall i :: 0 <= i < |scans| ==> r[i] == Leaf(IxScan(scans[i]))
  {
    seq(|scans|, i requires 0 <= i < |scans| => Leaf(IxScan(scans[i])))
  }

  /** The leaves under an anchor are its scans. */
  lemma AnchorLeaves(anchor: Node)
    requires AnchorShape(anchor)
    ensures GetLeafNodes(anchor) == ScanLeaves(AnchorScans(anchor))
  {
    if !IsIxScan(anchor) {
      assert forall k :: 0 <= k < |anchor.children| ==> WellFormed(anchor.children[k]);
      assert forall k :: 0 <= k < |anchor.children| ==> |anchor.children[k].children| == 0;
      LeavesOfFlatNode(anchor, 0);
      assert anchor.children[0..] == anchor.children;
    }
  }

  /**
   * The leaves `explodeForSort` walks are exactly the anchor's scans: in every
   * shape the structure check accepts, the tree's leaves are the anchor's.
   */
  lemma LeavesAreAnchorScans(root: Node)
    requires WellFormed(root) && StructureOKForExplode(root).Some?
    ensures GetLeafNodes(root) == ScanLeaves(AnchorScans(At(root, StructureOKForExplode(root).value)))
  {
    var n := if root.stage.ShardingFilter? then root.children[0] else root;
    assert GetLeafNodes(root) == GetLeafNodes(n) by {
      if root.stage.ShardingFilter? {
        assert ChildrenLeaves(root, 1) == [];
        assert GetLeafNodes(root) == GetLeafNodes(n) + [];
      }
    }
    var anchor := At(root, StructureOKForExplode(root).value);
    if !IsIxScan(n) && n.stage.Fetch? {
      assert ChildrenLeaves(n, 1) == [];
      assert GetLeafNodes(n) == GetLeafNodes(n.children[0]) + [];
      assert anchor == n.children[0] by {
        var base: Path := if root.stage.ShardingFilter? then [0] else [];
        assert At(root, base) == n by {
          if root.stage.ShardingFilter? {
            assert At(root, base) == At(root.children[0], []);
          }
        }
        AtAppend(root, base, [0]);
        assert At(n, [0]) == At(n.children[0], []);
      }
    } else {
      assert anchor == n by {
        if root.stage.ShardingFilter? {
          assert At(root, [0]) == At(root.children[0], []);
        }
      }
    }
    AnchorLeaves(anchor);
  }

  // ---------------------------------------------------------------------
  // Deciding, scan by scan, whether explosion provides the sort
  // ---------------------------------------------------------------------

  /**
   * For one scan: refuse, or explode `fieldsToExplode` leading fields into
   * `numScans` scans, reversing the scan first when the remaining fields
   * provide the sort only backwards.
   */
  datatype LeafVerdict = Refuse | Explode(fieldsToExplode: nat, numScans: nat, reverse: bool)

  /** Scans whose bounds agree with their key pattern, as the walk below needs. */
  predicate BoundsMatchPattern(isn: IndexScan) {
    !isn.bounds.isSimpleRange ==> |isn.bounds.fields| == |isn.index.keyPattern|
  }

  /** How many leading key fields have bounds that are unions of points. */
  function PointPrefixLength(fields: seq<Oil>, i: nat): (b: nat)
    requires i <= |fields|
    ensures i <= b <= |fields|
    ensures forall f :: i <= f < b ==> IsUnionOfPoints(fields[f])
    ensures b < |fields| ==> !IsUnionOfPoints(fields[b])
    decreases |fields| - i
  {
    if i == |fields| || !IsUnionOfPoints(fields[i]) then i else PointPrefixLength(fields, i + 1)
  }

  /** Whether any of the pattern's fields is one of the multikey fields. */
  predicate AnyMultikey(p: Pattern, multikeyFields: set<string>) {
    exists i | 0 <= i < |p| :: p[i].field in multikeyFields
  }

  /** The per-leaf checks of `explodeForSort`, in MongoDB's order. */
  function AnalyzeLeaf(isn: IndexScan, desiredSort: Pattern): (v: LeafVerdict)
    requires BoundsMatchPattern(isn)
    ensures v.Explode? ==>
      !isn.bounds.isSimpleRange
      && !(isn.index.multikey && |isn.index.multikeyPaths| == 0)
      && 1 <= v.fieldsToExplode < |isn.index.keyPattern|
      && (forall f :: 0 <= f < v.fieldsToExplode ==> IsUnionOfPoints(isn.bounds.fields[f]))
      && !IsUnionOfPoints(isn.bounds.fields[v.fieldsToExplode])
      && v.numScans == Stride(isn.bounds.fields, v.fieldsToExplode)
      && !AnyMultikey(isn.index.keyPattern[v.fieldsToExplode..], isn.multikeyFields)
      && (if v.reverse then
            !IsPrefixOf(desiredSort, isn.index.keyPattern[v.fieldsToExplode..])
            && IsPrefixOf(desiredSort, ReverseSortPattern(isn.index.keyPattern[v.fieldsToExplode..]))
          else IsPrefixOf(desiredSort, isn.index.keyPattern[v.fieldsToExplode..]))
  {
    if isn.bounds.isSimpleRange then Refuse
    else if isn.index.multikey && |isn.index.multikeyPaths| == 0 then Refuse
    else
      var boundsIdx := PointPrefixLength(isn.bounds.fields, 0);
      if boundsIdx == |isn.index.keyPattern| then Refuse
      else if boundsIdx == 0 then Refuse
      else
        var possibleSort := isn.index.keyPattern[boundsIdx..];
        if AnyMultikey(possibleSort, isn.multikeyFields) then Refuse
        else if IsPrefixOf(desiredSort, possibleSort) then
          Explode(boundsIdx, Stride(isn.bounds.fields, boundsIdx), false)
        else if IsPrefixOf(desiredSort, ReverseSortPattern(possibleSort)) then
          Explode(boundsIdx, Stride(isn.bounds.fields, boundsIdx), true)
        else Refuse
  }

  /**
   * A scan is refused when its bounds are a simple range, when its index
   * is multikey without per-path information, when no leading field or no
   * trailing field is left, when a trailing field is multikey, or when the
   * trailing fields provide the sort neither forwards nor backwards.
   */
  lemma RefusalReasons(isn: IndexScan, desiredSort: Pattern)
    requires BoundsMatchPattern(isn)
    ensures AnalyzeLeaf(isn, desiredSort) == Refuse <==>
      (isn.bounds.isSimpleRange
       || (isn.index.multikey && |isn.index.multikeyPaths| == 0)
       || (var b := PointPrefixLength(isn.bounds.fields, 0);
           var rest := isn.index.keyPattern[b..];
           b == 0 || b == |isn.index.keyPattern| || AnyMultikey(rest, isn.multikeyFields)
           || (!IsPrefixOf(desiredSort, rest) && !IsPrefixOf(desiredSort, ReverseSortPattern(rest)))))
  {
  }

  function VerdictsOf(scans: seq<IndexScan>, desiredSort: Pattern): (r: seq<LeafVerdict>)
    requires forall i :: 0 <= i < |scans| ==> BoundsMatchPattern(scans[i])
    ensures |r| == |scans|
    ensures forall i :: 0 <= i < |scans| ==> r[i] == AnalyzeLeaf(scans[i], desiredSort)
  {
    seq(|scans|, i requires 0 <= i < |scans| => AnalyzeLeaf(scans[i], desiredSort))
  }

  /** The position of the first refused scan, or the number of scans when none is refused. */
  function FirstRefused(vs: seq<LeafVerdict>, i: nat): (k: nat)
    requires i <= |vs|
    ensures i <= k <= |vs|
    ensures forall j :: i <= j < k ==> vs[j].Explode?
    ensures k < |vs| ==> vs[k] == Refuse
    decreases |vs| - i
  {
    if i == |vs| || vs[i] == Refuse then i else FirstRefused(vs, i + 1)
  }

  /**
   * The scans as `explodeForSort` leaves them after examining the first `k`:
   * each examined scan that needs it reversed, the others untouched.
   */
  function ReversedUpTo(scans: seq<IndexScan>, vs: seq<LeafVerdict>, k: nat): (r: seq<IndexScan>)
    requires |vs| == |scans| && k <= |scans|
    requires forall j :: 0 <= j < k ==> vs[j].Explode?
    ensures |r| == |scans|
    ensures forall j :: 0 <= j < |scans| ==>
      r[j] == (if j < k && vs[j].reverse then ReverseScan(scans[j]) else scans[j])
  {
    seq(|scans|, j requires 0 <= j < |scans| =>
      if j < k && vs[j].reverse then ReverseScan(scans[j]) else scans[j])
  }

  /** The total number of scans an explosion creates. */
  function TotalNumScans(vs: seq<LeafVerdict>): nat
    requires forall j :: 0 <= j < |vs| ==> vs[j].Explode?
  {
    if |vs| == 0 then 0 else TotalNumScans(vs[..|vs| - 1]) + vs[|vs| - 1].numScans
  }

  /** The children of the merge: every scan's explosion, scan after scan. */
  function ExplodeAll(scans: seq<IndexScan>, vs: seq<LeafVerdict>): (r: seq<Node>)
    requires |vs| == |scans|
    requires forall j :: 0 <= j < |vs| ==> vs[j].Explode? && vs[j].fieldsToExplode <= |scans[j].bounds.fields|
  {
    if |scans| == 0 then []
    else
      ExplodeAll(scans[..|scans| - 1], vs[..|vs| - 1])
      + ExplodeScan(scans[|scans| - 1], vs[|vs| - 1].fieldsToExplode)
  }

  datatype ExplodeResult = ExplodeResult(exploded: bool, root: Node)

  /**
   * `explodeForSort`. On success the anchor is replaced by a merge-sort on
   * the desired sort over all exploded scans. On refusal the tree is
   * returned as `explodeForSort` leaves it: scans examined before the refusal
   * may have been reversed in place.
   */
  function ExplodeForSort(root: Node, desiredSort: Pattern, maxScansToExplode: nat): (r: ExplodeResult)
    requires WellFormed(root)
    ensures StructureOKForExplode(root).None? ==> r == ExplodeResult(false, root)
  {
    match StructureOKForExplode(root)
    case None => ExplodeResult(false, root)
    case Some(path) => ExplodeAnchor(root, path, desiredSort, maxScansToExplode)
  }

  /** `explodeForSort` past the structure check, with the anchor at `path`. */
  function ExplodeAnchor(root: Node, path: Path, desiredSort: Pattern, maxScansToExplode: nat): ExplodeResult
    requires WellFormed(root) && ValidPath(root, path) && AnchorShape(At(root, path))
  {
      var anchor := At(root, path);
      var scans := AnchorScans(anchor);
      var vs := VerdictsOf(scans, desiredSort);
      var k := FirstRefused(vs, 0);
      var touched := ReversedUpTo(scans, vs, k);
      if k < |scans| then ExplodeResult(false, ReplaceAt(root, path, RebuildAnchor(anchor, touched)))
      else if TotalNumScans(vs) > maxScansToExplode then
        ExplodeResult(false, ReplaceAt(root, path, RebuildAnchor(anchor, touched)))
      else
        ExplodeAllFits(touched, vs, scans, desiredSort);
        ExplodeResult(true, ReplaceAt(root, path, Node(MergeSort(desiredSort), ExplodeAll(touched, vs))))
  }

  lemma {:induction false} WellFormedAt(root: Node, p: Path)
    requires WellFormed(root) && ValidPath(root, p)
    ensures WellFormed(At(root, p))
    decreases |p|
  {
    if |p| > 0 {
      WellFormedAt(root.children[p[0]], p[1..]);
    }
  }

  lemma ExplodeAllFits(touched: seq<IndexScan>, vs: seq<LeafVerdict>, scans: seq<IndexScan>, desiredSort: Pattern)
    requires |vs| == |scans| == |touched|
    requires forall j :: 0 <= j < |scans| ==> BoundsMatchPattern(scans[j])
    requires forall j :: 0 <= j < |vs| ==> vs[j] == AnalyzeLeaf(scans[j], desiredSort) && vs[j].Explode?
    requires forall j :: 0 <= j < |scans| ==> touched[j] == scans[j] || touched[j] == ReverseScan(scans[j])
    ensures forall j :: 0 <= j < |vs| ==> vs[j].Explode? && vs[j].fieldsToExplode <= |touched[j].bounds.fields|
  {
  }

  // ---------------------------------------------------------------------
  // What an explosion yields
  // ---------------------------------------------------------------------

  /** Stride depends only on the interval counts. */
  lemma {:induction false} StrideSameSizes(f1: seq<Oil>, f2: seq<Oil>, n: nat)
    requires n <= |f1| && n <= |f2|
    requires forall i :: 0 <= i < n ==> |f1[i].intervals| == |f2[i].intervals|
    ensures Stride(f1, n) == Stride(f2, n)
  {
    if n > 0 {
      StrideSameSizes(f1, f2, n - 1);
    }
  }

  /** The scans of an explosion: each examined scan as it was or reversed. */
  predicate SameOrReversed(touched: seq<IndexScan>, scans: seq<IndexScan>) {
    |touched| == |scans|
    && forall j :: 0 <= j < |scans| ==> touched[j] == scans[j] || touched[j] == ReverseScan(scans[j])
  }

  /** All the scans were accepted, with the verdicts the per-scan checks give. */
  predicate AllAccepted(scans: seq<IndexScan>, vs: seq<LeafVerdict>, desiredSort: Pattern) {
    |vs| == |scans|
    && (forall j :: 0 <= j < |scans| ==> BoundsMatchPattern(scans[j]))
    && forall j :: 0 <= j < |vs| ==> vs[j] == AnalyzeLeaf(scans[j], desiredSort) && vs[j].Explode?
  }

  /** What explosion needs of one accepted scan, reversed or not. */
  lemma AcceptedScan(touched: IndexScan, scan: IndexScan, v: LeafVerdict, desiredSort: Pattern)
    requires BoundsMatchPattern(scan) && v == AnalyzeLeaf(scan, desiredSort) && v.Explode?
    requires touched == scan || touched == ReverseScan(scan)
    ensures v.fieldsToExplode <= |touched.bounds.fields| == |scan.bounds.fields|
    ensures forall f :: 0 <= f < v.fieldsToExplode ==> IsUnionOfPoints(touched.bounds.fields[f])
    ensures Stride(touched.bounds.fields, v.fieldsToExplode) == v.numScans
    ensures BoundsMatchPattern(touched) && touched.index == scan.index && !touched.bounds.isSimpleRange
  {
    forall f | 0 <= f < v.fieldsToExplode
      ensures IsUnionOfPoints(touched.bounds.fields[f])
    {
      if touched != scan {
        ReversePreservesUnionOfPoints(scan.bounds.fields[f]);
      }
    }
    StrideSameSizes(touched.bounds.fields, scan.bounds.fields, v.fieldsToExplode);
  }

  /** The merge has as many children as the scan count `explodeForSort` totals. */
  lemma {:induction false} ExplodeAllSize(touched: seq<IndexScan>, vs: seq<LeafVerdict>, scans: seq<IndexScan>, desiredSort: Pattern)
    requires AllAccepted(scans, vs, desiredSort) && SameOrReversed(touched, scans)
    ensures forall j :: 0 <= j < |vs| ==> vs[j].fieldsToExplode <= |touched[j].bounds.fields|
    ensures |ExplodeAll(touched, vs)| == TotalNumScans(vs)
    decreases |scans|
  {
    ExplodeAllFits(touched, vs, scans, desiredSort);
    var m := |scans|;
    if m > 0 {
      assert AllAccepted(scans[..m - 1], vs[..m - 1], desiredSort);
      assert SameOrReversed(touched[..m - 1], scans[..m - 1]);
      ExplodeAllSize(touched[..m - 1], vs[..m - 1], scans[..m - 1], desiredSort);
      AcceptedScan(touched[m - 1], scans[m - 1], vs[m - 1], desiredSort);
      CartesianProductSize(touched[m - 1].bounds.fields, vs[m - 1].fieldsToExplode);
    }
  }

  /** Every child of the merge is a well-formed index-scan leaf. */
  lemma {:induction false} ExplodeAllLeaves(touched: seq<IndexScan>, vs: seq<LeafVerdict>, scans: seq<IndexScan>, desiredSort: Pattern)
    requires AllAccepted(scans, vs, desiredSort) && SameOrReversed(touched, scans)
    requires forall j :: 0 <= j < |vs| ==> vs[j].fieldsToExplode <= |touched[j].bounds.fields|
    ensures forall c :: 0 <= c < |ExplodeAll(touched, vs)| ==>
      ExplodeAll(touched, vs)[c].stage.IxScan? && WellFormed(ExplodeAll(touched, vs)[c])
    decreases |scans|
  {
    var m := |scans|;
    if m > 0 {
      assert AllAccepted(scans[..m - 1], vs[..m - 1], desiredSort);
      assert SameOrReversed(touched[..m - 1], scans[..m - 1]);
      ExplodeAllLeaves(touched[..m - 1], vs[..m - 1], scans[..m - 1], desiredSort);
      var last, v := touched[m - 1], vs[m - 1];
      AcceptedScan(last, scans[m - 1], v, desiredSort);
      var tail := ExplodeScan(last, v.fieldsToExplode);
      ExplodedLeaves(last, v.fieldsToExplode);
      var front := ExplodeAll(touched[..m - 1], vs[..m - 1]);
      var all := ExplodeAll(touched, vs);
      assert all == front + tail;
    }
  }

  /** The scans of one explosion are well-formed index-scan leaves. */
  lemma ExplodedLeaves(isn: IndexScan, n: nat)
    requires n <= |isn.bounds.fields| == |isn.index.keyPattern|
    ensures forall c :: 0 <= c < |ExplodeScan(isn, n)| ==>
      ExplodeScan(isn, n)[c].stage.IxScan? && WellFormed(ExplodeScan(isn, n)[c])
  {
  }

  /** Every accepted scan contributes at least one scan, so an explosion is never empty. */
  lemma {:induction false} TotalPositive(scans: seq<IndexScan>, vs: seq<LeafVerdict>, desiredSort: Pattern)
    requires AllAccepted(scans, vs, desiredSort) && |scans| >= 1
    ensures TotalNumScans(vs) >= 1
    decreases |scans|
  {
    var m := |scans|;
    var v := vs[m - 1];
    assert NonEmptyPrefix(scans[m - 1].bounds.fields, v.fieldsToExplode);
    StridePositive(scans[m - 1].bounds.fields, v.fieldsToExplode);
  }

  /**
   * `explodeForSort` succeeds exactly when the tree has an explodable
   * shape, every scan passes every per-scan check, and the scan total is
   * within the limit.
   */
  lemma ExplodeForSortSucceedsIff(root: Node, desiredSort: Pattern, maxScansToExplode: nat)
    requires WellFormed(root)
    ensures ExplodeForSort(root, desiredSort, maxScansToExplode).exploded <==>
      (StructureOKForExplode(root).Some?
       && var scans := AnchorScans(At(root, StructureOKForExplode(root).value));
          (forall j :: 0 <= j < |scans| ==> AnalyzeLeaf(scans[j], desiredSort).Explode?)
          && TotalNumScans(VerdictsOf(scans, desiredSort)) <= maxScansToExplode)
  {
    if StructureOKForExplode(root).Some? {
      AnchorSucceedsIff(root, StructureOKForExplode(root).value, desiredSort, maxScansToExplode);
    }
  }

  /** The success condition at the anchor, past the structure check. */
  lemma AnchorSucceedsIff(root: Node, path: Path, desiredSort: Pattern, maxScansToExplode: nat)
    requires WellFormed(root) && ValidPath(root, path) && AnchorShape(At(root, path))
    ensures ExplodeAnchor(root, path, desiredSort, maxScansToExplode).exploded <==>
      (var scans := AnchorScans(At(root, path));
       (forall j :: 0 <= j < |scans| ==> AnalyzeLeaf(scans[j], desiredSort).Explode?)
       && TotalNumScans(VerdictsOf(scans, desiredSort)) <= maxScansToExplode)
  {
    var scans := AnchorScans(At(root, path));
    var vs := VerdictsOf(scans, desiredSort);
    var k := FirstRefused(vs, 0);
    if k < |scans| {
      assert !AnalyzeLeaf(scans[k], desiredSort).Explode?;
    }
  }

  /**
   * On success the anchor's place holds a merge-sort on the desired sort
   * whose children are exactly the exploded scans, as many as the total
   * and no more than the limit; the rest of the tree is kept and the
   * result is a well-formed plan.
   */
  lemma ExplodeForSortSuccess(root: Node, desiredSort: Pattern, maxScansToExplode: nat)
    requires WellFormed(root) && ExplodeForSort(root, desiredSort, maxScansToExplode).exploded
    ensures StructureOKForExplode(root).Some?
    ensures var path := StructureOKForExplode(root).value;
      var r := ExplodeForSort(root, desiredSort, maxScansToExplode).root;
      var scans := AnchorScans(At(root, path));
      ValidPath(r, path)
      && At(r, path).stage == MergeSort(desiredSort)
      && |At(r, path).children| == TotalNumScans(VerdictsOf(scans, desiredSort)) <= maxScansToExplode
      && (forall c :: 0 <= c < |At(r, path).children| ==> At(r, path).children[c].stage.IxScan?)
      && WellFormed(r)
    ensures ExplodedTreeIs(root, StructureOKForExplode(root).value, desiredSort,
      ExplodeForSort(root, desiredSort, maxScansToExplode).root)
  {
    ExplodeForSortSuccessTree(root, desiredSort, maxScansToExplode);
    SuccessConditions(root, desiredSort, maxScansToExplode);
    ExplodedTreeShape(root, StructureOKForExplode(root).value, desiredSort,
      ExplodeForSort(root, desiredSort, maxScansToExplode).root);
  }

  /** The exploded tree is a well-formed plan whose anchor's place is a merge of as many scans as the total. */
  lemma ExplodedTreeShape(root: Node, path: Path, desiredSort: Pattern, r: Node)
    requires WellFormed(root) && ValidPath(root, path) && AnchorShape(At(root, path))
    requires ExplodedTreeIs(root, path, desiredSort, r)
    ensures var scans := AnchorScans(At(root, path));
      ValidPath(r, path)
      && At(r, path).stage == MergeSort(desiredSort)
      && |At(r, path).children| == TotalNumScans(VerdictsOf(scans, desiredSort))
      && (forall c :: 0 <= c < |At(r, path).children| ==> At(r, path).children[c].stage.IxScan?)
      && WellFormed(r)
  {
    var scans := AnchorScans(At(root, path));
    var vs := VerdictsOf(scans, desiredSort);
    var touched := ReversedUpTo(scans, vs, |scans|);
    assert AllAccepted(scans, vs, desiredSort);
    assert SameOrReversed(touched, scans);
    ExplodeAllSize(touched, vs, scans, desiredSort);
    ExplodeAllLeaves(touched, vs, scans, desiredSort);
    TotalPositive(scans, vs, desiredSort);
    var merge := Node(MergeSort(desiredSort), ExplodeAll(touched, vs));
    assert WellFormed(merge);
    ReplaceKeepsWellFormed(root, path, merge);
  }

  /**
   * The tree an explosion yields: the anchor's place holds a merge-sort
   * over the explosions of every scan, each reversed if its check asked
   * for it, and every node off the anchor's path is kept.
   */
  predicate ExplodedTreeIs(root: Node, path: Path, desiredSort: Pattern, r: Node)
    requires WellFormed(root) && ValidPath(root, path) && AnchorShape(At(root, path))
  {
    var scans := AnchorScans(At(root, path));
    var vs := VerdictsOf(scans, desiredSort);
    (forall j :: 0 <= j < |vs| ==> vs[j].Explode?)
    && var touched := ReversedUpTo(scans, vs, |scans|);
       (forall j :: 0 <= j < |vs| ==> vs[j].fieldsToExplode <= |touched[j].bounds.fields|)
       && r == ReplaceAt(root, path, Node(MergeSort(desiredSort), ExplodeAll(touched, vs)))
  }

  lemma ExplodeForSortSuccessTree(root: Node, desiredSort: Pattern, maxScansToExplode: nat)
    requires WellFormed(root) && ExplodeForSort(root, desiredSort, maxScansToExplode).exploded
    ensures StructureOKForExplode(root).Some?
    ensures ExplodedTreeIs(root, StructureOKForExplode(root).value, desiredSort,
      ExplodeForSort(root, desiredSort, maxScansToExplode).root)
  {
    SuccessConditions(root, desiredSort, maxScansToExplode);
    var path := StructureOKForExplode(root).value;
    ExplodeAnchorSuccess(root, path, desiredSort, maxScansToExplode);
  }

  /** An explosion happened only past the structure check, every scan accepted, within the limit. */
  lemma SuccessConditions(root: Node, desiredSort: Pattern, maxScansToExplode: nat)
    requires WellFormed(root) && ExplodeForSort(root, desiredSort, maxScansToExplode).exploded
    ensures StructureOKForExplode(root).Some?
    ensures var scans := AnchorScans(At(root, StructureOKForExplode(root).value));
      var vs := VerdictsOf(scans, desiredSort);
      FirstRefused(vs, 0) == |scans| && TotalNumScans(vs) <= maxScansToExplode
  {
  }

  /** Past the per-scan checks and the limit, the anchor's place is rebuilt as the merge. */
  lemma ExplodeAnchorSuccess(root: Node, path: Path, desiredSort: Pattern, maxScansToExplode: nat)
    requires WellFormed(root) && ValidPath(root, path) && AnchorShape(At(root, path))
    requires var vs := VerdictsOf(AnchorScans(At(root, path)), desiredSort);
      FirstRefused(vs, 0) == |vs| && TotalNumScans(vs) <= maxScansToExplode
    ensures ExplodedTreeIs(root, path, desiredSort, ExplodeAnchor(root, path, desiredSort, maxScansToExplode).root)
  {
    ReversedFits(AnchorScans(At(root, path)), desiredSort);
    ExplodeAnchorRoot(root, path, desiredSort, maxScansToExplode);
  }

  /** With the fits known, the result's tree is the merge put in the anchor's place. */
  lemma ExplodeAnchorRoot(root: Node, path: Path, desiredSort: Pattern, maxScansToExplode: nat)
    requires WellFormed(root) && ValidPath(root, path) && AnchorShape(At(root, path))
    requires var vs := VerdictsOf(AnchorScans(At(root, path)), desiredSort);
      FirstRefused(vs, 0) == |vs| && TotalNumScans(vs) <= maxScansToExplode
    requires var scans := AnchorScans(At(root, path));
      var vs := VerdictsOf(scans, desiredSort);
      var touched := ReversedUpTo(scans, vs, |scans|);
      (forall j :: 0 <= j < |vs| ==> vs[j].Explode? && vs[j].fieldsToExplode <= |touched[j].bounds.fields|)
    ensures var scans := AnchorScans(At(root, path));
      var vs := VerdictsOf(scans, desiredSort);
      var touched := ReversedUpTo(scans, vs, |scans|);
      ExplodeAnchor(root, path, desiredSort, maxScansToExplode).root
         == ReplaceAt(root, path, Node(MergeSort(desiredSort), ExplodeAll(touched, vs)))
  {
  }

  /** When every scan is accepted, each keeps the fields its explosion splits, reversed or not. */
  lemma ReversedFits(scans: seq<IndexScan>, desiredSort: Pattern)
    requires forall j :: 0 <= j < |scans| ==> BoundsMatchPattern(scans[j])
    requires FirstRefused(VerdictsOf(scans, desiredSort), 0) == |scans|
    ensures var vs := VerdictsOf(scans, desiredSort);
      var touched := ReversedUpTo(scans, vs, |scans|);
      forall j :: 0 <= j < |vs| ==> vs[j].Explode? && vs[j].fieldsToExplode <= |touched[j].bounds.fields|
  {
    var vs := VerdictsOf(scans, desiredSort);
    var touched := ReversedUpTo(scans, vs, |scans|);
    forall j | 0 <= j < |vs|
      ensures vs[j].Explode? && vs[j].fieldsToExplode <= |touched[j].bounds.fields|
    {
      AcceptedFits(scans[j], desiredSort);
    }
  }

  /** An accepted scan splits fewer fields than its bounds have, and reversal keeps their number. */
  lemma AcceptedFits(isn: IndexScan, desiredSort: Pattern)
    requires BoundsMatchPattern(isn) && AnalyzeLeaf(isn, desiredSort).Explode?
    ensures AnalyzeLeaf(isn, desiredSort).fieldsToExplode < |isn.bounds.fields| == |ReverseScan(isn).bounds.fields|
  {
  }

  /**
   * A refusal after the structure check changes nothing but the scans
   * under the anchor, and each of those only by a reversal; a scan is
   * reversed only when it passed its checks and needs reversing, and
   * when the first scan is refused the tree is untouched.
   */
  lemma ExplodeForSortRefusal(root: Node, desiredSort: Pattern, maxScansToExplode: nat)
    requires WellFormed(root) && StructureOKForExplode(root).Some?
    requires !ExplodeForSort(root, desiredSort, maxScansToExplode).exploded
    ensures RefusedTreeIs(root, StructureOKForExplode(root).value, desiredSort,
      ExplodeForSort(root, desiredSort, maxScansToExplode).root)
    ensures AnalyzeLeaf(AnchorScans(At(root, StructureOKForExplode(root).value))[0], desiredSort) == Refuse ==>
      ExplodeForSort(root, desiredSort, maxScansToExplode).root == root
  {
    RefusalOnlyReverses(root, desiredSort, maxScansToExplode);
    RefusedFirstUntouched(root, desiredSort, maxScansToExplode);
  }

  lemma RefusalOnlyReverses(root: Node, desiredSort: Pattern, maxScansToExplode: nat)
    requires WellFormed(root) && StructureOKForExplode(root).Some?
    requires !ExplodeForSort(root, desiredSort, maxScansToExplode).exploded
    ensures RefusedTreeIs(root, StructureOKForExplode(root).value, desiredSort,
      ExplodeForSort(root, desiredSort, maxScansToExplode).root)
  {
    AnchorRefusalOnlyReverses(root, StructureOKForExplode(root).value, desiredSort, maxScansToExplode);
  }

  /**
   * The tree a refusal leaves: only the anchor's scans may differ, each
   * only by a reversal its own check asked for.
   */
  predicate RefusedTreeIs(root: Node, path: Path, desiredSort: Pattern, r: Node)
    requires WellFormed(root) && ValidPath(root, path) && AnchorShape(At(root, path))
  {
    var scans := AnchorScans(At(root, path));
    ValidPath(r, path)
    && r == ReplaceAt(root, path, At(r, path))
    && AnchorShape(At(r, path))
    && SameOrReversed(AnchorScans(At(r, path)), scans)
    && (forall j :: 0 <= j < |scans| && AnchorScans(At(r, path))[j] != scans[j] ==>
          AnalyzeLeaf(scans[j], desiredSort).Explode? && AnalyzeLeaf(scans[j], desiredSort).reverse)
  }

  /** A refusal at the anchor rebuilds it around the scans reversed so far. */
  lemma AnchorRefusalOnlyReverses(root: Node, path: Path, desiredSort: Pattern, maxScansToExplode: nat)
    requires WellFormed(root) && ValidPath(root, path) && AnchorShape(At(root, path))
    requires !ExplodeAnchor(root, path, desiredSort, maxScansToExplode).exploded
    ensures RefusedTreeIs(root, path, desiredSort, ExplodeAnchor(root, path, desiredSort, maxScansToExplode).root)
  {
    var anchor := At(root, path);
    var scans := AnchorScans(anchor);
    var vs := VerdictsOf(scans, desiredSort);
    var k := FirstRefused(vs, 0);
    var touched := ReversedUpTo(scans, vs, k);
    assert SameOrReversed(touched, scans);
    RebuildShape(anchor, touched);
  }

  lemma RefusedFirstUntouched(root: Node, desiredSort: Pattern, maxScansToExplode: nat)
    requires WellFormed(root) && StructureOKForExplode(root).Some?
    requires !ExplodeForSort(root, desiredSort, maxScansToExplode).exploded
    ensures AnalyzeLeaf(AnchorScans(At(root, StructureOKForExplode(root).value))[0], desiredSort) == Refuse ==>
      ExplodeForSort(root, desiredSort, maxScansToExplode).root == root
  {
    var path := StructureOKForExplode(root).value;
    var anchor := At(root, path);
    var scans := AnchorScans(anchor);
    var vs := VerdictsOf(scans, desiredSort);
    if vs[0] == Refuse {
      var k := FirstRefused(vs, 0);
      var touched := ReversedUpTo(scans, vs, k);
      assert touched == scans;
      RebuildUnchanged(anchor);
      ReplaceBySelf(root, path);
    }
  }

  /** Rebuilding an anchor around reversed scans keeps its shape and holds exactly those scans. */
  lemma RebuildShape(anchor: Node, touched: seq<IndexScan>)
    requires AnchorShape(anchor) && SameOrReversed(touched, AnchorScans(anchor))
    ensures AnchorShape(RebuildAnchor(anchor, touched))
    ensures AnchorScans(RebuildAnchor(anchor, touched)) == touched
  {
    var scans := AnchorScans(anchor);
    assert forall j :: 0 <= j < |touched| ==> BoundsMatchPattern(touched[j]) by {
      forall j | 0 <= j < |touched|
        ensures BoundsMatchPattern(touched[j])
      {
        assert BoundsMatchPattern(scans[j]);
      }
    }
    var r := RebuildAnchor(anchor, touched);
    if !IsIxScan(anchor) {
      assert forall j :: 0 <= j < |r.children| ==> WellFormed(r.children[j]);
    }
  }

  /** Rebuilding an anchor around its own scans gives it back. */
  lemma RebuildUnchanged(anchor: Node)
    requires AnchorShape(anchor)
    ensures RebuildAnchor(anchor, AnchorScans(anchor)) == anchor
  {
    if !IsIxScan(anchor) {
      var scans := AnchorScans(anchor);
      assert forall k :: 0 <= k < |anchor.children| ==> WellFormed(anchor.children[k]);
      assert ScanLeaves(scans) == anchor.children;
    }
  }

  // ---------------------------------------------------------------------
  // The scan counts in MongoDB's unsigned 64-bit arithmetic
  // ---------------------------------------------------------------------

  /** One scan's count as `explodeForSort` computes it: a `size_t` product, wrapping at 2^64. */
  function NumScansAsWritten(fields: seq<Oil>, i: nat): (r: nat)
    requires i <= |fields|
    ensures r < TWO_POW_64
  {
    if i == 0 then 1 else (NumScansAsWritten(fields, i - 1) * |fields[i - 1].intervals|) % TWO_POW_64
  }

  /** The running total as `explodeForSort` computes it, also wrapping at 2^64. */
  function TotalNumScansAsWritten(scans: seq<IndexScan>, vs: seq<LeafVerdict>): (r: nat)
    requires |vs| == |scans|
    requires forall j :: 0 <= j < |vs| ==> vs[j].Explode? && vs[j].fieldsToExplode <= |scans[j].bounds.fields|
    ensures r < TWO_POW_64
  {
    if |vs| == 0 then 0
    else
      (TotalNumScansAsWritten(scans[..|scans| - 1], vs[..|vs| - 1])
       + NumScansAsWritten(scans[|scans| - 1].bounds.fields, vs[|vs| - 1].fieldsToExplode)) % TWO_POW_64
  }

  /** `explodeForSort`'s "too many scans" test on its wrapped total. */
  predicate WithinLimitAsWritten(scans: seq<IndexScan>, vs: seq<LeafVerdict>, maxScansToExplode: nat)
    requires |vs| == |scans|
    requires forall j :: 0 <= j < |vs| ==> vs[j].Explode? && vs[j].fieldsToExplode <= |scans[j].bounds.fields|
  {
    TotalNumScansAsWritten(scans, vs) <= maxScansToExplode
  }

  lemma MulMod(a: nat, b: nat, m: nat)
    requires m > 0
    ensures ((a % m) * b) % m == (a * b) % m
  {
    var q, r := a / m, a % m;
    assert a == q * m + r;
    assert a * b == (q * b) * m + r * b;
    ModAddMultiple(q * b, r * b, m);
  }

  /** The wrapped product is the true product modulo 2^64. */
  lemma {:induction false} NumScansAsWrittenIsModular(fields: seq<Oil>, i: nat)
    requires i <= |fields|
    ensures NumScansAsWritten(fields, i) == Stride(fields, i) % TWO_POW_64
  {
    if i > 0 {
      NumScansAsWrittenIsModular(fields, i - 1);
      MulMod(Stride(fields, i - 1), |fields[i - 1].intervals|, TWO_POW_64);
    }
  }

  function Pow16(i: nat): nat {
    if i == 0 then 1 else 16 * Pow16(i - 1)
  }

  lemma Pow16Sixteen()
    ensures Pow16(16) == TWO_POW_64
  {
    assert Pow16(4) == 0x1_0000;
    assert Pow16(8) == 0x1_0000_0000;
    assert Pow16(12) == 0x1_0000_0000_0000;
  }

  lemma {:induction false} StrideOfSixteens(fields: seq<Oil>, i: nat)
    requires i <= 16 <= |fields|
    requires forall f :: 0 <= f < 16 ==> |fields[f].intervals| == 16
    ensures Stride(fields, i) == Pow16(i)
  {
    if i > 0 {
      StrideOfSixteens(fields, i - 1);
    }
  }

  lemma {:induction false} PointPrefixLengthIs(fields: seq<Oil>, i: nat, b: nat)
    requires i <= b < |fields|
    requires forall f :: i <= f < b ==> IsUnionOfPoints(fields[f])
    requires !IsUnionOfPoints(fields[b])
    ensures PointPrefixLength(fields, i) == b
    decreases b - i
  {
    if i < b {
      PointPrefixLengthIs(fields, i + 1, b);
    }
  }

  /** Sixteen points: the values 0 to 15. */
  function SixteenPoints(): (r: seq<Interval>)
    ensures |r| == 16 && forall j :: 0 <= j < 16 ==> IsPoint(r[j])
  {
    seq(16, j requires 0 <= j < 16 => Interval(j, true, j, true))
  }

  /**
   * A scan of a 17-field index whose first 16 fields each have 16 point
   * intervals (16 values under `$in` on each) and whose last field has a
   * range, as for a query sorting on the last field.
   */
  function SixteenBySixteenScan(): (isn: IndexScan)
    ensures |isn.bounds.fields| == |isn.index.keyPattern| == 17 && !isn.bounds.isSimpleRange
  {
    var names := seq(17, i requires 0 <= i < 17 => ['f', ('a' as int + i) as char]);
    var keyPattern := seq(17, i requires 0 <= i < 17 => PatternElem(names[i], Num(1)));
    var fields := seq(17, i requires 0 <= i < 17 =>
      if i < 16 then Oil(names[i], SixteenPoints()) else Oil(names[i], [Interval(0, true, 1, false)]));
    IndexScan(IndexEntry(keyPattern, false, []), IndexBounds(fields, false), 1, false, None, None, {})
  }

  /**
   * With MongoDB's `size_t` counts, a scan whose exploded fields
   * multiply to exactly 2^64 counts as zero scans, so the limit test
   * passes for any limit, and `explodeForSort` goes on to build 2^64 scans.
   * The model's exact count refuses the same tree.
   */
  lemma WrappedScanCountPassesLimit(maxScansToExplode: nat)
    requires maxScansToExplode < TWO_POW_64
    ensures var isn := SixteenBySixteenScan();
      var desiredSort := isn.index.keyPattern[16..];
      var v := AnalyzeLeaf(isn, desiredSort);
      v == Explode(16, TWO_POW_64, false)
      && TotalNumScansAsWritten([isn], [v]) == 0
      && WithinLimitAsWritten([isn], [v], maxScansToExplode)
      && !ExplodeForSort(Leaf(IxScan(isn)), desiredSort, maxScansToExplode).exploded
  {
    var isn := SixteenBySixteenScan();
    var desiredSort := isn.index.keyPattern[16..];
    SixteenBySixteenVerdict();
    var v := AnalyzeLeaf(isn, desiredSort);
    SixteenBySixteenWraps();
    var root := Leaf(IxScan(isn));
    assert StructureOKForExplode(root) == Some([]);
    var vs := VerdictsOf(AnchorScans(root), desiredSort);
    assert vs == [v];
    assert TotalNumScans(vs) == TWO_POW_64 by {
      assert vs[..0] == [];
    }
  }

  /** The sixteen point fields explode to 16^16 = 2^64 scans, none reversed. */
  lemma SixteenBySixteenVerdict()
    ensures var isn := SixteenBySixteenScan();
      AnalyzeLeaf(isn, isn.index.keyPattern[16..]) == Explode(16, TWO_POW_64, false)
  {
    var isn := SixteenBySixteenScan();
    var fields := isn.bounds.fields;
    assert forall f :: 0 <= f < 16 ==> fields[f].intervals == SixteenPoints();
    assert forall f :: 0 <= f < 16 ==> IsUnionOfPoints(fields[f]);
    assert !IsPoint(fields[16].intervals[0]);
    PointPrefixLengthIs(fields, 0, 16);
    StrideOfSixteens(fields, 16);
    Pow16Sixteen();
    assert !AnyMultikey(isn.index.keyPattern[16..], isn.multikeyFields);
  }

  /** Counted in `size_t`, those 2^64 scans come to zero. */
  lemma SixteenBySixteenWraps()
    ensures var isn := SixteenBySixteenScan();
      TotalNumScansAsWritten([isn], [Explode(16, TWO_POW_64, false)]) == 0
  {
    var isn := SixteenBySixteenScan();
    var fields := isn.bounds.fields;
    assert forall f :: 0 <= f < 16 ==> fields[f].intervals == SixteenPoints();
    assert forall f :: 0 <= f < 16 ==> IsUnionOfPoints(fields[f]);
    PointPrefixLengthIs(fields, 0, 16);
    NumScansAsWrittenIsModular(fields, 16);
    StrideOfSixteens(fields, 16);
    Pow16Sixteen();
    assert [isn][..0] == [];
  }
}

=== FILE: query_solution.dfy ===
/**
 * Query solution trees: plan nodes with their stage and children, the
 * tree operations the planner's analysis uses (leaf collection, stage
 * search, replacing one node, reversing scan direction), and the derived
 * properties each node reports.
 *
 * A tree position is a path of child indexes from the root; MongoDB's
 * pointer to a node is modelled by its path.
 */
module QuerySolution {
  import opened Wrappers
  import opened Bounds

  datatype IndexEntry = IndexEntry(keyPattern: Pattern, multikey: bool, multikeyPaths: seq<set<nat>>)

  /**
   * An index scan. `multikeyFields` is the derived set of key fields that
   * are multikey; `filter` and `queryCollator` are carried as opaque values.
   */
  datatype IndexScan = IndexScan(
    index: IndexEntry,
    bounds: IndexBounds,
    direction: int,
    addKeyMetadata: bool,
    queryCollator: Option<nat>,
    filter: Option<nat>,
    multikeyFields: set<string>)

  datatype ProjectionKind = ProjectionDefault | ProjectionSimple | ProjectionCovered(coveredKeyObj: Pattern)

  datatype Stage =
    | IxScan(scan: IndexScan)
    | DistinctScan(index: IndexEntry, bounds: IndexBounds, direction: int)
    | CollScan
    | Fetch
    | Or
    | AndHash
    | MergeSort(sort: Pattern)
    | Sort(pattern: Pattern, limit: nat)
    | SortKeyGenerator(sortSpec: Pattern)
    | EnsureSorted(pattern: Pattern)
    | ShardingFilter
    | Skip(skip: nat)
    | Limit(limit: nat)
    | Projection(kind: ProjectionKind)
    | OtherStage(name: string)

  datatype StageType =
    | StageIxScan | StageDistinctScan | StageCollScan | StageFetch | StageOr | StageAndHash
    | StageSortMerge | StageSort | StageSortKeyGenerator | StageEnsureSorted | StageShardingFilter
    | StageSkip | StageLimit | StageProjection | StageOther

  function TypeOf(s: Stage): StageType {
    match s
    case IxScan(_) => StageIxScan
    case DistinctScan(_, _, _) => StageDistinctScan
    case CollScan => StageCollScan
    case Fetch => StageFetch
    case Or => StageOr
    case AndHash => StageAndHash
    case MergeSort(_) => StageSortMerge
    case Sort(_, _) => StageSort
    case SortKeyGenerator(_) => StageSortKeyGenerator
    case EnsureSorted(_) => StageEnsureSorted
    case ShardingFilter => StageShardingFilter
    case Skip(_) => StageSkip
    case Limit(_) => StageLimit
    case Projection(_) => StageProjection
    case OtherStage(_) => StageOther
  }

  datatype Node = Node(stage: Stage, children: seq<Node>)

  function Leaf(s: Stage): Node {
    Node(s, [])
  }

  function Unary(s: Stage, child: Node): Node {
    Node(s, [child])
  }

  /**
   * The shape every plan tree has: scans are leaves, single-input stages
   * have exactly one child, and unions and merges have at least one.
   * An index scan's bounds, unless a simple range, have one interval list
   * per key-pattern field.
   */
  predicate WellFormed(n: Node)
    decreases n
  {
    (match n.stage
     case IxScan(scan) =>
       |n.children| == 0
       && (!scan.bounds.isSimpleRange ==> |scan.bounds.fields| == |scan.index.keyPattern|)
     case DistinctScan(_, _, _) => |n.children| == 0
     case CollScan => |n.children| == 0
     case Or => |n.children| >= 1
     case AndHash => |n.children| >= 1
     case MergeSort(_) => |n.children| >= 1
     case OtherStage(_) => true
     case _ => |n.children| == 1)
    && forall i :: 0 <= i < |n.children| ==> WellFormed(n.children[i])
  }

  // ---------------------------------------------------------------------
  // Positions in a tree
  // ---------------------------------------------------------------------

  type Path = seq<nat>

  predicate ValidPath(root: Node, p: Path)
    decreases |p|
  {
    |p| == 0 || (p[0] < |root.children| && ValidPath(root.children[p[0]], p[1..]))
  }

  function At(root: Node, p: Path): Node
    requires ValidPath(root, p)
    decreases |p|
  {
    if |p| == 0 then root else At(root.children[p[0]], p[1..])
  }

  /**
   * `replaceNodeInTree`: the node at `p` is replaced by `newNode`; every
   * node off the path is kept and every node on it keeps its stage.
   */
  function ReplaceAt(root: Node, p: Path, newNode: Node): (r: Node)
    requires ValidPath(root, p)
    ensures ValidPath(r, p) && At(r, p) == newNode
    ensures |p| > 0 ==> r.stage == root.stage && |r.children| == |root.children|
    ensures |p| > 0 ==> forall i :: 0 <= i < |root.children| && i != p[0] ==> r.children[i] == root.children[i]
    decreases |p|
  {
    if |p| == 0 then newNode
    else
      var i := p[0];
      Node(root.stage, root.children[i := ReplaceAt(root.children[i], p[1..], newNode)])
  }

  /** Replacing a node by itself changes nothing. */
  lemma {:induction false} ReplaceBySelf(root: Node, p: Path)
    requires ValidPath(root, p)
    ensures ReplaceAt(root, p, At(root, p)) == root
    decreases |p|
  {
    if |p| > 0 {
      ReplaceBySelf(root.children[p[0]], p[1..]);
      assert root.children[p[0] := root.children[p[0]]] == root.children;
    }
  }

  /** A second replacement at the same place undoes the first. */
  lemma {:induction false} ReplaceTwice(root: Node, p: Path, a: Node, b: Node)
    requires ValidPath(root, p)
    ensures ReplaceAt(ReplaceAt(root, p, a), p, b) == ReplaceAt(root, p, b)
    decreases |p|
  {
    if |p| > 0 {
      ReplaceTwice(root.children[p[0]], p[1..], a, b);
    }
  }

  /** Putting a well-formed node anywhere in a well-formed tree keeps the tree well-formed. */
  lemma {:induction false} ReplaceKeepsWellFormed(root: Node, p: Path, newNode: Node)
    requires WellFormed(root) && ValidPath(root, p) && WellFormed(newNode)
    ensures WellFormed(ReplaceAt(root, p, newNode))
    decreases |p|
  {
    if |p| > 0 {
      ReplaceKeepsWellFormed(root.children[p[0]], p[1..], newNode);
      var r := ReplaceAt(root, p, newNode);
      assert forall i :: 0 <= i < |r.children| ==> WellFormed(r.children[i]) by {
        forall i | 0 <= i < |r.children|
          ensures WellFormed(r.children[i])
        {
          if i != p[0] {
            assert r.children[i] == root.children[i];
          }
        }
      }
    }
  }

  // ---------------------------------------------------------------------
  // Leaves and stage search
  // ---------------------------------------------------------------------

  /** `getLeafNodes`: the childless nodes, left to right. */
  function GetLeafNodes(n: Node): (r: seq<Node>)
    ensures |r| >= 1
    ensures forall i :: 0 <= i < |r| ==> |r[i].children| == 0
    decreases n, 1
  {
    if |n.children| == 0 then [n] else ChildrenLeaves(n, 0)
  }

  function ChildrenLeaves(n: Node, i: nat): (r: seq<Node>)
    requires i <= |n.children|
    ensures forall k :: 0 <= k < |r| ==> |r[k].children| == 0
    decreases n, 0, |n.children| - i
  {
    if i == |n.children| then [] else GetLeafNodes(n.children[i]) + ChildrenLeaves(n, i + 1)
  }

  /** The leaves of a node whose children are all leaves are its children. */
  lemma {:induction false} LeavesOfFlatNode(n: Node, i: nat)
    requires i <= |n.children|
    requires forall k :: 0 <= k < |n.children| ==> |n.children[k].children| == 0
    ensures ChildrenLeaves(n, i) == n.children[i..]
    decreases |n.children| - i
  {
    if i < |n.children| {
      LeavesOfFlatNode(n, i + 1);
      assert n.children[i..] == [n.children[i]] + n.children[i + 1..];
    }
  }

  /** `hasNode`: whether a stage of the given type occurs anywhere in the tree. */
  function HasNode(n: Node, t: StageType): (r: bool)
    decreases n, 1
  {
    TypeOf(n.stage) == t || ChildrenHaveNode(n, t, 0)
  }

  function ChildrenHaveNode(n: Node, t: StageType, i: nat): bool
    requires i <= |n.children|
    decreases n, 0, |n.children| - i
  {
    i < |n.children| && (HasNode(n.children[i], t) || ChildrenHaveNode(n, t, i + 1))
  }

  /** `hasNode` finds a stage exactly when some position in the tree holds one. */
  lemma {:induction false} HasNodeIffSomewhere(n: Node, t: StageType) returns (p: Path)
    ensures HasNode(n, t) ==> ValidPath(n, p) && TypeOf(At(n, p).stage) == t
    ensures !HasNode(n, t) ==> forall q :: ValidPath(n, q) ==> TypeOf(At(n, q).stage) != t
    decreases n, 1
  {
    p := [];
    if TypeOf(n.stage) == t {
    } else {
      p := ChildrenHaveNodeWitness(n, t, 0);
      if !HasNode(n, t) {
        forall q | ValidPath(n, q)
          ensures TypeOf(At(n, q).stage) != t
        {
          if |q| > 0 {
            NotInChildren(n, t, 0, q[0]);
            var _ := HasNodeIffSomewhere(n.children[q[0]], t);
          }
        }
      }
    }
  }

  lemma {:induction false} ChildrenHaveNodeWitness(n: Node, t: StageType, i: nat) returns (p: Path)
    requires i <= |n.children|
    ensures ChildrenHaveNode(n, t, i) ==> ValidPath(n, p) && TypeOf(At(n, p).stage) == t
    decreases n, 0, |n.children| - i
  {
    p := [];
    if i < |n.children| {
      if HasNode(n.children[i], t) {
        var q := HasNodeIffSomewhere(n.children[i], t);
        p := [i] + q;
        assert p[1..] == q;
      } else {
        p := ChildrenHaveNodeWitness(n, t, i + 1);
      }
    }
  }

  lemma {:induction false} NotInChildren(n: Node, t: StageType, i: nat, k: nat)
    requires i <= k < |n.children|
    requires !ChildrenHaveNode(n, t, i)
    ensures !HasNode(n.children[k], t)
    decreases k - i
  {
    if i < k {
      NotInChildren(n, t, i + 1, k);
    }
  }

  // ---------------------------------------------------------------------
  // Reversing scan direction
  // ---------------------------------------------------------------------

  function ReverseScan(scan: IndexScan): (r: IndexScan)
    ensures r.direction == -scan.direction
    ensures r.bounds == ReverseBounds(scan.bounds)
    ensures r.(direction := scan.direction, bounds := scan.bounds) == scan
  {
    scan.(direction := -scan.direction, bounds := ReverseBounds(scan.bounds))
  }

  /**
   * `reverseScans`: index and distinct scans flip their direction and walk
   * their interval lists backwards, a merge-sort reverses its sort pattern,
   * and the whole subtree is visited.
   */
  function ReverseScans(n: Node): (r: Node)
    ensures TypeOf(r.stage) == TypeOf(n.stage) && |r.children| == |n.children|
    ensures forall i :: 0 <= i < |n.children| ==> r.children[i] == ReverseScans(n.children[i])
    decreases n
  {
    var stage :=
      match n.stage
      case IxScan(scan) => IxScan(ReverseScan(scan))
      case DistinctScan(index, bounds, direction) => DistinctScan(index, ReverseBounds(bounds), -direction)
      case MergeSort(sort) => MergeSort(ReverseSortPattern(sort))
      case _ => n.stage;
    Node(stage, seq(|n.children|, i requires 0 <= i < |n.children| => ReverseScans(n.children[i])))
  }

  /** Reversal keeps a tree's shape. */
  lemma {:induction false} ReverseScansWellFormed(n: Node)
    requires WellFormed(n)
    ensures WellFormed(ReverseScans(n))
    decreases n
  {
    var r := ReverseScans(n);
    forall i | 0 <= i < |n.children|
      ensures WellFormed(r.children[i])
    {
      ReverseScansWellFormed(n.children[i]);
    }
  }

  lemma ReverseBoundsTwice(b: IndexBounds)
    ensures ReverseBounds(ReverseBounds(b)) == b
  {
    if !b.isSimpleRange {
      var r := ReverseBounds(ReverseBounds(b));
      forall i | 0 <= i < |b.fields|
        ensures r.fields[i] == b.fields[i]
      {
        ReverseOilTwice(b.fields[i]);
      }
    }
  }

  /** A merge-sort whose sort pattern holds numbers only. */
  predicate NumericSorts(n: Node)
    decreases n
  {
    (n.stage.MergeSort? ==> forall i :: 0 <= i < |n.stage.sort| ==> n.stage.sort[i].value.Num?)
    && forall i :: 0 <= i < |n.children| ==> NumericSorts(n.children[i])
  }

  /** Reversing twice gives the tree back when its merge sorts are numeric. */
  lemma {:induction false} ReverseScansTwice(n: Node)
    requires NumericSorts(n)
    ensures ReverseScans(ReverseScans(n)) == n
    decreases n
  {
    var r := ReverseScans(ReverseScans(n));
    forall i | 0 <= i < |n.children|
      ensures r.children[i] == n.children[i]
    {
      ReverseScansTwice(n.children[i]);
    }
    match n.stage
    case IxScan(scan) =>
      ReverseBoundsTwice(scan.bounds);
    case DistinctScan(index, bounds, direction) =>
      ReverseBoundsTwice(bounds);
    case MergeSort(sort) =>
      ReverseSortPatternTwice(sort);
    case _ =>
  }

  // ---------------------------------------------------------------------
  // Derived node properties
  // ---------------------------------------------------------------------

  /**
   * The properties a node derives from its subtree: the sort orders it
   * provides, whether it has fetched full documents, and whether it can
   * supply a field without fetching. They are computed outside this model
   * and given as functions of the node.
   */
  datatype Props = Props(
    sorts: Node -> set<Pattern>,
    fetched: Node -> bool,
    hasField: (Node, string) -> bool)

  /** Whether the node supplies every one of the fields. */
  predicate HasAllFields(props: Props, n: Node, fields: seq<string>) {
    forall i :: 0 <= i < |fields| ==> props.hasField(n, fields[i])
  }
}

=== FILE: txn_oplog.dfy ===
/**
 * Oplog application of multi-document transactions: rebuilding a
 * transaction's operations in chronological order from the chain of
 * partial-transaction oplog entries, applying those operations with the
 * mode-dependent error rule, and deciding per oplog application mode
 * whether a prepare, commit or abort entry is applied, ignored or rejected.
 *
 * An optime is modelled by its timestamp, a natural number, with 0 as the
 * null optime that ends a chain.
 */
module TxnOplog {
  import opened Wrappers

  type OpTime = nat

  const NULL_OPTIME: OpTime := 0

  /** One operation of a transaction, as extracted from an applyOps array. */
  datatype Op = Op(nss: string, payload: nat)

  datatype CommandType = ApplyOps | CommitTransaction | AbortTransaction

  /**
   * The parts of an oplog entry that transaction application looks at.
   * `hasSession` stands for the entry carrying both a session id and a
   * transaction number; `commitTimestamp` is the commit command's field.
   */
  datatype OplogEntry = OplogEntry(
    opTime: OpTime,
    prevWriteOpTime: OpTime,
    commandType: CommandType,
    ops: seq<Op>,
    isPartial: bool,
    hasSession: bool,
    commitTimestamp: Option<nat>)

  /** The oplog, keyed by optime. */
  type Oplog = map<OpTime, OplogEntry>

  /**
   * Every entry sits at its own optime and links back to a strictly earlier
   * write of its transaction, so walking a chain always ends.
   */
  predicate WellFormedOplog(oplog: Oplog) {
    forall t :: t in oplog ==> oplog[t].opTime == t && oplog[t].prevWriteOpTime < t
  }

  /** The ways a step can bring the server down: a failed invariant or fassert. */
  datatype Crash = InvariantFailure | MissingOplogEntry | Fassert(id: nat)

  // ---------------------------------------------------------------------
  // Sequence helpers
  // ---------------------------------------------------------------------

  function Reverse<T>(s: seq<T>): (r: seq<T>)
    ensures |r| == |s|
  {
    if |s| == 0 then [] else Reverse(s[1..]) + [s[0]]
  }

  lemma {:induction false} ReverseIndex<T>(s: seq<T>, i: nat)
    requires i < |s|
    ensures Reverse(s)[i] == s[|s| - 1 - i]
    decreases |s|
  {
    if i < |s| - 1 {
      ReverseIndex(s[1..], i);
    }
  }

  lemma {:induction false} ReverseAppend<T>(a: seq<T>, b: seq<T>)
    ensures Reverse(a + b) == Reverse(b) + Reverse(a)
    decreases |a|
  {
    if |a| == 0 {
      assert a + b == b;
    } else {
      assert (a + b)[1..] == a[1..] + b;
      ReverseAppend(a[1..], b);
    }
  }

  lemma {:induction false} ReverseReverse<T>(s: seq<T>)
    ensures Reverse(Reverse(s)) == s
    decreases |s|
  {
    if |s| > 0 {
      ReverseAppend(Reverse(s[1..]), [s[0]]);
      ReverseReverse(s[1..]);
      assert Reverse([s[0]]) == [s[0]];
    }
  }

  /** The operations of a sequence of entries, entry after entry. */
  function Concat(es: seq<OplogEntry>): seq<Op> {
    if |es| == 0 then [] else es[0].ops + Concat(es[1..])
  }

  lemma {:induction false} ConcatAppend(es: seq<OplogEntry>, e: OplogEntry)
    ensures Concat(es + [e]) == Concat(es) + e.ops
    decreases |es|
  {
    if |es| == 0 {
      assert es + [e] == [e];
    } else {
      assert (es + [e])[1..] == es[1..] + [e];
      ConcatAppend(es[1..], e);
    }
  }

  // ---------------------------------------------------------------------
  // Reading a transaction's operations
  // ---------------------------------------------------------------------

  /**
   * The transaction history walked back from `t`, newest entry first, as
   * the history iterator yields it: a missing entry is fatal, and every
   * entry on the chain must be a partial-transaction entry.
   */
  function ChainEntries(oplog: Oplog, t: OpTime): (r: Result<seq<OplogEntry>, Crash>)
    requires WellFormedOplog(oplog)
    ensures r.Ok? ==> forall i :: 0 <= i < |r.value| ==> r.value[i].isPartial
    decreases t
  {
    if t == NULL_OPTIME then Ok([])
    else if t !in oplog then Err(MissingOplogEntry)
    else if !oplog[t].isPartial then Err(InvariantFailure)
    else
      match ChainEntries(oplog, oplog[t].prevWriteOpTime)
      case Err(e) => Err(e)
      case Ok(rest) => Ok([oplog[t]] + rest)
  }

  /** The chain is newest first: its optimes start at `t` and strictly decrease. */
  lemma {:induction false} ChainIsNewestFirst(oplog: Oplog, t: OpTime)
    requires WellFormedOplog(oplog)
    requires ChainEntries(oplog, t).Ok?
    ensures var h := ChainEntries(oplog, t).value;
      (|h| > 0 <==> t != NULL_OPTIME)
      && (|h| > 0 ==> h[0].opTime == t)
      && forall i, j :: 0 <= i < j < |h| ==> h[i].opTime > h[j].opTime
    decreases t
  {
    if t != NULL_OPTIME {
      var p := oplog[t].prevWriteOpTime;
      ChainIsNewestFirst(oplog, p);
      var rest := ChainEntries(oplog, p).value;
      var h := ChainEntries(oplog, t).value;
      assert h == [oplog[t]] + rest;
      forall i, j | 0 <= i < j < |h|
        ensures h[i].opTime > h[j].opTime
      {
        if i == 0 {
          assert h[j] == rest[j - 1];
          assert rest[j - 1].opTime <= p by {
            if j - 1 > 0 {
              assert rest[0].opTime > rest[j - 1].opTime;
            }
          }
        } else {
          assert h[i] == rest[i - 1] && h[j] == rest[j - 1];
        }
      }
    }
  }

  /** The chain's operations, oldest entry first and each entry's own order kept. */
  function ChainOperations(oplog: Oplog, t: OpTime): Result<seq<Op>, Crash>
    requires WellFormedOplog(oplog)
  {
    match ChainEntries(oplog, t)
    case Err(e) => Err(e)
    case Ok(h) => Ok(Concat(Reverse(h)))
  }

  /**
   * Where the chain of already-written entries starts: the previous write of
   * the first cached op, or of the commit or prepare entry when nothing is
   * cached.
   */
  function ChainStart(commitOrPrepare: OplogEntry, cachedOps: seq<OplogEntry>): OpTime {
    (if |cachedOps| == 0 then commitOrPrepare else cachedOps[0]).prevWriteOpTime
  }

  /** The commit or prepare entry's own operations, carried only by an applyOps. */
  function OwnOps(commitOrPrepare: OplogEntry): seq<Op> {
    if commitOrPrepare.commandType == ApplyOps then commitOrPrepare.ops else []
  }

  predicate AllPartial(es: seq<OplogEntry>) {
    forall i :: 0 <= i < |es| ==> es[i].isPartial
  }

  /**
   * A transaction's operations in the order they were performed: the
   * written chain from its oldest entry to its newest, then the cached ops
   * of the current batch in their given order, then the commit or prepare
   * entry's own operations. The checks fail in the order MongoDB makes
   * them.
   */
  function TransactionOperations(oplog: Oplog, commitOrPrepare: OplogEntry, cachedOps: seq<OplogEntry>)
    : (r: Result<seq<Op>, Crash>)
    requires WellFormedOplog(oplog)
    ensures r.Ok? ==> ChainStart(commitOrPrepare, cachedOps) < commitOrPrepare.opTime
    ensures r.Ok? ==> AllPartial(cachedOps)
    ensures r.Ok? && commitOrPrepare.commandType == CommitTransaction && |cachedOps| == 0
      ==> ChainStart(commitOrPrepare, cachedOps) != NULL_OPTIME
  {
    var last := ChainStart(commitOrPrepare, cachedOps);
    if !(last < commitOrPrepare.opTime) then Err(InvariantFailure)
    else if commitOrPrepare.commandType == CommitTransaction && |cachedOps| == 0 && last == NULL_OPTIME then
      Err(InvariantFailure)
    else
      match ChainOperations(oplog, last)
      case Err(e) => Err(e)
      case Ok(chainOps) =>
        if !AllPartial(cachedOps) then Err(InvariantFailure)
        else Ok(chainOps + Concat(cachedOps) + OwnOps(commitOrPrepare))
  }

  /** The chain read so far, `seen`, followed by what is still to be read from `t`. */
  function PrefixedWith(seen: seq<OplogEntry>, r: Result<seq<OplogEntry>, Crash>): Result<seq<OplogEntry>, Crash> {
    match r
    case Ok(rest) => Ok(seen + rest)
    case Err(e) => Err(e)
  }

  lemma PrefixedStep(oplog: Oplog, seen: seq<OplogEntry>, t: OpTime)
    requires WellFormedOplog(oplog)
    requires t in oplog && oplog[t].isPartial && t != NULL_OPTIME
    ensures PrefixedWith(seen, ChainEntries(oplog, t))
      == PrefixedWith(seen + [oplog[t]], ChainEntries(oplog, oplog[t].prevWriteOpTime))
  {
    var rest := ChainEntries(oplog, oplog[t].prevWriteOpTime);
    if rest.Ok? {
      assert seen + ([oplog[t]] + rest.value) == (seen + [oplog[t]]) + rest.value;
    }
  }

  lemma ChainLoopStep(ops: seq<Op>, seen: seq<OplogEntry>, e: OplogEntry)
    requires ops == Reverse(Concat(Reverse(seen)))
    ensures ops + Reverse(e.ops) == Reverse(Concat(Reverse(seen + [e])))
  {
    ReverseAppend(seen, [e]);
    assert Reverse([e]) == [e];
    assert ([e] + Reverse(seen))[1..] == Reverse(seen);
    ReverseAppend(e.ops, Concat(Reverse(seen)));
  }

  /**
   * The first loop of `readTransactionOperationsFromOplogChain`: walk the
   * chain newest first, reversing each entry's operations as they are
   * appended, then reverse the whole list. The result is the chain's
   * operations oldest entry first, each entry's own order kept.
   */
  method ReadChainOperations(oplog: Oplog, last: OpTime) returns (r: Result<seq<Op>, Crash>)
    requires WellFormedOplog(oplog)
    ensures r == ChainOperations(oplog, last)
  {
    var ops: seq<Op> := [];
    var t: OpTime := last;
    ghost var seen: seq<OplogEntry> := [];
    assert PrefixedWith(seen, ChainEntries(oplog, t)) == ChainEntries(oplog, t) by {
      if ChainEntries(oplog, t).Ok? {
        assert seen + ChainEntries(oplog, t).value == ChainEntries(oplog, t).value;
      }
    }
    while t != NULL_OPTIME
      invariant ChainEntries(oplog, last) == PrefixedWith(seen, ChainEntries(oplog, t))
      invariant ops == Reverse(Concat(Reverse(seen)))
      decreases t
    {
      if t !in oplog {
        return Err(MissingOplogEntry);
      }
      var entry := oplog[t];
      if !entry.isPartial {
        return Err(InvariantFailure);
      }
      ChainLoopStep(ops, seen, entry);
      var prevOpsEnd := |ops|;
      ops := ops + entry.ops;
      assert ops[..prevOpsEnd] + Reverse(ops[prevOpsEnd..]) == Reverse(Concat(Reverse(seen + [entry]))) by {
        assert ops[prevOpsEnd..] == entry.ops;
      }
      ops := ops[..prevOpsEnd] + Reverse(ops[prevOpsEnd..]);
      PrefixedStep(oplog, seen, t);
      seen := seen + [entry];
      t := entry.prevWriteOpTime;
    }
    assert ChainEntries(oplog, last) == Ok(seen) by {
      assert seen + [] == seen;
    }
    ReverseReverse(Concat(Reverse(seen)));
    return Ok(Reverse(ops));
  }

  /**
   * The second loop: the cached ops of the current batch are appended in
   * their given order, each of them required to be a partial-transaction
   * entry.
   */
  method AppendCachedOperations(ops: seq<Op>, cachedOps: seq<OplogEntry>) returns (r: Result<seq<Op>, Crash>)
    ensures AllPartial(cachedOps) ==> r == Ok(ops + Concat(cachedOps))
    ensures !AllPartial(cachedOps) ==> r == Err(InvariantFailure)
  {
    var acc := ops;
    var i := 0;
    while i < |cachedOps|
      invariant 0 <= i <= |cachedOps|
      invariant AllPartial(cachedOps[..i])
      invariant acc == ops + Concat(cachedOps[..i])
    {
      if !cachedOps[i].isPartial {
        return Err(InvariantFailure);
      }
      ConcatAppend(cachedOps[..i], cachedOps[i]);
      assert cachedOps[..i + 1] == cachedOps[..i] + [cachedOps[i]];
      acc := acc + cachedOps[i].ops;
      i := i + 1;
    }
    assert cachedOps[..|cachedOps|] == cachedOps;
    return Ok(acc);
  }

  /**
   * `readTransactionOperationsFromOplogChain`: its two checks on
   * the chain start, the chain walk, the cached ops, and last the commit or
   * prepare entry's own operations when it is an applyOps.
   */
  method ReadTransactionOperationsFromOplogChain(oplog: Oplog, commitOrPrepare: OplogEntry, cachedOps: seq<OplogEntry>)
    returns (r: Result<seq<Op>, Crash>)
    requires WellFormedOplog(oplog)
    ensures r == TransactionOperations(oplog, commitOrPrepare, cachedOps)
  {
    var last := ChainStart(commitOrPrepare, cachedOps);
    if !(last < commitOrPrepare.opTime) {
      return Err(InvariantFailure);
    }
    if commitOrPrepare.commandType == CommitTransaction && |cachedOps| == 0 && last == NULL_OPTIME {
      return Err(InvariantFailure);
    }
    var chain := ReadChainOperations(oplog, last);
    if chain.Err? {
      return Err(chain.error);
    }
    var ops := AppendCachedOperations(chain.value, cachedOps);
    if ops.Err? {
      return ops;
    }
    if commitOrPrepare.commandType == ApplyOps {
      return Ok(ops.value + commitOrPrepare.ops);
    }
    assert ops.value + OwnOps(commitOrPrepare) == ops.value;
    return ops;
  }

  /**
   * The newest written entry's operations come after all of the older
   * entries' operations: the chain read from `t` is the chain read from the
   * entry's previous write, followed by that entry's own operations.
   */
  lemma NewestEntryLast(oplog: Oplog, t: OpTime)
    requires WellFormedOplog(oplog)
    requires t != NULL_OPTIME && t in oplog && oplog[t].isPartial
    requires ChainOperations(oplog, oplog[t].prevWriteOpTime).Ok?
    ensures ChainOperations(oplog, t)
      == Ok(ChainOperations(oplog, oplog[t].prevWriteOpTime).value + oplog[t].ops)
  {
    var e := oplog[t];
    var rest := ChainEntries(oplog, e.prevWriteOpTime).value;
    assert ChainEntries(oplog, t) == Ok([e] + rest);
    ReverseAppend([e], rest);
    assert Reverse([e]) == [e];
    ConcatAppend(Reverse(rest), e);
  }

  // ---------------------------------------------------------------------
  // Applying the operations
  // ---------------------------------------------------------------------

  /** The oplog application modes. */
  datatype Mode = InitialSync | Recovering | Secondary | ApplyOpsCmd

  datatype ErrorCode = NamespaceNotFound | Location(id: nat) | OtherError(id: nat)

  datatype Status = OK | Error(code: ErrorCode, reason: string)

  /**
   * What applying one operation does: it returns a status, or it throws an
   * exception with a code.
   */
  datatype OpOutcome = Returned(status: Status) | Thrown(code: ErrorCode, reason: string)

  /**
   * The modes that tolerate a collection missing during transaction
   * application: initial sync and recovery replay a history whose
   * collections may since have been dropped.
   */
  predicate ToleratesMissingNamespace(mode: Mode) {
    mode == InitialSync || mode == Recovering
  }

  /** Application goes past an operation that succeeded or whose missing namespace is tolerated. */
  predicate GoesPast(o: OpOutcome, mode: Mode) {
    o == Returned(OK) || (o.Thrown? && o.code == NamespaceNotFound && ToleratesMissingNamespace(mode))
  }

  /**
   * `_applyOperationsForTransaction`: apply the operations in order with
   * `applyOp` standing for `applyOperation_inlock`; stop at the first
   * non-OK status, or at the first exception other than a tolerated
   * NamespaceNotFound, and pass it on.
   */
  function ApplyOperationsForTransaction(ops: seq<Op>, mode: Mode, applyOp: Op -> OpOutcome): (r: OpOutcome)
    ensures r == Returned(OK) <==> (forall i :: 0 <= i < |ops| ==> GoesPast(applyOp(ops[i]), mode))
    ensures r != Returned(OK) ==> !GoesPast(r, mode)
  {
    if |ops| == 0 then Returned(OK)
    else
      var o := applyOp(ops[0]);
      if GoesPast(o, mode) then ApplyOperationsForTransaction(ops[1..], mode, applyOp)
      else o
  }

  /**
   * The outcome that stops application is the first operation's outcome that
   * application cannot go past, and every operation before it went through.
   */
  lemma {:induction false} StopsAtFirstFailure(ops: seq<Op>, mode: Mode, applyOp: Op -> OpOutcome)
    returns (k: nat)
    requires ApplyOperationsForTransaction(ops, mode, applyOp) != Returned(OK)
    ensures k < |ops|
    ensures ApplyOperationsForTransaction(ops, mode, applyOp) == applyOp(ops[k])
    ensures forall j :: 0 <= j < k ==> GoesPast(applyOp(ops[j]), mode)
    decreases |ops|
  {
    if GoesPast(applyOp(ops[0]), mode) {
      var k' := StopsAtFirstFailure(ops[1..], mode, applyOp);
      k := k' + 1;
      forall j | 0 <= j < k
        ensures GoesPast(applyOp(ops[j]), mode)
      {
        if j > 0 {
          assert ops[j] == ops[1..][j - 1];
        }
      }
    } else {
      k := 0;
    }
  }

  /**
   * Conversely, the first operation application cannot go past decides the
   * result: its outcome is what application returns.
   */
  lemma {:induction false} FirstFailureDecides(ops: seq<Op>, mode: Mode, applyOp: Op -> OpOutcome, k: nat)
    requires k < |ops| && !GoesPast(applyOp(ops[k]), mode)
    requires forall j :: 0 <= j < k ==> GoesPast(applyOp(ops[j]), mode)
    ensures ApplyOperationsForTransaction(ops, mode, applyOp) == applyOp(ops[k])
    decreases k
  {
    if k > 0 {
      forall j | 0 <= j < k - 1
        ensures GoesPast(applyOp(ops[1..][j]), mode)
      {
        assert ops[1..][j] == ops[j + 1];
      }
      assert ops[1..][k - 1] == ops[k];
      FirstFailureDecides(ops[1..], mode, applyOp, k - 1);
    }
  }

  /**
   * A missing namespace stops application in steady-state and applyOps
   * modes but is skipped in initial sync and recovery.
   */
  lemma MissingNamespaceRule(ops: seq<Op>, mode: Mode, applyOp: Op -> OpOutcome, reason: string)
    requires |ops| >= 1 && applyOp(ops[0]) == Thrown(NamespaceNotFound, reason)
    ensures ToleratesMissingNamespace(mode)
      ==> ApplyOperationsForTransaction(ops, mode, applyOp) == ApplyOperationsForTransaction(ops[1..], mode, applyOp)
    ensures !ToleratesMissingNamespace(mode)
      ==> ApplyOperationsForTransaction(ops, mode, applyOp) == Thrown(NamespaceNotFound, reason)
  {
  }

  // ---------------------------------------------------------------------
  // Mode dispatch for prepare, commit and abort entries
  // ---------------------------------------------------------------------

  /** What an application step did to the transaction's state. */
  datatype Effect =
    | NoEffect
      /** The operations were applied and the transaction prepared at the entry's optime. */
    | PreparedTransaction(ops: seq<Op>, prepareOpTime: OpTime)
      /** The operations were replayed from the chain, then prepared and committed at once. */
    | ReplayedCommit(ops: seq<Op>, commitTimestamp: nat, durableTimestamp: nat)
      /** The already prepared transaction was committed. */
    | CommittedPrepared(commitTimestamp: nat, commitOpTime: OpTime)
    | AbortedActive

  /** How a step ends: with a status, with an exception, or with the server down. */
  datatype Outcome =
    | Completed(status: Status, effect: Effect)
    | Raised(code: ErrorCode, reason: string)
    | Crashed(crash: Crash)

  const PREPARE_APPLY_OPS_ERROR: nat := 51145
  const PREPARE_NEEDS_MAJORITY_READ_CONCERN: nat := 51146
  const PREPARE_APPLY_FAILED: nat := 31137
  const COMMIT_APPLY_OPS_ERROR: nat := 50987
  const ABORT_APPLY_OPS_ERROR: nat := 50972

  /**
   * `_applyPrepareTransaction` in steady state: read the operations from
   * the chain ending at the prepare entry, apply them, and prepare the
   * transaction. A non-OK status from application is fatal.
   */
  function PrepareOnSecondary(oplog: Oplog, entry: OplogEntry, applyOp: Op -> OpOutcome): (r: Outcome)
    requires WellFormedOplog(oplog)
    ensures r.Completed? ==> r.status == OK && r.effect.PreparedTransaction?
    ensures r.Completed? && r.effect.PreparedTransaction? ==>
      (TransactionOperations(oplog, entry, []) == Ok(r.effect.ops)
       && r.effect.prepareOpTime == entry.opTime
       && forall i :: 0 <= i < |r.effect.ops| ==> applyOp(r.effect.ops[i]) == Returned(OK))
    ensures TransactionOperations(oplog, entry, []).Err? ==> r == Crashed(TransactionOperations(oplog, entry, []).error)
    ensures TransactionOperations(oplog, entry, []).Ok? && !entry.hasSession ==> r == Crashed(InvariantFailure)
    ensures TransactionOperations(oplog, entry, []).Ok? && entry.hasSession ==>
      var ops := TransactionOperations(oplog, entry, []).value;
      var applied := ApplyOperationsForTransaction(ops, Secondary, applyOp);
      ((forall i :: 0 <= i < |ops| ==> applyOp(ops[i]) == Returned(OK)) ==> r == Completed(OK, PreparedTransaction(ops, entry.opTime)))
      && (applied.Returned? && applied.status != OK ==> r == Crashed(Fassert(PREPARE_APPLY_FAILED)))
      && (applied.Thrown? ==> r == Raised(applied.code, applied.reason))
  {
    match TransactionOperations(oplog, entry, [])
    case Err(c) => Crashed(c)
    case Ok(ops) =>
      if !entry.hasSession then Crashed(InvariantFailure)
      else
        match ApplyOperationsForTransaction(ops, Secondary, applyOp)
        case Thrown(code, reason) => Raised(code, reason)
        case Returned(status) =>
          if status != OK then Crashed(Fassert(PREPARE_APPLY_FAILED))
          else Completed(OK, PreparedTransaction(ops, entry.opTime))
  }

  /**
   * `applyPrepareTransaction`: recovery and initial sync hold a prepare back
   * until its commit or the end of the phase (recovery requires majority
   * read concern to be enabled), the applyOps command may not carry one,
   * and only a secondary applies it.
   */
  function ApplyPrepareTransaction(
    oplog: Oplog, entry: OplogEntry, mode: Mode, enableMajorityReadConcern: bool, applyOp: Op -> OpOutcome)
    : (r: Outcome)
    requires WellFormedOplog(oplog)
    ensures mode == InitialSync || (mode == Recovering && enableMajorityReadConcern) ==> r == Completed(OK, NoEffect)
    ensures mode == Recovering && !enableMajorityReadConcern ==> r == Crashed(Fassert(PREPARE_NEEDS_MAJORITY_READ_CONCERN))
    ensures mode == ApplyOpsCmd ==> r.Raised? && r.code == Location(PREPARE_APPLY_OPS_ERROR)
    ensures r.Completed? && r.effect != NoEffect ==> mode == Secondary && r.effect.PreparedTransaction?
    ensures r.Completed? && r.effect.PreparedTransaction? ==>
      (TransactionOperations(oplog, entry, []) == Ok(r.effect.ops)
       && r.effect.prepareOpTime == entry.opTime
       && forall i :: 0 <= i < |r.effect.ops| ==> applyOp(r.effect.ops[i]) == Returned(OK))
    ensures mode == Secondary ==> r == PrepareOnSecondary(oplog, entry, applyOp)
  {
    if mode == Recovering then
      if !enableMajorityReadConcern then Crashed(Fassert(PREPARE_NEEDS_MAJORITY_READ_CONCERN))
      else Completed(OK, NoEffect)
    else if mode == InitialSync then Completed(OK, NoEffect)
    else if mode == ApplyOpsCmd then
      Raised(Location(PREPARE_APPLY_OPS_ERROR), "prepare applyOps oplog entry is only used internally by secondaries.")
    else
      assert mode.Secondary?;
      PrepareOnSecondary(oplog, entry, applyOp)
  }

  /**
   * `_applyTransactionFromOplogChain`: find the prepare entry the commit
   * points back to, read the transaction's operations from its chain and
   * apply them; only when that succeeds is the transaction prepared and
   * committed at the given timestamps. A failed status is returned, not
   * fatal.
   */
  function ReplayFromOplogChain(
    oplog: Oplog, entry: OplogEntry, mode: Mode, commitTimestamp: nat, applyOp: Op -> OpOutcome)
    : (r: Outcome)
    requires WellFormedOplog(oplog)
    ensures r.Completed? ==> (r.status == OK <==> r.effect.ReplayedCommit?) && (r.effect.NoEffect? || r.effect.ReplayedCommit?)
    ensures r.Completed? && r.effect.ReplayedCommit? ==>
      (entry.prevWriteOpTime in oplog
       && TransactionOperations(oplog, oplog[entry.prevWriteOpTime], []) == Ok(r.effect.ops)
       && r.effect.commitTimestamp == commitTimestamp
       && r.effect.durableTimestamp == entry.opTime
       && forall i :: 0 <= i < |r.effect.ops| ==> GoesPast(applyOp(r.effect.ops[i]), mode))
    ensures entry.prevWriteOpTime == NULL_OPTIME ==> r == Crashed(InvariantFailure)
    ensures entry.prevWriteOpTime != NULL_OPTIME && entry.prevWriteOpTime !in oplog ==> r == Crashed(MissingOplogEntry)
    ensures entry.prevWriteOpTime != NULL_OPTIME && entry.prevWriteOpTime in oplog ==>
      var read := TransactionOperations(oplog, oplog[entry.prevWriteOpTime], []);
      (read.Err? ==> r == Crashed(read.error))
      && (read.Ok? ==>
        var applied := ApplyOperationsForTransaction(read.value, mode, applyOp);
        (applied.Returned? ==>
          r == Completed(applied.status, if applied.status == OK then ReplayedCommit(read.value, commitTimestamp, entry.opTime) else NoEffect))
        && (applied.Thrown? ==> r == Raised(applied.code, applied.reason)))
  {
    var prepareOpTime := entry.prevWriteOpTime;
    if prepareOpTime == NULL_OPTIME then Crashed(InvariantFailure)
    else if prepareOpTime !in oplog then Crashed(MissingOplogEntry)
    else
      match TransactionOperations(oplog, oplog[prepareOpTime], [])
      case Err(c) => Crashed(c)
      case Ok(ops) =>
        match ApplyOperationsForTransaction(ops, mode, applyOp)
        case Thrown(code, reason) => Raised(code, reason)
        case Returned(status) =>
          if status == OK then Completed(OK, ReplayedCommit(ops, commitTimestamp, entry.opTime))
          else Completed(status, NoEffect)
  }

  /**
   * `applyCommitTransaction`: rejected in the applyOps command; in recovery
   * and initial sync, where nothing was prepared, the transaction is
   * replayed from the oplog chain; a secondary commits the transaction it
   * prepared earlier.
   */
  function ApplyCommitTransaction(oplog: Oplog, entry: OplogEntry, mode: Mode, applyOp: Op -> OpOutcome)
    : (r: Outcome)
    requires WellFormedOplog(oplog)
    ensures mode == ApplyOpsCmd ==> r.Raised? && r.code == Location(COMMIT_APPLY_OPS_ERROR)
    ensures mode != ApplyOpsCmd && entry.commitTimestamp.None? ==> r == Crashed(InvariantFailure)
    ensures r.Completed? && r.effect.ReplayedCommit? ==>
      (ToleratesMissingNamespace(mode)
       && entry.prevWriteOpTime in oplog
       && TransactionOperations(oplog, oplog[entry.prevWriteOpTime], []) == Ok(r.effect.ops)
       && r.effect.durableTimestamp == entry.opTime
       && Some(r.effect.commitTimestamp) == entry.commitTimestamp)
    ensures r.Completed? && r.effect.CommittedPrepared? ==>
      (mode == Secondary && r.effect == CommittedPrepared(entry.commitTimestamp.value, entry.opTime))
    ensures r.Completed? ==> r.effect.NoEffect? || r.effect.ReplayedCommit? || r.effect.CommittedPrepared?
    ensures ToleratesMissingNamespace(mode) && entry.commitTimestamp.Some? ==>
      r == ReplayFromOplogChain(oplog, entry, mode, entry.commitTimestamp.value, applyOp)
    ensures mode == Secondary && entry.commitTimestamp.Some? ==>
      r == (if entry.hasSession then Completed(OK, CommittedPrepared(entry.commitTimestamp.value, entry.opTime))
            else Crashed(InvariantFailure))
  {
    if mode == ApplyOpsCmd then
      Raised(Location(COMMIT_APPLY_OPS_ERROR), "commitTransaction is only used internally by secondaries.")
    else if entry.commitTimestamp.None? then Crashed(InvariantFailure)
    else if mode == Recovering || mode == InitialSync then
      ReplayFromOplogChain(oplog, entry, mode, entry.commitTimestamp.value, applyOp)
    else
      assert mode.Secondary?;
      if !entry.hasSession then Crashed(InvariantFailure)
      else Completed(OK, CommittedPrepared(entry.commitTimestamp.value, entry.opTime))
  }

  /**
   * `applyAbortTransaction`: rejected in the applyOps command; a no-op in
   * recovery and initial sync, where no transaction was prepared; a
   * secondary aborts the active transaction.
   */
  function ApplyAbortTransaction(entry: OplogEntry, mode: Mode): (r: Outcome)
    ensures mode == ApplyOpsCmd ==> r.Raised? && r.code == Location(ABORT_APPLY_OPS_ERROR)
    ensures ToleratesMissingNamespace(mode) ==> r == Completed(OK, NoEffect)
    ensures r.Completed? && r.effect != NoEffect ==> mode == Secondary && r.effect == AbortedActive
    ensures mode == Secondary ==> r == (if entry.hasSession then Completed(OK, AbortedActive) else Crashed(InvariantFailure))
  {
    if mode == ApplyOpsCmd then
      Raised(Location(ABORT_APPLY_OPS_ERROR), "abortTransaction is only used internally by secondaries.")
    else if mode == Recovering || mode == InitialSync then Completed(OK, NoEffect)
    else if !entry.hasSession then Crashed(InvariantFailure)
    else Completed(OK, AbortedActive)
  }

  /**
   * Replaying a commit in recovery or initial sync applies exactly the
   * operations a secondary prepares for the same prepare entry: both read
   * the chain ending at the prepare entry.
   */
  lemma CommitReplaysPreparedOperations(
    oplog: Oplog, commit: OplogEntry, mode: Mode, emrc: bool, applyOp: Op -> OpOutcome)
    requires WellFormedOplog(oplog)
    requires commit.prevWriteOpTime in oplog
    requires ApplyPrepareTransaction(oplog, oplog[commit.prevWriteOpTime], Secondary, emrc, applyOp).Completed?
    ensures var replay := ApplyCommitTransaction(oplog, commit, mode, applyOp);
      var prepared := ApplyPrepareTransaction(oplog, oplog[commit.prevWriteOpTime], Secondary, emrc, applyOp);
      replay.Completed? && replay.effect.ReplayedCommit? ==> replay.effect.ops == prepared.effect.ops
  {
  }

  /**
   * An operation a secondary could not apply because its collection is
   * missing aborts a steady-state prepare, while a recovery commit replay
   * of the same chain skips it.
   */
  lemma MissingCollectionOnlyToleratedInReplay(
    oplog: Oplog, commit: OplogEntry, emrc: bool, applyOp: Op -> OpOutcome)
    returns (k: nat)
    requires WellFormedOplog(oplog)
    requires commit.prevWriteOpTime != NULL_OPTIME && commit.prevWriteOpTime in oplog && commit.commitTimestamp.Some?
    requires TransactionOperations(oplog, oplog[commit.prevWriteOpTime], []).Ok?
    requires oplog[commit.prevWriteOpTime].hasSession
    requires var ops := TransactionOperations(oplog, oplog[commit.prevWriteOpTime], []).value;
      forall i :: 0 <= i < |ops| ==>
        (applyOp(ops[i]) == Returned(OK) || (applyOp(ops[i]).Thrown? && applyOp(ops[i]).code == NamespaceNotFound))
    requires ApplyPrepareTransaction(oplog, oplog[commit.prevWriteOpTime], Secondary, emrc, applyOp).Raised?
    ensures var ops := TransactionOperations(oplog, oplog[commit.prevWriteOpTime], []).value;
      k < |ops| && applyOp(ops[k]).Thrown? && applyOp(ops[k]).code == NamespaceNotFound
    ensures ApplyCommitTransaction(oplog, commit, Recovering, applyOp).Completed?
    ensures ApplyCommitTransaction(oplog, commit, Recovering, applyOp).effect.ReplayedCommit?
  {
    var ops := TransactionOperations(oplog, oplog[commit.prevWriteOpTime], []).value;
    k := StopsAtFirstFailure(ops, Secondary, applyOp);
    assert forall i :: 0 <= i < |ops| ==> GoesPast(applyOp(ops[i]), Recovering);
  }

  /**
   * A secondary meeting an operation that returns an error status, every
   * earlier operation having succeeded, stops the server with fatal
   * assertion 31137 instead of preparing the transaction.
   */
  lemma {:induction false} PrepareFatalOnFailedStatus(oplog: Oplog, entry: OplogEntry, applyOp: Op -> OpOutcome, k: nat)
    requires WellFormedOplog(oplog)
    requires TransactionOperations(oplog, entry, []).Ok? && entry.hasSession
    requires var ops := TransactionOperations(oplog, entry, []).value;
      k < |ops| && applyOp(ops[k]).Returned? && applyOp(ops[k]) != Returned(OK)
      && forall j :: 0 <= j < k ==> applyOp(ops[j]) == Returned(OK)
    ensures ApplyPrepareTransaction(oplog, entry, Secondary, true, applyOp) == Crashed(Fassert(PREPARE_APPLY_FAILED))
  {
    var ops := TransactionOperations(oplog, entry, []).value;
    FirstFailureDecides(ops, Secondary, applyOp, k);
  }

  /**
   * Commit and abort entries end a transaction a secondary prepared: an
   * abort takes effect exactly on a secondary with a session, and on a
   * secondary a commit with its timestamp succeeds exactly when an abort of
   * the same session would.
   */
  lemma SecondaryEndsPreparedTransaction(oplog: Oplog, commit: OplogEntry, abort: OplogEntry, mode: Mode, applyOp: Op -> OpOutcome)
    requires WellFormedOplog(oplog)
    ensures ApplyAbortTransaction(abort, mode) == Completed(OK, AbortedActive) <==> mode == Secondary && abort.hasSession
    ensures mode == Secondary && commit.commitTimestamp.Some? && commit.hasSession == abort.hasSession ==>
      (ApplyCommitTransaction(oplog, commit, mode, applyOp).Completed? <==> ApplyAbortTransaction(abort, mode).Completed?)
  {
  }
}

=== FILE: wrappers.dfy ===
/** Failure-compatible wrappers shared by every module of the model. */
module Wrappers {

  /** An optional value: MongoDB's and WiredTiger's null pointers, `boost::optional` and "not set". */
  datatype Option<+T> = None | Some(value: T) {
    function GetOr(default: T): T {
      match this
      case Some(v) => v
      case None => default
    }
  }

  /** A value or an error: MongoDB's `Status`/`StatusWith` and C error returns. */
  datatype Result<+T, +E> = Ok(value: T) | Err(error: E) {
    predicate IsFailure() {
      Err?
    }

    function PropagateFailure<U>(): Result<U, E>
      requires Err?
    {
      Err(error)
    }

    function Extract(): T
      requires Ok?
    {
      value
    }
  }
}

=== FILE: wt_util.dfy ===
/**
 * The arithmetic and status helpers of the WiredTiger storage-engine glue:
 * saturating conversion of unsigned 64-bit statistics and the fast path of
 * return-code conversion.
 */
module WiredTigerUtil {
  import opened MachineInt
  import opened Wrappers

  /** The integer types a statistics value is converted to, with `numeric_limits<T>::max()`. */
  datatype ResultType = Int32 | UInt32 | Int64 | UInt64 {
    function Max(): (m: nat)
      ensures IsUint64(m)
    {
      match this
      case Int32 => 0x7FFF_FFFF
      case UInt32 => 0xFFFF_FFFF
      case Int64 => 0x7FFF_FFFF_FFFF_FFFF
      case UInt64 => UINT64_MAX
    }
  }

  /**
   * Converts an unsigned 64-bit statistic to a type whose largest value is
   * `maximum`: values that fit are kept, larger ones saturate at `maximum`.
   */
  function CastWithMaximum(value: nat, maximum: nat): (r: nat)
    requires IsUint64(value) && IsUint64(maximum)
    ensures r <= maximum && r <= value
    ensures r == value || r == maximum
  {
    if value > maximum then maximum else value
  }

  /** `castStatisticsValue<T>`: saturation at the largest value of `T`. */
  function CastStatisticsValue(value: nat, t: ResultType): (r: nat)
    requires IsUint64(value)
    ensures r <= t.Max()
    ensures value <= t.Max() <==> r == value
  {
    CastWithMaximum(value, t.Max())
  }

  /** Saturation is monotone: a larger statistic never converts to a smaller value. */
  lemma CastMonotone(a: nat, b: nat, t: ResultType)
    requires IsUint64(a) && IsUint64(b) && a <= b
    ensures CastStatisticsValue(a, t) <= CastStatisticsValue(b, t)
  {
  }

  /** Converting to the full unsigned 64-bit type never changes a value. */
  lemma CastToUInt64IsIdentity(value: nat)
    requires IsUint64(value)
    ensures CastStatisticsValue(value, UInt64) == value
  {
  }

  /** A MongoDB status: OK, or an error code with a reason. */
  datatype Status = OK | Error(code: int, reason: string)

  /**
   * `wtRCToStatus`: a zero return code is OK without consulting the slow
   * path; every other code is whatever the slow-path translation gives.
   */
  function WtRCToStatus(retCode: int, slow: int -> Status): (s: Status)
    ensures retCode == 0 ==> s == OK
    ensures retCode != 0 ==> s == slow(retCode)
  {
    if retCode == 0 then OK else slow(retCode)
  }

  /**
   * The slow-path translation turns every non-zero code into an error.
   * `wtRCToStatus_slow` is not part of this model, so this is a hypothesis
   * of the lemmas that need it.
   */
  ghost predicate SlowPathReportsErrors(slow: int -> Status) {
    forall retCode :: retCode != 0 ==> slow(retCode) != OK
  }

  /** A status is OK exactly when the return code is zero. */
  lemma WtRCToStatusOkIffZero(retCode: int, slow: int -> Status)
    requires SlowPathReportsErrors(slow)
    ensures WtRCToStatus(retCode, slow) == OK <==> retCode == 0
  {
  }

  /**
   * `invariantWTOK`: the failure it raises, if any. It passes exactly on a
   * zero code, and otherwise reports that code's translated status.
   */
  function InvariantWTOK(retCode: int, slow: int -> Status): (failure: Option<Status>)
    ensures failure.None? <==> retCode == 0
    ensures failure.Some? ==> failure.value == WtRCToStatus(retCode, slow)
  {
    if retCode != 0 then Some(WtRCToStatus(retCode, slow)) else None
  }

  /** The invariant passes exactly when the translated status is OK. */
  lemma InvariantWTOKPassesIffOk(retCode: int, slow: int -> Status)
    requires SlowPathReportsErrors(slow)
    ensures InvariantWTOK(retCode, slow).None? <==> WtRCToStatus(retCode, slow) == OK
    ensures InvariantWTOK(retCode, slow).Some? ==> InvariantWTOK(retCode, slow).value.Error?
  {
    WtRCToStatusOkIffZero(retCode, slow);
  }
}
